=== FILE: README.md ===
# MoMoney transaction reconciliation core, in Dafny

MoMoney takes bank transaction records from several file formats: OFX/QFX statements, the Mercury CSV export and a budget app's CSV export. It then does three things:

- It removes duplicates across import sources with ordered deduplication tiers. These are external id, import hash, cross-format match, split-sum match and fuzzy flagging.
- It assigns each transaction a spending category through a first-hit cascade. The cascade tries transfer detection, merchant rules, historical voting, amount and account rules, receipt matching against Apple and Amazon mail, and finally an AI categoriser.
- It links the two sides of transfers.

Around that core the model covers:

- the SQLite store, as an in-memory class holding transactions, allocations, transfers, imports, receipt matches and API usage;
- the reporting queries;
- the configuration lookups;
- the override sheet poller and the sheet push queue;
- the import observer's outcome rules;
- the mail client's body selection;
- the category-tree commands of the command line.

The model uses these encodings:

- **Money** is an `int` of cents.
  - A one-cent tolerance becomes `|d| <= 1`.
  - A strict "less than a cent" becomes equality.
  - The Apple one-dollar tolerance becomes `|d| <= 100`.
  - A 5% relative tolerance becomes `20 * |d| <= charge`.
- **Dates** are day numbers, or `YYYY-MM-DD` strings where the source compares strings.
- **Confidences, vote weights and costs** are exact `real`s. The 1.5x user vote weight and the 80% threshold are stated exactly on them.
- **Third-party functions are parameters.** This covers the description-similarity ratio, the close-match search, JSON and base64 decoding, mail listing and fetching, the AI call, and the clock. Each carries only the contract the source relies on.
- **Pure source code** (expressions and first-match scans) becomes functions over datatypes.
- **Code that changes state** becomes classes with `modifies` and `reads` frames. This covers the store, the receipt lookup's parse cache, the push queue and the override poller. Each method is proved against a specification function.

## Model

| member | source | states |
|---|---|---|
| AmountRules.ConfidenceOf | src/categorize/amount_rules.py:31-35 | the confidence labels map high to 0.90 and low to 0.60; any other or a missing label gives 0.75 |
| AmountRules.WholeDollarSign | src/categorize/amount_rules.py:41-43 | whole-dollar amounts are exactly the multiples of 100 cents, whatever the sign |
| AmountRules.InRangeSymmetric | src/categorize/amount_rules.py:83-89 | a range matches the same amounts whichever order its bounds are written in, and both bounds are inside it |
| AmountRules.SetMatch | src/categorize/amount_rules.py:64-107 | a rule set yields a match iff its pattern and account scope admit the transaction and one of its rules fits; the match is built from the first fitting rule |
| AmountRules.MatchAmountRule | src/categorize/amount_rules.py:46-108 | no match iff no rule set matches; otherwise the result is the first matching rule set's match, with a non-empty category, method "amount_rule" and a confidence of 0.90, 0.75 or 0.60 |
| AmountRules.SkippedRuleSets | src/categorize/amount_rules.py:65-75 | a rule set with an empty pattern, or scoped to accounts that do not include the transaction's account, never matches |
| AmountRules.InertRule | src/categorize/amount_rules.py:79-98 | a rule with neither the whole-dollar flag nor a range, or without a category, never fits |
| AmountRules.MatchAccountRule | src/categorize/amount_rules.py:114-146 | no match iff no rule for the account names a category; otherwise the first such rule decides, with its non-transfer category at 0.80 before its default category at 0.60 |
| MerchantMatch.RuleConfidence | src/categorize/merchant_match.py:83-86 | an override confidence wins; otherwise consistency / 100, with 0.85 when the rule gives no consistency |
| MerchantMatch.MatchAgainstRules | src/categorize/merchant_match.py:55-93 | no match iff no rule's pattern matches with a category; otherwise the first such rule gives the category, the confidence and the merchant name (the pattern by default), with the given tier |
| MerchantMatch.MatchMerchantAuto | src/categorize/merchant_match.py:27-38 | an auto-tier match has confidence 1.0, and there is none iff no auto rule hits |
| MerchantMatch.MatchMerchantHigh | src/categorize/merchant_match.py:41-52 | a high-confidence match carries its rule's consistency over 100 (85 by default), and there is none iff no such rule hits |
| MerchantMatch.MatchTypeCases | src/categorize/merchant_match.py:64-73 | a match type other than "exact" and "contains" never matches, and an empty "contains" pattern matches every description |
| Historical.ExactRows | src/categorize/historical.py:60-63 | the exact-level rows are exactly the history rows whose amount is within one cent of the transaction's |
| Historical.Votes | src/categorize/historical.py:84-96 | one vote per history row: its category, weighted by its count plus the extra weight of its user-confirmed count |
| Historical.HasCategoryVotes | src/categorize/historical.py:93-96 | a category receives votes iff some history row names it |
| Historical.CategoryWeights | src/categorize/historical.py:93-96 | the per-category weights have each category once, exactly the categories of the rows, each mapped to the sum of its rows' weights |
| Historical.BestIndex | src/categorize/historical.py:98-99 | the chosen entry is a largest one, and no earlier entry is as large (the first of equal maxima) |
| Historical.MatchRows | src/categorize/historical.py:55-115 | an exact match happens iff at least two past matches at the amount all agree, and carries their category, count and 0.95; a description match needs at least three past matches, counts them all and carries 0.85 |
| Historical.WeightBounds | src/categorize/historical.py:84-96 | a category's weight is between 0 and the total weight |
| Historical.BestOutweighs | src/categorize/historical.py:98-99 | the largest entry of the weights is its category's weight and no category outweighs it |
| Historical.BestVote | src/categorize/historical.py:98-99 | the winning category occurs in the history and no category has more weight |
| Historical.DescriptionMatchIsBest | src/categorize/historical.py:98-113 | a description-level match names a category of greatest weight, and its agreement is that weight over a positive total, between 0.80 and 1 |
| Historical.NoMatchMeansNoMajority | src/categorize/historical.py:84-115 | when the description level is reached with enough history and gives nothing, every category has less than 80 percent of the total weight |
| Historical.MatchHistorical | src/categorize/historical.py:42-57 | no result without a description or a store; otherwise the voting over the store's history rows for the description |
| Historical.DisagreementFallsThrough | src/categorize/historical.py:64-81 | rows at the amount that disagree on the category never give an exact match |
| TransferDetect.RuleType | src/categorize/transfer_detect.py:53 | the transfer type is never empty: "transfer" when the rule has none, "internal-transfer" when it is empty |
| TransferDetect.DetectTransfer | src/categorize/transfer_detect.py:20-56 | no match iff no rule fires; otherwise the first firing rule gives both accounts, its type and pattern, and the transaction's account is one of the two |
| TransferDetect.DetectTransferSkips | src/categorize/transfer_detect.py:33-47 | a rule with a FITID suffix, an empty pattern or an empty account never produces a match |
| TransferDetect.TransferTarget | src/categorize/transfer_detect.py:59-89 | a target is only read from a description starting with "Transfer" (any case); it is stripped and lies on the first line |
| TransferDetect.TransferTargetExample | src/categorize/transfer_detect.py:59-89 | "Transfer : Savings" names the target "Savings" |
| TransferDetect.TransferTargetNeedsColon | src/categorize/transfer_detect.py:59-83 | a description without the colon names no target |
| TransferDetect.SubstringMatch | src/categorize/transfer_detect.py:96-101 | the first name-map entry whose name contains the target or lies inside it, and nothing iff there is none |
| TransferDetect.ResolveTarget | src/categorize/transfer_detect.py:93-101 | the exact upper-cased name wins; only when it is missing is the substring scan used |
| TransferDetect.InferTransferType | src/categorize/transfer_detect.py:122-138 | "cc-payment" iff either account is a credit account, else "savings-transfer" iff either is savings, else "loan-payment" iff either is a loan, else "internal-transfer" |
| TransferDetect.DetectTransferByTxnType | src/categorize/transfer_detect.py:62-119 | a match iff the description has a target, the type is absent or TRANSFER, and the target resolves to another account; an outflow goes from the transaction's account to the target and an inflow the other way |
| TransferDetect.TxnTypeTransferAccounts | src/categorize/transfer_detect.py:103-119 | an inferred transfer joins the transaction's own account with a different, configured account |
| TransferDetect.DetectInterest | src/categorize/transfer_detect.py:141-159 | an interest category iff there is an external id and the account's interest suffix is non-empty and ends it (any case); the category defaults to "interest-fees" |
| ClaudeAi.TreeIdsMembers | src/categorize/claude_ai.py:172-186 | the walk of the category tree lists a non-empty id exactly when some node at any depth carries it |
| ClaudeAi.NodeIdsMembers | src/categorize/claude_ai.py:42-49 | a node's walk lists a non-empty id exactly when the node or a descendant carries it |
| ClaudeAi.NodeFirst | src/categorize/claude_ai.py:43-49 | a node with an id is listed before the ids of its subtree (pre-order) |
| ClaudeAi.ValidCategoryIds | src/categorize/claude_ai.py:172-186 | the valid ids are exactly the non-empty ids the walk finds at any depth |
| ClaudeAi.Clamp | src/categorize/claude_ai.py:163 | the result lies in [0, 1]: values inside are kept, values below become 0 and values above become 1 |
| ClaudeAi.ParseResponse | src/categorize/claude_ai.py:124-169 | a result only for a fence-stripped reply that decodes to an object naming a valid category, with a confidence in [0, 1]; every such reply gives a result |
| ClaudeAi.ParseResponseConfidence | src/categorize/claude_ai.py:143-163 | the confidence is 0 when the reply gives none, 0.5 when it is not a number, and otherwise the number clamped to [0, 1] |
| ClaudeAi.ParseResponseRejects | src/categorize/claude_ai.py:132-147 | a reply that does not decode, or is not an object, or names "uncategorized", gives nothing |
| ClaudeAi.CategorizeSingle | src/categorize/claude_ai.py:55-121 | the model is asked iff the transaction has a month and that month's spending is under the cap; a reply records one request at the fixed cost and is parsed; no reply or no call leaves the usage unchanged and gives nothing; other tables are untouched |
| Dates.ParseDate | src/database/repository.py:418-424 | a date is read only from a ten-character text with dashes at positions 4 and 7, and its month and day are in range |
| Dates.JulianDay | src/database/repository.py:418-424 | JULIANDAY is defined exactly for the dates that read; the others give NULL |
| Dates.DayCountNextDay | src/database/repository.py:418-424 | within a month the day number goes up by one per day |
| Dates.DayCountBoundaries | src/database/repository.py:418-424 | the day after the last day of a month or year is the next day number, across a leap day, a century year that is not leap and one that is |
| Models.MonthOf | src/categorize/claude_ai.py:73 | the month is the text's first seven characters, or the whole text when shorter |
| Models.NewImport | src/database/models.py:22-33 | a new import carries the given id, name and hash, status "pending", and no size, account, count, error or completion time |
| Models.NewTransaction | src/database/models.py:36-58 | a new transaction carries the given fields, status "pending", source "bank", and every optional field empty |
| Models.NewAllocation | src/database/models.py:61-71 | a new allocation carries the given fields, source "auto", and no memo, tags or confidence |
| Models.NewApiUsage | src/database/models.py:96-105 | a new usage row for a month and service starts with every counter at zero |
| ParserBase.DigitRun | src/parsers/base.py:62-63 | the length of the leading digit run: every character before it is a digit and the next one is not |
| ParserBase.DropLongNumbers | src/parsers/base.py:62 | no four digits in a row are left; nothing new appears; every character other than a digit, whitespace, `*` or `#` is kept, in order |
| ParserBase.DropHashNumbers | src/parsers/base.py:63 | no `#` followed by a digit is left; nothing new appears; every character other than a digit, whitespace, `*` or `#` is kept, in order |
| ParserBase.DropMarks | src/parsers/base.py:64 | no `*` and no `#` is left, and nothing new appears |
| ParserBase.CollapseSpaces | src/parsers/base.py:65 | after collapsing, no two whitespace characters are adjacent; the only new character is a space |
| ParserBase.StripKeepsNoDoubleSpace | src/parsers/base.py:65-66 | stripping the ends keeps the no-double-whitespace property |
| ParserBase.NormalizeDescription | src/parsers/base.py:52-66 | a normalised description has no `*`, no `#`, no lower-case letter, no whitespace at either end and no two adjacent whitespace characters |
| ParserBase.NormalizeKeeps | src/parsers/base.py:52-66 | every character of the upper-cased description other than digits, whitespace, `*` and `#` survives, in order, and the only character brought in is a space |
| ParserBase.NormalizeFixed | src/parsers/base.py:52-66 | a description already in normal form (no lower case, `*`, `#`, four digits in a row, double or outer whitespace) is left unchanged, so normalising twice is normalising once |
| ParserBase.NormalizeJoinsDigits | src/parsers/base.py:62-64 | because long numbers are removed before `*` is, `12*34` normalises to `1234`: up to three digits on each side of a `*` join into a run of four or more |
| ParserBase.DropLongNumbersFixed | src/parsers/base.py:62 | a text without four digits in a row is left unchanged |
| ParserBase.DropHashNumbersFixed | src/parsers/base.py:63 | a text without `#` before a digit is left unchanged |
| ParserBase.StripSolid | src/parsers/base.py:66 | stripping drops only whitespace |
| ParserBase.AfterLastColon | src/parsers/base.py:77-80 | the text after the last colon is never longer than the key |
| ParserBase.AfterLastColonOfSuffix | src/parsers/base.py:77-80 | appending `:` and a colon-free text makes that text the part after the last colon |
| ParserBase.DedupKeyAmount | src/parsers/base.py:77-80 | the amount in cents is read back from the last field of the dedup key, so keys of different amounts differ |
| ParserBase.DedupKeyExample | src/parsers/base.py:78 | the key is `account:date:cents`, e.g. `wf-checking:2026-01-15:-5000` |
| ParserBase.ImportHashSeparatesAmounts | src/parsers/base.py:69-74 | with account, date and description fixed, two amounts with the same import hash are equal |
| ParserBase.ParseOfxDate | src/parsers/base.py:92-109 | a date is produced iff there are at least eight leading characters that are all digits; it is YYYY-MM-DD made of exactly those eight digits |
| ParserBase.Cell | src/parsers/budget_app.py:69 | a cell is stripped, and a missing column reads as empty |
| ParserBase.OrNone | src/parsers/budget_app.py:99 | an empty text becomes None, any other text is kept |
| ParserBase.SplitDigits | src/parsers/budget_app.py:118-123 | three digit runs joined by `/` or `-` split back into exactly those three runs |
| BudgetApp.ParseDate | src/parsers/budget_app.py:116-124 | a parsed date is three digit fields joined by `-`, month and day at least two digits wide |
| BudgetApp.ParseDateOf | src/parsers/budget_app.py:116-124 | every M/D/Y text of digit fields is read, as Y-MM-DD with month and day zero-filled to two digits |
| BudgetApp.ParseDateForm | src/parsers/budget_app.py:116-124 | conversely a text that parses is exactly three digit fields joined by `/` |
| BudgetApp.ZFill2Digits | src/parsers/budget_app.py:123 | zero-filling a digit field keeps it all digits |
| BudgetApp.ParseAmount | src/parsers/budget_app.py:127-138 | an amount is produced iff both cells can be read; it is inflow minus outflow |
| BudgetApp.CleanAmountOf | src/parsers/budget_app.py:132-134 | a `$whole.cc` cell is read back as its cents |
| BudgetApp.CleanEmpty | src/parsers/budget_app.py:134 | an empty cell reads as zero |
| BudgetApp.OutflowOnly | src/parsers/budget_app.py:127-136 | an outflow alone gives the negated amount |
| BudgetApp.InflowOnly | src/parsers/budget_app.py:127-136 | an inflow alone gives the positive amount |
| BudgetApp.InflowMinusOutflow | src/parsers/budget_app.py:127-136 | both cells give inflow minus outflow |
| BudgetApp.IsTransfer | src/parsers/budget_app.py:140-142 | a payee names a transfer iff it starts with `Transfer :` (the `Transfer : ` test is subsumed) |
| BudgetApp.RowTransaction | src/parsers/budget_app.py:68-113 | a row is read iff its account is mapped, its date is non-empty and readable and its amount readable; the result carries the mapped account, the parsed date and amount, the payee as description, type TRANSFER exactly for transfer payees, the memo or None, the mapped category, and no external id, check number or balance |
| BudgetApp.Warned | src/parsers/budget_app.py:71-80 | a row adds at most its own account name to the warned names, and never the empty name |
| BudgetApp.Parsed | src/parsers/budget_app.py:53-66 | the returned transactions are never more than the rows |
| BudgetApp.WarnedAfter | src/parsers/budget_app.py:72-80 | names already warned about stay warned, and every newly warned name is non-empty |
| BudgetApp.ParsedStep | src/parsers/budget_app.py:59-64 | one more row appends its reading, or adds one to the skipped count |
| BudgetApp.ParsedAccounting | src/parsers/budget_app.py:59-64 | every row is either returned or counted as skipped |
| BudgetApp.ParsedAppend | src/parsers/budget_app.py:59-64 | reading two runs of rows returns the concatenation of the two readings |
| BudgetApp.ParsedOrigin | src/parsers/budget_app.py:59-64 | every returned transaction is the reading of some row |
| BudgetApp.ParsedSound | src/parsers/budget_app.py:59-70 | every returned transaction comes from some row and carries an account id that is a value of the routing map |
| BudgetApp.BudgetAppCsvParser.constructor | src/parsers/budget_app.py:35-42 | the parser keeps both maps and starts with no skipped rows and no warned names |
| BudgetApp.BudgetAppCsvParser.ParseRow | src/parsers/budget_app.py:68-113 | returns the row's reading; the warned names grow by the row's unmapped account name, if any |
| BudgetApp.BudgetAppCsvParser.Parse | src/parsers/budget_app.py:53-66 | returns the readable rows' transactions in order; the skipped count is the number of the others, the two adding up to the number of rows; the warned names are those of the unmapped accounts seen |
| MercuryCsv.ShouldSkipStatuses | src/parsers/csv_parser.py:64-66 | a row is skipped for its status iff the stripped status is Failed or Cancelled; an empty status is never skipped |
| MercuryCsv.ParseDate | src/parsers/csv_parser.py:114-131 | a parsed date is always three digit fields joined by `-` |
| MercuryCsv.ParseDateIso | src/parsers/csv_parser.py:122-125 | a date whose first field has four digits is returned unchanged |
| MercuryCsv.ParseDateUs | src/parsers/csv_parser.py:126-130 | a date M-D-Y whose first field is not four wide is rearranged to Y-M-D with no padding |
| MercuryCsv.ParseDateForm | src/parsers/csv_parser.py:120-131 | conversely any text that parses is exactly three digit fields joined by `-` |
| MercuryCsv.RowTransaction | src/parsers/csv_parser.py:68-112 | a row is read iff its source account is mapped, date and amount are non-empty and both readable; the result has the mapped account, parsed date and amount, the description or else the bank description, the timestamp as external id, note and check number (empty meaning None), and no type, balance or budget category |
| MercuryCsv.Warned | src/parsers/csv_parser.py:71-80 | a row adds at most its own non-empty unmapped source account name to the warned names |
| MercuryCsv.Reading | src/parsers/csv_parser.py:52-60 | a Failed or Cancelled row yields nothing; any other row yields its reading |
| MercuryCsv.Parsed | src/parsers/csv_parser.py:46-62 | the returned transactions are never more than the rows |
| MercuryCsv.WarnedAfter | src/parsers/csv_parser.py:72-80 | names already warned about stay warned |
| MercuryCsv.ParsedStep | src/parsers/csv_parser.py:52-60 | one more row appends its reading or adds one to the skipped count, and only a row not skipped by status can add a warned name |
| MercuryCsv.ParsedAccounting | src/parsers/csv_parser.py:52-60 | every row is either returned or counted as skipped |
| MercuryCsv.SkippedCoversStatus | src/parsers/csv_parser.py:53-55 | the skipped count includes every Failed or Cancelled row |
| MercuryCsv.ParsedNotSkipped | src/parsers/csv_parser.py:52-60 | every returned transaction is the reading of some row that is not Failed or Cancelled |
| MercuryCsv.MercuryCsvParser.constructor | src/parsers/csv_parser.py:33-35 | the parser keeps the routing map and starts with no skipped rows and no warned names |
| MercuryCsv.MercuryCsvParser.ParseRow | src/parsers/csv_parser.py:68-112 | returns the row's reading; the warned names grow by its unmapped source account name, if any |
| MercuryCsv.MercuryCsvParser.ReadRow | src/parsers/csv_parser.py:53-60 | a row skipped by status is not read and warns nothing; any other row is read |
| MercuryCsv.MercuryCsvParser.Parse | src/parsers/csv_parser.py:46-62 | returns the readable non-skipped rows' transactions in order; the skipped count is the number of the others, the two adding up to the number of rows |
| QfxSgml.Find | src/parsers/qfx_sgml.py:104-106 | the first place the pattern starts, if any: it starts there and at no earlier place; None means it starts nowhere |
| QfxSgml.FindShift | src/parsers/qfx_sgml.py:104-105 | a prefix free of the pattern's first character shifts the first occurrence by its length and changes nothing else |
| QfxSgml.OccurrencesSkip | src/parsers/qfx_sgml.py:55-56 | a prefix in which the pattern never starts adds no occurrence |
| QfxSgml.ValueLen | src/parsers/qfx_sgml.py:104 | a tag value runs up to the first `<`, LF or CR, or to the end |
| QfxSgml.ValueLenOf | src/parsers/qfx_sgml.py:104 | a value free of `<`, LF and CR followed by a terminator is read whole |
| QfxSgml.ExtractTag | src/parsers/qfx_sgml.py:96-108 | None iff the block contains no `<TAG>` |
| QfxSgml.ExtractTagOf | src/parsers/qfx_sgml.py:96-108 | the first `<TAG>` yields its value up to the next `<`, LF or CR, stripped, whether or not a closing tag follows |
| QfxSgml.FindOpenTag | src/parsers/qfx_sgml.py:104-105 | the search for `<TAG>` stops at the first opening of that tag |
| QfxSgml.BodyLen | src/parsers/qfx_sgml.py:55 | a block body ends at a boundary (`</STMTTRN>`, `<STMTTRN>`, `</BANKTRANLIST>`) or at the end of the text |
| QfxSgml.BodyLenClear | src/parsers/qfx_sgml.py:55 | the body is lazy: no boundary starts anywhere inside it |
| QfxSgml.BodyLenOf | src/parsers/qfx_sgml.py:55 | a body free of `<` followed by a boundary or the end is taken whole |
| QfxSgml.BlocksCount | src/parsers/qfx_sgml.py:52-56 | there is exactly one block per `<STMTTRN>` in the text |
| QfxSgml.TagNotInside | src/parsers/qfx_sgml.py:55 | a `<STMTTRN>` cannot start inside another one |
| QfxSgml.BlocksCons | src/parsers/qfx_sgml.py:52-56 | a `<STMTTRN>` followed by a body and a boundary contributes that body as the next block |
| QfxSgml.BlocksTruncated | src/parsers/qfx_sgml.py:55 | a last block with no closing boundary runs to the end of the text |
| QfxSgml.BlocksSkip | src/parsers/qfx_sgml.py:55-56 | text before the first tag, free of `<`, contributes no block |
| QfxSgml.ExtractBalance | src/parsers/qfx_sgml.py:110-118 | no BALAMT gives None; a balance that is produced is the reading of the first BALAMT value |
| QfxSgml.ParseBlock | src/parsers/qfx_sgml.py:58-94 | a transaction is produced iff DTPOSTED and TRNAMT are present, non-empty and readable; it carries the parser's account, the file's balance, NAME or "" as description, FITID as external id, MEMO, TRNTYPE and CHECKNUM as read, and the date and amount read from those tags |
| QfxSgml.Parsed | src/parsers/qfx_sgml.py:43-48 | the returned transactions are never more than the blocks |
| QfxSgml.ParsedStep | src/parsers/qfx_sgml.py:43-48 | one more block appends its transaction or adds one to the skipped count |
| QfxSgml.ParsedAccounting | src/parsers/qfx_sgml.py:43-48 | every block is either returned or counted as skipped |
| QfxSgml.ParsedShareBalance | src/parsers/qfx_sgml.py:41-44 | every returned transaction carries the parser's account and the one balance of the file |
| QfxSgml.ParsedOrigin | src/parsers/qfx_sgml.py:43-46 | every returned transaction is the reading of some block |
| QfxSgml.Head | src/parsers/qfx_sgml.py:30 | the head is the first 200 characters, or the whole text when shorter |
| QfxSgml.Detect | src/parsers/qfx_sgml.py:26-31 | a file is recognised only when it contains `OFXHEADER:100` |
| QfxSgml.DetectReadsHead | src/parsers/qfx_sgml.py:30-31 | nothing after the first 200 characters changes the verdict |
| QfxSgml.DetectRejectsXml | src/parsers/qfx_sgml.py:31 | a file opening with `<?xml`, in any letter case, is not recognised |
| QfxSgml.QfxSgmlParser.constructor | src/parsers/qfx_sgml.py:22-24 | the parser is bound to its account and has skipped nothing |
| QfxSgml.QfxSgmlParser.Parse | src/parsers/qfx_sgml.py:35-50 | returns the readable blocks' transactions in order with the file's balance; the skipped count is the number of the other blocks |
| QfxSgml.ParseBlocks | src/parsers/qfx_sgml.py:43-48 | the loop returns exactly the readable blocks' transactions and counts the rest, the two adding up to the number of blocks |
| Config.AccountById | src/config.py:108-112 | the result is a configured account with that id; None iff no account has it |
| Config.AccountByIdFirst | src/config.py:108-112 | when several accounts share the id, the first one is returned |
| Config.CategoryFilterFor | src/config.py:114-124 | an unknown account has no filter; a filter returned is the one of an account with that id |
| Config.InterestDetectionFor | src/config.py:126-134 | an unknown account has no interest detection; one returned belongs to an account with that id |
| Config.FallbackCategory | src/config.py:146-149 | the configured fallback category, or `uncategorized` when none is set |
| Config.CategoryMapPairs | src/config.py:96-105 | every pair comes from an entry of a list-valued group that names both a budget-app category and a category id, both non-empty |
| Config.EntryPairs | src/config.py:101-105 | every pair comes from an entry with both fields non-empty |
| Config.BudgetAppCategoryMapSound | src/config.py:90-106 | every name the flat budget-app map knows is non-empty and maps to a non-empty category id |
| Config.MercuryPairs | src/config.py:155-162 | every routed name is the non-empty name of a Mercury CSV account with that non-empty id |
| Config.BudgetAppPairs | src/config.py:190-195 | every routed name is the non-empty budget-app name of an account with that non-empty id |
| Config.RoutingSound | src/config.py:152-196 | both routing maps send only non-empty names of configured accounts (Mercury ones for the Mercury map) to those accounts' non-empty ids |
| Config.NonEmptyUpper | src/config.py:177-183 | each pair is an upper-cased non-empty name with the account's id |
| Config.NamePairs | src/config.py:172-183 | every name maps to the non-empty id of some configured account |
| Config.TransferNameMapSound | src/config.py:166-184 | every name in the transfer name map is upper case and maps to the non-empty id of a configured account |
| Config.NamePairsUpper | src/config.py:177-183 | every key of the name pairs has no lower-case letter |
| Config.TransferNameMapComplete | src/config.py:166-184 | conversely every non-empty name, budget-app name and alias of an account with an id is found, upper-cased, in the map |
| Config.NamePairsComplete | src/config.py:173-183 | each non-empty name of an account with an id is a key of the name pairs |
| Config.NonEmptyUpperHas | src/config.py:181-183 | each non-empty alias is a key, upper-cased |
| Config.TreeIds | src/config.py:206-217 | the walk lists only non-empty category ids |
| Config.ForestEntriesShape | src/config.py:206-239 | below the ancestors passed in: every entry is keyed by its own non-empty id, its level is at least the depth, its first level columns are those ancestors' names, the column at its own level is its name and the later ones are empty (the exact level and flags are stated by Config.EntryAt and Config.ForestEntryOrigin) |
| Config.NodeEntriesShape | src/config.py:208-239 | the same shape holds for the entries of one node and its descendants |
| Config.ForestEntriesKeys | src/config.py:206-239 | the entries are keyed by exactly the non-empty ids of the forest, in pre-order |
| Config.NodeEntriesKeys | src/config.py:208-239 | a node contributes exactly its own non-empty id and its descendants' |
| Config.FlattenKeys | src/config.py:198-242 | the flattened tree has an entry for an id iff that id is in the category tree |
| Config.InheritedFlags | src/config.py:212-239 | with no node setting is_income or is_transfer, every entry carries the flags passed in from above |
| Config.TopLevelEntry | src/config.py:217-233 | a top-level node with an id gets level 0, its own name as level_0 and an empty level_1, is a leaf iff it has no children, and carries its own flags or false |
| Config.EntryAt | src/config.py:206-239 | the entry of a node reached by a path from the top: its level is the number of id-bearing nodes on the path, its level columns are their names, then its own name, then "", it is a leaf iff it has no children, and each flag is that of the nearest node on the path (itself included) that sets it, or false |
| Config.ForestEntryOrigin | src/config.py:206-239 | every entry `_walk` writes is the entry, as seen from the ancestors passed in, of a node with an id at the end of some path down the forest |
| Config.NodeEntryOrigin | src/config.py:208-239 | the same for the entries of one node and its descendants |
| Config.ForestEntryAt | src/config.py:206-239 | every node with an id at the end of a path down the forest has its path's entry among the writes |
| Config.FlattenEntryPath | src/config.py:198-242 | every value of the flattened tree is `EntryAt` of a node with that id at the end of a path down the category tree |
| Config.FlattenWritesEveryNode | src/config.py:198-242 | every node with an id, reached by any path from the top, has `EntryAt` of that path written under its id |
| Json.Field | src/categorize/claude_ai.py:142-144 | a field found is a pair of the object with that key; None iff no pair has the key |
| Json.ParseDecimalNat | src/categorize/claude_ai.py:157-160 | `float` reads a decimal whole number back as its value |
| Json.UnsignedDigits | src/categorize/claude_ai.py:157-160 | a run of digits reads as the number it denotes |
| Json.ToReal | src/categorize/claude_ai.py:157-160 | a number converts to itself; null, arrays and objects do not convert |
| Json.DollarsToCents | src/categorize/receipt_lookup.py:581-585 | the model's whole-cent value of a reply amount that the source keeps as `float(amount)`: the dollar amount times 100, to the nearest cent, halves up (the rounding is the model's own; see "## Left out") |
| Json.NewlineIndex | src/categorize/claude_ai.py:128 | the first line feed, or the end: no line feed before it |
| Json.SplitLines | src/categorize/claude_ai.py:128 | splitting gives at least one line and no line holds a line feed |
| Json.SplitJoin | src/categorize/claude_ai.py:128-130 | joining lines free of line feeds and splitting again gives the same lines |
| Json.JoinSplit | src/categorize/claude_ai.py:128-130 | splitting a text into lines and joining them gives the text back |
| Json.NewlineIndexAt | src/categorize/claude_ai.py:128 | the first line feed is found where it is |
| Json.NonFence | src/categorize/claude_ai.py:129 | the kept lines are exactly the lines that are not fence lines, in order, none longer than the input |
| Json.StripFences | src/categorize/claude_ai.py:126-130 | a reply that does not open with a fence is passed on only stripped |
| Json.StripFencesLines | src/categorize/claude_ai.py:126-130 | a fenced reply loses exactly its fence lines: the text passed on has the reply's other lines, in order, and no fence line |
| Combinations.Prepend | src/database/dedup.py:462-463 | every listed combination gains the same first index |
| Combinations.CombosSound | src/database/dedup.py:462-463 | every combination listed for size k is a strictly increasing list of k indices drawn from the range |
| Combinations.ConsCombo | src/database/dedup.py:462-463 | putting a smaller index in front of a combination of larger ones gives a combination |
| Combinations.CombosComplete | src/database/dedup.py:462-463 | every strictly increasing index list drawn from the range is listed among the combinations of its size |
| Combinations.ComboTail | src/database/dedup.py:462-463 | the rest of a combination is a combination of indices above its head |
| Combinations.ComboSize | src/database/dedup.py:462-463 | a combination of indices below n has at most n entries |
| Combinations.SearchFits | src/database/dedup.py:462-466 | a subset found fits and is a combination with a size between the starting size and n |
| Combinations.SearchMinimal | src/database/dedup.py:462-466 | no combination smaller than the one found, and at least the starting size, fits |
| Combinations.SearchFirst | src/database/dedup.py:462-466 | among the combinations of its size, the one found is the first that fits in combination order |
| Combinations.SearchNone | src/database/dedup.py:462-467 | when nothing is found, no combination of the starting size or larger fits |
| Combinations.SearchNoneAt | src/database/dedup.py:462-467 | when nothing is found, a given combination of an admissible size does not fit |
| Combinations.SearchFacts | src/database/dedup.py:462-467 | a found subset fits and nothing smaller fits; when nothing is found nothing fits |
| Dedup.DescriptionSimilarity | src/database/dedup.py:423-433 | the similarity lies in [0, 1]; it is 1 for two empty descriptions and 0 when exactly one is empty |
| Dedup.RelatedSymmetric | src/database/dedup.py:436-451 | relatedness does not depend on the order of the two descriptions |
| Dedup.RelatedCases | src/database/dedup.py:443-448 | an empty normalized side is never related; containment of one normalized side in the other always is |
| Dedup.FindSubsetSum | src/database/dedup.py:454-469 | nothing for fewer than 2 or more than 20 amounts; a result is a strictly increasing list of at least two indices whose amounts sum to the target within the tolerance |
| Dedup.FindSubsetSumMinimal | src/database/dedup.py:454-469 | no index list of at least two and smaller than the one found fits; with 2 to 20 amounts and no result, no index list of two or more fits |
| Dedup.CheckExternalId | src/database/dedup.py:73-79 | no external id finds nothing; a row found is a stored row of the account with that external id; with an id, nothing found means no stored row of the account has it |
| Dedup.CheckImportHash | src/database/dedup.py:83-102 | a row found is stored with the import hash and its external id is absent or the same as the incoming one; nothing is found iff every row with the hash has a different external id |
| Dedup.CrossFormatMatches | src/database/dedup.py:106-127 | the matches are exactly the stored rows with the dedup key from the opposite kind of source |
| Dedup.AmountsOf | src/database/dedup.py:160 | the amounts of the rows, one per row, in order |
| Dedup.Pick | src/database/dedup.py:163 | the rows at the chosen indices, in index order |
| Dedup.PickSum | src/database/dedup.py:160-163 | the picked rows' amounts sum to the sum of the amounts at the indices |
| Dedup.SplitCandidates | src/database/dedup.py:143-157 | the candidates are exactly the stored rows of the account and date, from the opposite source, with a related description |
| Dedup.SubsetMatching | src/database/dedup.py:159-164 | a group found has at least two of the related rows and sums to the amount within a cent |
| Dedup.SplitSumMatches | src/database/dedup.py:131-164 | a group found has at least two stored candidate rows of the same account and date, from the opposite source, with related descriptions, summing to the amount within a cent |
| Dedup.PickFacts | src/database/dedup.py:160-163 | the picked rows are among the related rows and sum to the amount |
| Dedup.BestMatch | src/database/dedup.py:187-197 | the best score lies in [0, 1], and is 0 when no row is kept |
| Dedup.BestMatchMax | src/database/dedup.py:190-197 | no candidate scores above the kept score |
| Dedup.BestMatchFirst | src/database/dedup.py:190-197 | the row kept is the first candidate with the best score, which is above zero |
| Dedup.BestMatchIsBest | src/database/dedup.py:187-197 | the kept score is the maximum, and a kept row is the first candidate reaching it |
| Dedup.FuzzyVerdict | src/database/dedup.py:168-206 | never a duplicate; flagged with a confidence between the threshold and 1 that no row with the key exceeds, carrying the row that reaches it; for a positive threshold, flagged iff some row with the dedup key scores at least the threshold |
| Dedup.CheckFuzzyDuplicate | src/database/dedup.py:168-206 | the loop's verdict is the fuzzy verdict with the given threshold, or 0.85 when none is given |
| Dedup.ScanBest | src/database/dedup.py:187-197 | the loop keeps exactly the best match and score the specification gives |
| Dedup.LaterTiers | src/database/dedup.py:237-279 | a cross-format duplicate carries an opposite-source row with the key; a split-sum duplicate carries its group of candidate rows summing to the amount and its first row; not a duplicate means no opposite-source row has the key; flagged iff the row has no external id and some row with the key scores at least 0.85 |
| Dedup.SplitTier | src/database/dedup.py:253-265 | a split-sum duplicate carries a group of at least two stored candidates summing to the amount, and the group's first row |
| Dedup.FuzzyTier | src/database/dedup.py:267-279 | flagged iff the row has no external id and some stored row with the key scores at least 0.85; never a duplicate |
| Dedup.Deduplicate | src/database/dedup.py:210-279 | the tiers in order: an external-id duplicate iff a stored row of the account has the external id; the two identity tiers miss iff the row is unstored; an import-hash duplicate carries a row with the hash and an agreeing external id; otherwise the later tiers decide |
| Dedup.BatchTxn | src/database/dedup.py:366-394 | the stored row keeps the parsed fields, adds the normalized description, both keys, the import and the source, and is flagged or pending as the verdict says |
| Dedup.RunSizes | src/database/dedup.py:310-411 | every row of a batch ends up exactly once among the new, duplicate and flagged counts |
| Dedup.StepSizes | src/database/dedup.py:310-399 | one row adds exactly one to the three lists together |
| Dedup.SettleSizes | src/database/dedup.py:332-399 | settling a verdict adds exactly one to the three lists together |
| Dedup.AcceptRows | src/database/dedup.py:366-399 | an accepted row joins the flagged rows or the pending rows, and no duplicate is added |
| Dedup.SettleRows | src/database/dedup.py:332-399 | a verdict either adds one duplicate, or adds the row as pending, or adds it as flagged when the tiers flagged it |
| Dedup.CountsAppend | src/database/dedup.py:373-375 | appending a row changes the per-hash and per-external-id counts by its own contribution only |
| Dedup.AcceptKeeps | src/database/dedup.py:366-399 | accepting an unseen, unstored row keeps the batch invariant |
| Dedup.CountCrossAppend | src/database/dedup.py:341-343 | one more cross-format duplicate raises its key's count by one |
| Dedup.PlainDuplicateKeeps | src/database/dedup.py:362-364 | recording a duplicate other than cross-format or split-sum keeps the batch invariant |
| Dedup.CrossDuplicateKeeps | src/database/dedup.py:335-344 | consuming a free cross-format slot keeps the batch invariant, so no key is deduplicated more often than the store has opposite-source rows |
| Dedup.SplitDuplicateKeeps | src/database/dedup.py:353-358 | recording a split group disjoint from the consumed splits keeps the batch invariant, so no stored split is consumed twice |
| Dedup.StepKeeps | src/database/dedup.py:310-399 | one row of the loop keeps the batch invariant |
| Dedup.SettleKeeps | src/database/dedup.py:332-399 | settling a verdict for an unseen, unstored row keeps the batch invariant |
| Dedup.RunInvariant | src/database/dedup.py:295-399 | after any batch: cross-format duplicates per key never exceed the store's opposite-source rows, split groups are disjoint, at most one accepted row per import hash without external id and per account and external id, and no accepted row is one the identity tiers find in the store |
| Dedup.StepRows | src/database/dedup.py:310-399 | a row adds at most itself to the pending rows, and at most itself to the flagged rows, then only when the tiers flag it |
| Dedup.PendingOrigin | src/database/dedup.py:396-399 | a pending row of a batch is one of its rows, stored with that row's id |
| Dedup.RunPending | src/database/dedup.py:310-399 | every pending row of a batch is built from one of its rows with that row's id |
| Dedup.FlaggedOrigin | src/database/dedup.py:396-397 | a flagged row of a batch is one of its rows that the tiers flag |
| Dedup.RunFlagged | src/database/dedup.py:310-399 | every flagged row of a batch is built from one of its rows that the fuzzy tier flags |
| Dedup.RunImportIds | src/database/dedup.py:396-399 | every row a batch writes, pending or flagged, carries the batch's import id |
| Dedup.ProcessRow | src/database/dedup.py:310-399 | one turn of the loop yields exactly the step function's new state |
| Dedup.SettleRow | src/database/dedup.py:332-399 | the rest of the loop body yields exactly the settled state |
| Dedup.ProcessBatch | src/database/dedup.py:283-411 | the counts and rows of the whole batch run; the store gains the pending then the flagged rows and nothing else changes; it fails, changing nothing, iff there are rows to insert and either the import they name is not stored or they clash on ids |
| Dedup.ProcessRows | src/database/dedup.py:310-399 | the loop leaves exactly the batch state of running the rows in order |
| Dedup.RunLast | src/database/dedup.py:372-399 | the last row adds at most itself to the rows to insert, and to the flagged rows only when it was flagged |
| Repo.LinkedIds | src/database/repository.py:420-423 | an id is linked iff some recorded transfer has it on either side |
| Repo.ImportByHash | src/database/repository.py:126-132 | an import found has the file hash; None iff no import has it |
| Repo.WithImportStatus | src/database/repository.py:134-154 | the status is always set, each optional column only when passed, and nothing else changes |
| Repo.TxnById | src/database/repository.py:205-209 | a row found has the id; None iff no row has it |
| Repo.TxnByIdAt | src/database/repository.py:205-209 | with unique ids, the lookup by a row's id returns that row |
| Repo.TxnByExternalId | src/database/repository.py:211-219 | a row found belongs to the account and has the external id; None iff no row of the account has it |
| Repo.DateOrders | src/database/repository.py:221-229 | ordering by date, ascending or descending, is total and transitive |
| Repo.TxnsByImportId | src/database/repository.py:221-229 | exactly the import's rows, each as often as stored, sorted by date |
| Repo.TxnsByImportHash | src/database/repository.py:231-238 | exactly the rows with the import hash |
| Repo.TxnsByDedupKey | src/database/repository.py:240-247 | exactly the rows with the dedup key |
| Repo.TxnsByAccountAndDate | src/database/repository.py:249-256 | exactly the rows of the account on the date |
| Repo.Uncategorized | src/database/repository.py:258-268 | newest first, pending rows of the store, each at most as often as it is stored; exactly `limit` of them, or all when the limit does not cut; every pending row left out is no newer than any row returned |
| Repo.NewestFirst | src/database/repository.py:258-268 | the first `k` rows of the newest-first order are `k` of the rows, sorted, and no row left out is newer than one kept |
| Repo.WithStatus | src/database/repository.py:270-288 | the status is always set, the confidence and method only when passed, and nothing else changes |
| Repo.StatusUpdated | src/database/repository.py:270-288 | the rows with the id get the new status, every other row is unchanged |
| Repo.LookupStatusSet | src/database/repository.py:290-297 | only the rows with the id change, and only their receipt lookup status |
| Repo.TransactionsForAccount | src/database/repository.py:299-315 | exactly the account's rows within the optional date bounds, sorted by date |
| Repo.AllocationsByTransaction | src/database/repository.py:353-360 | exactly the allocations of the transaction |
| Repo.TransferByTransaction | src/database/repository.py:401-409 | a transfer found has the transaction on one side; None iff the transaction is in no transfer |
| Repo.DateDistance | src/database/repository.py:418-424 | a distance exists iff both dates read as days |
| Repo.FindTransferCandidates | src/database/repository.py:411-429 | exactly the rows of other accounts with the opposite amount, dated within `days` days, in no transfer, nearest date first |
| Repo.CandidateMirrors | src/database/repository.py:411-429 | a candidate has the negated amount, another account and no transfer, and the transaction's own date is readable |
| Repo.UpsertMonthlyCost | src/database/repository.py:446-477 | an increment adds its cost to its own month's total and leaves every other month's alone |
| Repo.UpsertKeepsKeysUnique | src/database/repository.py:446-466 | the (month, service) pairs stay unique; rows are only added for a new pair |
| Repo.JoinRows | src/database/repository.py:479-510 | the join has at most one row per allocation |
| Repo.HistoricalCountsShape | src/database/repository.py:479-510 | each group counts at least one row and no more user rows than rows; the groups are exactly the distinct (category, amount) pairs of the join |
| Repo.Repository.constructor | src/database/repository.py:97-124 | a new store is empty and keeps its keys unique |
| Repo.Repository.InsertImport | src/database/repository.py:97-124 | refused iff the file hash or id is already there, with the error carrying the existing import's id; otherwise the import is appended; other tables unchanged |
| Repo.Repository.UpdateImportStatus | src/database/repository.py:134-154 | the imports with the id get the new status and passed columns, others unchanged |
| Repo.Repository.InsertTransaction | src/database/repository.py:156-173 | appended iff its id is new and its import is stored (the `import_id` foreign key, enforced since foreign keys are switched on); nothing else changes |
| Repo.Repository.InsertTransactionsBatch | src/database/repository.py:175-203 | all rows are appended iff their ids are distinct and new and every import they name is stored; otherwise nothing is written |
| Repo.Repository.UpdateTransactionStatus | src/database/repository.py:270-288 | the rows with the id get the status update, nothing else changes |
| Repo.Repository.SetReceiptLookupStatus | src/database/repository.py:290-297 | only the receipt lookup status of the rows with the id changes |
| Repo.Repository.InsertAllocation | src/database/repository.py:317-328 | appended iff its id is new and its transaction is stored (the `transaction_id` foreign key) |
| Repo.Repository.InsertAllocationsBatch | src/database/repository.py:330-351 | all allocations are appended iff their ids are distinct and new and every transaction they name is stored; otherwise none |
| Repo.Repository.InsertTransfer | src/database/repository.py:388-399 | appended iff its id is new and no transfer with the same (from, to) pair is recorded (the UNIQUE constraint on the pair) |
| Repo.Repository.InsertReceiptMatch | src/database/repository.py:431-444 | appended iff its id is new |
| Repo.Repository.IncrementApiUsage | src/database/repository.py:446-466 | the usage table is upserted on (month, service), and every month's cost grows by exactly the increment for its own month |
| Queries.IsTransfer | src/database/queries.py:12-21 | true iff some transfer has the transaction on either side |
| Queries.IsTransferLookup | src/database/queries.py:12-21 | the flag agrees with the repository's transfer lookup for the same transaction |
| Queries.BatchIsTransfer | src/database/queries.py:24-45 | chunk by chunk, the result is exactly the given ids that are in a transfer |
| Queries.TransactionsWithTransferFlag | src/database/queries.py:48-73 | the account's rows within the bounds, in order, each paired with whether it is in a transfer |
| Queries.MonthRows | src/database/queries.py:76-91 | the join yields at most one row per allocation |
| Queries.SummaryKeys | src/database/queries.py:76-91 | the groups are the distinct categories of the joined rows, each once |
| Queries.GroupByCategory | src/database/queries.py:76-91 | one group per distinct category, in order of first appearance, whose total is the sum of that category's amounts and whose `txn_count` is the number of that category's rows |
| Queries.GroupsNonEmpty | src/database/queries.py:76-91 | every group counts at least one row and every joined row falls in a group |
| Queries.CategorySummary | src/database/queries.py:76-91 | the month's groups, reordered by ascending total |
| Queries.GroupTotalsAddUp | src/database/queries.py:76-91 | the group totals add up to the month's total allocated amount |
| Queries.GroupCountsAddUp | src/database/queries.py:76-91 | the group row counts add up to the number of the month's allocation rows |
| Queries.SumTotalsPerKey | src/database/queries.py:76-91 | totals computed per key add up to the per-key sum |
| Queries.LastWithBalance | src/database/queries.py:101-106 | the chosen row has a balance and a latest date among the account's rows with a balance, the last on a tie; None iff there is none |
| Queries.StepFacts | src/database/queries.py:101-106 | a row dated no earlier than the best so far dominates every earlier row |
| Queries.ReconciliationData | src/database/queries.py:94-135 | no balance data iff no row of the account has a balance; otherwise the statement row's balance against the sum of non-transfer amounts up to its date, balanced iff they are equal, with their absolute difference |
| Queries.ReconciliationUsesLatest | src/database/queries.py:101-106 | any row with a balance is dated no later than the statement date used |
| Queries.GetStatusCounts | src/database/queries.py:138-149 | the table counts are the table sizes, and each status counter is zero iff no transaction has that status |
| Queries.StatusCountsBounded | src/database/queries.py:138-149 | pending, flagged and categorized together never exceed the total |
| Queries.StatusCountsSum | src/database/queries.py:138-149 | the three status counts add up to at most the number of transactions |
| Pipeline.Plain | src/categorize/pipeline.py:68-78 | a result that is not a transfer and carries no receipt, with the given category, confidence and method |
| Pipeline.ApplyFilter | src/categorize/pipeline.py:59-65 | no filter or a compatible category keeps the category; an incompatible one becomes the filter's default, or stays when there is none |
| Pipeline.ApplyFilterIdempotent | src/categorize/pipeline.py:59-65 | filtering twice is filtering once |
| Pipeline.ApplyFilterLands | src/categorize/pipeline.py:50-65 | the filtered category is compatible, the default or the original; a changed one was incompatible and is the default |
| Pipeline.TransferCategory | src/categorize/pipeline.py:119-123 | the configured category of the transfer type; else the internal-transfer category, else the fallback, else "uncategorized", never empty |
| Pipeline.TransferStep | src/categorize/pipeline.py:110-136 | answers iff a pattern or the transaction type detects a transfer, as "transfer" exactly when a pattern does, with certainty and the transfer type's category |
| Pipeline.InterestStep | src/categorize/pipeline.py:138-145 | answers iff interest is detected, with its category and certainty |
| Pipeline.AutoStep | src/categorize/pipeline.py:147-155 | answers iff an auto merchant matches, with its filtered category and certainty |
| Pipeline.HistoryStep | src/categorize/pipeline.py:157-166 | answers iff the history matches, with its filtered category and confidence |
| Pipeline.AmountStep | src/categorize/pipeline.py:168-176 | answers iff an amount rule matches on this account, with its filtered category and confidence |
| Pipeline.AccountStep | src/categorize/pipeline.py:178-187 | answers iff an account rule matches, with its filtered category and confidence |
| Pipeline.HighStep | src/categorize/pipeline.py:189-197 | answers iff a high-confidence merchant matches, with its filtered category and confidence |
| Pipeline.StepAnswerMethods | src/categorize/pipeline.py:138-197 | each rule step after the first answers with its own method name, not as a transfer and without a receipt |
| Pipeline.RuleSteps | src/categorize/pipeline.py:110-197 | the answer of the first rule step that answers; None iff none does |
| Pipeline.RuleStepsFirst | src/categorize/pipeline.py:110-197 | an answer comes from a step all of whose predecessors were silent |
| Pipeline.RuleStepsFacts | src/categorize/pipeline.py:110-197 | a rule answer is a transfer iff the transfer step answered, iff its method is a transfer method |
| Pipeline.LateMethodsKnown | src/categorize/pipeline.py:199-232 | the receipt, model and manual methods are known methods and not transfer methods |
| Pipeline.StepMethodKnown | src/categorize/pipeline.py:138-197 | each later rule step's method is known and not a transfer method |
| Pipeline.ReceiptCategorization | src/categorize/pipeline.py:199-214 | the first item's category or the fallback, filtered, with the receipt's confidence and the receipt attached |
| Pipeline.ManualReview | src/categorize/pipeline.py:227-232 | the fallback category with zero confidence, for manual review |
| Pipeline.CategorizeTransaction | src/categorize/pipeline.py:81-232 | the first rule answer when there is one and then nothing is written; else the receipt lookup's outcome, then the model step, then manual review, with the usage and lookup status writes each stage makes |
| Pipeline.ModelStep | src/categorize/pipeline.py:216-232 | the model's filtered answer, else manual review; only the usage table changes |
| Pipeline.StatusFor | src/categorize/pipeline.py:255 | "flagged" iff the method is manual review, otherwise "categorized" |
| Pipeline.AutoAllocation | src/categorize/pipeline.py:257-265 | one automatic allocation of the whole amount to the result's category at its confidence |
| Pipeline.ItemIds | src/categorize/pipeline.py:249-253 | one fresh allocation id per receipt item |
| Pipeline.LinkDirection | src/categorize/pipeline.py:358-385 | the detected direction when the account is one of its sides; otherwise outflow first by the sign of the amount |
| Pipeline.LinkFor | src/categorize/pipeline.py:341-394 | no link for a transaction already in a transfer or without candidates; otherwise a link to the nearest candidate |
| Pipeline.LinkWith | src/categorize/pipeline.py:387-393 | an auto-link transfer at confidence 0.9 with a non-empty type, in the chosen direction |
| Pipeline.LinkForCounterpart | src/categorize/pipeline.py:341-394 | a linked counterpart is unlinked, has the opposite amount and another account |
| Pipeline.LinkWithSides | src/categorize/pipeline.py:358-385 | the link joins the two transactions; without a detected direction, the outflow side is the one with a negative amount |
| Pipeline.ApplyCategorization | src/categorize/pipeline.py:235-281 | a receipt result goes to the receipt lookup; otherwise the allocation is written first (refused iff its id is taken or the transaction is not stored), the status only if it succeeds, then a transfer link is tried |
| Pipeline.TryLinkTransfer | src/categorize/pipeline.py:331-398 | the link the specification chooses is appended when its id is new (its pair can never be recorded already, since the transaction is unlinked); nothing else changes |
| Pipeline.BumpCounts | src/categorize/pipeline.py:312 | counting a method adds one to its count and one to the total, leaving other counts alone |
| Pipeline.BumpKeeps | src/categorize/pipeline.py:312-314 | the counts keep one entry per known method, and the transfer count follows the transfer methods |
| Pipeline.ProcessOne | src/categorize/pipeline.py:306-314 | one pending transaction: its answer is what categorising it gives on the store as it was, and the store after is what recording that answer gives on the store the categorisation left; the method is known and the transfer flag matches it |
| Pipeline.CategorizePending | src/categorize/pipeline.py:284-320 | the passes are the pending rows fetched, newest first, each categorised in turn; every pass but a refused last one succeeded, and a result comes back iff all rows ran without a refusal; then the total is the number of rows, the method counts tally the passes' answers (one entry per known method, adding up to the total) and the transfer count is the number of transfer answers |
| Pipeline.RunPending | src/categorize/pipeline.py:306-320 | the loop: one pass per pending row in order, stopping after the first refusal; a completed run reports the row count, the tally of answers and the transfer answers |
| Pipeline.Advance | src/categorize/pipeline.py:307-311 | the pass for the next row carries that row, with a known method and the matching transfer flag |
| Pipeline.MethodCountsFacts | src/categorize/pipeline.py:312-314 | the tally of known answers has each method once, only known methods, adds up to the number of passes, and its two transfer methods add up to the transfer count |
| Pipeline.ExtendPasses | src/categorize/pipeline.py:312-314 | one more pass bumps its own method's count by one and the transfer count by one exactly when it is a transfer |
| Receipts.ItemAmounts | src/categorize/receipt_lookup.py:271 | the amounts of the items, position by position |
| Receipts.PickItems | src/categorize/receipt_lookup.py:278 | the items at the chosen positions, in the combination's order |
| Receipts.PickItemsSum | src/categorize/receipt_lookup.py:276-278 | the picked items total the sum of the amounts at the chosen positions |
| Receipts.MerchantType | src/categorize/receipt_lookup.py:240-255 | "apple" iff the upper-cased description contains the Apple billing pattern; "amazon" iff it does not but contains an Amazon pattern; otherwise None |
| Receipts.AppleCombo | src/categorize/receipt_lookup.py:273-277 | a found combination is non-empty, within the items and within the one-dollar tolerance of the charge |
| Receipts.ResolveApple | src/categorize/receipt_lookup.py:259-289 | a match iff some combination fits, at confidence 0.85 from the first email, with items within the tolerance |
| Receipts.ResolveAppleMinimal | src/categorize/receipt_lookup.py:273-289 | the match is the first fitting combination, and no smaller combination fits; no match means no combination fits |
| Receipts.AppleComboFirst | src/categorize/receipt_lookup.py:274-277 | among combinations of its size, every one tried before the match fails to fit |
| Receipts.AmazonCombo | src/categorize/receipt_lookup.py:390-395 | a found combination is non-empty, within the items and within the percentage tolerance of the charge |
| Receipts.SubsetSumMatch | src/categorize/receipt_lookup.py:368-405 | the whole list when its total is near the charge ("amazon_shipment"), else a near subset ("amazon_subset_sum"), with the given message and confidence |
| Receipts.SubsetSumMatchMinimal | src/categorize/receipt_lookup.py:390-405 | a subset match is the first fitting combination and no smaller one fits; no match means no combination fits |
| Receipts.ShipmentPhase | src/categorize/receipt_lookup.py:310-320 | the first email whose shipment total is near the charge, at 0.90; None iff no email has one |
| Receipts.OrderPhase | src/categorize/receipt_lookup.py:322-332 | the first email whose order total is near the charge, at 0.85; None iff no email has one |
| Receipts.PerEmailPhase | src/categorize/receipt_lookup.py:334-342 | a per-email item match at 0.80 from one of the emails; None iff no email's items match |
| Receipts.AllItems | src/categorize/receipt_lookup.py:346-351 | every item of every email is in the combined list |
| Receipts.CrossEmailPhase | src/categorize/receipt_lookup.py:344-357 | only with several emails: the combined items matched at 0.75, credited to the first email |
| Receipts.ResolveAmazon | src/categorize/receipt_lookup.py:293-308 | no match for a zero charge; a match is credited to one of the emails |
| Receipts.ResolveAmazonPhases | src/categorize/receipt_lookup.py:293-365 | the phases are tried in order: shipment total, order total, per email, across emails |
| Receipts.ResolveAmazonKinds | src/categorize/receipt_lookup.py:310-357 | a match is of one of the four kinds with its own confidence; item matches are near the charge |
| Receipts.ResolveAmazonTotals | src/categorize/receipt_lookup.py:310-332 | a match at 0.85 or more is one email's whole receipt whose shipment or order total fits |
| Receipts.ItemOf | src/categorize/receipt_lookup.py:575-586 | a non-object entry is skipped; a kept item comes from an object whose name is truthy |
| Receipts.ItemsOf | src/categorize/receipt_lookup.py:572-587 | at most one item per entry, none with a negative amount; fails iff some entry fails |
| Receipts.ItemOfKeeps | src/categorize/receipt_lookup.py:578-586 | an object with a name and a positive amount becomes an item with those values and its category |
| Receipts.ItemsValue | src/categorize/receipt_lookup.py:549 | a string or object where the item list belongs yields no items |
| Receipts.TotalOf | src/categorize/receipt_lookup.py:551-563 | a missing or null total is None, a number is its amount to the nearest whole cent, anything not readable as a number is None |
| Receipts.ParseReceiptResponse | src/categorize/receipt_lookup.py:520-569 | text that is not JSON, or JSON neither list nor object, gives an empty receipt; items are never negative; an object's totals are read from its fields |
| Receipts.ValidReceiptCategories | src/categorize/receipt_lookup.py:474 | the configured receipt categories, or none without a configuration |
| Receipts.ValidateCategories | src/categorize/receipt_lookup.py:496-503 | only unknown categories change, to "uncategorized", and only when a category list is configured; names, amounts and totals are kept |
| Receipts.CachedReceipts | src/categorize/receipt_lookup.py:431-433 | only cached messages are taken from the cache |
| Receipts.UncachedNone | src/categorize/receipt_lookup.py:437-443 | when every message is cached nothing is left to parse |
| Receipts.Uncached | src/categorize/receipt_lookup.py:431-435 | exactly the messages not in the cache |
| Receipts.MsgIds | src/categorize/receipt_lookup.py:477 | the ids of the messages, in order |
| Receipts.ParseOne | src/categorize/receipt_lookup.py:477-515 | the message is cached either way; a reply records usage; a failed parse caches an empty receipt and adds nothing, a good one caches and adds the validated receipt |
| Receipts.ParseAllStep | src/categorize/receipt_lookup.py:477-515 | parsing one more message extends the run by one step |
| Receipts.ParseAllFacts | src/categorize/receipt_lookup.py:477-515 | every parsed message ends up cached, nothing cached is lost, and the month's cost grows by the per-call cost for each reply |
| Receipts.Extraction | src/categorize/receipt_lookup.py:423-517 | nothing without a model; only cached receipts when nothing is uncached or the budget is spent; otherwise every uncached message is parsed |
| Receipts.ModelCalls | src/categorize/receipt_lookup.py:437-452 | the model is only called for uncached messages, and never once the month's budget is spent |
| Receipts.ExtractionCaches | src/categorize/receipt_lookup.py:423-517 | after an extraction the same messages would need no model call |
| Receipts.EmailBodies | src/categorize/receipt_lookup.py:140-144 | only messages with a non-empty body, each with its fetched body |
| Receipts.FirstEmails | src/categorize/receipt_lookup.py:141 | the first five messages at most |
| Receipts.MatchReceipts | src/categorize/receipt_lookup.py:160-172 | a result is always a match, and only Apple and Amazon charges are matched |
| Receipts.ResolveStatuses | src/categorize/receipt_lookup.py:99-179 | no status iff not a candidate or the date is short; "error" iff the search failed; a result iff "matched"; "no_email" for an empty search |
| Receipts.FetchCap | src/categorize/receipt_lookup.py:139-144 | at most five bodies, all non-empty and from the first messages |
| Receipts.ReceiptAllocations | src/categorize/receipt_lookup.py:215-227 | one allocation per item, with the item's category or "uncategorized", its name as memo, and the transaction's sign |
| Receipts.ReceiptAllocationsTotal | src/categorize/receipt_lookup.py:215-227 | the allocations add up to the items' absolute total with the transaction's sign |
| Receipts.ReceiptMatchRow | src/categorize/receipt_lookup.py:193-203 | the match record carries the transaction, the message, the match type and the confidence |
| Receipts.SplitCached | src/categorize/receipt_lookup.py:427-435 | the loop splits the messages into the cached receipts and the uncached rest |
| Receipts.ReceiptLookup.constructor | src/categorize/receipt_lookup.py:86-97 | a lookup over the store with an empty parse cache |
| Receipts.ReceiptLookup.ExtractReceipts | src/categorize/receipt_lookup.py:409-517 | the cache, receipts and usage end as the extraction specifies, and the model is called for exactly the messages it names |
| Receipts.ReceiptLookup.ParseUncached | src/categorize/receipt_lookup.py:476-517 | the loop over the uncached messages performs the specified parse run |
| Receipts.ReceiptLookup.ParseMessage | src/categorize/receipt_lookup.py:477-515 | one message is parsed as specified |
| Receipts.ReceiptLookup.Resolve | src/categorize/receipt_lookup.py:99-179 | the result, cache, usage and lookup status are those of the specification |
| Receipts.ReceiptLookup.FetchBodies | src/categorize/receipt_lookup.py:139-144 | the loop keeps exactly the non-empty bodies |
| Receipts.ReceiptLookup.ApplyResult | src/categorize/receipt_lookup.py:181-235 | nothing for a non-match or no items; otherwise the match is recorded, and only a transaction without allocations gets one per item and is marked categorized |
| Receipts.ReceiptLookup.InsertAllocations | src/categorize/receipt_lookup.py:218-227 | all allocations are appended, or a failure leaves a prefix of them written |
| GmailClient.FirstData | src/gmail/client.py:154-162 | the first data of the wanted type, never empty; None iff no part of that type has data |
| GmailClient.NoteAllAppend | src/gmail/client.py:154-166 | noting two lists of parts in turn is noting their concatenation |
| GmailClient.SearchIsWalk | src/gmail/client.py:154-168 | the recursive search notes exactly the parts of the depth-first walk, in order |
| GmailClient.NoteAllFirst | src/gmail/client.py:154-168 | a filled slot stays as it is; an empty one gets the first matching data of the walk |
| GmailClient.ExtractBody | src/gmail/client.py:138-175 | the payload's own data when it has any; otherwise the first plain-text part anywhere in the tree, else the first HTML part, else "" |
| GmailClient.PlainBeatsEarlierHtml | src/gmail/client.py:142-173 | a nested plain-text part wins over an HTML part that comes before it |
| GmailClient.MessageBody | src/gmail/client.py:114-135 | a failed fetch gives ""; otherwise the extracted body |
| GmailClient.WindowFor | src/gmail/client.py:78-88 | a window exists iff the merchant type is apple or amazon |
| GmailClient.SearchBounds | src/gmail/client.py:76-92 | apple searches from three days before to one day after the charge, amazon from fourteen days before; unknown types have no window |
| GmailClient.SearchReceipts | src/gmail/client.py:56-112 | no search for an unknown merchant type; otherwise the listing over the window, None when the call fails |
| Observer.ValidateFileCompleteness | src/watcher/observer.py:116-146 | a CSV file passes iff it is non-empty and ends in LF or CR; an OFX or QFX file passes iff its upper-cased text holds the closing OFX tag; any other file passes |
| Observer.ContainsAt | src/watcher/observer.py:143 | a needle found at some position is contained |
| Observer.OfxCloseAnyCase | src/watcher/observer.py:141-146 | the closing tag in any letter case makes an OFX or QFX file pass |
| Observer.MatchingAccount | src/watcher/observer.py:175-177 | the first account whose OFX account number equals the input; None iff none has it |
| Observer.ResolveAccountId | src/watcher/observer.py:167-181 | without a configuration or a match the raw number; otherwise the first matching account's id |
| Observer.ResolveFirstWins | src/watcher/observer.py:175-177 | when several accounts share the number, the earliest one is chosen |
| Observer.Outcome | src/watcher/observer.py:286-296 | an outcome whose counts are all zero |
| Observer.BatchAllCategorizable | src/watcher/observer.py:339-354 | every transaction a batch returns is pending or flagged, so all of them are categorised |
| Observer.CategorizeBatch | src/watcher/observer.py:339-354 | the categorised count is the number of pending or flagged transactions of the batch |
| Observer.ProcessFile | src/watcher/observer.py:267-397 | an unsupported extension is an error before any write; a known file hash is a duplicate that writes nothing; a success accounts for every parsed row and categorises every new or flagged one, and closes the import as completed; a failure closes it as error with the message |
| Observer.ImportParsed | src/watcher/observer.py:312-397 | once the import record is written: a parse failure closes it as error with the parser's message; an empty file closes it as completed with 0 rows; otherwise every parsed row is accounted for, every new or flagged row is categorised and the record is closed as completed with the row count, or as error when a write is refused |
| Observer.InsertBatch | src/watcher/observer.py:334-337 | the store gains the batch's pending then flagged rows and these are the transactions returned; otherwise (a refused insert) the store is as it was; the new, duplicate and flagged counts add up to the parsed rows, and the transactions to categorise are exactly the new and flagged ones |
| Observer.CountStep | src/watcher/observer.py:342-354 | one more transaction adds one to the categorised count iff it is pending or flagged |
| Observer.Fail | src/watcher/observer.py:387-397 | the file's import record is marked error with the message and the outcome is an error |
| Observer.LastUpdated | src/watcher/observer.py:387-392 | updating the last-inserted import by id changes only that record |
| Push.Val | src/sheets/push.py:99-103 | a missing value becomes the empty string, a present one passes through |
| Push.ValKeepsText | src/sheets/push.py:99-103 | an optional text cell shows the text, or "" when absent |
| Push.TxnLayout | src/sheets/push.py:106-124 | a transaction row has one cell per data header |
| Push.TxnToRow | src/sheets/push.py:106-124 | a transaction row has one cell per data header |
| Push.TxnLayoutMatchesHeaders | src/sheets/push.py:34-39 | each cell of a transaction row holds the field its header names |
| Push.AllocToRow | src/sheets/push.py:127-138 | an allocation row has one cell per data header |
| Push.AllocRowMatchesHeaders | src/sheets/push.py:46-49 | each cell of an allocation row holds the field its header names |
| Push.TransferToRow | src/sheets/push.py:141-150 | a transfer row has one cell per header |
| Push.TransferRowMatchesHeaders | src/sheets/push.py:55-58 | each cell of a transfer row holds the field its header names |
| Push.SummaryToRow | src/sheets/push.py:153-166 | the month, category, amount and count in their columns; the name and levels from the category lookup, or empty without an entry |
| Push.CategoryToRow | src/sheets/push.py:169-182 | a category row has one cell per header |
| Push.CategoryRowMatchesHeaders | src/sheets/push.py:65-68 | each cell of a category row holds the field its header names |
| Push.ReviewLayout | src/sheets/push.py:185-221 | a review row has one cell per data header |
| Push.ReviewToRow | src/sheets/push.py:185-221 | a review row has one cell per data header |
| Push.ReviewLayoutMatchesHeaders | src/sheets/push.py:70-77 | each cell of a review row holds the field its header names |
| Push.ReviewRowsShape | src/sheets/push.py:370-378 | one review row per allocation, or a single row with the whole amount for a transaction without allocations |
| Push.ReviewRowsCount | src/sheets/push.py:370-378 | the review rows number the total of rows per transaction, at least one per transaction |
| Push.TxnRows | src/sheets/push.py:335-340 | one row per transaction |
| Push.ChunksShape | src/sheets/push.py:305-306 | the rows split into ceil(n/100) non-empty chunks of at most 100 that join back to the rows |
| Push.Tagged | src/sheets/push.py:305-308 | one append call per chunk |
| Push.ChunkStep | src/sheets/push.py:305-309 | one loop round sends the next chunk and leaves the rest for later rounds |
| Push.KeptMembers | src/sheets/push.py:299-319 | exactly the queued sheets whose push failed stay queued |
| Push.KeptUnique | src/sheets/push.py:299-319 | what stays queued still has one entry per sheet |
| Push.ResultOrigin | src/sheets/push.py:311-315 | every result belongs to a queued sheet that was sent, with its row count and number of chunks |
| Push.ResultFor | src/sheets/push.py:311-315 | every sheet that was sent has its result |
| Push.EmptyFlush | src/sheets/push.py:277-324 | flushing an empty queue sends and reports nothing |
| Push.DropThrough | src/sheets/push.py:264-265 | a suffix of the write times whose first entry is after the cutoff |
| Push.DropThroughExact | src/sheets/push.py:264-265 | in ascending times, every kept write is after the cutoff |
| Push.BoundedWindow | src/sheets/push.py:259-269 | the writes within the last minute never exceed the limit |
| Push.PurgeKeeps | src/sheets/push.py:259-269 | purging keeps the window ascending, within the limit and not in the future |
| Push.SuffixAscending | src/sheets/push.py:264-265 | a suffix of ascending times is ascending and no later than before |
| Push.SheetsPush.constructor | src/sheets/push.py:239-243 | empty queues and no recorded writes |
| Push.SheetsPush.QueueAppend | src/sheets/push.py:247-251 | the rows are appended to the sheet's queue, created when absent; other sheets are unchanged |
| Push.SheetsPush.QueueClear | src/sheets/push.py:253-255 | the sheet is added to the clear set |
| Push.SheetsPush.WaitForRateLimit | src/sheets/push.py:259-269 | old writes are purged; the wait is positive iff the window is full, and lasts until the oldest write leaves it |
| Push.SheetsPush.Purge | src/sheets/push.py:264-265 | the writes through the cutoff are dropped |
| Push.SheetsPush.RecordWrite | src/sheets/push.py:271-273 | the write time is appended |
| Push.SheetsPush.Write | src/sheets/push.py:289-309 | a rate-limited write purges the window and records its time, no earlier than now |
| Push.SheetsPush.SendChunks | src/sheets/push.py:303-310 | one append call per chunk of the sheet's rows, in order |
| Push.SheetsPush.Flush | src/sheets/push.py:277-324 | failed clears stay queued; each sheet that was sent is reported and dequeued; failed sheets stay queued |
| Push.SheetsPush.QueueAndFlush | src/sheets/push.py:341-343 | nothing for no rows; otherwise the result for the pushed sheet itself, counting its earlier queued rows too |
| Push.SheetsPush.PushTransactions | src/sheets/push.py:328-343 | nothing to push leaves the pusher unchanged and reports nothing; otherwise the rows join the Transactions sheet's queue, the queue is flushed, the result is the Transactions sheet's own (counting its earlier queued rows too), and only the sheets whose push failed stay queued |
| Push.SheetsPush.PushReview | src/sheets/push.py:363-381 | nothing to push leaves the pusher unchanged and reports nothing; otherwise the rows join the Review sheet's queue, the queue is flushed, the result is the Review sheet's own (counting its earlier queued rows too), and only the sheets whose push failed stay queued |
| Push.SheetsPush.PushAllocations | src/sheets/push.py:345-352 | nothing to push leaves the pusher unchanged and reports nothing; otherwise the rows join the Allocations sheet's queue, the queue is flushed, the result is the Allocations sheet's own (counting its earlier queued rows too), and only the sheets whose push failed stay queued |
| Push.SheetsPush.PushTransfers | src/sheets/push.py:354-361 | nothing to push leaves the pusher unchanged and reports nothing; otherwise the rows join the Transfers sheet's queue, the queue is flushed, the result is the Transfers sheet's own (counting its earlier queued rows too), and only the sheets whose push failed stay queued |
| Push.SheetsPush.PushSummary | src/sheets/push.py:383-391 | nothing to push leaves the pusher unchanged and reports nothing; otherwise the rows join the Summary sheet's queue, the queue is flushed, the result is the Summary sheet's own (counting its earlier queued rows too), and only the sheets whose push failed stay queued |
| Push.ResultForSheet | src/sheets/push.py:343 | a result found belongs to the sheet; None iff no result does |
| Push.ResultSheetIndex | src/sheets/push.py:343 | the result found is at some position of the results |
| Push.GetUniqueAt | src/sheets/push.py:247-251 | with one entry per sheet, the lookup finds each entry's own rows |
| Push.FirstResultCanBeOtherSheet | src/sheets/push.py:343 | whenever rows of one sheet were left queued, a push to any other sheet takes that sheet's result as its first, while the result for the pushed sheet is a different one |
| Overrides.ColumnLabel | src/sheets/overrides.py:646-653 | a column's letters, empty only for column 0 |
| Overrides.ColumnNumber | src/sheets/overrides.py:646-653 | the column a string of letters names, 0 only for no letters |
| Overrides.ColumnNumberOfLabel | src/sheets/overrides.py:646-653 | reading a column's letters back gives the column |
| Overrides.ColumnLabelOfNumber | src/sheets/overrides.py:646-653 | every string of capital letters is the label of the column it names |
| Overrides.ColumnLabelExamples | src/sheets/overrides.py:646-653 | columns 1, 3, 16, 26 and 27 are A, C, P, Z and AA |
| Overrides.A1 | src/sheets/overrides.py:646-653 | a cell label is its column letters followed by the row number |
| Overrides.A1Parts | src/sheets/overrides.py:646-653 | a cell label splits into letters that read back as the column and digits that read back as the row |
| Overrides.A1Examples | src/sheets/overrides.py:646-653 | (1,1), (1,26), (1,27), (5,3) and (2,16) are A1, Z1, AA1, C5 and P2 |
| Overrides.CellLabel | src/sheets/overrides.py:646-653 | the loop builds exactly the cell's A1 label |
| Overrides.ParseBoolNeedsText | src/sheets/overrides.py:50-56 | a blank cell is false and every accepted value is one to four characters once stripped |
| Overrides.StripUnpadded | src/sheets/overrides.py:56 | stripping text without outer blanks leaves it unchanged |
| Overrides.ParseBoolCapitals | src/sheets/overrides.py:50-56 | TRUE, Yes, X and Y are accepted |
| Overrides.ParseBoolPadded | src/sheets/overrides.py:50-56 | surrounding blanks are ignored |
| Overrides.ParseBoolRejects | src/sheets/overrides.py:50-56 | no, false, 0 and the empty cell are rejected |
| Overrides.AtLeastTrans | src/sheets/overrides.py:240 | a candidate at least as good as the best is at least as good as every candidate above the cutoff |
| Overrides.CloseMatch | src/sheets/overrides.py:240 | the best candidate above the 0.7 cutoff, with ties broken as the standard close-match search does; None iff none reaches the cutoff |
| Overrides.KnownIds | src/sheets/overrides.py:217-224 | no known ids without a configuration |
| Overrides.ValidateCategory | src/sheets/overrides.py:226-253 | with no known ids or a known id, the id itself; else the closest known id above the cutoff; None iff there is none |
| Overrides.ValidateIdempotent | src/sheets/overrides.py:226-253 | a validated id validates to itself |
| Overrides.IdColumn | src/sheets/overrides.py:128-129 | the id column lies before the override columns |
| Overrides.CellAt | src/sheets/overrides.py:135 | a missing cell reads as "" |
| Overrides.TextOverride | src/sheets/overrides.py:134-137 | a text override is present iff the stripped cell is not blank |
| Overrides.FlagOverride | src/sheets/overrides.py:144-147 | a flag override is present iff the cell parses as true |
| Overrides.Layout | src/sheets/overrides.py:23-40 | one column per override column of the sheet |
| Overrides.ReadCell | src/sheets/overrides.py:134-162 | a text column asks iff its cell is not blank, a flag column iff its cell parses as true |
| Overrides.ReadCells | src/sheets/overrides.py:132-162 | at most one override per column |
| Overrides.BlankCellsGiveNothing | src/sheets/overrides.py:132-162 | blank override cells ask for nothing |
| Overrides.ReadRow | src/sheets/overrides.py:124-132 | a row is skipped iff it is too short or its id cell is empty; otherwise its ids and overrides come from the sheet's own columns |
| Overrides.RowAttempts | src/sheets/overrides.py:132-162 | a row asks for at most one override per override column |
| Overrides.AttemptsBefore | src/sheets/overrides.py:124 | the header row asks for nothing |
| Overrides.Attempts | src/sheets/overrides.py:119-120 | a sheet with only a header asks for nothing |
| Overrides.AttemptsBound | src/sheets/overrides.py:124-162 | the attempts are at most the override width per data row |
| Overrides.BlankCellsAskNothing | src/sheets/overrides.py:132-162 | a row with blank override cells asks for nothing |
| Overrides.ClearRequestFor | src/sheets/overrides.py:617-637 | nothing to clear with only a header; otherwise an empty value for every override cell of every data row |
| Overrides.ClearOverrideColumns | src/sheets/overrides.py:617-641 | the loop builds exactly the clear request |
| Overrides.ClearSpansOverrideColumns | src/sheets/overrides.py:23-40 | the cleared ranges are P to U, I to J and V to X |
| Overrides.Count | src/sheets/overrides.py:266-271 | each override counts once, as applied with its action recorded or as an error; the action list keeps pace with the applied count |
| Overrides.AllocById | src/sheets/overrides.py:439-445 | an allocation found has the id; None iff none has it |
| Overrides.MemoSet | src/sheets/overrides.py:380-383 | only the rows with the id get the new memo |
| Overrides.TxnIdsKept | src/sheets/overrides.py:380-383 | updates that keep each row's id keep the ids distinct |
| Overrides.AllocIdsKept | src/sheets/overrides.py:461-465 | updates that keep each allocation's id keep the ids distinct |
| Overrides.MerchantSet | src/sheets/overrides.py:498-502 | only the rows with the id get the new normalised description |
| Overrides.AllocCategorySet | src/sheets/overrides.py:461-465 | only the allocation with the id gets the category and the user source |
| Overrides.NewMemo | src/sheets/overrides.py:379 | the old memo, " \| " and the notes when there is a memo; otherwise the notes alone |
| Overrides.StatusStep | src/sheets/overrides.py:257-271 | always applied: only the status of the rows with the id changes |
| Overrides.NotesStep | src/sheets/overrides.py:370-395 | fails iff the transaction is missing; otherwise its memo becomes the combined memo, recorded with the old one |
| Overrides.MerchantStep | src/sheets/overrides.py:482-517 | fails iff the transaction is missing; otherwise its normalised description is replaced, recorded with the old one |
| Overrides.AllocCategoryStep | src/sheets/overrides.py:432-480 | fails iff the allocation is missing, the category is empty or too long, or it does not validate; otherwise the allocation takes the validated category as a user allocation |
| Overrides.CreateAllocationStep | src/sheets/overrides.py:571-612 | fails iff the transaction is missing, the category is bad or does not validate, or the id is taken; otherwise a user allocation of the whole amount is added and the transaction is categorised |
| Overrides.TxnCategoryStep | src/sheets/overrides.py:397-430 | a bad or unvalidated category fails; otherwise the first allocation is re-categorised, or a new one is created |
| Overrides.TxnCategoryReachesAllocation | src/sheets/overrides.py:420-424 | with an allocation, the validated category lands on the first allocation |
| Overrides.TransferLinkCheck | src/sheets/overrides.py:277-317 | self-link, source linked, linked missing, linked in a transfer and source missing are refused in that order; otherwise both transactions |
| Overrides.TransferLinkStep | src/sheets/overrides.py:273-352 | fails iff a check refuses or the transfer id is taken; otherwise one user-linked transfer from the row's transaction is added |
| Overrides.SelfLinkRefused | src/sheets/overrides.py:279-282 | linking a transaction to itself fails and changes nothing |
| Overrides.OverrideStep | src/sheets/overrides.py:134-162 | a failed override changes nothing |
| Overrides.Mints | src/sheets/overrides.py:571-612 | an override draws at most one new id, and only a category or transfer-link override can draw one |
| Overrides.ApplyOnce | src/sheets/overrides.py:134-162 | applying an override counts it once and never takes back an id |
| Overrides.RunOverridesCounts | src/sheets/overrides.py:132-162 | a row's overrides are each counted once, errors never decrease, and a balanced action list stays balanced |
| Overrides.RunRowsCounts | src/sheets/overrides.py:124-162 | the data rows' overrides are each counted once and errors never decrease |
| Overrides.RunPollCounts | src/sheets/overrides.py:95-110 | a poll counts exactly the overrides its sheets ask for |
| Overrides.PollResult.constructor | src/sheets/overrides.py:70-75 | all counters start at zero |
| Overrides.PollResult.Record | src/sheets/overrides.py:266-271 | the counters move as the outcome is counted |
| Overrides.OverridePoller.constructor | src/sheets/overrides.py:89-93 | a poller with no cached category ids |
| Overrides.OverridePoller.ValidCategoryIds | src/sheets/overrides.py:217-224 | the known ids, cached after the first call |
| Overrides.OverridePoller.Validate | src/sheets/overrides.py:226-253 | the category validated against the known ids |
| Overrides.OverridePoller.FreshId | src/sheets/overrides.py:593-600 | each new record takes the next caller-supplied id |
| Overrides.OverridePoller.ApplyStatus | src/sheets/overrides.py:257-271 | the store and counters change as the status step specifies |
| Overrides.OverridePoller.ApplyNotes | src/sheets/overrides.py:370-395 | the store and counters change as the notes step specifies |
| Overrides.OverridePoller.ApplyMerchant | src/sheets/overrides.py:482-517 | the store and counters change as the merchant step specifies |
| Overrides.OverridePoller.ApplyAllocCategory | src/sheets/overrides.py:432-480 | the store and counters change as the allocation category step specifies |
| Overrides.OverridePoller.CreateAllocation | src/sheets/overrides.py:571-612 | the store and counters change as the allocation creation step specifies |
| Overrides.OverridePoller.ApplyTxnCategory | src/sheets/overrides.py:397-430 | the store and counters change as the transaction category step specifies |
| Overrides.OverridePoller.ApplyTransferLink | src/sheets/overrides.py:273-352 | the store and counters change as the transfer link step specifies |
| Overrides.OverridePoller.Apply | src/sheets/overrides.py:134-162 | one override is applied as the override step specifies |
| Overrides.OverridePoller.PollRow | src/sheets/overrides.py:124-162 | the store, the ids drawn and the counters become those of applying the row's overrides in column order; every override is counted once |
| Overrides.OverridePoller.PollSheet | src/sheets/overrides.py:114-171 | the store, ids and counters become those of running every data row in order; each override is counted once; the sheet's columns are cleared iff it has data rows and none of its overrides failed |
| Overrides.OverridePoller.PollRows | src/sheets/overrides.py:124-162 | the store, ids and counters become those of running every data row in order |
| Overrides.OverridePoller.PollNext | src/sheets/overrides.py:124-162 | one more data row moves the state on by that row |
| Overrides.OverridePoller.Poll | src/sheets/overrides.py:95-110 | the store, ids and counters are those of polling Transactions, Allocations and then Review (skipped when missing) from zeroed counters; each clear covers its sheet's override columns, and without errors every sheet with data rows is cleared |
| Cli.FindNode | src/cli.py:743-753 | a node found has the id; None iff no node of the tree has it |
| Cli.FirstHolder | src/cli.py:743-753 | the node found is the first node with the id in pre-order |
| Cli.FindParent | src/cli.py:756-775 | None iff the id is absent; otherwise the sibling list holding the node, either the top level or the children of a parent in the tree |
| Cli.FindParentAtTop | src/cli.py:756-775 | with unique ids, a top-level node's siblings are the top level and it has no parent |
| Cli.Rename | src/cli.py:869-882 | fails with not-found iff the id is absent |
| Cli.RenameChangesOnlyName | src/cli.py:869-882 | renaming changes the name of the first node with the id and nothing else of the tree |
| Cli.Add | src/cli.py:840-866 | fails iff the parent is absent or the new id exists, with the parent error first |
| Cli.AddAppendsChild | src/cli.py:840-866 | the new leaf becomes the parent's last child and the parent is marked as having children; the rest of the tree is unchanged |
| Cli.AddIds | src/cli.py:840-866 | adding puts exactly the new id into the tree and keeps ids unique |
| Cli.DetachIds | src/cli.py:907-912 | detaching a node removes exactly its subtree's ids |
| Cli.WithoutIds | src/cli.py:907-912 | filtering a node out of its sibling list removes exactly its subtree's ids |
| Cli.WithoutLabels | src/cli.py:907-912 | filtering a node out of its sibling list cuts exactly its subtree out of the pre-order, one node shorter |
| Cli.DetachLabels | src/cli.py:907-912 | detaching a node cuts its subtree out of the pre-order; the only other change is one child fewer on the node that listed it |
| Cli.MoveAsWritten | src/cli.py:885-923 | fails iff the node or the target is absent or the target lies among the node's children |
| Cli.MoveIntoSelfLosesSubtree | src/cli.py:885-923 | moving a node into itself succeeds and drops the node's whole subtree from the tree |
| Cli.MoveIntoSelfExample | src/cli.py:885-923 | moving x into x under a{x} leaves a with no children |
| Cli.Move | src/cli.py:885-923 | as written, and also fails when the target is the node itself |
| Cli.MoveKeepsIds | src/cli.py:885-923 | a move keeps every id exactly once and makes the node, subtree unchanged, the target's last child; the detach cuts only the node's subtree out of the tree (its old parent has one child fewer) and the append changes only the target's own label and inserts the subtree after the target's old subtree |
| Cli.AppendChildLabels | src/cli.py:914-918 | giving a node one more last child changes only that node's label and inserts the child's subtree after its old subtree |
| Cli.MoveLabels | src/cli.py:914-918 | the moved subtree is appended, as just described, under the target of the detached tree |
| Cli.BudgetLinkDirection | src/cli.py:650-673 | the direction given by the pattern's accounts when the transaction is on one of them; otherwise outflow first by amount sign |
| Cli.BudgetLinkWith | src/cli.py:675-682 | a link with the auto-link method, confidence 0.9, the pattern's transfer type or internal-transfer, in the chosen direction |
| Cli.BudgetLinkFor | src/cli.py:637-648 | nothing when the transaction is linked or has no candidate; otherwise a link with the first candidate |
| Cli.BudgetLinkCounterpart | src/cli.py:637-648 | a link joins two unlinked transactions of opposite amounts on different accounts |
| Cli.TryLinkBudgetAppTransfer | src/cli.py:630-683 | the store gains exactly that link, and nothing else changes |

## Left out

- Floating point: amounts are held in whole cents, and tolerances and confidences as reals. Rounding of binary floats is not modelled, and sub-cent digits are not kept (the three lines below say where they are lost).
- Json.DollarsToCents: the receipt reply's item amounts, `order_total` and `shipment_total` are kept by the source as `float` values with no rounding (src/categorize/receipt_lookup.py:554-563, 584). The model rounds each to the nearest whole cent. So a reply total with sub-cent digits can be judged differently by the 5% tests of src/categorize/receipt_lookup.py:313, 325, 381 and 395: a `shipment_total` of 10.504 against a 1000-cent charge is 1050 cents in the model, which fits, while the source's 0.0504 does not.
- Receipts.TotalOf and Receipts.ItemOf: they convert through Json.DollarsToCents and carry its rounding.
- Text.ParseCents: the CSV, budget-app and QFX amounts (src/parsers/csv_parser.py:93, src/parsers/budget_app.py:133-134, src/parsers/qfx_sgml.py:80, 115) are `float` values in the source. The model keeps two decimals and drops any further digit, so "12.349" is 1234 cents where the source stores 12.349 and its dedup key (src/parsers/base.py:79) rounds to 1235. It also reads only plain decimal literals with an optional sign. The exponent, underscore, `inf` and `nan` forms that `float` accepts ("1e3", "1_000") are refused, so the model skips a row or block the source would turn into a transaction, and reads no balance where the source reads one.
- MercuryCsv.MercuryCsvParser.Parse and BudgetApp.BudgetAppCsvParser.Parse: a row shorter than the header gets `None` for its missing columns from `csv.DictReader`. `row.get(column, "").strip()` on such a cell raises (src/parsers/csv_parser.py:65, 69, 83-84, 97-101; src/parsers/budget_app.py:69, 83-85, 98-100), and nothing in `parse` catches it (src/parsers/csv_parser.py:50-60, src/parsers/budget_app.py:57-64), so the whole file fails to parse. The model's row is a map from column to text and cannot hold a missing cell. Its `Parse` therefore never aborts; it skips or counts such a row as its cells read.
- SHA-256: the import hash and the file hash are modelled as the string they hash. Two different keys are taken to give different hashes.
- `compute_file_hash`: reading the file is I/O. The file's hash is an input of the import.
- `SequenceMatcher.ratio` and `get_close_matches`: the similarity ratio is a parameter with range 0 to 1. The close-match search is modelled by its cutoff and its best-first choice.
- JSON, CSV, base64url and regular-expression tokenising are standard-library decoders. Their outputs are inputs of the model (a JSON value, a field map, a decoded string).
- `src/parsers/qfx_xml.py` is not part of this model: it is a thin wrapper over an XML library.
- SQLite plumbing: connections, migrations, `executemany` and rowid order are not modelled. Rows are kept in insertion order. Of the schema's constraints, the inserts check the primary keys, the `import_id` foreign key of transactions, the `transaction_id` foreign key of allocations and the UNIQUE (from, to) pair of transfers, which the source's tests exercise. Any other foreign key of the schema is not checked. `GROUP BY` results are listed in first-appearance order, which SQLite leaves unspecified.
- Logging, UUID generation and timestamps: ids and times are values supplied by the caller.
- Network services: the Gmail calls, the Anthropic client and the gspread calls are parameters. Where the source catches their exceptions, they become a failed result. Prompt text and token accounting beyond the stored usage row are left out.
- OverridePoller.Poll: the sheet reads of `poll` are not guarded in the source. These are `worksheet("Transactions")` and `worksheet("Allocations")` with their `get_all_values()` (src/sheets/overrides.py:116-117, 177-178), and `get_all_values()` on the Review sheet (src/sheets/overrides.py:528). An error there propagates out of `poll`. The model takes these reads as having succeeded: their rows are its inputs. Only the missing Review sheet, which the source catches (src/sheets/overrides.py:524-527), is modelled, as an absent row list.
- Receipt prompts: the text sent to the AI extractor is not modelled. Only its parsed reply is.
- Gmail date parsing: `strptime` on the charge date is replaced by a day number.
- `wait_for_stable`, `FileWatcher` and the polling observer are time-based daemon threads and are left out.
- Observer file access: `_extract_acctid` and the file reading of `detect_parser` are file I/O. Their results are inputs of `process_file`.
- Observer push step: the sheet push at the end of `process_file` is left out. It is the push model's job.
- `SheetsPush.full_rebuild` and `_apply_category_validation` are left out. Each is a sequence of gspread calls with no logic of its own beyond what the converters and the queue model.
- Command-line surface: `_print_tree`, `_save_categories`, YAML loading, argparse and the `cmd_*` handlers' console output and exit codes are I/O. Only the tree edits and the transfer link are modelled.
- `_backfill_transfer_links` is a one-off repair loop over the store. It is left out.
- `scripts/reprocess_flagged.py` and `scripts/backfill_transfers.py` are one-off SQL scripts and are left out.
- Queries.ReconciliationData: the "less than one cent" test on float sums is equality on cents. The two agree for sums of whole cents.
- Text is modelled as ASCII. Upper, Lower, Strip, IsSpace and IsDigit cover only ASCII letters, the ASCII whitespace characters and '0' to '9'. Python's Unicode case mapping (`'ß'.upper()` is `'SS'`), its other whitespace (`\x1c` to `\x1f`, `\xa0` and the Unicode spaces) and the Unicode digits that `\d` matches are not modelled.
- Per-chunk push failures: a failed sheet push is modelled as a sheet whose lookup fails before any chunk is sent. In `flush` (src/sheets/push.py:303-319), an `append_rows` error on a later chunk leaves the earlier chunks written. The sheet still stays queued with all its rows, so the next flush sends those chunks again. That partial write and the duplicate rows it leads to are not modelled.
- Receipts.NameText and Receipts.CategoryText: `_parse_items_list` (src/categorize/receipt_lookup.py:578-585) keeps a truthy non-string name as `str(name)` and keeps a non-string `category_id` as it is. The model reads a non-string name as the empty text, so the item is kept with an empty name, and the allocation recorded for it gets an empty memo where the source's would read `str(name)`. It reads a non-string category as none. Python's `str` of a JSON number, list or object is not modelled.
- Observer.CategorizeBatch: the contract states the categorised count (every pending or flagged transaction of the batch, when no write was refused) and that the imports are kept. Each pass runs Pipeline.ProcessOne, whose contract states the store that pass leaves. Neither Pipeline.Advance nor this loop restates it, for the same reason as for CategorizePending below.
- CategorizePending: the contract traces each pass's transaction, answer and success, and the counts built from them. The store each pass leaves is stated per pass by ProcessOne's contract. It is not restated across the loop, because carrying the whole store history through the loop invariant is beyond what the verifier handles in reasonable time.

## Findings

| source | as written | input that shows it | evidently intended | confidence | as-written member | corrected member |
|---|---|---|---|---|---|---|
| src/sheets/push.py:343 | `push_transactions` returns the first flush result, whatever sheet it belongs to | an Allocations push that failed and stayed queued, then `push_transactions` with one row | the result for the Transactions sheet | not executed | Push.FirstResultCanBeOtherSheet | Push.SheetsPush.QueueAndFlush |
| src/sheets/push.py:352 | `push_allocations` returns the first flush result, whatever sheet it belongs to | a Transactions push that failed and stayed queued, then `push_allocations` with one row | the result for the Allocations sheet | not executed | Push.FirstResultCanBeOtherSheet | Push.SheetsPush.PushAllocations |
| src/sheets/push.py:361 | `push_transfers` returns the first flush result, whatever sheet it belongs to | a Transactions push that failed and stayed queued, then `push_transfers` with one row | the result for the Transfers sheet | not executed | Push.FirstResultCanBeOtherSheet | Push.SheetsPush.PushTransfers |
| src/sheets/push.py:381 | `push_review` returns the first flush result, whatever sheet it belongs to | a Transactions push that failed and stayed queued, then `push_review` with one row | the result for the Review sheet | not executed | Push.FirstResultCanBeOtherSheet | Push.SheetsPush.PushReview |
| src/sheets/push.py:391 | `push_summary` returns the first flush result, whatever sheet it belongs to | a Transactions push that failed and stayed queued, then `push_summary` with one row | the result for the Summary sheet | not executed | Push.FirstResultCanBeOtherSheet | Push.SheetsPush.PushSummary |
| src/cli.py:885-923 | `category move x x` passes the descendant check, because only x's children are searched; x is then removed from its siblings and appended to its own children | `category move x x` on a tree a{x} | refuse to move a category under itself | not executed | Cli.MoveAsWritten | Cli.Move |

=== FILE: amount_rules.dfy ===
/**
 * Amount and account rules: a merchant pattern whose category depends on the
 * charge amount (a range or whole dollars), and a per-account default
 * category.
 */
module AmountRules {
  import opened Wrappers
  import opened Text
  import opened Seqs
  import opened Models
  import opened Config

  datatype RuleMatch = RuleMatch(
    categoryId: string,
    confidence: real,
    matchMethod: string,
    note: Option<string>)

  /** `_CONFIDENCE_MAP` with the lookup default of 0.75 (also used for a missing label, which reads as "medium"). */
  function ConfidenceOf(grade: Option<string>): (r: real)
    ensures grade == Some("high") ==> r == 0.90
    ensures grade == Some("low") ==> r == 0.60
    ensures grade != Some("high") && grade != Some("low") ==> r == 0.75
  {
    var name := grade.GetOr("medium");
    if name == "high" then 0.90
    else if name == "medium" then 0.75
    else if name == "low" then 0.60
    else 0.75
  }

  /**
   * `_is_whole_dollar`: an amount of `amount` cents is `amount / 100`
   * dollars, which is within half a cent of a whole number exactly when
   * the cents are a multiple of 100.
   */
  predicate IsWholeDollar(amount: Cents) {
    amount % 100 == 0
  }

  /** Being a whole dollar amount does not depend on the sign, and means a whole number of dollars. */
  lemma WholeDollarSign(amount: Cents)
    ensures IsWholeDollar(amount) <==> IsWholeDollar(-amount)
    ensures IsWholeDollar(amount) <==> exists d: int :: amount == 100 * d
  {
    if IsWholeDollar(amount) {
      assert -amount == 100 * (-(amount / 100));
    }
    if IsWholeDollar(-amount) {
      assert amount == 100 * (-((-amount) / 100));
    }
    if exists d: int :: amount == 100 * d {
      var d: int :| amount == 100 * d;
      assert amount / 100 == d;
    }
  }

  /** `range_lo <= amount <= range_hi` with the bounds put in order. */
  predicate InRange(bounds: (int, int), amount: Cents) {
    var lo := if bounds.0 <= bounds.1 then bounds.0 else bounds.1;
    var hi := if bounds.0 <= bounds.1 then bounds.1 else bounds.0;
    lo <= amount <= hi
  }

  /** The order the two bounds are written in does not matter, and both bounds are included. */
  lemma InRangeSymmetric(a: int, b: int, amount: Cents)
    ensures InRange((a, b), amount) <==> InRange((b, a), amount)
    ensures InRange((a, b), a) && InRange((a, b), b)
  {
  }

  /** Whether a single rule of a rule set matches the amount and names a category. */
  predicate RuleFits(rule: AmountRule, amount: Cents) {
    (if rule.wholeDollar then IsWholeDollar(amount)
     else if rule.amountRange.Some? then InRange(rule.amountRange.value, amount)
     else false) &&
    HasText(rule.categoryId)
  }

  /** Whether a rule set's merchant pattern and account scope admit the transaction. */
  predicate SetApplies(ruleSet: AmountRuleSet, description: string, accountId: Option<string>) {
    ruleSet.merchantPattern != "" &&
    Contains(Upper(description), Upper(ruleSet.merchantPattern)) &&
    (ruleSet.accounts == [] || (accountId.Some? && accountId.value in ruleSet.accounts))
  }

  /** The first fitting rule of a rule set that applies. */
  function SetMatch(ruleSet: AmountRuleSet, description: string, amount: Cents, accountId: Option<string>): (r: Option<RuleMatch>)
    ensures r.Some? <==> SetApplies(ruleSet, description, accountId) && exists j :: 0 <= j < |ruleSet.rules| && RuleFits(ruleSet.rules[j], amount)
    ensures r.Some? ==>
      exists j :: 0 <= j < |ruleSet.rules| && RuleFits(ruleSet.rules[j], amount) &&
        (forall k :: 0 <= k < j ==> !RuleFits(ruleSet.rules[k], amount)) &&
        r.value == RuleMatch(ruleSet.rules[j].categoryId.value, ConfidenceOf(ruleSet.rules[j].confidence),
                             "amount_rule", ruleSet.rules[j].note)
  {
    if !SetApplies(ruleSet, description, accountId) then None
    else
      match FirstIndex(ruleSet.rules, rule => RuleFits(rule, amount))
      case None => None
      case Some(j) =>
        var rule := ruleSet.rules[j];
        Some(RuleMatch(rule.categoryId.value, ConfidenceOf(rule.confidence), "amount_rule", rule.note))
  }

  /** `match_amount_rule`: the first rule set that yields a match, and its first fitting rule. */
  function MatchAmountRule(description: string, amount: Cents, ruleSets: seq<AmountRuleSet>,
                           accountId: Option<string>): (r: Option<RuleMatch>)
    ensures r.None? <==> forall i :: 0 <= i < |ruleSets| ==> SetMatch(ruleSets[i], description, amount, accountId).None?
    ensures r.Some? ==>
      exists i :: 0 <= i < |ruleSets| && r == SetMatch(ruleSets[i], description, amount, accountId) &&
        forall k :: 0 <= k < i ==> SetMatch(ruleSets[k], description, amount, accountId).None?
    ensures r.Some? ==>
      r.value.categoryId != "" && r.value.matchMethod == "amount_rule" &&
      r.value.confidence in {0.90, 0.75, 0.60}
  {
    match FirstIndex(ruleSets, rs => SetMatch(rs, description, amount, accountId).Some?)
    case None => None
    case Some(i) => SetMatch(ruleSets[i], description, amount, accountId)
  }

  /** A rule set with an empty pattern, or scoped to accounts the transaction is not on, never matches. */
  lemma SkippedRuleSets(ruleSet: AmountRuleSet, description: string, amount: Cents, accountId: Option<string>)
    requires ruleSet.merchantPattern == "" ||
             (ruleSet.accounts != [] && (accountId.None? || accountId.value !in ruleSet.accounts))
    ensures SetMatch(ruleSet, description, amount, accountId).None?
  {
  }

  /** A rule with neither whole-dollar nor a range, or without a category, never matches. */
  lemma InertRule(rule: AmountRule, amount: Cents)
    requires (!rule.wholeDollar && rule.amountRange.None?) || !HasText(rule.categoryId)
    ensures !RuleFits(rule, amount)
  {
  }

  /** Whether an account rule gives the account a category. */
  predicate AccountRuleFits(rule: AccountRule, accountId: string) {
    rule.account == Some(accountId) && (rule.nonTransferCategory.Some? || rule.defaultCategory.Some?)
  }

  /**
   * `match_account_rule`: the first rule for the account that names a
   * category; `non_transfer_category` (0.80) takes precedence over
   * `default_category` (0.60).
   */
  function MatchAccountRule(accountId: string, rules: seq<AccountRule>): (r: Option<RuleMatch>)
    ensures r.None? <==> forall i :: 0 <= i < |rules| ==> !AccountRuleFits(rules[i], accountId)
    ensures r.Some? ==>
      exists i :: 0 <= i < |rules| && AccountRuleFits(rules[i], accountId) &&
        (forall k :: 0 <= k < i ==> !AccountRuleFits(rules[k], accountId)) &&
        (rules[i].nonTransferCategory.Some? ==>
          r.value == RuleMatch(rules[i].nonTransferCategory.value, 0.80, "account_rule", rules[i].note)) &&
        (rules[i].nonTransferCategory.None? ==>
          r.value == RuleMatch(rules[i].defaultCategory.value, 0.60, "account_rule", rules[i].note))
  {
    match FirstIndex(rules, rule => AccountRuleFits(rule, accountId))
    case None => None
    case Some(i) =>
      var rule := rules[i];
      if rule.nonTransferCategory.Some? then
        Some(RuleMatch(rule.nonTransferCategory.value, 0.80, "account_rule", rule.note))
      else
        Some(RuleMatch(rule.defaultCategory.value, 0.60, "account_rule", rule.note))
  }
}

=== FILE: base.dfy ===
/**
 * The parser interface's shared pieces: the raw transaction record every
 * parser produces, description normalisation, the two deduplication keys
 * and OFX date extraction.
 */
module ParserBase {
  import opened Wrappers
  import opened Text
  import opened Models
  import Seqs
  import opened Dicts

  /** What a parser yields for one bank row, before it is stored. */
  datatype RawTransaction = RawTransaction(
    date: string,
    amount: Cents,
    rawDescription: string,
    accountId: string,
    memo: Option<string>,
    txnType: Option<string>,
    externalId: Option<string>,
    checkNum: Option<string>,
    balance: Option<Cents>,
    budgetAppCategoryId: Option<string>)

  /** Length of the run of digits that starts `s`. */
  function DigitRun(s: string): (n: nat)
    ensures n <= |s|
    ensures forall i :: 0 <= i < n ==> IsDigit(s[i])
    ensures n == |s| || !IsDigit(s[n])
  {
    if |s| > 0 && IsDigit(s[0]) then 1 + DigitRun(s[1..]) else 0
  }

  /** Four digits in a row start at position `i` of `s`. */
  predicate FourDigitsAt(s: string, i: nat)
    requires i + 4 <= |s|
  {
    IsDigit(s[i]) && IsDigit(s[i + 1]) && IsDigit(s[i + 2]) && IsDigit(s[i + 3])
  }

  /** No four digits stand next to each other in `s`. */
  predicate NoLongNumber(s: string) {
    forall i: nat :: i + 4 <= |s| ==> !FourDigitsAt(s, i)
  }

  /** A '#' followed by a digit stands at position `i` of `s`. */
  predicate HashDigitAt(s: string, i: nat)
    requires i + 2 <= |s|
  {
    s[i] == '#' && IsDigit(s[i + 1])
  }

  /** No '#' in `s` is followed by a digit. */
  predicate NoHashNumber(s: string) {
    forall i: nat :: i + 2 <= |s| ==> !HashDigitAt(s, i)
  }

  /** A character normalisation may drop or rewrite: a digit, whitespace, '*' or '#'. */
  predicate Erasable(c: char) { IsDigit(c) || IsSpace(c) || c == '*' || c == '#' }

  /** The characters of `s` that normalisation never drops, in order. */
  function Solid(s: string): string
    decreases |s|
  {
    if s == [] then [] else (if Erasable(s[0]) then [] else [s[0]]) + Solid(s[1..])
  }

  lemma {:induction false} SolidAppend(a: string, b: string)
    ensures Solid(a + b) == Solid(a) + Solid(b)
    decreases |a|
  {
    if a == [] {
      assert a + b == b;
    } else {
      assert (a + b)[0] == a[0];
      assert (a + b)[1..] == a[1..] + b;
      SolidAppend(a[1..], b);
    }
  }

  lemma {:induction false} SolidOfErasable(s: string)
    requires forall i :: 0 <= i < |s| ==> Erasable(s[i])
    ensures Solid(s) == []
    decreases |s|
  {
    if s != [] {
      SolidOfErasable(s[1..]);
    }
  }

  /** Splitting off the first `n` characters, all of them erasable, leaves the solid part alone. */
  lemma SolidSkip(s: string, n: nat)
    requires n <= |s| && forall i :: 0 <= i < n ==> Erasable(s[i])
    ensures Solid(s) == Solid(s[n..])
  {
    assert s == s[..n] + s[n..];
    SolidAppend(s[..n], s[n..]);
    SolidOfErasable(s[..n]);
  }

  lemma NoLongNumberSuffix(s: string, k: nat)
    requires k <= |s| && NoLongNumber(s)
    ensures NoLongNumber(s[k..])
  {
    forall i: nat | i + 4 <= |s[k..]|
      ensures !FourDigitsAt(s[k..], i)
    {
      assert !FourDigitsAt(s, k + i);
      assert s[k..][i..i + 4] == s[k + i..k + i + 4];
    }
  }

  lemma NoHashNumberSuffix(s: string, k: nat)
    requires k <= |s| && NoHashNumber(s)
    ensures NoHashNumber(s[k..])
  {
    forall i: nat | i + 2 <= |s[k..]|
      ensures !HashDigitAt(s[k..], i)
    {
      assert !HashDigitAt(s, k + i);
      assert s[k..][i] == s[k + i] && s[k..][i + 1] == s[k + i + 1];
    }
  }

  /** A character put in front starts no '#'-number unless it is a '#' before a digit. */
  lemma NoHashNumberCons(c: char, b: string)
    requires NoHashNumber(b) && (c == '#' ==> b == [] || !IsDigit(b[0]))
    ensures NoHashNumber([c] + b)
  {
    var t := [c] + b;
    forall i: nat | i + 2 <= |t|
      ensures !HashDigitAt(t, i)
    {
      if i > 0 {
        assert !HashDigitAt(b, i - 1);
        assert t[i] == b[i - 1] && t[i + 1] == b[i];
      }
    }
  }

  /** A character that is not a digit, put in front, starts no run of four digits. */
  lemma NoLongNumberCons(c: char, b: string)
    requires !IsDigit(c) && NoLongNumber(b)
    ensures NoLongNumber([c] + b)
  {
    var t := [c] + b;
    forall i: nat | i + 4 <= |t|
      ensures !FourDigitsAt(t, i)
    {
      if i == 0 {
        assert t[0] == c;
      } else {
        assert !FourDigitsAt(b, i - 1);
        assert t[i..i + 4] == b[i - 1..i + 3];
      }
    }
  }

  /** At most three characters in front of a text that does not start with a digit. */
  lemma NoLongNumberShort(a: string, b: string)
    requires |a| <= 3 && NoLongNumber(b) && (b == [] || !IsDigit(b[0]))
    ensures NoLongNumber(a + b)
  {
    var t := a + b;
    forall i: nat | i + 4 <= |t|
      ensures !FourDigitsAt(t, i)
    {
      if i < |a| {
        assert t[|a|] == b[0];
      } else {
        assert !FourDigitsAt(b, i - |a|);
        assert t[i..i + 4] == b[i - |a|..i - |a| + 4];
      }
    }
  }

  /**
   * `re.sub(r'\d{4,}', '', s)`: every maximal run of four or more digits
   * is removed. What is left has no four digits in a row, and every
   * character that is not a digit is kept, in order.
   */
  function DropLongNumbers(s: string): (r: string)
    ensures forall c :: c in r ==> c in s
    ensures NoLongNumber(r)
    ensures Solid(r) == Solid(s)
    decreases |s|
  {
    if s == [] then []
    else
      var n := DigitRun(s);
      if n == 0 then
        var rest := DropLongNumbers(s[1..]);
        SolidAppend([s[0]], s[1..]);
        SolidAppend([s[0]], rest);
        NoLongNumberCons(s[0], rest);
        [s[0]] + rest
      else if n >= 4 then
        SolidSkip(s, n);
        DropLongNumbers(s[n..])
      else
        var rest := DropLongNumbers(s[n..]);
        assert n < |s| ==> DigitRun(s[n..]) == 0;
        SolidSkip(s, n);
        SolidAppend(s[..n], rest);
        SolidOfErasable(s[..n]);
        NoLongNumberShort(s[..n], rest);
        s[..n] + rest
  }

  /** A text with no four digits in a row is left as it is. */
  lemma {:induction false} DropLongNumbersFixed(s: string)
    requires NoLongNumber(s)
    ensures DropLongNumbers(s) == s
    decreases |s|
  {
    if s != [] {
      var n := DigitRun(s);
      assert |s| >= 4 ==> !FourDigitsAt(s, 0);
      assert n < 4;
      if n == 0 {
        NoLongNumberSuffix(s, 1);
        DropLongNumbersFixed(s[1..]);
      } else {
        NoLongNumberSuffix(s, n);
        DropLongNumbersFixed(s[n..]);
        assert s == s[..n] + s[n..];
      }
    }
  }

  /**
   * `re.sub(r'#\d+', '', s)`: a '#' followed by digits is removed with all
   * those digits. What is left has no '#' followed by a digit, and every
   * character other than '#' and the digits is kept, in order.
   */
  function DropHashNumbers(s: string): (r: string)
    ensures forall c :: c in r ==> c in s
    ensures NoHashNumber(r)
    ensures Solid(r) == Solid(s)
    ensures r != [] && IsDigit(r[0]) ==> |s| > 0 && IsDigit(s[0])
    decreases |s|
  {
    if s == [] then []
    else if s[0] == '#' && |s| > 1 && IsDigit(s[1]) then
      var n := 1 + DigitRun(s[1..]);
      SolidSkip(s, n);
      DropHashNumbers(s[n..])
    else
      var rest := DropHashNumbers(s[1..]);
      SolidAppend([s[0]], s[1..]);
      SolidAppend([s[0]], rest);
      NoHashNumberCons(s[0], rest);
      [s[0]] + rest
  }

  /** A text in which no '#' is followed by a digit is left as it is. */
  lemma {:induction false} DropHashNumbersFixed(s: string)
    requires NoHashNumber(s)
    ensures DropHashNumbers(s) == s
    decreases |s|
  {
    if s != [] {
      assert |s| >= 2 ==> !HashDigitAt(s, 0);
      NoHashNumberSuffix(s, 1);
      DropHashNumbersFixed(s[1..]);
    }
  }

  /** `re.sub(r'[*#]', '', s)`. */
  function DropMarks(s: string): (r: string)
    ensures forall c :: c in r ==> c in s && c != '*' && c != '#'
    ensures Solid(r) == Solid(s)
    ensures (forall i :: 0 <= i < |s| ==> s[i] != '*' && s[i] != '#') ==> r == s
    decreases |s|
  {
    if s == [] then []
    else
      var rest := DropMarks(s[1..]);
      SolidAppend([s[0]], s[1..]);
      if s[0] == '*' || s[0] == '#' then rest
      else
        SolidAppend([s[0]], rest);
        [s[0]] + rest
  }

  predicate NoDoubleSpace(s: string) {
    forall i :: 0 <= i < |s| - 1 ==> !(IsSpace(s[i]) && IsSpace(s[i + 1]))
  }

  /**
   * `re.sub(r'\s{2,}', ' ', s)`: runs of two or more whitespace characters
   * become one space. Only whitespace changes, and a text without two
   * whitespace characters in a row is left as it is.
   */
  function CollapseSpaces(s: string): (r: string)
    ensures NoDoubleSpace(r)
    ensures |r| > 0 && IsSpace(r[0]) ==> |s| > 0 && IsSpace(s[0])
    ensures forall c :: c in r ==> c == ' ' || c in s
    ensures Solid(r) == Solid(s)
    ensures NoDoubleSpace(s) ==> r == s
    decreases |s|
  {
    if s == [] then []
    else
      var w := Lead(s);
      if w >= 2 then
        var rest := CollapseSpaces(s[w..]);
        SolidSkip(s, w);
        SolidAppend(" ", rest);
        " " + rest
      else
        var rest := CollapseSpaces(s[1..]);
        assert NoDoubleSpace(s) ==> NoDoubleSpace(s[1..]);
        SolidAppend([s[0]], s[1..]);
        SolidAppend([s[0]], rest);
        [s[0]] + rest
  }

  lemma StripKeepsNoDoubleSpace(s: string)
    requires NoDoubleSpace(s)
    ensures NoDoubleSpace(Strip(s))
    ensures forall c :: c in Strip(s) ==> c in s
  {
    var a := Lead(s);
    if a < |s| {
      var t := s[a..|s| - Trail(s)];
      assert forall i :: 0 <= i < |t| ==> t[i] == s[a + i];
    }
  }

  /** Dropping erasable characters from the end leaves the solid part alone. */
  lemma SolidDropLast(s: string, n: nat)
    requires n <= |s| && forall i :: |s| - n <= i < |s| ==> Erasable(s[i])
    ensures Solid(s) == Solid(s[..|s| - n])
  {
    var m := |s| - n;
    assert s == s[..m] + s[m..];
    SolidAppend(s[..m], s[m..]);
    SolidOfErasable(s[m..]);
  }

  /** Stripping drops only whitespace. */
  lemma StripSolid(s: string)
    ensures Solid(Strip(s)) == Solid(s)
  {
    var a := Lead(s);
    SolidSkip(s, a);
    if a < |s| {
      var t := s[a..];
      var n := Trail(s);
      assert forall i :: |t| - n <= i < |t| ==> t[i] == s[a + i];
      SolidDropLast(t, n);
      assert t[..|t| - n] == s[a..|s| - n];
    }
  }

  /** A text without whitespace at either end is its own strip. */
  lemma StripFixed(s: string)
    requires s == [] || (!IsSpace(s[0]) && !IsSpace(s[|s| - 1]))
    ensures Strip(s) == s
  {
    if s != [] {
      assert Lead(s) == 0 && Trail(s) == 0;
    }
  }

  /**
   * `normalize_description`: uppercase, drop long numbers and `#123`
   * references, drop '*' and '#', collapse whitespace, strip.
   */
  function NormalizeDescription(desc: string): (r: string)
    ensures forall c :: c in r ==> c != '*' && c != '#' && !IsLowerLetter(c)
    ensures r == [] || (!IsSpace(r[0]) && !IsSpace(r[|r| - 1]))
    ensures NoDoubleSpace(r)
  {
    var u := Upper(desc);
    var m := DropMarks(DropHashNumbers(DropLongNumbers(u)));
    var c := CollapseSpaces(m);
    StripKeepsNoDoubleSpace(c);
    Strip(c)
  }

  /**
   * Every character of the upper-cased text other than digits, whitespace,
   * '*' and '#' survives normalisation, in order; the only character
   * normalisation brings in is a space.
   */
  lemma NormalizeKeeps(desc: string)
    ensures Solid(NormalizeDescription(desc)) == Solid(Upper(desc))
    ensures forall c :: c in NormalizeDescription(desc) ==> c == ' ' || c in Upper(desc)
  {
    var c := CollapseSpaces(DropMarks(DropHashNumbers(DropLongNumbers(Upper(desc)))));
    StripSolid(c);
  }

  /** A description already in normal form. */
  predicate Normalized(s: string) {
    (forall i :: 0 <= i < |s| ==> !IsLowerLetter(s[i]) && s[i] != '*' && s[i] != '#') &&
    NoLongNumber(s) && NoDoubleSpace(s) && (s == [] || (!IsSpace(s[0]) && !IsSpace(s[|s| - 1])))
  }

  /** Normalising a description already in normal form changes nothing. */
  lemma NormalizeFixed(s: string)
    requires Normalized(s)
    ensures NormalizeDescription(s) == s
  {
    UpperFixed(s);
    DropLongNumbersFixed(s);
    DropHashNumbersFixed(s);
    var m := DropMarks(s);
    assert m == s;
    var c := CollapseSpaces(m);
    assert c == s;
    StripFixed(s);
  }

  lemma UpperFixed(s: string)
    requires forall i :: 0 <= i < |s| ==> !IsLowerLetter(s[i])
    ensures Upper(s) == s
  {
    forall i | 0 <= i < |s| ensures Upper(s)[i] == s[i] {
      assert !IsLowerLetter(s[i]);
    }
  }

  /**
   * The long-number rule runs before the marks are dropped, so digit runs
   * of at most three on both sides of a '*' are kept and meet afterwards:
   * `12*34` becomes `1234`, four digits in a row.
   */
  lemma NormalizeJoinsDigits(a: string, b: string)
    requires |a| <= 3 && |b| <= 3
    requires forall i :: 0 <= i < |a| ==> IsDigit(a[i])
    requires forall i :: 0 <= i < |b| ==> IsDigit(b[i])
    ensures NormalizeDescription(a + "*" + b) == a + b
  {
    var s := a + "*" + b;
    StarSplitsDigits(a, b);
    UpperFixed(s);
    DropLongNumbersFixed(s);
    DropHashNumbersFixed(s);
    DropMarksAppend(a + "*", b);
    DropMarksAppend(a, "*");
    assert DropMarks("*") == [];
    assert a + [] == a;
    var m := DropMarks(DropHashNumbers(DropLongNumbers(Upper(s))));
    assert m == a + b;
    DigitsStay(a + b);
    assert NormalizeDescription(s) == Strip(CollapseSpaces(m));
  }

  /** Short digit runs on both sides of a '*': no four digits in a row, no '#', no letter. */
  lemma StarSplitsDigits(a: string, b: string)
    requires |a| <= 3 && |b| <= 3
    requires forall i :: 0 <= i < |a| ==> IsDigit(a[i])
    requires forall i :: 0 <= i < |b| ==> IsDigit(b[i])
    ensures var s := a + "*" + b;
      NoLongNumber(s) && NoHashNumber(s) && forall i :: 0 <= i < |s| ==> !IsLowerLetter(s[i])
    ensures DropMarks(a) == a && DropMarks(b) == b
  {
    var s := a + "*" + b;
    assert forall i :: 0 <= i < |s| ==> s[i] == '*' || IsDigit(s[i]);
    forall i: nat | i + 4 <= |s| ensures !FourDigitsAt(s, i) {
      assert s[|a|] == '*';
      assert i <= |a| <= i + 3;
    }
  }

  /** Collapsing and stripping leave a text of digits alone. */
  lemma DigitsStay(t: string)
    requires forall i :: 0 <= i < |t| ==> IsDigit(t[i])
    ensures Strip(CollapseSpaces(t)) == t
  {
    assert NoDoubleSpace(t);
    if t != [] {
      assert IsDigit(t[0]) && IsDigit(t[|t| - 1]);
    }
    StripFixed(t);
  }

  lemma {:induction false} DropMarksAppend(a: string, b: string)
    ensures DropMarks(a + b) == DropMarks(a) + DropMarks(b)
    decreases |a|
  {
    if a == [] {
      assert a + b == b;
    } else {
      assert (a + b)[0] == a[0];
      assert (a + b)[1..] == a[1..] + b;
      DropMarksAppend(a[1..], b);
    }
  }

  /** `compute_dedup_key`: `account:date:cents`. */
  function DedupKey(accountId: string, date: string, amount: Cents): string {
    accountId + ":" + date + ":" + IntToString(amount)
  }

  /** The part of `s` after its last ':' (all of `s` when there is none). */
  function AfterLastColon(s: string): (r: string)
    ensures |r| <= |s|
    decreases |s|
  {
    if s == [] then []
    else if s[|s| - 1] == ':' then []
    else AfterLastColon(s[..|s| - 1]) + [s[|s| - 1]]
  }

  lemma {:induction false} AfterLastColonOfSuffix(p: string, t: string)
    requires forall i :: 0 <= i < |t| ==> t[i] != ':'
    ensures AfterLastColon(p + ":" + t) == t
    decreases |t|
  {
    var s := p + ":" + t;
    if t != [] {
      var t' := t[..|t| - 1];
      assert s[..|s| - 1] == p + ":" + t';
      AfterLastColonOfSuffix(p, t');
      assert t == t' + [t[|t| - 1]];
    } else {
      assert s[|s| - 1] == ':';
    }
  }

  /** The amount in cents can be read back from the last field of a dedup key. */
  lemma DedupKeyAmount(accountId: string, date: string, amount: Cents)
    ensures ParseInt(AfterLastColon(DedupKey(accountId, date, amount))) == Some(amount)
  {
    AfterLastColonOfSuffix(accountId + ":" + date, IntToString(amount));
    IntToStringRoundTrip(amount);
  }

  /** The dedup key of the source's own example. */
  lemma DedupKeyExample()
    ensures DedupKey("wf-checking", "2026-01-15", -5000) == "wf-checking:2026-01-15:-5000"
  {
    assert NatToString(5000) == "5000" by {
      assert NatToString(5) == "5";
      assert NatToString(50) == "50";
      assert NatToString(500) == "500";
    }
  }

  /**
   * The text `compute_import_hash` hashes: `account|date|amount(2dp)|desc`.
   * SHA-256 is taken to be collision free, so the model uses this text
   * itself as the hash.
   */
  function ImportHash(accountId: string, date: string, amount: Cents, rawDescription: string): string {
    accountId + "|" + date + "|" + FormatCents(amount) + "|" + rawDescription
  }

  lemma ConcatAssoc(a: string, b: string, c: string)
    ensures a + (b + c) == a + b + c
  {
  }

  lemma SameMiddle(p: string, m: string, m': string, q: string)
    requires p + m + q == p + m' + q
    ensures m == m'
  {
    var x := p + m + q;
    assert |m| == |m'|;
    assert m == x[|p|..|p| + |m|];
    assert m' == x[|p|..|p| + |m|];
  }

  /** With account, date and description fixed, distinct amounts give distinct import hashes. */
  lemma ImportHashSeparatesAmounts(accountId: string, date: string, a: Cents, b: Cents, desc: string)
    requires ImportHash(accountId, date, a, desc) == ImportHash(accountId, date, b, desc)
    ensures a == b
  {
    var p := accountId + "|" + date + "|";
    var q := "|" + desc;
    ConcatAssoc(p + FormatCents(a), "|", desc);
    ConcatAssoc(p + FormatCents(b), "|", desc);
    SameMiddle(p, FormatCents(a), FormatCents(b), q);
    FormatCentsInjective(a, b);
  }

  /** `parse_ofx_date`: YYYY-MM-DD from the first eight characters when they are all digits. */
  function ParseOfxDate(dtposted: string): (r: Option<string>)
    ensures r.Some? <==> |dtposted| >= 8 && AllDigits(dtposted[..8])
    ensures r.Some? ==> |r.value| == 10 && r.value[4] == '-' && r.value[7] == '-'
    ensures r.Some? ==> r.value[..4] + r.value[5..7] + r.value[8..] == dtposted[..8]
  {
    if |dtposted| < 8 then None
    else
      var d := dtposted[..8];
      if !AllDigits(d) then None
      else Some(d[..4] + "-" + d[4..6] + "-" + d[6..8])
  }

  /**
   * One data row of a `csv.DictReader`: column name to cell text. A short
   * row's missing cells, which the reader fills with `None`, are not held.
   */
  type Row = Dict<string, string>

  /** `row.get(column, "").strip()`. */
  function Cell(row: Row, column: string): (r: string)
    ensures r == [] || (!IsSpace(r[0]) && !IsSpace(r[|r| - 1]))
    ensures column !in Keys(row) ==> r == ""
  {
    GetSome(row, column);
    Strip(Get(row, column).GetOr(""))
  }

  /** `text or None`: an empty cell stands for a missing value. */
  function OrNone(text: string): (r: Option<string>)
    ensures r.None? <==> text == ""
    ensures r.Some? ==> r.value == text
  {
    if text == "" then None else Some(text)
  }

  // ── Dates of three digit runs ──────────────────────────

  lemma DigitsNoDash(s: string)
    requires AllDigits(s)
    ensures '-' !in s && '/' !in s
  {
    assert forall i :: 0 <= i < |s| ==> s[i] != '-' && s[i] != '/';
  }

  lemma JoinOn3(a: string, b: string, c: string, sep: char)
    ensures JoinOn([a, b, c], sep) == a + [sep] + b + [sep] + c
  {
    assert [a, b, c][1..] == [b, c];
    assert [b, c][1..] == [c];
    assert JoinOn([b, c], sep) == b + [sep] + c;
  }

  /** Three digit runs joined by a separator split back into themselves. */
  lemma SplitDigits(a: string, b: string, c: string, sep: char)
    requires AllDigits(a) && AllDigits(b) && AllDigits(c)
    requires sep == '-' || sep == '/'
    ensures SplitOn(a + [sep] + b + [sep] + c, sep) == [a, b, c]
  {
    DigitsNoDash(a);
    DigitsNoDash(b);
    DigitsNoDash(c);
    JoinOnSplit([a, b, c], sep);
    JoinOn3(a, b, c, sep);
  }
}

=== FILE: budget_app.dfy ===
/**
 * The budget-app register export: one CSV row per transaction with the
 * account and category given by name, separate Outflow and Inflow columns
 * in dollars ("$1,477.40") and M/D/YYYY dates. Rows are mapped to internal
 * account ids and categories through two caller-supplied maps; rows that
 * cannot be read are counted, not returned.
 */
module BudgetApp {
  import opened Wrappers
  import opened Text
  import opened Models
  import opened Dicts
  import opened ParserBase

  // ── Cells ──────────────────────────────────────────────

  /**
   * `_parse_date`: M/D/YYYY with three all-digit parts becomes
   * YYYY-MM-DD, the month and day padded to two digits.
   */
  function ParseDate(s: string): (r: Option<string>)
    ensures r.Some? ==> (
      var out := SplitOn(r.value, '-');
      |out| == 3 && AllDigits(out[0]) && AllDigits(out[1]) && AllDigits(out[2]) &&
      |out[1]| >= 2 && |out[2]| >= 2)
  {
    var parts := SplitOn(s, '/');
    if |parts| == 3 && AllDigits(parts[0]) && AllDigits(parts[1]) && AllDigits(parts[2]) then
      ZFill2Digits(parts[0]);
      ZFill2Digits(parts[1]);
      SplitDigits(parts[2], ZFill2(parts[0]), ZFill2(parts[1]), '-');
      Some(parts[2] + "-" + ZFill2(parts[0]) + "-" + ZFill2(parts[1]))
    else None
  }

  lemma ZFill2Digits(s: string)
    requires AllDigits(s)
    ensures AllDigits(ZFill2(s))
  {
    var r := ZFill2(s);
    forall i | 0 <= i < |r| ensures IsDigit(r[i]) {
      if i >= |r| - |s| {
        assert r[i] == s[i - (|r| - |s|)];
      }
    }
  }

  /** Every M/D/YYYY date with digit parts is read, whatever the widths of its parts. */
  lemma ParseDateOf(m: string, d: string, y: string)
    requires AllDigits(m) && AllDigits(d) && AllDigits(y)
    ensures ParseDate(m + "/" + d + "/" + y) == Some(y + "-" + ZFill2(m) + "-" + ZFill2(d))
  {
    SplitDigits(m, d, y, '/');
  }

  /** Only such dates are read: a text that parses is three digit runs joined by '/'. */
  lemma ParseDateForm(s: string)
    requires ParseDate(s).Some?
    ensures var p := SplitOn(s, '/');
      |p| == 3 && AllDigits(p[0]) && AllDigits(p[1]) && AllDigits(p[2]) && s == p[0] + "/" + p[1] + "/" + p[2]
  {
    SplitOnJoin(s, '/');
    var p := SplitOn(s, '/');
    assert p == [p[0], p[1], p[2]];
    JoinOn3(p[0], p[1], p[2], '/');
  }

  /** The text `clean` reads: the cell with '$' and ',' removed. */
  function CleanText(s: string): string {
    Remove(Remove(s, '$'), ',')
  }

  /**
   * `clean`: the cleaned text read as dollars, a blank one as zero (the
   * source strips before `float`, which ignores surrounding whitespace).
   */
  function CleanAmount(s: string): Option<Cents> {
    var t := CleanText(s);
    if Strip(t) == "" then Some(0) else ParseCents(t)
  }

  /** `_parse_amount`: the signed amount inflow − outflow; None when either cell is unreadable. */
  function ParseAmount(outflow: string, inflow: string): (r: Option<Cents>)
    ensures r.Some? <==> CleanAmount(outflow).Some? && CleanAmount(inflow).Some?
    ensures r.Some? ==> r.value == CleanAmount(inflow).value - CleanAmount(outflow).value
  {
    var i := CleanAmount(inflow);
    var o := CleanAmount(outflow);
    if i.Some? && o.Some? then Some(i.value - o.value) else None
  }

  /** A dollar amount written as `$whole.cc` is read back as its cents. */
  lemma CleanAmountOf(m: nat)
    ensures CleanAmount("$" + CentsText(m)) == Some(m)
  {
    CentsTextChars(m);
    ParseCentsText(m);
    CleanDollar(CentsText(m), m);
  }

  lemma CleanDollar(t: string, m: nat)
    requires '$' !in t && ',' !in t && |t| > 0 && IsDigit(t[0]) && !IsSpace(t[|t| - 1])
    requires ParseUnsignedCents(t) == Some(m)
    ensures CleanAmount("$" + t) == Some(m)
  {
    DropDollar(t);
    StripNoSpaceEnds(t);
    UnsignedCents(t);
  }

  lemma DropDollar(t: string)
    requires '$' !in t && ',' !in t
    ensures CleanText("$" + t) == t
  {
    RemoveAppend("$", t, '$');
    assert Remove("$", '$') == [];
    RemoveAbsent(t, '$');
    assert Remove("$" + t, '$') == t;
    RemoveAbsent(t, ',');
  }

  lemma UnsignedCents(t: string)
    requires |t| > 0 && IsDigit(t[0]) && !IsSpace(t[|t| - 1])
    ensures ParseCents(t) == match ParseUnsignedCents(t) case Some(v) => Some(v as int) case None => None
  {
    StripNoSpaceEnds(t);
  }

  lemma CentsTextChars(m: nat)
    ensures var t := CentsText(m); '$' !in t && ',' !in t && |t| > 0 && !IsSpace(t[0]) && !IsSpace(t[|t| - 1])
    ensures IsDigit(CentsText(m)[0])
  {
    var t := CentsText(m);
    var w := NatToString(m / 100);
    var f := TwoDigits(m % 100);
    assert t == w + "." + f;
    assert forall i :: 0 <= i < |t| ==> t[i] == '.' || IsDigit(t[i]) by {
      forall i | 0 <= i < |t| ensures t[i] == '.' || IsDigit(t[i]) {
        if i < |w| {
          assert t[i] == w[i];
        } else if i > |w| {
          assert t[i] == f[i - |w| - 1];
        }
      }
    }
  }

  /** An outflow alone gives a negative amount. */
  lemma OutflowOnly(outflow: nat)
    ensures ParseAmount("$" + CentsText(outflow), "") == Some(-(outflow as int))
  {
    CleanAmountOf(outflow);
    CleanEmpty();
    Difference("$" + CentsText(outflow), "", outflow, 0);
  }

  /** An inflow alone gives a positive amount. */
  lemma InflowOnly(inflow: nat)
    ensures ParseAmount("", "$" + CentsText(inflow)) == Some(inflow as int)
  {
    CleanAmountOf(inflow);
    CleanEmpty();
    Difference("", "$" + CentsText(inflow), 0, inflow);
  }

  /** Both cells give their difference, inflow minus outflow. */
  lemma InflowMinusOutflow(outflow: nat, inflow: nat)
    ensures ParseAmount("$" + CentsText(outflow), "$" + CentsText(inflow)) == Some(inflow - outflow)
  {
    CleanAmountOf(outflow);
    CleanAmountOf(inflow);
    Difference("$" + CentsText(outflow), "$" + CentsText(inflow), outflow, inflow);
  }

  lemma CleanEmpty()
    ensures CleanAmount("") == Some(0)
  {
    assert Remove("", '$') == "" && Remove("", ',') == "";
    assert CleanText("") == "";
    assert Strip("") == "";
  }

  lemma Difference(outflow: string, inflow: string, o: int, i: int)
    requires CleanAmount(outflow) == Some(o) && CleanAmount(inflow) == Some(i)
    ensures ParseAmount(outflow, inflow) == Some(i - o)
  {
  }

  /** `_is_transfer`: the payee names a transfer ("Transfer : …" or "Transfer :…"). */
  function IsTransfer(payee: string): (r: bool)
    ensures r <==> StartsWith(payee, "Transfer :")
  {
    assert StartsWith(payee, "Transfer : ") ==> payee[..|"Transfer :"|] == payee[..|"Transfer : "|][..|"Transfer :"|];
    StartsWith(payee, "Transfer : ") || StartsWith(payee, "Transfer :")
  }

  // ── Rows ───────────────────────────────────────────────

  /** The account name of a row has no mapping. */
  predicate Unmapped(routing: Dict<string, string>, row: Row) {
    Get(routing, Cell(row, "Account")).None?
  }

  /**
   * `_parse_row`: None for an unmapped account, an empty or unreadable
   * date, or an unreadable amount; otherwise the payee is the description,
   * a "Transfer :" payee gives type TRANSFER, the category is looked up by
   * its "Group/Category" name, and there is never an external id.
   */
  function RowTransaction(categoryMap: Dict<string, string>, routing: Dict<string, string>, row: Row)
    : (r: Option<RawTransaction>)
    ensures r.Some? <==> (!Unmapped(routing, row) && Cell(row, "Date") != "" &&
                          ParseDate(Cell(row, "Date")).Some? &&
                          ParseAmount(Cell(row, "Outflow"), Cell(row, "Inflow")).Some?)
    ensures r.Some? ==> (
      r.value.accountId == Get(routing, Cell(row, "Account")).value &&
      r.value.date == ParseDate(Cell(row, "Date")).value &&
      r.value.amount == ParseAmount(Cell(row, "Outflow"), Cell(row, "Inflow")).value)
    ensures r.Some? ==> (
      r.value.rawDescription == Cell(row, "Payee") &&
      (r.value.txnType.Some? <==> IsTransfer(Cell(row, "Payee"))) &&
      (r.value.txnType.Some? ==> r.value.txnType.value == "TRANSFER") &&
      r.value.externalId.None? && r.value.balance.None? && r.value.checkNum.None? &&
      r.value.memo == OrNone(Cell(row, "Memo")) &&
      r.value.budgetAppCategoryId == Get(categoryMap, Cell(row, "Category Group/Category")))
  {
    match Get(routing, Cell(row, "Account"))
    case None => None
    case Some(accountId) =>
      var dateText := Cell(row, "Date");
      if dateText == "" then None
      else
        match ParseDate(dateText)
        case None => None
        case Some(date) =>
          match ParseAmount(Cell(row, "Outflow"), Cell(row, "Inflow"))
          case None => None
          case Some(amount) =>
            var payee := Cell(row, "Payee");
            Some(RawTransaction(date, amount, payee, accountId, OrNone(Cell(row, "Memo")),
                                if IsTransfer(payee) then Some("TRANSFER") else None,
                                None, None, None,
                                Get(categoryMap, Cell(row, "Category Group/Category"))))
  }

  /** The names `_parse_row` warns about for one row: a non-empty unmapped account name. */
  function Warned(routing: Dict<string, string>, row: Row): (r: set<string>)
    ensures r == {} || r == {Cell(row, "Account")}
    ensures "" !in r
  {
    if Unmapped(routing, row) && Cell(row, "Account") != "" then {Cell(row, "Account")} else {}
  }

  // ── The file ───────────────────────────────────────────

  /** The transactions `parse` returns for the data rows, in row order. */
  function Parsed(categoryMap: Dict<string, string>, routing: Dict<string, string>, rows: seq<Row>)
    : (r: seq<RawTransaction>)
    ensures |r| <= |rows|
  {
    if rows == [] then []
    else
      var t := RowTransaction(categoryMap, routing, rows[|rows| - 1]);
      Parsed(categoryMap, routing, rows[..|rows| - 1]) + (if t.Some? then [t.value] else [])
  }

  /** The number of rows `parse` skips. */
  function Skipped(categoryMap: Dict<string, string>, routing: Dict<string, string>, rows: seq<Row>): nat {
    if rows == [] then 0
    else
      Skipped(categoryMap, routing, rows[..|rows| - 1]) +
      (if RowTransaction(categoryMap, routing, rows[|rows| - 1]).None? then 1 else 0)
  }

  /** The account names warned about once the rows are read, starting from those in `seen`. */
  function WarnedAfter(seen: set<string>, routing: Dict<string, string>, rows: seq<Row>): (r: set<string>)
    ensures seen <= r
    ensures forall name :: name in r && name !in seen ==> name != ""
  {
    if rows == [] then seen
    else WarnedAfter(seen, routing, rows[..|rows| - 1]) + Warned(routing, rows[|rows| - 1])
  }

  lemma ParsedStep(categoryMap: Dict<string, string>, routing: Dict<string, string>, rows: seq<Row>, i: nat)
    requires i < |rows|
    ensures var t := RowTransaction(categoryMap, routing, rows[i]);
      Parsed(categoryMap, routing, rows[..i + 1]) ==
        Parsed(categoryMap, routing, rows[..i]) + (if t.Some? then [t.value] else []) &&
      Skipped(categoryMap, routing, rows[..i + 1]) ==
        Skipped(categoryMap, routing, rows[..i]) + (if t.None? then 1 else 0) &&
      forall seen :: WarnedAfter(seen, routing, rows[..i + 1]) == WarnedAfter(seen, routing, rows[..i]) + Warned(routing, rows[i])
  {
    assert rows[..i + 1][..i] == rows[..i];
  }

  /** Every data row is either returned or counted as skipped. */
  lemma {:induction false} ParsedAccounting(categoryMap: Dict<string, string>, routing: Dict<string, string>,
                                            rows: seq<Row>)
    ensures |Parsed(categoryMap, routing, rows)| + Skipped(categoryMap, routing, rows) == |rows|
  {
    if rows != [] {
      ParsedAccounting(categoryMap, routing, rows[..|rows| - 1]);
    }
  }

  /** Reading two runs of rows one after the other returns the two results concatenated. */
  lemma {:induction false} ParsedAppend(categoryMap: Dict<string, string>, routing: Dict<string, string>,
                                        a: seq<Row>, b: seq<Row>)
    ensures Parsed(categoryMap, routing, a + b) == Parsed(categoryMap, routing, a) + Parsed(categoryMap, routing, b)
    decreases |b|
  {
    if b == [] {
      assert a + b == a;
    } else {
      assert (a + b)[..|a + b| - 1] == a + b[..|b| - 1];
      ParsedAppend(categoryMap, routing, a, b[..|b| - 1]);
    }
  }

  /** The row a returned transaction was read from. */
  lemma {:induction false} ParsedOrigin(categoryMap: Dict<string, string>, routing: Dict<string, string>,
                                        rows: seq<Row>, t: RawTransaction) returns (i: nat)
    requires t in Parsed(categoryMap, routing, rows)
    ensures i < |rows| && RowTransaction(categoryMap, routing, rows[i]) == Some(t)
  {
    var init := rows[..|rows| - 1];
    if t in Parsed(categoryMap, routing, init) {
      i := ParsedOrigin(categoryMap, routing, init, t);
      assert rows[i] == init[i];
    } else {
      i := |rows| - 1;
    }
  }

  /** Every returned transaction is the reading of some row, and all carry a mapped account id. */
  lemma ParsedSound(categoryMap: Dict<string, string>, routing: Dict<string, string>,
                    rows: seq<Row>, t: RawTransaction)
    requires t in Parsed(categoryMap, routing, rows)
    ensures exists i :: 0 <= i < |rows| && RowTransaction(categoryMap, routing, rows[i]) == Some(t)
    ensures exists j :: 0 <= j < |routing| && routing[j].1 == t.accountId
  {
    var i := ParsedOrigin(categoryMap, routing, rows, t);
    var name := Cell(rows[i], "Account");
    GetIn(routing, name);
    assert (name, t.accountId) in routing;
  }

  /**
   * `BudgetAppCsvParser`: the two maps are fixed at construction;
   * `skippedCount` is reset by every `parse`, while the set of account
   * names already warned about lives as long as the parser.
   */
  class BudgetAppCsvParser {
    const categoryMap: Dict<string, string>
    const accountRouting: Dict<string, string>
    var skippedCount: nat
    var warnedAccounts: set<string>

    constructor (categoryMap: Dict<string, string>, accountRouting: Dict<string, string>)
      ensures this.categoryMap == categoryMap && this.accountRouting == accountRouting
      ensures skippedCount == 0 && warnedAccounts == {}
    {
      this.categoryMap := categoryMap;
      this.accountRouting := accountRouting;
      skippedCount := 0;
      warnedAccounts := {};
    }

    /** `_parse_row`, which also remembers an unmapped account name it has warned about. */
    method ParseRow(row: Row) returns (r: Option<RawTransaction>)
      modifies this
      ensures r == RowTransaction(categoryMap, accountRouting, row)
      ensures warnedAccounts == old(warnedAccounts) + Warned(accountRouting, row)
      ensures skippedCount == old(skippedCount)
    {
      var accountName := Cell(row, "Account");
      if Get(accountRouting, accountName).None? {
        if accountName != "" && accountName !in warnedAccounts {
          warnedAccounts := warnedAccounts + {accountName};
        }
        return None;
      }
      r := RowTransaction(categoryMap, accountRouting, row);
    }

    /**
     * `parse` over the data rows of a file: the readable rows in order,
     * with `skippedCount` the number of the others.
     */
    method Parse(rows: seq<Row>) returns (txns: seq<RawTransaction>)
      modifies this
      ensures txns == Parsed(categoryMap, accountRouting, rows)
      ensures skippedCount == Skipped(categoryMap, accountRouting, rows)
      ensures |txns| + skippedCount == |rows|
      ensures warnedAccounts == WarnedAfter(old(warnedAccounts), accountRouting, rows)
    {
      txns := [];
      skippedCount := 0;
      var i := 0;
      while i < |rows|
        invariant 0 <= i <= |rows|
        invariant txns == Parsed(categoryMap, accountRouting, rows[..i])
        invariant skippedCount == Skipped(categoryMap, accountRouting, rows[..i])
        invariant warnedAccounts == WarnedAfter(old(warnedAccounts), accountRouting, rows[..i])
      {
        ParsedStep(categoryMap, accountRouting, rows, i);
        var t := ParseRow(rows[i]);
        if t.Some? {
          txns := txns + [t.value];
        } else {
          skippedCount := skippedCount + 1;
        }
        i := i + 1;
      }
      assert rows[..|rows|] == rows;
      ParsedAccounting(categoryMap, accountRouting, rows);
    }
  }
}

=== FILE: claude_ai.dfy ===
/**
 * Step 7 of the categorisation cascade: one transaction is put to the
 * language model, whose JSON reply is accepted only when it names a
 * category of the configured tree. The call itself is a parameter: its
 * reply text, or None when it raised.
 */
module ClaudeAi {
  import opened Wrappers
  import opened Text
  import opened Models
  import opened Config
  import opened Json
  import opened Repo

  /** Monthly spending cap on model calls, shared with receipt parsing. */
  const MonthlyBudgetCents: nat := 500
  /** Estimated cost of one categorisation call. */
  const CategorizeCostCents: nat := 2
  const CategorizeService: string := "claude_categorize"
  /** Confidence assumed when the reply's confidence is not a number. */
  const DefaultConfidence: real := 0.5

  datatype ClaudeCategorization = ClaudeCategorization(categoryId: string, confidence: real, reasoning: Json)

  // ── The category list ──────────────────────────────────

  /** Some node of the forest, at any depth, carries the id. */
  predicate InForest(nodes: seq<CategoryNode>, id: string)
    decreases nodes
  {
    exists i :: 0 <= i < |nodes| && InNode(nodes[i], id)
  }

  predicate InNode(n: CategoryNode, id: string)
    decreases n
  {
    n.id == id || InForest(n.children, id)
  }

  /**
   * `_build_category_list` / `_get_valid_category_ids`: the walk lists a
   * non-empty id exactly when some node of the tree carries it.
   */
  lemma {:induction false} TreeIdsMembers(nodes: seq<CategoryNode>, id: string)
    requires id != ""
    ensures id in TreeIds(nodes) <==> InForest(nodes, id)
    decreases nodes
  {
    if nodes != [] {
      NodeIdsMembers(nodes[0], id);
      TreeIdsMembers(nodes[1..], id);
      assert TreeIds(nodes) == NodeIds(nodes[0]) + TreeIds(nodes[1..]);
      if InForest(nodes, id) {
        var i :| 0 <= i < |nodes| && InNode(nodes[i], id);
        if i > 0 {
          assert nodes[1..][i - 1] == nodes[i];
        }
      }
      if InForest(nodes[1..], id) {
        var i :| 0 <= i < |nodes[1..]| && InNode(nodes[1..][i], id);
        assert nodes[i + 1] == nodes[1..][i];
      }
    }
  }

  lemma {:induction false} NodeIdsMembers(n: CategoryNode, id: string)
    requires id != ""
    ensures id in NodeIds(n) <==> InNode(n, id)
    decreases n
  {
    TreeIdsMembers(n.children, id);
  }

  /** A node with an id is listed before every id of its subtree (pre-order). */
  lemma NodeFirst(n: CategoryNode)
    requires n.id != ""
    ensures NodeIds(n) == [n.id] + TreeIds(n.children)
  {
  }

  /** `_build_category_list`: the ids of the tree in pre-order, comma separated. */
  function CategoryList(c: Config): (r: string)
    ensures TreeIds(c.categories) == [] ==> r == ""
  {
    JoinWith(", ", TreeIds(c.categories))
  }

  function JoinWith(sep: string, parts: seq<string>): string {
    if parts == [] then ""
    else if |parts| == 1 then parts[0]
    else parts[0] + sep + JoinWith(sep, parts[1..])
  }

  /** `_get_valid_category_ids`. */
  function ValidCategoryIds(c: Config): (r: set<string>)
    ensures forall id :: id in r <==> id in TreeIds(c.categories)
    ensures "" !in r
  {
    set i | 0 <= i < |TreeIds(c.categories)| :: TreeIds(c.categories)[i]
  }

  // ── The reply ──────────────────────────────────────────

  /** `max(0.0, min(1.0, x))`. */
  function Clamp(x: real): (r: real)
    ensures 0.0 <= r <= 1.0
    ensures 0.0 <= x <= 1.0 ==> r == x
    ensures x < 0.0 ==> r == 0.0
    ensures x > 1.0 ==> r == 1.0
  {
    if x < 0.0 then 0.0 else if x > 1.0 then 1.0 else x
  }

  /** The decoded reply is an object whose `category_id` is a usable category of the tree. */
  predicate Suggests(fields: seq<(string, Json)>, c: Config, id: string) {
    Field(fields, "category_id") == Some(JStr(id)) &&
    id != "uncategorized" && id in ValidCategoryIds(c)
  }

  /**
   * `_parse_response` (as reached from `categorize_single`, whose handler
   * turns the exception of a list or object category into None): a
   * suggestion only for a decoded object naming a valid category other
   * than "uncategorized", with its confidence read by `float` and clamped.
   */
  function ParseResponse(response: string, decode: string -> Option<Json>, c: Config): (r: Option<ClaudeCategorization>)
    ensures r.Some? ==> decode(StripFences(response)).Some? && decode(StripFences(response)).value.JObj?
    ensures r.Some? ==> Suggests(decode(StripFences(response)).value.fields, c, r.value.categoryId)
    ensures r.Some? ==> 0.0 <= r.value.confidence <= 1.0
    ensures (decode(StripFences(response)).Some? && decode(StripFences(response)).value.JObj? &&
             exists id :: Suggests(decode(StripFences(response)).value.fields, c, id)) ==> r.Some?
  {
    var d := decode(StripFences(response));
    if d.None? || !d.value.JObj? then None
    else
      var f := d.value.fields;
      var cat := Field(f, "category_id").GetOr(JStr(""));
      if !Truthy(cat) || cat == JStr("uncategorized") then None
      else if !cat.JStr? || cat.s !in ValidCategoryIds(c) then None
      else
        var conf := match Field(f, "confidence")
          case None => 0.0
          case Some(v) => ToReal(v).GetOr(DefaultConfidence);
        Some(ClaudeCategorization(cat.s, Clamp(conf), Field(f, "reasoning").GetOr(JStr(""))))
  }

  /**
   * The confidence of a suggestion: 0 when the reply gives none, 0.5 when
   * it is not a number, otherwise the number clamped to [0, 1].
   */
  lemma ParseResponseConfidence(response: string, decode: string -> Option<Json>, c: Config)
    requires ParseResponse(response, decode, c).Some?
    ensures var f := decode(StripFences(response)).value.fields;
      var conf := ParseResponse(response, decode, c).value.confidence;
      (Field(f, "confidence").None? ==> conf == 0.0) &&
      (Field(f, "confidence").Some? && ToReal(Field(f, "confidence").value).None? ==> conf == DefaultConfidence) &&
      (Field(f, "confidence").Some? && ToReal(Field(f, "confidence").value).Some? ==>
         conf == Clamp(ToReal(Field(f, "confidence").value).value))
  {
  }

  /** A reply that is not JSON, or not an object, or names no valid category gives nothing. */
  lemma ParseResponseRejects(response: string, decode: string -> Option<Json>, c: Config)
    ensures decode(StripFences(response)).None? ==> ParseResponse(response, decode, c).None?
    ensures decode(StripFences(response)).Some? && !decode(StripFences(response)).value.JObj? ==>
      ParseResponse(response, decode, c).None?
    ensures decode(StripFences(response)) == Some(JObj([("category_id", JStr("uncategorized"))])) ==>
      ParseResponse(response, decode, c).None?
  {
  }

  // ── categorize_single ──────────────────────────────────

  /** Whether `categorize_single` calls the model: a dated transaction under the monthly budget. */
  predicate Asks(usage: seq<ApiUsage>, txn: Transaction) {
    txn.date != "" && MonthlyCost(usage, MonthOf(txn.date)) < MonthlyBudgetCents as int
  }

  /**
   * `categorize_single`: no call for an undated transaction or once the
   * month's model spending reaches the cap; otherwise `reply` is the call's
   * outcome (None when it raised, which gives no result and records no
   * usage), and a returned reply records one request of 2 cents before it
   * is parsed. `asked` says whether the model was called.
   */
  method CategorizeSingle(repo: Repository, txn: Transaction, c: Config, reply: Option<string>,
                          decode: string -> Option<Json>, usageId: string)
    returns (r: Option<ClaudeCategorization>, asked: bool)
    requires repo.Valid()
    modifies repo
    ensures repo.Valid()
    ensures repo.imports == old(repo.imports) && repo.txns == old(repo.txns) && repo.allocs == old(repo.allocs)
    ensures repo.transfers == old(repo.transfers) && repo.receiptMatches == old(repo.receiptMatches)
    ensures asked <==> Asks(old(repo.usage), txn)
    ensures !asked || reply.None? ==> r.None? && repo.usage == old(repo.usage)
    ensures asked && reply.Some? ==>
      repo.usage == UsageUpsert(old(repo.usage), usageId, MonthOf(txn.date), CategorizeService, 1, 0, 0, CategorizeCostCents) &&
      r == ParseResponse(reply.value, decode, c)
  {
    var month := if txn.date != "" then MonthOf(txn.date) else "";
    if month == "" {
      return None, false;
    }
    var currentCost := MonthlyCost(repo.usage, month);
    if currentCost >= MonthlyBudgetCents {
      return None, false;
    }
    asked := true;
    if reply.None? {
      return None, asked;
    }
    repo.IncrementApiUsage(usageId, month, CategorizeService, 1, 0, 0, CategorizeCostCents);
    r := ParseResponse(reply.value, decode, c);
  }
}

=== FILE: cli.dfy ===
/**
 * The command-line tool's category commands (`momoney category add`,
 * `rename` and `move`) over the nested category tree of the categories
 * file, and the transfer link made while a budget-app export is imported.
 * A tree edit yields the tree that is written back to the file.
 */
module Cli {
  import opened Wrappers
  import opened Models
  import opened Repo
  import TransferDetect

  // ── The category tree ──────────────────────────────────

  /**
   * A category node as loaded from the YAML file. `listed` says whether the
   * node has a `children` key; without one its `children` are empty, as
   * `node.get("children", [])` reads them. The `is_leaf` flag may be absent.
   */
  datatype Node = Node(id: string, name: string, children: seq<Node>, listed: bool, isLeaf: Option<bool>)

  /** What a node says about itself: everything but its children, and how many children it lists. */
  datatype Label = Label(id: string, name: string, isLeaf: Option<bool>, childCount: Option<nat>)

  function LabelOf(n: Node): Label {
    Label(n.id, n.name, n.isLeaf, if n.listed then Some(|n.children|) else None)
  }

  /**
   * The tree in depth-first pre-order, one label per node. The labels
   * determine the tree, so two trees with the same labels are the same.
   */
  function Labels(ts: seq<Node>): seq<Label>
    decreases ts
  {
    if ts == [] then []
    else
      var kids := ts[0].children;
      [LabelOf(ts[0])] + Labels(kids) + Labels(ts[1..])
  }

  function IdsOf(ls: seq<Label>): (r: seq<string>)
    ensures |r| == |ls|
  {
    seq(|ls|, i requires 0 <= i < |ls| => ls[i].id)
  }

  /** Every id of the tree in pre-order. */
  function Ids(ts: seq<Node>): seq<string> {
    IdsOf(Labels(ts))
  }

  /** The ids of the top-level nodes of a list. */
  function TopIds(ts: seq<Node>): (r: seq<string>)
    ensures |r| == |ts|
  {
    seq(|ts|, i requires 0 <= i < |ts| => ts[i].id)
  }

  /** No id occurs twice. */
  ghost predicate Unique(ids: seq<string>) {
    forall x :: multiset(ids)[x] <= 1
  }

  /** Pieces of a sequence without repeats have no repeats and share nothing. */
  lemma UniqueParts(a: seq<string>, b: seq<string>, c: seq<string>)
    requires Unique(a + b + c)
    ensures Unique(a) && Unique(b) && Unique(c)
    ensures forall x :: x in a ==> x !in b && x !in c
    ensures forall x :: x in b ==> x !in c
  {
    assert multiset(a + b + c) == multiset(a) + multiset(b) + multiset(c);
    forall x
      ensures multiset(a)[x] + multiset(b)[x] + multiset(c)[x] <= 1
    {
      assert multiset(a + b + c)[x] <= 1;
    }
    forall x | x in a
      ensures x !in b && x !in c
    {
      assert x in multiset(a);
      assert multiset(a + b + c)[x] <= 1;
    }
    forall x | x in b
      ensures x !in c
    {
      assert x in multiset(b);
      assert multiset(a + b + c)[x] <= 1;
    }
  }

  lemma IdsOfAppend(a: seq<Label>, b: seq<Label>)
    ensures IdsOf(a + b) == IdsOf(a) + IdsOf(b)
  {
  }

  /** A list's labels: the first node, its subtree, then the rest of the list. */
  lemma LabelsCons(ts: seq<Node>)
    requires ts != []
    ensures Labels(ts) == [LabelOf(ts[0])] + Labels(ts[0].children) + Labels(ts[1..])
    ensures Ids(ts) == [ts[0].id] + Ids(ts[0].children) + Ids(ts[1..])
  {
    var head, kids, rest := [LabelOf(ts[0])], Labels(ts[0].children), Labels(ts[1..]);
    assert Labels(ts) == head + kids + rest;
    IdsOfAppend(head + kids, rest);
    IdsOfAppend(head, kids);
    assert IdsOf(head) == [ts[0].id];
  }

  /** The labels of one node: itself, then its subtree. */
  lemma LabelsOne(n: Node)
    ensures Labels([n]) == [LabelOf(n)] + Labels(n.children)
    ensures Ids([n]) == [n.id] + Ids(n.children)
  {
    LabelsCons([n]);
    assert [n][1..] == [];
  }

  /** Pre-order of two lists one after the other. */
  lemma {:induction false} LabelsAppend(a: seq<Node>, b: seq<Node>)
    ensures Labels(a + b) == Labels(a) + Labels(b)
    ensures Ids(a + b) == Ids(a) + Ids(b)
    decreases |a|
  {
    if a == [] {
      assert a + b == b;
    } else {
      LabelsCons(a + b);
      assert (a + b)[0] == a[0];
      assert (a + b)[1..] == a[1..] + b;
      LabelsAppend(a[1..], b);
      LabelsCons(a);
    }
    IdsOfAppend(Labels(a), Labels(b));
  }

  /** A top-level id is an id of the tree. */
  lemma {:induction false} TopIdsInIds(ts: seq<Node>, id: string)
    requires id in TopIds(ts)
    ensures id in Ids(ts)
    decreases |ts|
  {
    LabelsCons(ts);
    if ts[0].id != id {
      assert id in TopIds(ts[1..]) by {
        var i :| 0 <= i < |ts| && ts[i].id == id;
        assert TopIds(ts[1..])[i - 1] == id;
      }
      TopIdsInIds(ts[1..], id);
    }
  }

  // ── Finding nodes ──────────────────────────────────────

  /** `_find_node`: the first node carrying the id in depth-first pre-order. */
  function FindNode(ts: seq<Node>, id: string): (r: Option<Node>)
    ensures r.Some? ==> r.value.id == id
    ensures r.None? <==> id !in Ids(ts)
    decreases ts
  {
    if ts == [] then None
    else
      LabelsCons(ts);
      if ts[0].id == id then Some(ts[0])
      else
        var kids := ts[0].children;
        var found := if kids != [] then FindNode(kids, id) else None;
        if found.Some? then found else FindNode(ts[1..], id)
  }

  /**
   * The tree with the first node carrying the id, in pre-order, replaced
   * by `f` of it: an edit made in place on the node `_find_node` returns.
   */
  function Update(ts: seq<Node>, id: string, f: Node -> Node): (r: seq<Node>)
    ensures |r| == |ts|
    ensures id !in Ids(ts) ==> r == ts
    decreases ts
  {
    if ts == [] then []
    else
      LabelsCons(ts);
      var kids := ts[0].children;
      if ts[0].id == id then [f(ts[0])] + ts[1..]
      else if id in Ids(kids) then [ts[0].(children := Update(kids, id, f))] + ts[1..]
      else [ts[0]] + Update(ts[1..], id, f)
  }

  /** The labels in pre-order before the first node carrying the id. */
  function Before(ts: seq<Node>, id: string): seq<Label>
    requires id in Ids(ts)
    decreases ts
  {
    LabelsCons(ts);
    var kids := ts[0].children;
    if ts[0].id == id then []
    else if id in Ids(kids) then [LabelOf(ts[0])] + Before(kids, id)
    else [LabelOf(ts[0])] + Labels(kids) + Before(ts[1..], id)
  }

  /** The labels in pre-order after the subtree of the first node carrying the id. */
  function After(ts: seq<Node>, id: string): seq<Label>
    requires id in Ids(ts)
    decreases ts
  {
    LabelsCons(ts);
    var kids := ts[0].children;
    if ts[0].id == id then Labels(ts[1..])
    else if id in Ids(kids) then After(kids, id) + Labels(ts[1..])
    else After(ts[1..], id)
  }

  lemma Regroup(p: seq<Label>, b: seq<Label>, x: seq<Label>, a: seq<Label>, q: seq<Label>)
    ensures p + (b + x + a) + q == (p + b) + x + (a + q)
  {
  }

  lemma RegroupTail(p: seq<Label>, b: seq<Label>, x: seq<Label>, a: seq<Label>)
    ensures p + (b + x + a) == (p + b) + x + a
  {
  }

  /**
   * The tree reads as the labels before the first node carrying the id,
   * that node's subtree, and the labels after it; no earlier node carries
   * the id.
   */
  lemma {:induction false} Split(ts: seq<Node>, id: string)
    requires id in Ids(ts)
    ensures FindNode(ts, id).Some?
    ensures Labels(ts) == Before(ts, id) + Labels([FindNode(ts, id).value]) + After(ts, id)
    ensures id !in IdsOf(Before(ts, id))
    decreases ts, 1
  {
    LabelsCons(ts);
    if ts[0].id == id {
      LabelsOne(ts[0]);
      assert Before(ts, id) == [];
    } else if id in Ids(ts[0].children) {
      SplitBelow(ts, id);
    } else {
      SplitLater(ts, id);
    }
  }

  lemma {:induction false} SplitBelow(ts: seq<Node>, id: string)
    requires ts != [] && ts[0].id != id && id in Ids(ts[0].children)
    ensures FindNode(ts, id).Some?
    ensures Labels(ts) == Before(ts, id) + Labels([FindNode(ts, id).value]) + After(ts, id)
    ensures id !in IdsOf(Before(ts, id))
    decreases ts, 0
  {
    var n, kids, rest := ts[0], ts[0].children, ts[1..];
    LabelsCons(ts);
    Split(kids, id);
    assert FindNode(ts, id) == FindNode(kids, id);
    assert Before(ts, id) == [LabelOf(n)] + Before(kids, id);
    assert After(ts, id) == After(kids, id) + Labels(rest);
    Regroup([LabelOf(n)], Before(kids, id), Labels([FindNode(kids, id).value]), After(kids, id), Labels(rest));
    IdsOfAppend([LabelOf(n)], Before(kids, id));
  }

  lemma {:induction false} SplitLater(ts: seq<Node>, id: string)
    requires ts != [] && ts[0].id != id && id !in Ids(ts[0].children) && id in Ids(ts)
    ensures FindNode(ts, id).Some?
    ensures Labels(ts) == Before(ts, id) + Labels([FindNode(ts, id).value]) + After(ts, id)
    ensures id !in IdsOf(Before(ts, id))
    decreases ts, 0
  {
    var n, kids, rest := ts[0], ts[0].children, ts[1..];
    LabelsCons(ts);
    Split(rest, id);
    assert FindNode(ts, id) == FindNode(rest, id);
    assert Before(ts, id) == [LabelOf(n)] + Labels(kids) + Before(rest, id);
    assert After(ts, id) == After(rest, id);
    RegroupTail([LabelOf(n)] + Labels(kids), Before(rest, id), Labels([FindNode(rest, id).value]), After(rest, id));
    IdsOfAppend([LabelOf(n)] + Labels(kids), Before(rest, id));
    IdsOfAppend([LabelOf(n)], Labels(kids));
  }

  /**
   * An edit of the found node leaves the rest of the pre-order alone:
   * after it the same labels surround the edited subtree.
   */
  lemma {:induction false} Splice(ts: seq<Node>, id: string, f: Node -> Node)
    requires id in Ids(ts)
    ensures FindNode(ts, id).Some?
    ensures Labels(Update(ts, id, f)) == Before(ts, id) + Labels([f(FindNode(ts, id).value)]) + After(ts, id)
    decreases ts, 1
  {
    LabelsCons(ts);
    if ts[0].id == id {
      var r := Update(ts, id, f);
      LabelsCons(r);
      LabelsOne(f(ts[0]));
      assert r[0] == f(ts[0]) && r[1..] == ts[1..];
      assert Before(ts, id) == [];
    } else if id in Ids(ts[0].children) {
      SpliceBelow(ts, id, f);
    } else {
      SpliceLater(ts, id, f);
    }
  }

  lemma {:induction false} SpliceBelow(ts: seq<Node>, id: string, f: Node -> Node)
    requires ts != [] && ts[0].id != id && id in Ids(ts[0].children)
    ensures FindNode(ts, id).Some?
    ensures Labels(Update(ts, id, f)) == Before(ts, id) + Labels([f(FindNode(ts, id).value)]) + After(ts, id)
    decreases ts, 0
  {
    var n, kids, rest := ts[0], ts[0].children, ts[1..];
    LabelsCons(ts);
    Splice(kids, id, f);
    var r := Update(ts, id, f);
    var m := n.(children := Update(kids, id, f));
    assert r == [m] + rest;
    LabelsCons(r);
    assert r[0] == m && r[1..] == rest;
    assert LabelOf(m) == LabelOf(n);
    assert FindNode(ts, id) == FindNode(kids, id);
    assert Before(ts, id) == [LabelOf(n)] + Before(kids, id);
    assert After(ts, id) == After(kids, id) + Labels(rest);
    Regroup([LabelOf(n)], Before(kids, id), Labels([f(FindNode(kids, id).value)]), After(kids, id), Labels(rest));
  }

  lemma {:induction false} SpliceLater(ts: seq<Node>, id: string, f: Node -> Node)
    requires ts != [] && ts[0].id != id && id !in Ids(ts[0].children) && id in Ids(ts)
    ensures FindNode(ts, id).Some?
    ensures Labels(Update(ts, id, f)) == Before(ts, id) + Labels([f(FindNode(ts, id).value)]) + After(ts, id)
    decreases ts, 0
  {
    var n, kids, rest := ts[0], ts[0].children, ts[1..];
    LabelsCons(ts);
    Splice(rest, id, f);
    var r := Update(ts, id, f);
    assert r == [n] + Update(rest, id, f);
    LabelsCons(r);
    assert r[0] == n && r[1..] == Update(rest, id, f);
    assert FindNode(ts, id) == FindNode(rest, id);
    assert Before(ts, id) == [LabelOf(n)] + Labels(kids) + Before(rest, id);
    assert After(ts, id) == After(rest, id);
    RegroupTail([LabelOf(n)] + Labels(kids), Before(rest, id), Labels([f(FindNode(rest, id).value)]), After(rest, id));
  }

  /** After the edit the first node carrying the id is the edited node, when the edit keeps the id. */
  lemma {:induction false} FindUpdated(ts: seq<Node>, id: string, f: Node -> Node)
    requires id in Ids(ts)
    requires f(FindNode(ts, id).value).id == id
    ensures FindNode(Update(ts, id, f), id) == Some(f(FindNode(ts, id).value))
    decreases ts
  {
    LabelsCons(ts);
    var n := ts[0];
    var kids := n.children;
    var rest := ts[1..];
    var r := Update(ts, id, f);
    if n.id != id {
      if id in Ids(kids) {
        FindUpdated(kids, id, f);
        assert r[0] == n.(children := Update(kids, id, f));
      } else {
        FindUpdated(rest, id, f);
        assert r[0] == n && r[1..] == Update(rest, id, f);
      }
    }
  }

  // ── Pieces of a pre-order ──────────────────────────────

  /** Splitting the ids of three pieces into the pieces' ids. */
  lemma IdsOf3(b: seq<Label>, x: seq<Label>, a: seq<Label>)
    ensures IdsOf(b + x + a) == IdsOf(b) + IdsOf(x) + IdsOf(a)
  {
    IdsOfAppend(b + x, a);
    IdsOfAppend(b, x);
  }

  /**
   * The ids of an edited tree: the found node's subtree is traded for the
   * edited one, and every other id stays.
   */
  lemma SpliceIds(ts: seq<Node>, id: string, f: Node -> Node)
    requires id in Ids(ts)
    ensures FindNode(ts, id).Some?
    ensures multiset(Ids(Update(ts, id, f))) + multiset(Ids([FindNode(ts, id).value])) ==
            multiset(Ids(ts)) + multiset(Ids([f(FindNode(ts, id).value)]))
  {
    Split(ts, id);
    Splice(ts, id, f);
    var n := FindNode(ts, id).value;
    IdsOf3(Before(ts, id), Labels([n]), After(ts, id));
    IdsOf3(Before(ts, id), Labels([f(n)]), After(ts, id));
  }

  /** The ids of the found node's subtree are ids of the tree. */
  lemma SubtreeIds(ts: seq<Node>, id: string)
    requires id in Ids(ts)
    ensures FindNode(ts, id).Some?
    ensures multiset(Ids([FindNode(ts, id).value])) <= multiset(Ids(ts))
  {
    Split(ts, id);
    IdsOf3(Before(ts, id), Labels([FindNode(ts, id).value]), After(ts, id));
  }

  /** A sequence with a middle piece: where each piece sits. */
  lemma Pieces(b: seq<Label>, l: Label, k: seq<Label>, a: seq<Label>)
    ensures var ls := b + ([l] + k) + a;
      ls[..|b|] == b && ls[|b|] == l && ls[|b| + 1..|b| + 1 + |k|] == k && ls[|b| + 1 + |k|..] == a
  {
    var ls := b + ([l] + k) + a;
    assert ls[..|b|] == b;
    assert ls[|b| + 1..|b| + 1 + |k|] == k;
    assert ls[|b| + 1 + |k|..] == a;
  }

  /** Replacing the first label of a middle piece. */
  lemma ReplaceHead(b: seq<Label>, l: Label, l2: Label, k: seq<Label>, a: seq<Label>)
    ensures (b + ([l] + k) + a)[|b| := l2] == b + ([l2] + k) + a
  {
    var ls := b + ([l] + k) + a;
    var ms := b + ([l2] + k) + a;
    assert |ls[|b| := l2]| == |ms|;
    forall i | 0 <= i < |ms|
      ensures ls[|b| := l2][i] == ms[i]
    {
      if i < |b| {
      } else if i == |b| {
      } else if i < |b| + 1 + |k| {
        assert ls[i] == k[i - |b| - 1] == ms[i];
      } else {
        assert ls[i] == a[i - |b| - 1 - |k|] == ms[i];
      }
    }
  }

  /** The labels before the found node carry other ids. */
  lemma FirstHolder(ts: seq<Node>, id: string)
    requires id in Ids(ts)
    ensures var ls := Labels(ts); var k := |Before(ts, id)|;
      FindNode(ts, id).Some? && k < |ls| && ls[k] == LabelOf(FindNode(ts, id).value) &&
      forall j :: 0 <= j < k ==> ls[j].id != id
  {
    Split(ts, id);
    var n := FindNode(ts, id).value;
    var b := Before(ts, id);
    LabelsOne(n);
    Pieces(b, LabelOf(n), Labels(n.children), After(ts, id));
    forall j | 0 <= j < |b|
      ensures Labels(ts)[j].id != id
    {
      assert Labels(ts)[j] == b[j];
      assert IdsOf(b)[j] == b[j].id;
    }
  }

  // ── Editing the tree ───────────────────────────────────

  /** Why a category command is refused. */
  datatype TreeError =
    | NotFound(id: string)
    | ParentNotFound(id: string)
    | AlreadyExists(id: string)
    | TargetNotFound(id: string)
    | IntoDescendant(id: string, target: string)
    | NotLocated(id: string)

  /** `_cmd_category_rename`: the node `_find_node` finds gets the new name. */
  function Rename(tree: seq<Node>, id: string, name: string): (r: Result<seq<Node>, TreeError>)
    ensures r.Failure? <==> id !in Ids(tree)
    ensures r.Failure? ==> r.error == NotFound(id)
  {
    if FindNode(tree, id).None? then Failure(NotFound(id))
    else Success(Update(tree, id, (n: Node) => n.(name := name)))
  }

  /**
   * A rename changes one label of the pre-order, the first carrying the id,
   * and only its name.
   */
  lemma RenameChangesOnlyName(tree: seq<Node>, id: string, name: string)
    requires Rename(tree, id, name).Success?
    ensures var ls := Labels(tree); var k := |Before(tree, id)|;
      k < |ls| && ls[k].id == id && (forall j :: 0 <= j < k ==> ls[j].id != id) &&
      Labels(Rename(tree, id, name).value) == ls[k := ls[k].(name := name)]
  {
    var f := (n: Node) => n.(name := name);
    Split(tree, id);
    Splice(tree, id, f);
    FirstHolder(tree, id);
    var n := FindNode(tree, id).value;
    LabelsOne(n);
    LabelsOne(f(n));
    assert LabelOf(f(n)) == LabelOf(n).(name := name);
    ReplaceHead(Before(tree, id), LabelOf(n), LabelOf(n).(name := name), Labels(n.children), After(tree, id));
  }

  /** A leaf as `_cmd_category_add` writes it: only an id and a name. */
  function Leaf(id: string, name: string): Node {
    Node(id, name, [], false, None)
  }

  /**
   * `parent["children"].append(child)`, first creating the list and
   * clearing `is_leaf` when the parent had no `children` key.
   */
  function AddChild(p: Node, c: Node): (r: Node)
    ensures r.id == p.id && r.name == p.name && r.listed
    ensures r.children == p.children + [c]
    ensures r.isLeaf == (if p.listed then p.isLeaf else Some(false))
  {
    p.(children := p.children + [c], listed := true, isLeaf := if p.listed then p.isLeaf else Some(false))
  }

  /** `_cmd_category_add`: refused for an unknown parent or an id already in the tree. */
  function Add(tree: seq<Node>, parentId: string, newId: string, name: string): (r: Result<seq<Node>, TreeError>)
    ensures r.Failure? <==> parentId !in Ids(tree) || newId in Ids(tree)
    ensures r.Failure? ==> r.error == (if parentId !in Ids(tree) then ParentNotFound(parentId) else AlreadyExists(newId))
  {
    if FindNode(tree, parentId).None? then Failure(ParentNotFound(parentId))
    else if FindNode(tree, newId).Some? then Failure(AlreadyExists(newId))
    else Success(Update(tree, parentId, (p: Node) => AddChild(p, Leaf(newId, name))))
  }

  /** The label of a parent that gained one child. */
  function Grown(l: Label): Label {
    if l.childCount.Some? then l.(childCount := Some(l.childCount.value + 1))
    else l.(childCount := Some(1), isLeaf := Some(false))
  }

  /** The pre-order of a parent after `AddChild`: its grown label, its old subtree, the new child. */
  lemma AddChildLabels(n: Node, c: Node)
    requires n.listed || n.children == []
    requires c.children == []
    ensures Labels([AddChild(n, c)]) == [Grown(LabelOf(n))] + Labels(n.children) + [LabelOf(c)]
    ensures multiset(Ids([AddChild(n, c)])) == multiset(Ids([n])) + multiset{c.id}
  {
    var m := AddChild(n, c);
    LabelsOne(n);
    LabelsOne(m);
    LabelsOne(c);
    LabelsAppend(n.children, [c]);
    assert Labels(c.children) == [];
    assert LabelOf(m) == Grown(LabelOf(n));
    IdsOfAppend(Labels(n.children), [LabelOf(c)]);
  }

  lemma Regroup4(b: seq<Label>, g: seq<Label>, k: seq<Label>, l: seq<Label>, a: seq<Label>)
    ensures b + (g + k + l) + a == b + g + k + l + a
  {
  }

  /**
   * An added category is the parent's new last child: in pre-order its
   * label follows the parent's old subtree, the parent's label counts one
   * more child, and nothing else changes.
   */
  lemma AddAppendsChild(tree: seq<Node>, parentId: string, newId: string, name: string)
    requires Add(tree, parentId, newId, name).Success?
    requires var p := FindNode(tree, parentId).value; p.listed || p.children == []
    ensures var ls := Labels(tree); var k := |Before(tree, parentId)|;
      var m := k + |Labels([FindNode(tree, parentId).value])|;
      k < m <= |ls| && ls[k].id == parentId && (forall j :: 0 <= j < k ==> ls[j].id != parentId) &&
      Labels(Add(tree, parentId, newId, name).value) ==
        ls[..k] + [Grown(ls[k])] + ls[k + 1..m] + [LabelOf(Leaf(newId, name))] + ls[m..]
  {
    var leaf := Leaf(newId, name);
    var f := (p: Node) => AddChild(p, leaf);
    Split(tree, parentId);
    Splice(tree, parentId, f);
    FirstHolder(tree, parentId);
    var n := FindNode(tree, parentId).value;
    var b, a, kids := Before(tree, parentId), After(tree, parentId), Labels(n.children);
    LabelsOne(n);
    AddChildLabels(n, leaf);
    Pieces(b, LabelOf(n), kids, a);
    Regroup4(b, [Grown(LabelOf(n))], kids, [LabelOf(leaf)], a);
  }

  lemma Cancel(x: multiset<string>, y: multiset<string>, z: multiset<string>, e: multiset<string>)
    requires x + y == z + (y + e)
    ensures x == z + e
  {
    forall k
      ensures x[k] == (z + e)[k]
    {
      assert (x + y)[k] == (z + (y + e))[k];
    }
  }

  /** After an add the tree holds the same ids and the new one, each still once. */
  lemma AddIds(tree: seq<Node>, parentId: string, newId: string, name: string)
    requires Add(tree, parentId, newId, name).Success?
    requires var p := FindNode(tree, parentId).value; p.listed || p.children == []
    ensures multiset(Ids(Add(tree, parentId, newId, name).value)) == multiset(Ids(tree)) + multiset{newId}
    ensures Unique(Ids(tree)) ==> Unique(Ids(Add(tree, parentId, newId, name).value))
  {
    var leaf := Leaf(newId, name);
    var f := (p: Node) => AddChild(p, leaf);
    SpliceIds(tree, parentId, f);
    var n := FindNode(tree, parentId).value;
    AddChildLabels(n, leaf);
    var r := Add(tree, parentId, newId, name).value;
    assert r == Update(tree, parentId, f);
    assert f(n) == AddChild(n, leaf);
    Cancel(multiset(Ids(r)), multiset(Ids([n])), multiset(Ids(tree)), multiset{newId});
    if Unique(Ids(tree)) {
      assert multiset(Ids(tree))[newId] == 0;
      forall x
        ensures multiset(Ids(r))[x] <= 1
      {
        assert multiset(Ids(tree))[x] <= 1;
      }
    }
  }

  // ── Locating a node's sibling list ─────────────────────

  /** The ids strictly below the top level of a list. */
  function Below(ts: seq<Node>): seq<string>
    decreases ts
  {
    if ts == [] then [] else Ids(ts[0].children) + Below(ts[1..])
  }

  lemma TopIdsCons(ts: seq<Node>)
    requires ts != []
    ensures TopIds(ts) == [ts[0].id] + TopIds(ts[1..])
  {
  }

  /** An id of a list is a top-level id or an id below the top. */
  lemma {:induction false} IdsTopBelow(ts: seq<Node>, id: string)
    ensures id in Ids(ts) <==> id in TopIds(ts) || id in Below(ts)
    decreases |ts|
  {
    if ts != [] {
      LabelsCons(ts);
      TopIdsCons(ts);
      IdsTopBelow(ts[1..], id);
    }
  }

  /** Where a node sits: the list holding it, and the node owning that list (None at the top level). */
  datatype Place = Place(siblings: seq<Node>, parent: Option<Node>)

  /** The first loop of `_find_parent`: a node that lists the id among its children, searched depth first. */
  function FindParentBelow(ts: seq<Node>, id: string): (r: Option<Place>)
    ensures r.None? <==> id !in Below(ts)
    ensures r.Some? ==> r.value.parent.Some? && r.value.siblings == r.value.parent.value.children
    ensures r.Some? ==> id in TopIds(r.value.siblings) && r.value.parent.value.id in Ids(ts)
    decreases ts, 0
  {
    if ts == [] then None
    else
      LabelsCons(ts);
      IdsTopBelow(ts[0].children, id);
      if id in TopIds(ts[0].children) then Some(Place(ts[0].children, Some(ts[0])))
      else if ts[0].children != [] && FindParent(ts[0].children, id).Some? then FindParent(ts[0].children, id)
      else FindParentBelow(ts[1..], id)
  }

  /**
   * `_find_parent`: the list holding the id and its owner, searching below
   * the top level first; the top-level list itself, with no owner, only
   * when no node lists the id as a child.
   */
  function FindParent(ts: seq<Node>, id: string): (r: Option<Place>)
    ensures r.None? <==> id !in Ids(ts)
    ensures r.Some? ==> id in TopIds(r.value.siblings)
    ensures r.Some? && r.value.parent.None? ==> r.value.siblings == ts && id !in Below(ts)
    ensures r.Some? && r.value.parent.Some? ==>
      r.value.siblings == r.value.parent.value.children && r.value.parent.value.id in Ids(ts)
    decreases ts, 1
  {
    IdsTopBelow(ts, id);
    var r := FindParentBelow(ts, id);
    if r.Some? then r
    else if id in TopIds(ts) then Some(Place(ts, None))
    else None
  }

  /** With unique ids, a top-level id is found at the top level, with no owner. */
  lemma FindParentAtTop(tree: seq<Node>, id: string)
    requires Unique(Ids(tree)) && id in TopIds(tree)
    ensures FindParent(tree, id) == Some(Place(tree, None))
  {
    IdsTopBelow(tree, id);
    if id in Below(tree) {
      BelowWithoutTop(tree, id);
    }
  }

  /** With unique ids, no id is both at the top level and below it. */
  lemma {:induction false} BelowWithoutTop(ts: seq<Node>, id: string)
    requires Unique(Ids(ts)) && id in TopIds(ts)
    ensures id !in Below(ts)
    decreases |ts|
  {
    LabelsCons(ts);
    TopIdsCons(ts);
    IdsTopBelow(ts[1..], id);
    UniqueParts([ts[0].id], Ids(ts[0].children), Ids(ts[1..]));
    if ts[0].id != id {
      BelowWithoutTop(ts[1..], id);
    }
  }

  // ── Moving a node ──────────────────────────────────────

  /** The list without its top-level nodes carrying the id. */
  function Without(ts: seq<Node>, id: string): (r: seq<Node>)
    ensures id !in TopIds(ts) ==> r == ts
    decreases |ts|
  {
    if ts == [] then []
    else
      TopIdsCons(ts);
      if ts[0].id == id then Without(ts[1..], id) else [ts[0]] + Without(ts[1..], id)
  }

  /**
   * `old_siblings[:] = [n for n in old_siblings if n.get("id") != node_id]`
   * on a list `FindParentBelow` finds: the same search, with the found list
   * filtered in place.
   */
  function DetachBelow(ts: seq<Node>, id: string): seq<Node>
    decreases ts, 0
  {
    if ts == [] then []
    else if id in TopIds(ts[0].children) then [ts[0].(children := Without(ts[0].children, id))] + ts[1..]
    else if ts[0].children != [] && FindParent(ts[0].children, id).Some? then
      [ts[0].(children := Detach(ts[0].children, id))] + ts[1..]
    else [ts[0]] + DetachBelow(ts[1..], id)
  }

  /** The tree after the list `FindParent` finds is filtered of the id. */
  function Detach(ts: seq<Node>, id: string): seq<Node>
    decreases ts, 1
  {
    if FindParentBelow(ts, id).Some? then DetachBelow(ts, id)
    else if id in TopIds(ts) then Without(ts, id)
    else ts
  }

  /** With unique ids, filtering a list of a top-level id drops exactly that node's subtree. */
  lemma {:induction false} WithoutIds(ks: seq<Node>, id: string)
    requires Unique(Ids(ks)) && id in TopIds(ks)
    ensures FindNode(ks, id).Some?
    ensures multiset(Ids(Without(ks, id))) + multiset(Ids([FindNode(ks, id).value])) == multiset(Ids(ks))
    decreases |ks|
  {
    var k0, rest := ks[0], ks[1..];
    LabelsCons(ks);
    TopIdsCons(ks);
    UniqueParts([k0.id], Ids(k0.children), Ids(rest));
    LabelsOne(k0);
    if k0.id == id {
      if id in TopIds(rest) {
        TopIdsInIds(rest, id);
      }
    } else {
      TopIdsInIds(rest, id);
      WithoutIds(rest, id);
      var w := Without(rest, id);
      LabelsCons([k0] + w);
      assert ([k0] + w)[0] == k0 && ([k0] + w)[1..] == w;
    }
  }

  /** With unique ids, detaching a node drops exactly its subtree. */
  lemma {:induction false} DetachIds(ts: seq<Node>, id: string)
    requires Unique(Ids(ts)) && id in Ids(ts)
    ensures FindNode(ts, id).Some?
    ensures multiset(Ids(Detach(ts, id))) + multiset(Ids([FindNode(ts, id).value])) == multiset(Ids(ts))
    decreases ts, 2
  {
    IdsTopBelow(ts, id);
    if FindParentBelow(ts, id).Some? {
      DetachBelowIds(ts, id);
    } else {
      WithoutIds(ts, id);
    }
  }

  lemma {:induction false} DetachBelowIds(ts: seq<Node>, id: string)
    requires Unique(Ids(ts)) && id in Below(ts)
    ensures FindNode(ts, id).Some?
    ensures multiset(Ids(DetachBelow(ts, id))) + multiset(Ids([FindNode(ts, id).value])) == multiset(Ids(ts))
    decreases ts, 1
  {
    if id in Ids(ts[0].children) {
      DetachInside(ts, id);
    } else {
      DetachLater(ts, id);
    }
  }

  /** Detaching from the first node's subtree. */
  lemma {:induction false} DetachInside(ts: seq<Node>, id: string)
    requires ts != [] && Unique(Ids(ts)) && id in Ids(ts[0].children)
    ensures FindNode(ts, id).Some?
    ensures multiset(Ids(DetachBelow(ts, id))) + multiset(Ids([FindNode(ts, id).value])) == multiset(Ids(ts))
    decreases ts, 0
  {
    var k0, kids, rest := ts[0], ts[0].children, ts[1..];
    LabelsCons(ts);
    UniqueParts([k0.id], Ids(kids), Ids(rest));
    IdsTopBelow(kids, id);
    var r := DetachBelow(ts, id);
    var m := if id in TopIds(kids) then k0.(children := Without(kids, id)) else k0.(children := Detach(kids, id));
    if id in TopIds(kids) {
      WithoutIds(kids, id);
    } else {
      DetachIds(kids, id);
    }
    assert r == [m] + rest;
    LabelsCons(r);
    assert r[0] == m && r[1..] == rest;
    assert FindNode(ts, id) == FindNode(kids, id);
  }

  /** Detaching from a later node of the list. */
  lemma {:induction false} DetachLater(ts: seq<Node>, id: string)
    requires ts != [] && Unique(Ids(ts)) && id in Below(ts) && id !in Ids(ts[0].children)
    ensures FindNode(ts, id).Some?
    ensures multiset(Ids(DetachBelow(ts, id))) + multiset(Ids([FindNode(ts, id).value])) == multiset(Ids(ts))
    decreases ts, 0
  {
    var k0, kids, rest := ts[0], ts[0].children, ts[1..];
    LabelsCons(ts);
    UniqueParts([k0.id], Ids(kids), Ids(rest));
    IdsTopBelow(kids, id);
    var r := DetachBelow(ts, id);
    DetachBelowIds(rest, id);
    assert r == [k0] + DetachBelow(rest, id);
    LabelsCons(r);
    assert r[0] == k0 && r[1..] == DetachBelow(rest, id);
    assert FindNode(ts, id) == FindNode(rest, id);
  }

  // ── What a detach leaves ─────────────────────────────

  /** The label of a node that lost one listed child. */
  function Shrunk(l: Label): Label {
    if l.childCount.Some? && l.childCount.value > 0 then l.(childCount := Some(l.childCount.value - 1)) else l
  }

  /** The labels with the one carrying `pid` (if any) shrunk by a child. */
  function Shrink(ls: seq<Label>, pid: Option<string>): (r: seq<Label>)
    ensures |r| == |ls|
  {
    seq(|ls|, i requires 0 <= i < |ls| => if Some(ls[i].id) == pid then Shrunk(ls[i]) else ls[i])
  }

  /** The id of the node owning the list a search found; None at the top level or when not found. */
  function OwnerId(pl: Option<Place>): Option<string> {
    if pl.Some? && pl.value.parent.Some? then Some(pl.value.parent.value.id) else None
  }

  lemma ShrinkAppend(a: seq<Label>, b: seq<Label>, pid: Option<string>)
    ensures Shrink(a + b, pid) == Shrink(a, pid) + Shrink(b, pid)
  {
  }

  lemma ShrinkOther(ls: seq<Label>, pid: Option<string>)
    requires pid.None? || pid.value !in IdsOf(ls)
    ensures Shrink(ls, pid) == ls
  {
    forall i | 0 <= i < |ls| ensures Shrink(ls, pid)[i] == ls[i] {
      assert IdsOf(ls)[i] == ls[i].id;
    }
  }

  /** The ids before a node are ids of the list. */
  lemma BeforeIds(ts: seq<Node>, id: string, x: string)
    requires id in Ids(ts) && x in IdsOf(Before(ts, id))
    ensures x in Ids(ts)
  {
    Split(ts, id);
    IdsOf3(Before(ts, id), Labels([FindNode(ts, id).value]), After(ts, id));
  }

  /** Detaching keeps the number of nodes at the top of the list. */
  lemma {:induction false} DetachBelowLength(ts: seq<Node>, id: string)
    ensures |DetachBelow(ts, id)| == |ts|
    decreases |ts|
  {
    if ts != [] && id !in TopIds(ts[0].children) && !(ts[0].children != [] && FindParent(ts[0].children, id).Some?) {
      DetachBelowLength(ts[1..], id);
    }
  }

  /**
   * With unique ids, filtering a list of a top-level id cuts exactly that
   * node's subtree out of the pre-order, and the list is one node shorter.
   */
  lemma {:induction false} WithoutLabels(ks: seq<Node>, id: string)
    requires Unique(Ids(ks)) && id in TopIds(ks)
    ensures id in Ids(ks)
    ensures Labels(Without(ks, id)) == Before(ks, id) + After(ks, id)
    ensures |Without(ks, id)| == |ks| - 1
    decreases |ks|
  {
    var k0, kids, rest := ks[0], ks[0].children, ks[1..];
    LabelsCons(ks);
    TopIdsCons(ks);
    TopIdsInIds(ks, id);
    UniqueParts([k0.id], Ids(kids), Ids(rest));
    if k0.id == id {
      if id in TopIds(rest) {
        TopIdsInIds(rest, id);
      }
      assert Before(ks, id) == [];
    } else {
      TopIdsInIds(rest, id);
      WithoutLabels(rest, id);
      var w := Without(rest, id);
      var head := [LabelOf(k0)] + Labels(kids);
      assert Labels(Without(ks, id)) == head + Labels(w) by {
        assert Without(ks, id) == [k0] + w;
        LabelsAppend([k0], w);
        LabelsOne(k0);
      }
      assert Before(ks, id) == head + Before(rest, id);
      Regroup3(head, Before(rest, id), After(rest, id));
    }
  }

  /**
   * With unique ids, detaching a node cuts its subtree out of the
   * pre-order; the only other change is one child fewer on the label of
   * the node that listed it (none when it was at the top level).
   */
  lemma {:induction false} DetachLabels(ts: seq<Node>, id: string)
    requires Unique(Ids(ts)) && id in Ids(ts)
    ensures Labels(Detach(ts, id)) == Shrink(Before(ts, id), OwnerId(FindParent(ts, id))) + After(ts, id)
    decreases ts, 3
  {
    IdsTopBelow(ts, id);
    if FindParentBelow(ts, id).Some? {
      DetachBelowLabels(ts, id);
    } else {
      WithoutLabels(ts, id);
      ShrinkOther(Before(ts, id), None);
    }
  }

  lemma {:induction false} DetachBelowLabels(ts: seq<Node>, id: string)
    requires Unique(Ids(ts)) && id in Below(ts)
    ensures id in Ids(ts)
    ensures Labels(DetachBelow(ts, id)) == Shrink(Before(ts, id), OwnerId(FindParentBelow(ts, id))) + After(ts, id)
    decreases ts, 2
  {
    IdsTopBelow(ts, id);
    if id in Ids(ts[0].children) {
      DetachInsideLabels(ts, id);
    } else {
      DetachLaterLabels(ts, id);
    }
  }

  /** Detaching from the first node's subtree. */
  lemma {:induction false} DetachInsideLabels(ts: seq<Node>, id: string)
    requires ts != [] && Unique(Ids(ts)) && id in Ids(ts[0].children)
    ensures id in Ids(ts)
    ensures Labels(DetachBelow(ts, id)) == Shrink(Before(ts, id), OwnerId(FindParentBelow(ts, id))) + After(ts, id)
    decreases ts, 1
  {
    var k0, kids, rest := ts[0], ts[0].children, ts[1..];
    LabelsCons(ts);
    UniqueParts([k0.id], Ids(kids), Ids(rest));
    var pid := OwnerId(FindParentBelow(ts, id));
    var b, a := Before(kids, id), After(kids, id);
    assert Before(ts, id) == [LabelOf(k0)] + b;
    assert After(ts, id) == a + Labels(rest);
    var m := DetachBelow(ts, id)[0];
    assert DetachBelow(ts, id) == [m] + rest;
    LabelsAppend([m], rest);
    var head := if id in TopIds(kids) then Shrunk(LabelOf(k0)) else LabelOf(k0);
    if id in TopIds(kids) {
      DetachTopChild(ts, id);
      TopChildShrink(ts, id);
    } else {
      DetachDeepChild(ts, id);
    }
    assert Labels([m]) == [head] + Shrink(b, pid) + a;
    assert Shrink([LabelOf(k0)], pid) == [head];
    ShrinkAppend([LabelOf(k0)], b, pid);
    var sb := Shrink(b, pid);
    assert Shrink(Before(ts, id), pid) == [head] + sb;
    assert Labels(DetachBelow(ts, id)) == ([head] + sb + a) + Labels(rest);
    Regroup3([head] + sb, a, Labels(rest));
  }

  lemma Regroup3(x: seq<Label>, y: seq<Label>, z: seq<Label>)
    ensures x + y + z == x + (y + z)
  {
  }

  /** The first node listed the detached one: its label counts one child fewer. */
  lemma DetachTopChild(ts: seq<Node>, id: string)
    requires ts != [] && Unique(Ids(ts)) && id in TopIds(ts[0].children)
    ensures id in Ids(ts[0].children)
    ensures var k0 := ts[0];
      Labels([DetachBelow(ts, id)[0]]) == [Shrunk(LabelOf(k0))] + Before(k0.children, id) + After(k0.children, id)
  {
    var k0, kids := ts[0], ts[0].children;
    assert Unique(Ids(kids)) by {
      LabelsCons(ts);
      UniqueParts([k0.id], Ids(kids), Ids(ts[1..]));
    }
    TopIdsInIds(kids, id);
    assert DetachBelow(ts, id)[0] == k0.(children := Without(kids, id));
    WithoutChildLabels(k0, id);
  }

  lemma WithoutChildLabels(n: Node, id: string)
    requires Unique(Ids(n.children)) && id in TopIds(n.children)
    ensures id in Ids(n.children)
    ensures Labels([n.(children := Without(n.children, id))]) == [Shrunk(LabelOf(n))] + Before(n.children, id) + After(n.children, id)
  {
    var m := n.(children := Without(n.children, id));
    assert Labels(m.children) == Before(n.children, id) + After(n.children, id) by {
      WithoutLabels(n.children, id);
    }
    assert LabelOf(m) == Shrunk(LabelOf(n)) by {
      WithoutLabels(n.children, id);
    }
    LabelsOne(m);
  }

  /** ...and that label is the only one the shrink touches. */
  lemma TopChildShrink(ts: seq<Node>, id: string)
    requires ts != [] && Unique(Ids(ts)) && id in TopIds(ts[0].children)
    ensures id in Ids(ts[0].children)
    ensures var k0 := ts[0]; var pid := OwnerId(FindParentBelow(ts, id));
      Shrink([LabelOf(k0)], pid) == [Shrunk(LabelOf(k0))] &&
      Shrink(Before(k0.children, id), pid) == Before(k0.children, id)
  {
    var k0, kids, rest := ts[0], ts[0].children, ts[1..];
    assert k0.id !in Ids(kids) by {
      LabelsCons(ts);
      UniqueParts([k0.id], Ids(kids), Ids(rest));
    }
    TopIdsInIds(kids, id);
    var pid := OwnerId(FindParentBelow(ts, id));
    assert pid == Some(k0.id);
    assert Shrink([LabelOf(k0)], pid)[0] == Shrunk(LabelOf(k0));
    if k0.id in IdsOf(Before(kids, id)) {
      BeforeIds(kids, id, k0.id);
    }
    ShrinkOther(Before(kids, id), pid);
  }

  /** The detached node sat deeper: the first node's own label stays. */
  lemma DetachDeepChild(ts: seq<Node>, id: string)
    requires ts != [] && Unique(Ids(ts)) && id in Ids(ts[0].children) && id !in TopIds(ts[0].children)
    ensures var k0 := ts[0]; var pid := OwnerId(FindParentBelow(ts, id));
      Shrink([LabelOf(k0)], pid) == [LabelOf(k0)] &&
      Labels([DetachBelow(ts, id)[0]]) == [LabelOf(k0)] + Shrink(Before(k0.children, id), pid) + After(k0.children, id)
    decreases ts, 0
  {
    var k0, kids, rest := ts[0], ts[0].children, ts[1..];
    LabelsCons(ts);
    UniqueParts([k0.id], Ids(kids), Ids(rest));
    IdsTopBelow(kids, id);
    var pid := OwnerId(FindParentBelow(ts, id));
    assert FindParentBelow(ts, id) == FindParent(kids, id);
    DetachLabels(kids, id);
    DetachBelowLength(kids, id);
    var m := k0.(children := Detach(kids, id));
    assert DetachBelow(ts, id)[0] == m;
    LabelsOne(m);
    assert LabelOf(m) == LabelOf(k0);
    assert pid.Some? ==> pid.value in Ids(kids);
    ShrinkOther([LabelOf(k0)], pid);
  }

  /** Detaching from a later node of the list. */
  lemma {:induction false} DetachLaterLabels(ts: seq<Node>, id: string)
    requires ts != [] && Unique(Ids(ts)) && id in Below(ts) && id !in Ids(ts[0].children)
    ensures id in Ids(ts)
    ensures Labels(DetachBelow(ts, id)) == Shrink(Before(ts, id), OwnerId(FindParentBelow(ts, id))) + After(ts, id)
    decreases ts, 1
  {
    var k0, kids, rest := ts[0], ts[0].children, ts[1..];
    LabelsCons(ts);
    UniqueParts([k0.id], Ids(kids), Ids(rest));
    IdsTopBelow(kids, id);
    IdsTopBelow(rest, id);
    var pid := OwnerId(FindParentBelow(ts, id));
    var head := [LabelOf(k0)] + Labels(kids);
    var rb, ra, dr := Before(rest, id), After(rest, id), DetachBelow(rest, id);
    assert FindParentBelow(ts, id) == FindParentBelow(rest, id);
    DetachBelowLabels(rest, id);
    assert Labels(DetachBelow(ts, id)) == head + Labels(dr) by {
      assert DetachBelow(ts, id) == [k0] + dr;
      LabelsAppend([k0], dr);
      LabelsOne(k0);
    }
    assert Shrink(Before(ts, id), pid) == head + Shrink(rb, pid) by {
      assert Before(ts, id) == head + rb;
      assert pid.Some? ==> pid.value in Ids(rest);
      LabelsOne(k0);
      assert IdsOf(head) == Ids([k0]);
      ShrinkOther(head, pid);
      ShrinkAppend(head, rb, pid);
    }
    assert After(ts, id) == ra;
    Regroup3(head, Shrink(rb, pid), ra);
  }

  /** The pre-order of a node given a last child `c`. */
  lemma AddChildSubtree(p: Node, c: Node)
    ensures Labels([AddChild(p, c)]) == [LabelOf(AddChild(p, c))] + Labels(p.children) + Labels([c])
  {
    var q := AddChild(p, c);
    LabelsOne(q);
    LabelsAppend(p.children, [c]);
  }

  /**
   * `after` is `before` with `c`'s subtree appended under the first node
   * carrying `pid`: that node's label becomes the label of the node with
   * the extra child, `c`'s pre-order follows the node's old subtree, and
   * every other label stays where it was.
   */
  predicate AppendedUnder(before: seq<Node>, after: seq<Node>, pid: string, c: Node)
    requires pid in Ids(before)
  {
    Split(before, pid);
    var ls := Labels(before); var k := |Before(before, pid)|;
    var p := FindNode(before, pid).value; var m := k + |Labels([p])|;
    k < m <= |ls| && ls[k] == LabelOf(p) &&
    Labels(after) == ls[..k] + [LabelOf(AddChild(p, c))] + ls[k + 1..m] + Labels([c]) + ls[m..]
  }

  /**
   * Giving the node carrying `pid` one more child `c` (its last) changes
   * that node's own label and inserts `c`'s subtree after its old
   * subtree; every other label stays where it was.
   */
  lemma AppendChildLabels(ts: seq<Node>, pid: string, c: Node, f: Node -> Node)
    requires pid in Ids(ts)
    requires forall q :: f(q) == AddChild(q, c)
    ensures AppendedUnder(ts, Update(ts, pid, f), pid, c)
  {
    Split(ts, pid);
    Splice(ts, pid, f);
    var p := FindNode(ts, pid).value;
    var b, a, kids := Before(ts, pid), After(ts, pid), Labels(p.children);
    LabelsOne(p);
    var q := AddChild(p, c);
    assert f(p) == q;
    AddChildSubtree(p, c);
    assert Labels(Update(ts, pid, f)) == b + ([LabelOf(q)] + kids + Labels([c])) + a;
    Pieces(b, LabelOf(p), kids, a);
    Regroup4(b, [LabelOf(q)], kids, Labels([c]), a);
  }

  /**
   * `_cmd_category_move` as written: refused for an unknown node or target
   * and for a target inside the node's children, then the node is filtered
   * out of its sibling list and appended to the target, which was looked up
   * before the removal. Moving a node under itself passes the checks.
   */
  function MoveAsWritten(tree: seq<Node>, id: string, target: string): (r: Result<seq<Node>, TreeError>)
    ensures r.Failure? <==> id !in Ids(tree) || target !in Ids(tree) ||
                            target in Ids(FindNode(tree, id).value.children)
  {
    var node := FindNode(tree, id);
    if node.None? then Failure(NotFound(id))
    else if FindNode(tree, target).None? then Failure(TargetNotFound(target))
    else if FindNode(node.value.children, target).Some? then Failure(IntoDescendant(id, target))
    else if FindParent(tree, id).None? then Failure(NotLocated(id))
    else Success(Update(Detach(tree, id), target, (p: Node) => AddChild(p, node.value)))
  }

  /**
   * Moving a category under itself, as written, detaches it: with unique
   * ids the move is accepted and the saved tree has lost the node and its
   * whole subtree.
   */
  lemma MoveIntoSelfLosesSubtree(tree: seq<Node>, id: string)
    requires Unique(Ids(tree)) && id in Ids(tree)
    ensures MoveAsWritten(tree, id, id).Success?
    ensures multiset(Ids(MoveAsWritten(tree, id, id).value)) + multiset(Ids([FindNode(tree, id).value])) ==
            multiset(Ids(tree))
    ensures id !in Ids(MoveAsWritten(tree, id, id).value)
  {
    var n := FindNode(tree, id).value;
    SubtreeIds(tree, id);
    LabelsOne(n);
    assert multiset(Ids([n]))[id] == 1 + multiset(Ids(n.children))[id];
    assert multiset(Ids(tree))[id] <= 1;
    assert id !in Ids(n.children);
    DetachIds(tree, id);
    var d := Detach(tree, id);
    assert multiset(Ids(d))[id] == 0;
  }

  /** The smallest case: a child moved under itself vanishes from the tree. */
  lemma MoveIntoSelfExample()
    ensures var x := Node("x", "X", [], false, None);
      MoveAsWritten([Node("a", "A", [x], true, None)], "x", "x") == Success([Node("a", "A", [], true, None)])
  {
    var x := Node("x", "X", [], false, None);
    var tree := [Node("a", "A", [x], true, None)];
    LabelsOne(x);
    LabelsCons(tree);
    assert tree[1..] == [];
    assert Ids(tree) == ["a", "x"];
    assert TopIds([x]) == ["x"];
    assert FindParentBelow(tree, "x") == Some(Place([x], Some(tree[0])));
    assert Without([x], "x") == [];
    var d := [Node("a", "A", [], true, None)];
    assert Detach(tree, "x") == d;
    LabelsCons(d);
    assert d[1..] == [];
    assert Ids(d) == ["a"];
  }

  /**
   * `_cmd_category_move` with the check its comment describes: a node can
   * be moved neither into its own subtree nor under itself.
   */
  function Move(tree: seq<Node>, id: string, target: string): (r: Result<seq<Node>, TreeError>)
    ensures r.Failure? <==> id !in Ids(tree) || target !in Ids(tree) || target == id ||
                            target in Ids(FindNode(tree, id).value.children)
  {
    var node := FindNode(tree, id);
    if node.None? then Failure(NotFound(id))
    else if FindNode(tree, target).None? then Failure(TargetNotFound(target))
    else if target == id || FindNode(node.value.children, target).Some? then Failure(IntoDescendant(id, target))
    else if FindParent(tree, id).None? then Failure(NotLocated(id))
    else Success(Update(Detach(tree, id), target, (p: Node) => AddChild(p, node.value)))
  }

  /**
   * With unique ids, a move keeps every id exactly once, and the moved
   * node, its subtree unchanged, is the target's last child.
   */
  lemma MoveKeepsIds(tree: seq<Node>, id: string, target: string)
    requires Unique(Ids(tree)) && Move(tree, id, target).Success?
    ensures multiset(Ids(Move(tree, id, target).value)) == multiset(Ids(tree))
    ensures var p := FindNode(Move(tree, id, target).value, target);
      p.Some? && p.value.children != [] && p.value.children[|p.value.children| - 1] == FindNode(tree, id).value
    ensures Labels(Detach(tree, id)) == Shrink(Before(tree, id), OwnerId(FindParent(tree, id))) + After(tree, id)
    ensures target in Ids(Detach(tree, id))
    ensures AppendedUnder(Detach(tree, id), Move(tree, id, target).value, target, FindNode(tree, id).value)
  {
    DetachLabels(tree, id);
    MoveLabels(tree, id, target);
    var n := FindNode(tree, id).value;
    var f := (p: Node) => AddChild(p, n);
    var d := Detach(tree, id);
    DetachIds(tree, id);
    LabelsOne(n);
    assert target != id && target !in Ids(n.children);
    assert target !in Ids([n]);
    assert target in multiset(Ids(tree));
    assert target in multiset(Ids(d));
    var p := FindNode(d, target).value;
    SpliceIds(d, target, f);
    AddChildIds(p, n);
    assert f(p) == AddChild(p, n);
    var r := Move(tree, id, target).value;
    assert r == Update(d, target, f);
    Cancel(multiset(Ids(r)), multiset(Ids([p])), multiset(Ids(d)), multiset(Ids([n])));
    FindUpdated(d, target, f);
  }

  /** The moved subtree is appended under the target of the detached tree. */
  lemma MoveLabels(tree: seq<Node>, id: string, target: string)
    requires Unique(Ids(tree)) && Move(tree, id, target).Success?
    ensures target in Ids(Detach(tree, id))
    ensures AppendedUnder(Detach(tree, id), Move(tree, id, target).value, target, FindNode(tree, id).value)
  {
    var n := FindNode(tree, id).value;
    var f := (p: Node) => AddChild(p, n);
    var d := Detach(tree, id);
    DetachIds(tree, id);
    LabelsOne(n);
    assert target != id && target !in Ids(n.children);
    assert target !in Ids([n]);
    assert target in multiset(Ids(tree));
    assert target in multiset(Ids(d));
    AppendChildLabels(d, target, n, f);
    assert Move(tree, id, target).value == Update(d, target, f);
  }

  /** The ids of a node given one more child: its own subtree's, then the child's. */
  lemma AddChildIds(p: Node, c: Node)
    ensures Ids([AddChild(p, c)]) == Ids([p]) + Ids([c])
  {
    LabelsOne(p);
    LabelsOne(AddChild(p, c));
    LabelsAppend(p.children, [c]);
  }

  // ── Linking an imported transfer ───────────────────────

  /** The day window `find_transfer_candidates` searches by default. */
  const BudgetLinkDays: nat := 5
  const BudgetLinkConfidence: real := 0.9

  /**
   * The direction of a budget-app transfer link: a detected pattern with
   * both accounts decides when the transaction is on one of them;
   * otherwise an outflow is the "from" side.
   */
  function BudgetLinkDirection(txn: Transaction, m: Option<TransferDetect.TransferMatch>, otherId: string): (r: (string, string))
    ensures r == (txn.id, otherId) || r == (otherId, txn.id)
    ensures m.Some? && m.value.fromAccount != "" && m.value.toAccount != "" && txn.accountId == m.value.fromAccount ==>
      r == (txn.id, otherId)
    ensures (m.Some? && m.value.fromAccount != "" && m.value.toAccount != "" && txn.accountId != m.value.fromAccount &&
             txn.accountId == m.value.toAccount) ==> r == (otherId, txn.id)
    ensures !(m.Some? && m.value.fromAccount != "" && m.value.toAccount != "" &&
              (txn.accountId == m.value.fromAccount || txn.accountId == m.value.toAccount)) ==>
      r == (if txn.amount < 0 then (txn.id, otherId) else (otherId, txn.id))
  {
    var bySign := if txn.amount < 0 then (txn.id, otherId) else (otherId, txn.id);
    if m.Some? && m.value.fromAccount != "" && m.value.toAccount != "" then
      if txn.accountId == m.value.fromAccount then (txn.id, otherId)
      else if txn.accountId == m.value.toAccount then (otherId, txn.id)
      else bySign
    else bySign
  }

  /** The transfer row joining the transaction with a counterpart. */
  function BudgetLinkWith(txn: Transaction, m: Option<TransferDetect.TransferMatch>, cp: Transaction,
                          transferId: string): (r: Transfer)
    ensures r.id == transferId && r.matchMethod == "budget_app_import_auto_link"
    ensures r.confidence == Some(BudgetLinkConfidence)
    ensures r.transferType == (if m.Some? then m.value.transferType else "internal-transfer")
    ensures (r.fromTransactionId, r.toTransactionId) == BudgetLinkDirection(txn, m, cp.id)
  {
    var (from, to) := BudgetLinkDirection(txn, m, cp.id);
    Transfer(transferId, from, to, if m.Some? then m.value.transferType else "internal-transfer",
             "budget_app_import_auto_link", Some(BudgetLinkConfidence))
  }

  /**
   * `_try_link_budget_app_transfer` as a function of the tables: nothing
   * when the transaction is already linked or has no counterpart;
   * otherwise a link with the nearest candidate.
   */
  function BudgetLinkFor(txns: seq<Transaction>, transfers: seq<Transfer>, txn: Transaction,
                         m: Option<TransferDetect.TransferMatch>, transferId: string): (r: Option<Transfer>)
    ensures txn.id in LinkedIds(transfers) ==> r.None?
    ensures FindTransferCandidates(txns, transfers, txn, BudgetLinkDays) == [] ==> r.None?
    ensures txn.id !in LinkedIds(transfers) && FindTransferCandidates(txns, transfers, txn, BudgetLinkDays) != [] ==>
      r == Some(BudgetLinkWith(txn, m, FindTransferCandidates(txns, transfers, txn, BudgetLinkDays)[0], transferId))
  {
    if TransferByTransaction(transfers, txn.id).Some? then None
    else
      var candidates := FindTransferCandidates(txns, transfers, txn, BudgetLinkDays);
      if candidates == [] then None
      else Some(BudgetLinkWith(txn, m, candidates[0], transferId))
  }

  /**
   * A link joins the transaction with its nearest unlinked counterpart:
   * the opposite amount, on another account, and one side of the link
   * each.
   */
  lemma BudgetLinkCounterpart(txns: seq<Transaction>, transfers: seq<Transfer>, txn: Transaction,
                              m: Option<TransferDetect.TransferMatch>, transferId: string)
    requires BudgetLinkFor(txns, transfers, txn, m, transferId).Some?
    ensures var cp := FindTransferCandidates(txns, transfers, txn, BudgetLinkDays)[0];
      var link := BudgetLinkFor(txns, transfers, txn, m, transferId).value;
      txn.id !in LinkedIds(transfers) && cp.id !in LinkedIds(transfers) &&
      cp.amount == -txn.amount && cp.accountId != txn.accountId &&
      {link.fromTransactionId, link.toTransactionId} == {txn.id, cp.id}
  {
    var candidates := FindTransferCandidates(txns, transfers, txn, BudgetLinkDays);
    assert candidates[0] in candidates;
    CandidateMirrors(txns, transfers, txn, BudgetLinkDays, candidates[0]);
  }

  /** `_try_link_budget_app_transfer` on the store; a refused insert leaves the transfers as they were. */
  method TryLinkBudgetAppTransfer(repo: Repository, txn: Transaction, m: Option<TransferDetect.TransferMatch>,
                                  transferId: string)
    requires repo.Valid()
    modifies repo
    ensures repo.Valid()
    ensures repo.imports == old(repo.imports) && repo.txns == old(repo.txns) && repo.allocs == old(repo.allocs)
    ensures repo.receiptMatches == old(repo.receiptMatches) && repo.usage == old(repo.usage)
    ensures var link := BudgetLinkFor(old(repo.txns), old(repo.transfers), txn, m, transferId);
      repo.transfers == (if link.Some? && forall i :: 0 <= i < |old(repo.transfers)| ==> old(repo.transfers)[i].id != transferId
                         then old(repo.transfers) + [link.value] else old(repo.transfers))
  {
    var existing := TransferByTransaction(repo.transfers, txn.id);
    if existing.Some? {
      return;
    }
    var candidates := FindTransferCandidates(repo.txns, repo.transfers, txn, BudgetLinkDays);
    if candidates == [] {
      return;
    }
    var (from, to) := BudgetLinkDirection(txn, m, candidates[0].id);
    var kind := if m.Some? then m.value.transferType else "internal-transfer";
    var _ := repo.InsertTransfer(Transfer(transferId, from, to, kind, "budget_app_import_auto_link",
                                          Some(BudgetLinkConfidence)));
  }
}

=== FILE: combinations.dfy ===
/**
 * Subset search in the order of Python's `itertools.combinations`: sizes
 * from small to large, and within one size the index lists in
 * lexicographic order. The source uses it for split-sum deduplication and
 * for matching receipt items against a charge.
 */
module Combinations {
  import opened Wrappers
  import opened Seqs

  /** A strictly increasing list of indices below `n`. */
  predicate IsCombo(c: seq<nat>, n: nat) {
    (forall i :: 0 <= i < |c| ==> c[i] < n) &&
    (forall i, j :: 0 <= i < j < |c| ==> c[i] < c[j])
  }

  predicate AllAtLeast(c: seq<nat>, lo: nat) {
    forall i :: 0 <= i < |c| ==> lo <= c[i]
  }

  function Prepend(x: nat, cs: seq<seq<nat>>): (r: seq<seq<nat>>)
    ensures |r| == |cs|
    ensures forall i :: 0 <= i < |cs| ==> r[i] == [x] + cs[i]
  {
    seq(|cs|, i requires 0 <= i < |cs| => [x] + cs[i])
  }

  /**
   * `itertools.combinations(range(lo, n), k)` as a list: the lists starting
   * with `lo` come first, then those drawn from `lo + 1` onwards.
   */
  function Combos(lo: nat, n: nat, k: nat): seq<seq<nat>>
    decreases n - lo, k
  {
    if k == 0 then [[]]
    else if lo >= n then []
    else Prepend(lo, Combos(lo + 1, n, k - 1)) + Combos(lo + 1, n, k)
  }

  /** Everything Combos lists is a strictly increasing index list of size k drawn from [lo, n). */
  lemma {:induction false} CombosSound(lo: nat, n: nat, k: nat)
    ensures forall i :: 0 <= i < |Combos(lo, n, k)| ==>
      |Combos(lo, n, k)[i]| == k && IsCombo(Combos(lo, n, k)[i], n) && AllAtLeast(Combos(lo, n, k)[i], lo)
    decreases n - lo, k
  {
    if k > 0 && lo < n {
      var shorter := Combos(lo + 1, n, k - 1);
      var rest := Combos(lo + 1, n, k);
      CombosSound(lo + 1, n, k - 1);
      CombosSound(lo + 1, n, k);
      var head := Prepend(lo, shorter);
      var cs := Combos(lo, n, k);
      assert cs == head + rest;
      forall i | 0 <= i < |cs|
        ensures |cs[i]| == k && IsCombo(cs[i], n) && AllAtLeast(cs[i], lo)
      {
        if i < |head| {
          ConsCombo(lo, n, shorter[i]);
        } else {
          assert cs[i] == rest[i - |head|];
        }
      }
    }
  }

  /** Putting `lo` in front of a list drawn from above `lo` keeps it strictly increasing. */
  lemma ConsCombo(lo: nat, n: nat, t: seq<nat>)
    requires lo < n && IsCombo(t, n) && AllAtLeast(t, lo + 1)
    ensures IsCombo([lo] + t, n) && AllAtLeast([lo] + t, lo)
  {
  }

  /** Every strictly increasing index list drawn from [lo, n) is listed by Combos, at the position returned. */
  lemma {:induction false} CombosComplete(lo: nat, n: nat, c: seq<nat>) returns (i: nat)
    requires IsCombo(c, n) && AllAtLeast(c, lo)
    ensures i < |Combos(lo, n, |c|)| && Combos(lo, n, |c|)[i] == c
    decreases n - lo
  {
    if |c| == 0 {
      i := 0;
    } else {
      var tail := c[1..];
      ComboTail(c, n);
      var shorter := Combos(lo + 1, n, |c| - 1);
      assert Combos(lo, n, |c|) == Prepend(lo, shorter) + Combos(lo + 1, n, |c|);
      if c[0] == lo {
        i := CombosComplete(lo + 1, n, tail);
        assert c == [lo] + tail;
      } else {
        var j := CombosComplete(lo + 1, n, c);
        i := |shorter| + j;
      }
    }
  }

  /** Every element of a strictly increasing list is at least its first, and the rest lies above it. */
  lemma ComboTail(c: seq<nat>, n: nat)
    requires IsCombo(c, n) && |c| > 0
    ensures AllAtLeast(c, c[0])
    ensures IsCombo(c[1..], n) && AllAtLeast(c[1..], c[0] + 1)
  {
  }

  /** A strictly increasing index list below n has at most n elements. */
  lemma {:induction false} ComboSize(c: seq<nat>, n: nat)
    requires IsCombo(c, n)
    ensures |c| <= n
  {
    if |c| > 0 {
      var t := c[..|c| - 1];
      assert IsCombo(t, c[|c| - 1]);
      ComboSize(t, c[|c| - 1]);
    }
  }

  /** Sum of the amounts at the given indices (an index out of range adds nothing). */
  function SumAt(amounts: seq<int>, c: seq<nat>): int {
    if c == [] then 0 else (if c[0] < |amounts| then amounts[c[0]] else 0) + SumAt(amounts, c[1..])
  }

  /**
   * The first combination of `range(n)`, trying sizes k, k + 1, ..., n in
   * turn, that `fits`; None when no combination of those sizes fits.
   */
  function Search(n: nat, k: nat, fits: seq<nat> -> bool): Option<seq<nat>>
    decreases n + 1 - k
  {
    if k > n then None
    else
      var cs := Combos(0, n, k);
      match FirstIndex(cs, fits)
      case Some(i) => Some(cs[i])
      case None => Search(n, k + 1, fits)
  }

  /** A found subset fits and is a strictly increasing index list with a size between k and n. */
  lemma {:induction false} SearchFits(n: nat, k: nat, fits: seq<nat> -> bool)
    requires Search(n, k, fits).Some?
    ensures var c := Search(n, k, fits).value;
      fits(c) && IsCombo(c, n) && k <= |c| <= n
    decreases n + 1 - k
  {
    var cs := Combos(0, n, k);
    CombosSound(0, n, k);
    match FirstIndex(cs, fits)
    case Some(i) =>
    case None =>
      SearchFits(n, k + 1, fits);
  }

  /** No subset with a size from k up to (but excluding) the found one's fits. */
  lemma {:induction false} SearchMinimal(n: nat, k: nat, fits: seq<nat> -> bool, d: seq<nat>)
    requires Search(n, k, fits).Some?
    requires IsCombo(d, n) && k <= |d| < |Search(n, k, fits).value|
    ensures !fits(d)
    decreases n + 1 - k
  {
    var cs := Combos(0, n, k);
    CombosSound(0, n, k);
    match FirstIndex(cs, fits)
    case Some(i) =>
    case None =>
      if |d| == k {
        var i := CombosComplete(0, n, d);
      } else {
        SearchMinimal(n, k + 1, fits, d);
      }
  }

  /** Within its size, the found subset is the first fitting one in combination order. */
  lemma {:induction false} SearchFirst(n: nat, k: nat, fits: seq<nat> -> bool)
    requires Search(n, k, fits).Some?
    ensures var c := Search(n, k, fits).value;
      exists i :: 0 <= i < |Combos(0, n, |c|)| && Combos(0, n, |c|)[i] == c &&
        forall j :: 0 <= j < i ==> !fits(Combos(0, n, |c|)[j])
    decreases n + 1 - k
  {
    var cs := Combos(0, n, k);
    CombosSound(0, n, k);
    match FirstIndex(cs, fits)
    case Some(i) =>
      assert |cs[i]| == k;
    case None =>
      SearchFirst(n, k + 1, fits);
  }

  /** No subset of size k or more fits when the search finds nothing. */
  lemma {:induction false} SearchNone(n: nat, k: nat, fits: seq<nat> -> bool)
    requires Search(n, k, fits).None?
    ensures forall d :: IsCombo(d, n) && k <= |d| ==> !fits(d)
    decreases n + 1 - k
  {
    forall d | IsCombo(d, n) && k <= |d|
      ensures !fits(d)
    {
      ComboSize(d, n);
      SearchNoneAt(n, k, fits, d);
    }
  }

  lemma {:induction false} SearchNoneAt(n: nat, k: nat, fits: seq<nat> -> bool, d: seq<nat>)
    requires Search(n, k, fits).None?
    requires IsCombo(d, n) && k <= |d| <= n
    ensures !fits(d)
    decreases n + 1 - k
  {
    if |d| == k {
      var i := CombosComplete(0, n, d);
    } else {
      SearchNoneAt(n, k + 1, fits, d);
    }
  }

  /** The three facts about a search from size k in one place: it fits, it is minimal, or nothing fits. */
  lemma SearchFacts(n: nat, k: nat, fits: seq<nat> -> bool)
    ensures Search(n, k, fits).Some? ==> var c := Search(n, k, fits).value;
      fits(c) && IsCombo(c, n) && k <= |c|
    ensures Search(n, k, fits).Some? ==>
      forall d :: IsCombo(d, n) && k <= |d| < |Search(n, k, fits).value| ==> !fits(d)
    ensures Search(n, k, fits).None? ==> forall d :: IsCombo(d, n) && k <= |d| ==> !fits(d)
  {
    if Search(n, k, fits).Some? {
      SearchFits(n, k, fits);
      forall d | IsCombo(d, n) && k <= |d| < |Search(n, k, fits).value|
        ensures !fits(d)
      {
        SearchMinimal(n, k, fits, d);
      }
    } else {
      SearchNone(n, k, fits);
    }
  }
}

=== FILE: config.dfy ===
/**
 * The loaded configuration (accounts, category tree, merchants, rules and
 * the budget-app category map) as typed records, and the lookups and
 * derived maps the rest of the system reads from it. A key missing from a
 * YAML mapping is `None` (or the empty string / empty list where the source
 * reads it with such a default).
 */
module Config {
  import opened Wrappers
  import opened Text
  import opened Dicts

  datatype CategoryFilter = CategoryFilter(
    defaultCategory: Option<string>,
    compatiblePrefixes: seq<string>,
    compatibleIds: seq<string>)

  datatype InterestDetection = InterestDetection(fitidSuffix: string, categoryId: Option<string>)

  datatype Account = Account(
    id: Option<string>,
    name: string,
    budgetAppName: string,
    importFormat: string,
    accountType: string,
    qfxAcctid: Option<string>,
    transferAliases: seq<string>,
    categoryFilter: Option<CategoryFilter>,
    interestDetection: Option<InterestDetection>)

  /** A node of `categories.yaml`; `isIncome`/`isTransfer` are None when the node does not set them. */
  datatype CategoryNode = CategoryNode(
    id: string,
    name: string,
    children: seq<CategoryNode>,
    isIncome: Option<bool>,
    isTransfer: Option<bool>)

  datatype MerchantRule = MerchantRule(
    matchType: Option<string>,
    pattern: string,
    categoryId: Option<string>,
    consistency: Option<real>,
    merchantName: Option<string>)

  /** A `transfers` rule of rules.yaml; `hasFitidSuffix` says whether it carries a `pattern_fitid_suffix` key. */
  datatype TransferRule = TransferRule(
    hasFitidSuffix: bool,
    pattern: string,
    fromAccount: string,
    toAccount: string,
    ruleType: Option<string>)

  datatype AmountRule = AmountRule(
    wholeDollar: bool,
    amountRange: Option<(int, int)>,
    categoryId: Option<string>,
    confidence: Option<string>,
    note: Option<string>)

  datatype AmountRuleSet = AmountRuleSet(
    merchantPattern: string,
    accounts: seq<string>,
    rules: seq<AmountRule>)

  datatype AccountRule = AccountRule(
    account: Option<string>,
    nonTransferCategory: Option<string>,
    defaultCategory: Option<string>,
    note: Option<string>)

  datatype CategoryMapEntry = CategoryMapEntry(budgetApp: Option<string>, categoryId: Option<string>)

  /** A group of budget_app_category_map.yaml; `entries` is None when the group's value is not a list. */
  datatype CategoryGroup = CategoryGroup(name: string, entries: Option<seq<CategoryMapEntry>>)

  datatype Config = Config(
    accounts: seq<Account>,
    categories: seq<CategoryNode>,
    autoMerchants: seq<MerchantRule>,
    highMerchants: seq<MerchantRule>,
    transfers: seq<TransferRule>,
    amountRules: seq<AmountRuleSet>,
    accountRules: seq<AccountRule>,
    transferCategories: Dict<string, string>,
    receiptCategories: seq<string>,
    fallback: Option<string>,
    categoryGroups: seq<CategoryGroup>)

  // ---------------------------------------------------------------------
  // Account lookups

  /** `account_by_id`: the first account whose id equals `accountId`. */
  function AccountById(accounts: seq<Account>, accountId: string): (r: Option<Account>)
    ensures r.Some? ==> r.value in accounts && r.value.id == Some(accountId)
    ensures r.None? <==> forall a :: a in accounts ==> a.id != Some(accountId)
  {
    if accounts == [] then None
    else if accounts[0].id == Some(accountId) then Some(accounts[0])
    else AccountById(accounts[1..], accountId)
  }

  /** The account found is the first one with that id. */
  lemma {:induction false} AccountByIdFirst(accounts: seq<Account>, accountId: string, i: nat)
    requires i < |accounts| && accounts[i].id == Some(accountId)
    requires forall j :: 0 <= j < i ==> accounts[j].id != Some(accountId)
    ensures AccountById(accounts, accountId) == Some(accounts[i])
  {
    if i > 0 {
      AccountByIdFirst(accounts[1..], accountId, i - 1);
    }
  }

  /** `category_filter_for`: None for an unknown account. */
  function CategoryFilterFor(c: Config, accountId: string): (r: Option<CategoryFilter>)
    ensures AccountById(c.accounts, accountId).None? ==> r.None?
    ensures r.Some? ==> exists a :: a in c.accounts && a.id == Some(accountId) && a.categoryFilter == r
  {
    match AccountById(c.accounts, accountId)
    case None => None
    case Some(a) => a.categoryFilter
  }

  /** `interest_detection_for`: None for an unknown account. */
  function InterestDetectionFor(c: Config, accountId: string): (r: Option<InterestDetection>)
    ensures AccountById(c.accounts, accountId).None? ==> r.None?
    ensures r.Some? ==> exists a :: a in c.accounts && a.id == Some(accountId) && a.interestDetection == r
  {
    match AccountById(c.accounts, accountId)
    case None => None
    case Some(a) => a.interestDetection
  }

  /** `fallback_category`: "uncategorized" unless rules.yaml sets one. */
  function FallbackCategory(c: Config): (r: string)
    ensures c.fallback.None? ==> r == "uncategorized"
    ensures c.fallback.Some? ==> r == c.fallback.value
  {
    c.fallback.GetOr("uncategorized")
  }

  // ---------------------------------------------------------------------
  // Derived maps

  /** `budget_app_category_map`: the pairs of every list-valued group whose entry has both fields non-empty. */
  function CategoryMapPairs(groups: seq<CategoryGroup>): (r: seq<(string, string)>)
    ensures forall p :: p in r ==>
      p.0 != "" && p.1 != "" &&
      exists g :: g in groups && g.entries.Some? && CategoryMapEntry(Some(p.0), Some(p.1)) in g.entries.value
  {
    if groups == [] then []
    else
      var g := groups[0];
      var own := if g.entries.None? then [] else EntryPairs(g.entries.value);
      own + CategoryMapPairs(groups[1..])
  }

  function EntryPairs(entries: seq<CategoryMapEntry>): (r: seq<(string, string)>)
    ensures forall p :: p in r ==> p.0 != "" && p.1 != "" && CategoryMapEntry(Some(p.0), Some(p.1)) in entries
  {
    if entries == [] then []
    else
      var e := entries[0];
      (if HasText(e.budgetApp) && HasText(e.categoryId) then [(e.budgetApp.value, e.categoryId.value)] else [])
        + EntryPairs(entries[1..])
  }

  function BudgetAppCategoryMap(c: Config): Dict<string, string> {
    FromPairs(CategoryMapPairs(c.categoryGroups))
  }

  /** Every name the budget-app map knows comes from an entry that names both sides. */
  lemma BudgetAppCategoryMapSound(c: Config, name: string)
    requires Get(BudgetAppCategoryMap(c), name).Some?
    ensures name != "" && Get(BudgetAppCategoryMap(c), name).value != ""
  {
    var ps := CategoryMapPairs(c.categoryGroups);
    var v := Get(BudgetAppCategoryMap(c), name).value;
    FromPairsValue(ps, name);
  }

  /** A value read from a dict built from pairs is the value of some pair with that key. */
  lemma {:induction false} FromPairsValue<K, V>(ps: seq<(K, V)>, k: K)
    requires Get(FromPairs(ps), k).Some?
    ensures (k, Get(FromPairs(ps), k).value) in ps
  {
    var n := |ps| - 1;
    PutGet(FromPairs(ps[..n]), ps[n].0, ps[n].1, k);
    if k != ps[n].0 {
      FromPairsValue(ps[..n], k);
    }
  }

  function MercuryPairs(accounts: seq<Account>): (r: seq<(string, string)>)
    ensures forall p :: p in r ==>
      p.0 != "" && p.1 != "" &&
      exists a :: a in accounts && a.importFormat == "mercury_csv" && a.name == p.0 && a.id == Some(p.1)
  {
    if accounts == [] then []
    else
      var a := accounts[0];
      var id := a.id.GetOr("");
      (if a.importFormat == "mercury_csv" && a.name != "" && id != "" then [(a.name, id)] else [])
        + MercuryPairs(accounts[1..])
  }

  /** `mercury_account_routing`: Source Account name to account id, for Mercury CSV accounts. */
  function MercuryAccountRouting(c: Config): Dict<string, string> {
    FromPairs(MercuryPairs(c.accounts))
  }

  function BudgetAppPairs(accounts: seq<Account>): (r: seq<(string, string)>)
    ensures forall p :: p in r ==>
      p.0 != "" && p.1 != "" &&
      exists a :: a in accounts && a.budgetAppName == p.0 && a.id == Some(p.1)
  {
    if accounts == [] then []
    else
      var a := accounts[0];
      var id := a.id.GetOr("");
      (if a.budgetAppName != "" && id != "" then [(a.budgetAppName, id)] else [])
        + BudgetAppPairs(accounts[1..])
  }

  /** `budget_app_account_routing`: budget-app account name to account id. */
  function BudgetAppAccountRouting(c: Config): Dict<string, string> {
    FromPairs(BudgetAppPairs(c.accounts))
  }

  /** Both routing maps only route non-empty names to non-empty ids of configured accounts. */
  lemma RoutingSound(c: Config, name: string)
    ensures Get(MercuryAccountRouting(c), name).Some? ==>
      name != "" &&
      exists a :: a in c.accounts && a.importFormat == "mercury_csv" && a.name == name &&
        a.id == Some(Get(MercuryAccountRouting(c), name).value) && a.id != Some("")
    ensures Get(BudgetAppAccountRouting(c), name).Some? ==>
      name != "" &&
      exists a :: a in c.accounts && a.budgetAppName == name &&
        a.id == Some(Get(BudgetAppAccountRouting(c), name).value) && a.id != Some("")
  {
    if Get(MercuryAccountRouting(c), name).Some? {
      FromPairsValue(MercuryPairs(c.accounts), name);
    }
    if Get(BudgetAppAccountRouting(c), name).Some? {
      FromPairsValue(BudgetAppPairs(c.accounts), name);
    }
  }

  function NonEmptyUpper(names: seq<string>, id: string): (r: seq<(string, string)>)
    ensures forall p :: p in r ==> p.1 == id && exists n :: n in names && n != "" && p.0 == Upper(n)
  {
    if names == [] then []
    else (if names[0] != "" then [(Upper(names[0]), id)] else []) + NonEmptyUpper(names[1..], id)
  }

  function NamePairs(accounts: seq<Account>): (r: seq<(string, string)>)
    ensures forall p :: p in r ==> p.1 != "" && exists a :: a in accounts && a.id == Some(p.1)
  {
    if accounts == [] then []
    else
      var a := accounts[0];
      var id := a.id.GetOr("");
      (if id == "" then [] else NonEmptyUpper([a.name, a.budgetAppName] + a.transferAliases, id))
        + NamePairs(accounts[1..])
  }

  /** `transfer_name_map`: uppercased name, budget-app name and aliases of each account with an id. */
  function TransferNameMap(c: Config): Dict<string, string> {
    FromPairs(NamePairs(c.accounts))
  }

  /** Every name in the transfer name map is upper case and resolves to the id of a configured account. */
  lemma TransferNameMapSound(c: Config, name: string)
    requires Get(TransferNameMap(c), name).Some?
    ensures Get(TransferNameMap(c), name).value != ""
    ensures exists a :: a in c.accounts && a.id == Some(Get(TransferNameMap(c), name).value)
    ensures forall i :: 0 <= i < |name| ==> !IsLowerLetter(name[i])
  {
    var ps := NamePairs(c.accounts);
    FromPairsValue(ps, name);
    var v := Get(TransferNameMap(c), name).value;
    assert (name, v) in ps;
    NamePairsUpper(c.accounts, name, v);
  }

  lemma {:induction false} NamePairsUpper(accounts: seq<Account>, name: string, id: string)
    requires (name, id) in NamePairs(accounts)
    ensures forall i :: 0 <= i < |name| ==> !IsLowerLetter(name[i])
  {
    var a := accounts[0];
    var aid := a.id.GetOr("");
    var own := if aid == "" then [] else NonEmptyUpper([a.name, a.budgetAppName] + a.transferAliases, aid);
    if (name, id) in own {
      var n :| n in [a.name, a.budgetAppName] + a.transferAliases && n != "" && name == Upper(n);
    } else {
      assert (name, id) in NamePairs(accounts[1..]);
      NamePairsUpper(accounts[1..], name, id);
    }
  }

  /** Every non-empty name of an account with an id is in the transfer name map, upper-cased. */
  lemma TransferNameMapComplete(c: Config, a: Account, n: string)
    requires a in c.accounts && a.id.Some? && a.id.value != ""
    requires n in [a.name, a.budgetAppName] + a.transferAliases && n != ""
    ensures Get(TransferNameMap(c), Upper(n)).Some?
  {
    NamePairsComplete(c.accounts, a, n);
    FromPairsKeys(NamePairs(c.accounts));
    GetSome(TransferNameMap(c), Upper(n));
  }

  lemma {:induction false} NamePairsComplete(accounts: seq<Account>, a: Account, n: string)
    requires a in accounts && a.id.Some? && a.id.value != ""
    requires n in [a.name, a.budgetAppName] + a.transferAliases && n != ""
    ensures Upper(n) in Keys(NamePairs(accounts))
  {
    var b := accounts[0];
    var bid := b.id.GetOr("");
    var own := if bid == "" then [] else NonEmptyUpper([b.name, b.budgetAppName] + b.transferAliases, bid);
    assert NamePairs(accounts) == own + NamePairs(accounts[1..]);
    if b == a {
      NonEmptyUpperHas([a.name, a.budgetAppName] + a.transferAliases, a.id.value, n);
    } else {
      NamePairsComplete(accounts[1..], a, n);
    }
    KeysAppend(own, NamePairs(accounts[1..]));
  }

  lemma {:induction false} NonEmptyUpperHas(names: seq<string>, id: string, n: string)
    requires n in names && n != ""
    ensures Upper(n) in Keys(NonEmptyUpper(names, id))
  {
    var own := if names[0] != "" then [(Upper(names[0]), id)] else [];
    assert NonEmptyUpper(names, id) == own + NonEmptyUpper(names[1..], id);
    KeysAppend(own, NonEmptyUpper(names[1..], id));
    if names[0] != n {
      NonEmptyUpperHas(names[1..], id, n);
    }
  }

  // ---------------------------------------------------------------------
  // Category tree

  /** The non-empty ids of a forest, in pre-order (`_build_category_list` / `_walk`). */
  function TreeIds(nodes: seq<CategoryNode>): (r: seq<string>)
    ensures forall i :: 0 <= i < |r| ==> r[i] != ""
    decreases nodes
  {
    if nodes == [] then [] else NodeIds(nodes[0]) + TreeIds(nodes[1..])
  }

  function NodeIds(n: CategoryNode): (r: seq<string>)
    ensures forall i :: 0 <= i < |r| ==> r[i] != ""
    decreases n
  {
    (if n.id != "" then [n.id] else []) + TreeIds(n.children)
  }

  /** One row of `flatten_category_tree`. */
  datatype CategoryEntry = CategoryEntry(
    categoryId: string,
    name: string,
    level: nat,
    level0: string,
    level1: string,
    level2: string,
    level3: string,
    isLeaf: bool,
    isIncome: bool,
    isTransfer: bool)

  function LevelName(e: CategoryEntry, i: nat): string
    requires i < 4
  {
    if i == 0 then e.level0 else if i == 1 then e.level1 else if i == 2 then e.level2 else e.level3
  }

  /** Element i of a list padded with "" to four entries. */
  function Padded(levels: seq<string>, i: nat): string {
    if i < |levels| then levels[i] else ""
  }

  /** The (id, entry) writes of `_walk`, in the order the source makes them. */
  function ForestEntries(nodes: seq<CategoryNode>, depth: nat, ancestors: seq<string>,
                         income: bool, transfer: bool): seq<(string, CategoryEntry)>
    decreases nodes
  {
    if nodes == [] then []
    else
      NodeEntries(nodes[0], depth, ancestors, income, transfer) +
      ForestEntries(nodes[1..], depth, ancestors, income, transfer)
  }

  function NodeEntries(n: CategoryNode, depth: nat, ancestors: seq<string>,
                       inheritIncome: bool, inheritTransfer: bool): seq<(string, CategoryEntry)>
    decreases n
  {
    var income := n.isIncome.GetOr(inheritIncome);
    var transfer := n.isTransfer.GetOr(inheritTransfer);
    var levels := ancestors + [n.name];
    var own :=
      if n.id != "" then
        [(n.id, CategoryEntry(n.id, n.name, depth, Padded(levels, 0), Padded(levels, 1),
                              Padded(levels, 2), Padded(levels, 3), n.children == [], income, transfer))]
      else [];
    own +
      if n.children == [] then []
      else if n.id != "" then ForestEntries(n.children, depth + 1, ancestors + [n.name], income, transfer)
      else ForestEntries(n.children, depth, ancestors, income, transfer)
  }

  /** `flatten_category_tree`: category id to its entry (a later duplicate id overwrites). */
  function FlattenCategoryTree(c: Config): Dict<string, CategoryEntry> {
    FromPairs(ForestEntries(c.categories, 0, [], false, false))
  }

  /**
   * Every entry is keyed by its own non-empty id; its level is at least the
   * depth of the forest; its first level columns are the names of the
   * ancestors passed in, the column at its level is its own name and the
   * later ones are "". EntryAt below pins down every column.
   */
  lemma {:induction false} ForestEntriesShape(nodes: seq<CategoryNode>, depth: nat, ancestors: seq<string>,
                                              income: bool, transfer: bool)
    requires |ancestors| == depth
    ensures forall p :: p in ForestEntries(nodes, depth, ancestors, income, transfer) ==>
      EntryShape(p, depth, ancestors)
    decreases nodes
  {
    if nodes != [] {
      NodeEntriesShape(nodes[0], depth, ancestors, income, transfer);
      ForestEntriesShape(nodes[1..], depth, ancestors, income, transfer);
    }
  }

  predicate EntryShape(p: (string, CategoryEntry), depth: nat, ancestors: seq<string>) {
    var e := p.1;
    p.0 != "" && e.categoryId == p.0 && depth <= e.level &&
    (forall i :: 0 <= i < 4 && i < |ancestors| ==> LevelName(e, i) == ancestors[i]) &&
    (e.level < 4 ==> LevelName(e, e.level) == e.name) &&
    (forall i :: e.level < i < 4 ==> LevelName(e, i) == "")
  }

  lemma {:induction false} NodeEntriesShape(n: CategoryNode, depth: nat, ancestors: seq<string>,
                                            income: bool, transfer: bool)
    requires |ancestors| == depth
    ensures forall p :: p in NodeEntries(n, depth, ancestors, income, transfer) ==> EntryShape(p, depth, ancestors)
    decreases n
  {
    var inc := n.isIncome.GetOr(income);
    var tr := n.isTransfer.GetOr(transfer);
    if n.children != [] {
      if n.id != "" {
        ForestEntriesShape(n.children, depth + 1, ancestors + [n.name], inc, tr);
        forall p | p in ForestEntries(n.children, depth + 1, ancestors + [n.name], inc, tr)
          ensures EntryShape(p, depth, ancestors)
        {
          assert EntryShape(p, depth + 1, ancestors + [n.name]);
        }
      } else {
        ForestEntriesShape(n.children, depth, ancestors, inc, tr);
      }
    }
  }

  /** The flattened tree has an entry exactly for every node id. */
  lemma {:induction false} ForestEntriesKeys(nodes: seq<CategoryNode>, depth: nat, ancestors: seq<string>,
                                             income: bool, transfer: bool)
    ensures Keys(ForestEntries(nodes, depth, ancestors, income, transfer)) == TreeIds(nodes)
    decreases nodes
  {
    if nodes != [] {
      NodeEntriesKeys(nodes[0], depth, ancestors, income, transfer);
      ForestEntriesKeys(nodes[1..], depth, ancestors, income, transfer);
      KeysAppend(NodeEntries(nodes[0], depth, ancestors, income, transfer),
                 ForestEntries(nodes[1..], depth, ancestors, income, transfer));
    }
  }

  lemma {:induction false} NodeEntriesKeys(n: CategoryNode, depth: nat, ancestors: seq<string>,
                                           income: bool, transfer: bool)
    ensures Keys(NodeEntries(n, depth, ancestors, income, transfer)) == NodeIds(n)
    decreases n
  {
    var inc := n.isIncome.GetOr(income);
    var tr := n.isTransfer.GetOr(transfer);
    var own := if n.id != "" then [NodeEntries(n, depth, ancestors, income, transfer)[0]] else [];
    var rest :=
      if n.children == [] then []
      else if n.id != "" then ForestEntries(n.children, depth + 1, ancestors + [n.name], inc, tr)
      else ForestEntries(n.children, depth, ancestors, inc, tr);
    assert NodeEntries(n, depth, ancestors, income, transfer) == own + rest;
    if n.children != [] {
      if n.id != "" {
        ForestEntriesKeys(n.children, depth + 1, ancestors + [n.name], inc, tr);
      } else {
        ForestEntriesKeys(n.children, depth, ancestors, inc, tr);
      }
    }
    KeysAppend(own, rest);
  }

  /** Every category id of the tree, and nothing else, is a key of the flattened tree. */
  lemma FlattenKeys(c: Config, id: string)
    ensures Get(FlattenCategoryTree(c), id).Some? <==> id in TreeIds(c.categories)
  {
    ForestEntriesKeys(c.categories, 0, [], false, false);
    FromPairsKeys(ForestEntries(c.categories, 0, [], false, false));
    GetSome(FlattenCategoryTree(c), id);
  }

  /** Nodes that set no flag inherit them all from the top: with none set anywhere every entry has the inherited values. */
  predicate NoFlags(nodes: seq<CategoryNode>)
    decreases nodes
  {
    forall i :: 0 <= i < |nodes| ==> nodes[i].isIncome.None? && nodes[i].isTransfer.None? && NoFlags(nodes[i].children)
  }

  lemma {:induction false} InheritedFlags(nodes: seq<CategoryNode>, depth: nat, ancestors: seq<string>,
                                          income: bool, transfer: bool)
    requires NoFlags(nodes)
    ensures forall p :: p in ForestEntries(nodes, depth, ancestors, income, transfer) ==>
      p.1.isIncome == income && p.1.isTransfer == transfer
    decreases nodes
  {
    if nodes != [] {
      var n := nodes[0];
      assert n.isIncome.None? && n.isTransfer.None? && NoFlags(n.children);
      if n.children != [] {
        if n.id != "" {
          InheritedFlags(n.children, depth + 1, ancestors + [n.name], income, transfer);
        } else {
          InheritedFlags(n.children, depth, ancestors, income, transfer);
        }
      }
      InheritedFlags(nodes[1..], depth, ancestors, income, transfer);
      assert forall i :: 0 <= i < |nodes[1..]| ==> nodes[1..][i] == nodes[i + 1];
    }
  }

  // The flattened tree against the paths of the tree: an independent
  // account of each entry, node by node from the top.

  /** `path` leads from the forest `nodes` down to `n`: each node a child of the one before. */
  predicate Reaches(nodes: seq<CategoryNode>, path: seq<CategoryNode>, n: CategoryNode)
    decreases path
  {
    if path == [] then n in nodes else path[0] in nodes && Reaches(path[0].children, path[1..], n)
  }

  /** The names of the nodes of a path that carry an id. */
  function IdNames(path: seq<CategoryNode>): seq<string> {
    if path == [] then [] else (if path[0].id != "" then [path[0].name] else []) + IdNames(path[1..])
  }

  datatype Flag = IncomeFlag | TransferFlag

  function FlagOf(n: CategoryNode, f: Flag): Option<bool> {
    if f == IncomeFlag then n.isIncome else n.isTransfer
  }

  /** The flag of the last node of `path` that sets it, or `outer` when none does. */
  function Nearest(path: seq<CategoryNode>, f: Flag, outer: bool): bool {
    if path == [] then outer
    else if FlagOf(path[|path| - 1], f).Some? then FlagOf(path[|path| - 1], f).value
    else Nearest(path[..|path| - 1], f, outer)
  }

  /**
   * The entry of the node `n` reached by `path` below id-bearing ancestors
   * named `above` whose flags are `income` and `transfer`: its level counts
   * the id-bearing nodes over it, its level columns are their names, then
   * its own, then ""; it is a leaf iff it has no children, and each flag is
   * the one the nearest node setting it gives, itself included.
   */
  function EntryBelow(above: seq<string>, income: bool, transfer: bool,
                      path: seq<CategoryNode>, n: CategoryNode): CategoryEntry
  {
    var levels := above + IdNames(path) + [n.name];
    CategoryEntry(n.id, n.name, |above| + |IdNames(path)|,
                  Padded(levels, 0), Padded(levels, 1), Padded(levels, 2), Padded(levels, 3),
                  n.children == [], Nearest(path + [n], IncomeFlag, income), Nearest(path + [n], TransferFlag, transfer))
  }

  /** The entry of the node `n` reached by `path` from the top of the tree. */
  function EntryAt(path: seq<CategoryNode>, n: CategoryNode): (e: CategoryEntry)
    ensures e.categoryId == n.id && e.name == n.name && e.level == |IdNames(path)|
    ensures forall i :: 0 <= i < 4 ==> LevelName(e, i) == Padded(IdNames(path) + [n.name], i)
    ensures e.isLeaf <==> n.children == []
    ensures e.isIncome == Nearest(path + [n], IncomeFlag, false) && e.isTransfer == Nearest(path + [n], TransferFlag, false)
  {
    assert [] + IdNames(path) + [n.name] == IdNames(path) + [n.name];
    EntryBelow([], false, false, path, n)
  }

  /** Looking from the end, a node in front of the path only matters when no later node sets the flag. */
  lemma {:induction false} NearestCons(m: CategoryNode, path: seq<CategoryNode>, f: Flag, outer: bool)
    ensures Nearest([m] + path, f, outer) == Nearest(path, f, FlagOf(m, f).GetOr(outer))
    decreases |path|
  {
    if path == [] {
      assert [m] + path == [m];
      assert [m][..0] == [];
    } else {
      var n := |path| - 1;
      assert ([m] + path)[..n + 1] == [m] + path[..n];
      NearestCons(m, path[..n], f, outer);
    }
  }

  /** The entry of a node under `m` seen from above `m`. */
  lemma EntryBelowCons(above: seq<string>, income: bool, transfer: bool, m: CategoryNode,
                       path: seq<CategoryNode>, n: CategoryNode)
    ensures EntryBelow(above, income, transfer, [m] + path, n) ==
      EntryBelow(if m.id != "" then above + [m.name] else above,
                 m.isIncome.GetOr(income), m.isTransfer.GetOr(transfer), path, n)
  {
    assert ([m] + path)[1..] == path;
    assert ([m] + path) + [n] == [m] + (path + [n]);
    NearestCons(m, path + [n], IncomeFlag, income);
    NearestCons(m, path + [n], TransferFlag, transfer);
  }

  /** A node with an id writes its own entry first: the entry of the empty path to it. */
  lemma OwnEntry(above: seq<string>, income: bool, transfer: bool, m: CategoryNode)
    requires m.id != ""
    ensures NodeEntries(m, |above|, above, income, transfer)[0] == (m.id, EntryBelow(above, income, transfer, [], m))
  {
    assert IdNames([]) == [];
    assert above + IdNames([]) + [m.name] == above + [m.name];
    assert [] + [m] == [m] && [m][..0] == [];
    assert Nearest([m], IncomeFlag, income) == m.isIncome.GetOr(income);
    assert Nearest([m], TransferFlag, transfer) == m.isTransfer.GetOr(transfer);
  }

  /** Each entry `_walk` writes is the entry of a node with an id, at the end of some path. */
  lemma {:induction false} ForestEntryOrigin(nodes: seq<CategoryNode>, above: seq<string>, income: bool,
                                             transfer: bool, p: (string, CategoryEntry))
    returns (path: seq<CategoryNode>, n: CategoryNode)
    requires p in ForestEntries(nodes, |above|, above, income, transfer)
    ensures Reaches(nodes, path, n) && n.id != "" && p == (n.id, EntryBelow(above, income, transfer, path, n))
    decreases nodes, 1
  {
    if p in NodeEntries(nodes[0], |above|, above, income, transfer) {
      path, n := NodeEntryOrigin(nodes[0], above, income, transfer, p);
      if path != [] {
        assert path[0] in nodes;
      }
    } else {
      path, n := ForestEntryOrigin(nodes[1..], above, income, transfer, p);
      if path != [] {
        assert path[0] in nodes;
      }
    }
  }

  lemma {:induction false} NodeEntryOrigin(m: CategoryNode, above: seq<string>, income: bool,
                                           transfer: bool, p: (string, CategoryEntry))
    returns (path: seq<CategoryNode>, n: CategoryNode)
    requires p in NodeEntries(m, |above|, above, income, transfer)
    ensures Reaches([m], path, n) && n.id != "" && p == (n.id, EntryBelow(above, income, transfer, path, n))
    decreases m, 0
  {
    var inc := m.isIncome.GetOr(income);
    var tr := m.isTransfer.GetOr(transfer);
    var below := if m.id != "" then above + [m.name] else above;
    var rest := if m.children == [] then [] else ForestEntries(m.children, |below|, below, inc, tr);
    if p in rest {
      var sub;
      sub, n := ForestEntryOrigin(m.children, below, inc, tr, p);
      path := [m] + sub;
      EntryBelowCons(above, income, transfer, m, sub, n);
      assert path[1..] == sub;
    } else {
      path, n := [], m;
      OwnEntry(above, income, transfer, m);
    }
  }

  /** `_walk` writes the entry of every node with an id, at the end of any path. */
  lemma {:induction false} ForestEntryAt(nodes: seq<CategoryNode>, above: seq<string>, income: bool,
                                         transfer: bool, path: seq<CategoryNode>, n: CategoryNode)
    requires Reaches(nodes, path, n) && n.id != ""
    ensures (n.id, EntryBelow(above, income, transfer, path, n)) in ForestEntries(nodes, |above|, above, income, transfer)
    decreases path
  {
    var m := if path == [] then n else path[0];
    var k :| 0 <= k < |nodes| && nodes[k] == m;
    ForestHasNode(nodes, k, above, income, transfer);
    var inc := m.isIncome.GetOr(income);
    var tr := m.isTransfer.GetOr(transfer);
    if path == [] {
      OwnEntry(above, income, transfer, m);
    } else {
      var below := if m.id != "" then above + [m.name] else above;
      assert path == [m] + path[1..];
      EntryBelowCons(above, income, transfer, m, path[1..], n);
      ForestEntryAt(m.children, below, inc, tr, path[1..], n);
      ReachesSomeChild(m.children, path[1..], n);
      NodeHasChildren(m, above, income, transfer);
    }
  }

  lemma ReachesSomeChild(nodes: seq<CategoryNode>, path: seq<CategoryNode>, n: CategoryNode)
    requires Reaches(nodes, path, n)
    ensures nodes != []
  {
    if path != [] {
      assert path[0] in nodes;
    }
  }

  /** The entries of a node's children are among the node's entries. */
  lemma NodeHasChildren(m: CategoryNode, above: seq<string>, income: bool, transfer: bool)
    requires m.children != []
    ensures var below := if m.id != "" then above + [m.name] else above;
      forall p :: p in ForestEntries(m.children, |below|, below, m.isIncome.GetOr(income), m.isTransfer.GetOr(transfer)) ==>
        p in NodeEntries(m, |above|, above, income, transfer)
  {
  }

  /** The entries of each node of a forest are among the forest's entries. */
  lemma {:induction false} ForestHasNode(nodes: seq<CategoryNode>, k: nat, above: seq<string>,
                                         income: bool, transfer: bool)
    requires k < |nodes|
    ensures forall p :: p in NodeEntries(nodes[k], |above|, above, income, transfer) ==>
      p in ForestEntries(nodes, |above|, above, income, transfer)
    decreases k
  {
    if k > 0 {
      ForestHasNode(nodes[1..], k - 1, above, income, transfer);
    }
  }

  /**
   * `flatten_category_tree` against the tree's paths: the value of every key
   * is the entry of a node with that id at the end of some path, and every
   * node with an id has its path's entry among the writes.
   */
  lemma FlattenEntryPath(c: Config, id: string) returns (path: seq<CategoryNode>, n: CategoryNode)
    requires Get(FlattenCategoryTree(c), id).Some?
    ensures Reaches(c.categories, path, n) && n.id == id
    ensures Get(FlattenCategoryTree(c), id).value == EntryAt(path, n)
  {
    var ps := ForestEntries(c.categories, 0, [], false, false);
    FromPairsIn(ps, id);
    path, n := ForestEntryOrigin(c.categories, [], false, false, (id, Get(FlattenCategoryTree(c), id).value));
  }

  lemma FlattenWritesEveryNode(c: Config, path: seq<CategoryNode>, n: CategoryNode)
    requires Reaches(c.categories, path, n) && n.id != ""
    ensures (n.id, EntryAt(path, n)) in ForestEntries(c.categories, 0, [], false, false)
  {
    ForestEntryAt(c.categories, [], false, false, path, n);
  }

  /** A top-level node with an id gets level 0, its own name in level_0, and is a leaf iff it has no children. */
  lemma TopLevelEntry(n: CategoryNode)
    requires n.id != ""
    ensures var p := NodeEntries(n, 0, [], false, false)[0];
      p.0 == n.id && p.1.level == 0 && p.1.level0 == n.name && p.1.level1 == "" &&
      (p.1.isLeaf <==> n.children == []) &&
      p.1.isIncome == n.isIncome.GetOr(false) && p.1.isTransfer == n.isTransfer.GetOr(false)
  {
  }
}

=== FILE: csv_parser.dfy ===
/**
 * The Mercury bank CSV export: one file holds the rows of every Mercury
 * sub-account, routed to internal account ids by the "Source Account"
 * column. Failed and cancelled payments are skipped; the sub-second
 * "Timestamp" column serves as the external id.
 */
module MercuryCsv {
  import opened Wrappers
  import opened Text
  import opened Models
  import opened Dicts
  import opened ParserBase

  /** `SKIP_STATUSES`. */
  const SkipStatuses: set<string> := {"Failed", "Cancelled"}

  /** `_should_skip`: the row's stripped Status is Failed or Cancelled. */
  predicate ShouldSkip(row: Row) {
    Cell(row, "Status") in SkipStatuses
  }

  lemma ShouldSkipStatuses(row: Row)
    ensures ShouldSkip(row) <==> Cell(row, "Status") == "Failed" || Cell(row, "Status") == "Cancelled"
    ensures Cell(row, "Status") == "" ==> !ShouldSkip(row)
  {
  }

  // ── Dates ──────────────────────────────────────────────

  /**
   * `_parse_date`: a '-'-separated date of three digit runs. One whose
   * first run has four characters is already YYYY-MM-DD and passes
   * through; otherwise it is MM-DD-YYYY and is rearranged, without
   * padding.
   */
  function ParseDate(s: string): (r: Option<string>)
    ensures r.Some? ==> (
      var out := SplitOn(r.value, '-');
      |out| == 3 && AllDigits(out[0]) && AllDigits(out[1]) && AllDigits(out[2]))
  {
    var parts := SplitOn(s, '-');
    if |parts| != 3 || !(AllDigits(parts[0]) && AllDigits(parts[1]) && AllDigits(parts[2])) then None
    else if |parts[0]| == 4 then Some(s)
    else
      SplitDigits(parts[2], parts[0], parts[1], '-');
      Some(parts[2] + "-" + parts[0] + "-" + parts[1])
  }

  /** An ISO date with a four-digit year is kept as it is. */
  lemma ParseDateIso(y: string, m: string, d: string)
    requires AllDigits(y) && |y| == 4 && AllDigits(m) && AllDigits(d)
    ensures ParseDate(y + "-" + m + "-" + d) == Some(y + "-" + m + "-" + d)
  {
    SplitDigits(y, m, d, '-');
  }

  /** A US date is rearranged to year-month-day, keeping the widths of its parts. */
  lemma ParseDateUs(m: string, d: string, y: string)
    requires AllDigits(m) && |m| != 4 && AllDigits(d) && AllDigits(y)
    ensures ParseDate(m + "-" + d + "-" + y) == Some(y + "-" + m + "-" + d)
  {
    SplitDigits(m, d, y, '-');
  }

  /** Anything that is not three digit runs joined by '-' is rejected. */
  lemma ParseDateForm(s: string)
    requires ParseDate(s).Some?
    ensures var p := SplitOn(s, '-');
      |p| == 3 && AllDigits(p[0]) && AllDigits(p[1]) && AllDigits(p[2]) && s == p[0] + "-" + p[1] + "-" + p[2]
  {
    SplitOnJoin(s, '-');
    var p := SplitOn(s, '-');
    assert p == [p[0], p[1], p[2]];
    JoinOn3(p[0], p[1], p[2], '-');
  }

  // ── Rows ───────────────────────────────────────────────

  predicate Unmapped(routing: Dict<string, string>, row: Row) {
    Get(routing, Cell(row, "Source Account")).None?
  }

  /** `float(amount_str.replace(",", ""))`. */
  function AmountOf(text: string): Option<Cents> {
    ParseCents(Remove(text, ','))
  }

  /**
   * `_parse_row`: None for an unmapped source account, a missing date or
   * amount, an unreadable date or an unreadable amount; otherwise the
   * description falls back to the bank description, and an empty
   * timestamp, note or check number is None.
   */
  function RowTransaction(routing: Dict<string, string>, row: Row): (r: Option<RawTransaction>)
    ensures r.Some? <==> (!Unmapped(routing, row) && Cell(row, "Date (UTC)") != "" && Cell(row, "Amount") != "" &&
                          ParseDate(Cell(row, "Date (UTC)")).Some? && AmountOf(Cell(row, "Amount")).Some?)
    ensures r.Some? ==> (
      r.value.accountId == Get(routing, Cell(row, "Source Account")).value &&
      r.value.date == ParseDate(Cell(row, "Date (UTC)")).value &&
      r.value.amount == AmountOf(Cell(row, "Amount")).value)
    ensures r.Some? ==> (
      r.value.rawDescription == (if Cell(row, "Description") != "" then Cell(row, "Description")
                                 else Cell(row, "Bank Description")) &&
      r.value.externalId == OrNone(Cell(row, "Timestamp")) &&
      r.value.memo == OrNone(Cell(row, "Note")) &&
      r.value.checkNum == OrNone(Cell(row, "Check Number")) &&
      r.value.txnType.None? && r.value.balance.None? && r.value.budgetAppCategoryId.None?)
  {
    match Get(routing, Cell(row, "Source Account"))
    case None => None
    case Some(accountId) =>
      var dateText := Cell(row, "Date (UTC)");
      var amountText := Cell(row, "Amount");
      if dateText == "" || amountText == "" then None
      else
        match ParseDate(dateText)
        case None => None
        case Some(date) =>
          match AmountOf(amountText)
          case None => None
          case Some(amount) =>
            var description := Cell(row, "Description");
            Some(RawTransaction(date, amount,
                                if description != "" then description else Cell(row, "Bank Description"),
                                accountId, OrNone(Cell(row, "Note")), None, OrNone(Cell(row, "Timestamp")),
                                OrNone(Cell(row, "Check Number")), None, None))
  }

  /** The names `_parse_row` warns about for one row. */
  function Warned(routing: Dict<string, string>, row: Row): (r: set<string>)
    ensures r == {} || r == {Cell(row, "Source Account")}
    ensures "" !in r
  {
    if Unmapped(routing, row) && Cell(row, "Source Account") != "" then {Cell(row, "Source Account")} else {}
  }

  /** What `parse` makes of one row: skipped by status, or read (possibly to nothing). */
  function Reading(routing: Dict<string, string>, row: Row): (r: Option<RawTransaction>)
    ensures ShouldSkip(row) ==> r.None?
    ensures !ShouldSkip(row) ==> r == RowTransaction(routing, row)
  {
    if ShouldSkip(row) then None else RowTransaction(routing, row)
  }

  // ── The file ───────────────────────────────────────────

  /** The transactions `parse` returns, in row order. */
  function Parsed(routing: Dict<string, string>, rows: seq<Row>): (r: seq<RawTransaction>)
    ensures |r| <= |rows|
  {
    if rows == [] then []
    else
      var t := Reading(routing, rows[|rows| - 1]);
      Parsed(routing, rows[..|rows| - 1]) + (if t.Some? then [t.value] else [])
  }

  /** The rows `parse` counts as skipped: skipped by status or unreadable. */
  function Skipped(routing: Dict<string, string>, rows: seq<Row>): nat {
    if rows == [] then 0
    else Skipped(routing, rows[..|rows| - 1]) + (if Reading(routing, rows[|rows| - 1]).None? then 1 else 0)
  }

  /** The rows skipped for their status alone. */
  function StatusSkipped(rows: seq<Row>): nat {
    if rows == [] then 0
    else StatusSkipped(rows[..|rows| - 1]) + (if ShouldSkip(rows[|rows| - 1]) then 1 else 0)
  }

  /** The account names warned about once the rows are read, starting from `seen`. */
  function WarnedAfter(seen: set<string>, routing: Dict<string, string>, rows: seq<Row>): (r: set<string>)
    ensures seen <= r
  {
    if rows == [] then seen
    else
      var last := rows[|rows| - 1];
      WarnedAfter(seen, routing, rows[..|rows| - 1]) + (if ShouldSkip(last) then {} else Warned(routing, last))
  }

  lemma ParsedStep(routing: Dict<string, string>, rows: seq<Row>, i: nat)
    requires i < |rows|
    ensures var t := Reading(routing, rows[i]);
      Parsed(routing, rows[..i + 1]) == Parsed(routing, rows[..i]) + (if t.Some? then [t.value] else []) &&
      Skipped(routing, rows[..i + 1]) == Skipped(routing, rows[..i]) + (if t.None? then 1 else 0)
    ensures forall seen :: (WarnedAfter(seen, routing, rows[..i + 1]) ==
      WarnedAfter(seen, routing, rows[..i]) + (if ShouldSkip(rows[i]) then {} else Warned(routing, rows[i])))
  {
    assert rows[..i + 1][..i] == rows[..i];
  }

  /** Every data row is either returned or counted as skipped. */
  lemma {:induction false} ParsedAccounting(routing: Dict<string, string>, rows: seq<Row>)
    ensures |Parsed(routing, rows)| + Skipped(routing, rows) == |rows|
  {
    if rows != [] {
      ParsedAccounting(routing, rows[..|rows| - 1]);
    }
  }

  /** The skip count includes every Failed or Cancelled row. */
  lemma {:induction false} SkippedCoversStatus(routing: Dict<string, string>, rows: seq<Row>)
    ensures StatusSkipped(rows) <= Skipped(routing, rows)
  {
    if rows != [] {
      SkippedCoversStatus(routing, rows[..|rows| - 1]);
    }
  }

  /** No returned transaction comes from a Failed or Cancelled row. */
  lemma {:induction false} ParsedNotSkipped(routing: Dict<string, string>, rows: seq<Row>, t: RawTransaction)
    requires t in Parsed(routing, rows)
    ensures exists i :: 0 <= i < |rows| && !ShouldSkip(rows[i]) && RowTransaction(routing, rows[i]) == Some(t)
  {
    var init := rows[..|rows| - 1];
    if t in Parsed(routing, init) {
      ParsedNotSkipped(routing, init, t);
      var i :| 0 <= i < |init| && !ShouldSkip(init[i]) && RowTransaction(routing, init[i]) == Some(t);
      assert rows[i] == init[i];
    } else {
      assert Reading(routing, rows[|rows| - 1]) == Some(t);
    }
  }

  /**
   * `MercuryCsvParser`: the routing map is fixed at construction;
   * `skippedCount` is reset by every `parse`, the warned names are kept.
   */
  class MercuryCsvParser {
    const accountRouting: Dict<string, string>
    var skippedCount: nat
    var warnedAccounts: set<string>

    constructor (accountRouting: Dict<string, string>)
      ensures this.accountRouting == accountRouting
      ensures skippedCount == 0 && warnedAccounts == {}
    {
      this.accountRouting := accountRouting;
      skippedCount := 0;
      warnedAccounts := {};
    }

    /** `_parse_row`, remembering an unmapped account name it has warned about. */
    method ParseRow(row: Row) returns (r: Option<RawTransaction>)
      modifies this
      ensures r == RowTransaction(accountRouting, row)
      ensures warnedAccounts == old(warnedAccounts) + Warned(accountRouting, row)
      ensures skippedCount == old(skippedCount)
    {
      var source := Cell(row, "Source Account");
      if Get(accountRouting, source).None? {
        if source != "" && source !in warnedAccounts {
          warnedAccounts := warnedAccounts + {source};
        }
        return None;
      }
      r := RowTransaction(accountRouting, row);
    }

    /** One turn of `parse`'s loop: a row skipped by its status is not read. */
    method ReadRow(row: Row) returns (r: Option<RawTransaction>)
      modifies this
      ensures r == Reading(accountRouting, row)
      ensures warnedAccounts == old(warnedAccounts) + (if ShouldSkip(row) then {} else Warned(accountRouting, row))
      ensures skippedCount == old(skippedCount)
    {
      if ShouldSkip(row) {
        return None;
      }
      r := ParseRow(row);
    }

    /**
     * `parse` over the data rows: the readable rows that are not Failed or
     * Cancelled, in order, with `skippedCount` the number of all others.
     */
    method Parse(rows: seq<Row>) returns (txns: seq<RawTransaction>)
      modifies this
      ensures txns == Parsed(accountRouting, rows)
      ensures skippedCount == Skipped(accountRouting, rows)
      ensures |txns| + skippedCount == |rows|
      ensures warnedAccounts == WarnedAfter(old(warnedAccounts), accountRouting, rows)
    {
      txns := [];
      skippedCount := 0;
      var i := 0;
      while i < |rows|
        invariant 0 <= i <= |rows|
        invariant txns == Parsed(accountRouting, rows[..i])
        invariant skippedCount == Skipped(accountRouting, rows[..i])
        invariant warnedAccounts == WarnedAfter(old(warnedAccounts), accountRouting, rows[..i])
      {
        ParsedStep(accountRouting, rows, i);
        var t := ReadRow(rows[i]);
        if t.Some? {
          txns := txns + [t.value];
        } else {
          skippedCount := skippedCount + 1;
        }
        i := i + 1;
      }
      assert rows[..|rows|] == rows;
      ParsedAccounting(accountRouting, rows);
    }
  }
}

=== FILE: dates.dfy ===
/**
 * Calendar dates as the store compares them. A stored date is a
 * "YYYY-MM-DD" string; SQLite's JULIANDAY turns it into a day count
 * (NULL for text it cannot read), and date windows are differences of
 * those counts.
 */
module Dates {
  import opened Wrappers
  import opened Text

  /** Division truncating toward zero, as in C. */
  function TruncDiv(a: int, b: int): (q: int)
    requires b > 0
    ensures a >= 0 ==> q == a / b
    ensures a < 0 ==> q == -((-a) / b)
  {
    if a >= 0 then a / b else -((-a) / b)
  }

  function DigitsValue(s: string): nat
    requires forall i :: 0 <= i < |s| ==> IsDigit(s[i])
  {
    if s == [] then 0 else DigitsValue(s[..|s| - 1]) * 10 + DigitValue(s[|s| - 1])
  }

  predicate DigitsAt(s: string, lo: nat, hi: nat)
    requires lo <= hi <= |s|
  {
    forall i :: lo <= i < hi ==> IsDigit(s[i])
  }

  /**
   * The year, month and day of a "YYYY-MM-DD" string, with the range
   * checks SQLite's date reader makes (month 1-12, day 1-31).
   */
  function ParseDate(s: string): (r: Option<(nat, nat, nat)>)
    ensures r.Some? ==> |s| == 10 && s[4] == '-' && s[7] == '-'
    ensures r.Some? ==> 1 <= r.value.1 <= 12 && 1 <= r.value.2 <= 31
  {
    if |s| != 10 || s[4] != '-' || s[7] != '-' then None
    else if !(DigitsAt(s, 0, 4) && DigitsAt(s, 5, 7) && DigitsAt(s, 8, 10)) then None
    else
      var y := DigitsValue(s[..4]);
      var m := DigitsValue(s[5..7]);
      var d := DigitsValue(s[8..]);
      if 1 <= m <= 12 && 1 <= d <= 31 then Some((y, m, d)) else None
  }

  /**
   * SQLite's computeJD for a date at midnight, shifted by 1524.5 so that
   * it is a whole number: January and February count as months 13 and 14
   * of the previous year, with the Gregorian century correction.
   */
  function DayCount(year: nat, month: nat, day: nat): int {
    var y := if month <= 2 then year - 1 else year;
    var m := if month <= 2 then month + 12 else month;
    var a := TruncDiv(y, 100);
    var b := 2 - a + TruncDiv(a, 4);
    var x1 := TruncDiv(36525 * (y + 4716), 100);
    var x2 := TruncDiv(306001 * (m + 1), 10000);
    x1 + x2 + day + b
  }

  /** `JULIANDAY(s)` up to a constant offset; None where SQLite gives NULL. */
  function JulianDay(s: string): (r: Option<int>)
    ensures r.Some? <==> ParseDate(s).Some?
  {
    match ParseDate(s)
    case None => None
    case Some((y, m, d)) => Some(DayCount(y, m, d))
  }

  /** Within a month the count goes up by one per day. */
  lemma DayCountNextDay(year: nat, month: nat, day: nat)
    ensures DayCount(year, month, day + 1) == DayCount(year, month, day) + 1
  {
  }

  /** Month and year boundaries, including a leap day and a century year that is not a leap year. */
  lemma DayCountBoundaries()
    ensures DayCount(2026, 2, 1) == DayCount(2026, 1, 31) + 1
    ensures DayCount(2026, 3, 1) == DayCount(2026, 2, 28) + 1
    ensures DayCount(2024, 3, 1) == DayCount(2024, 2, 29) + 1
    ensures DayCount(1900, 3, 1) == DayCount(1900, 2, 28) + 1
    ensures DayCount(2000, 3, 1) == DayCount(2000, 2, 29) + 1
    ensures DayCount(2027, 1, 1) == DayCount(2026, 12, 31) + 1
  {
  }

  /** The absolute difference of two day counts. */
  function DayDistance(a: int, b: int): nat {
    if a >= b then a - b else b - a
  }
}

=== FILE: dedup.dfy ===
/**
 * The deduplication engine: the tiers a parsed row goes through before it
 * is stored (external id, import hash, cross-format dedup key, split sum,
 * fuzzy description), each a query over a snapshot of the stored
 * transactions, and the batch loop that applies them with its per-batch
 * bookkeeping. The whole-file hash tier is the import lookup of the store.
 */
module Dedup {
  import opened Wrappers
  import opened Text
  import opened Seqs
  import opened Models
  import opened ParserBase
  import opened Combinations
  import opened Repo

  /** Default similarity at or above which a row is flagged for review. */
  const FuzzyThreshold: real := 0.85
  /** The subset-sum search gives up on more than this many candidates. */
  const SubsetSumMaxItems: nat := 20
  /** Split sums match within one cent. */
  const SubsetSumTolerance: nat := 1

  /** The outcome of the tiers for one row; a flagged row is always at the fuzzy tier. */
  datatype DedupResult =
    | New
    | Duplicate(tier: string, matched: Option<Transaction>, splits: Option<seq<Transaction>>)
    | Flagged(matched: Option<Transaction>, confidence: real)

  // ── Description similarity ──────────────────────────────

  /**
   * difflib's `SequenceMatcher.ratio` is not modelled: it is a parameter,
   * and all the model relies on is that its values lie in [0, 1].
   */
  ghost predicate IsRatio(ratio: (string, string) -> real) {
    forall a, b :: 0.0 <= ratio(a, b) <= 1.0
  }

  /** `description_similarity`: 1 for two empty strings, 0 when just one is empty, else the ratio. */
  function DescriptionSimilarity(a: string, b: string, ratio: (string, string) -> real): (s: real)
    requires IsRatio(ratio)
    ensures 0.0 <= s <= 1.0
    ensures a == [] && b == [] ==> s == 1.0
    ensures (a == []) != (b == []) ==> s == 0.0
  {
    if a == [] && b == [] then 1.0
    else if a == [] || b == [] then 0.0
    else ratio(a, b)
  }

  /** The words of at least three characters. */
  function SignificantWords(s: string): set<string> {
    set w | w in Words(s) && |w| >= 3
  }

  /**
   * `_descriptions_related`: both normalized descriptions non-empty, and
   * one contains the other or they share a significant word.
   */
  predicate DescriptionsRelated(descA: string, descB: string) {
    var a := Upper(NormalizeDescription(descA));
    var b := Upper(NormalizeDescription(descB));
    a != [] && b != [] &&
    (Contains(b, a) || Contains(a, b) || SignificantWords(a) * SignificantWords(b) != {})
  }

  lemma RelatedSymmetric(descA: string, descB: string)
    ensures DescriptionsRelated(descA, descB) <==> DescriptionsRelated(descB, descA)
  {
    var a := Upper(NormalizeDescription(descA));
    var b := Upper(NormalizeDescription(descB));
    assert SignificantWords(a) * SignificantWords(b) == SignificantWords(b) * SignificantWords(a);
  }

  /** An empty normalized side is never related; containment always is. */
  lemma RelatedCases(descA: string, descB: string)
    ensures Upper(NormalizeDescription(descA)) == [] ==> !DescriptionsRelated(descA, descB)
    ensures Upper(NormalizeDescription(descB)) == [] ==> !DescriptionsRelated(descA, descB)
    ensures var a := Upper(NormalizeDescription(descA));
      var b := Upper(NormalizeDescription(descB));
      a != [] && b != [] && (Contains(a, b) || Contains(b, a)) ==> DescriptionsRelated(descA, descB)
  {
  }

  // ── Subset sum ──────────────────────────────────────────

  /** The subset at indices `c` sums to the target within the tolerance. */
  predicate Fits(amounts: seq<Cents>, target: Cents, tolerance: nat, c: seq<nat>) {
    Abs(SumAt(amounts, c) - target) <= tolerance
  }

  /**
   * `_find_subset_sum`: the first index list, smallest size first and in
   * combination order, of at least two amounts that sum to the target
   * within the tolerance; nothing for fewer than 2 or more than 20 amounts.
   */
  function FindSubsetSum(amounts: seq<Cents>, target: Cents, tolerance: nat): (r: Option<seq<nat>>)
    ensures |amounts| < 2 || |amounts| > SubsetSumMaxItems ==> r.None?
    ensures r.Some? ==> IsCombo(r.value, |amounts|) && |r.value| >= 2
    ensures r.Some? ==> Fits(amounts, target, tolerance, r.value)
  {
    var n := |amounts|;
    if n < 2 || n > SubsetSumMaxItems then None
    else
      var fits := (c: seq<nat>) => Fits(amounts, target, tolerance, c);
      SearchFacts(n, 2, fits);
      Search(n, 2, fits)
  }

  /**
   * No index list of at least two amounts that is smaller than the one
   * found fits; when none is found (for 2 to 20 amounts), none fits at all.
   */
  lemma FindSubsetSumMinimal(amounts: seq<Cents>, target: Cents, tolerance: nat, d: seq<nat>)
    requires IsCombo(d, |amounts|) && 2 <= |d|
    ensures var r := FindSubsetSum(amounts, target, tolerance);
      r.Some? && |d| < |r.value| ==> !Fits(amounts, target, tolerance, d)
    ensures var r := FindSubsetSum(amounts, target, tolerance);
      r.None? && |amounts| <= SubsetSumMaxItems ==> !Fits(amounts, target, tolerance, d)
  {
    var n := |amounts|;
    ComboSize(d, n);
    var fits := (c: seq<nat>) => Fits(amounts, target, tolerance, c);
    SearchFacts(n, 2, fits);
  }

  // ── The tiers ───────────────────────────────────────────

  /** `check_external_id`: the stored row of the account with the external id, when one is given. */
  function CheckExternalId(store: seq<Transaction>, accountId: string, externalId: Option<string>): (r: Option<Transaction>)
    ensures !HasText(externalId) ==> r.None?
    ensures r.Some? ==> r.value in store && r.value.accountId == accountId && r.value.externalId == externalId
    ensures HasText(externalId) && r.None? ==>
      forall t :: t in store && t.accountId == accountId ==> t.externalId != externalId
  {
    if !HasText(externalId) then None
    else TxnByExternalId(store, accountId, externalId.value)
  }

  /** A stored row an incoming external id does not rule out: it has none, or the same one. */
  predicate ExternalIdAgrees(t: Transaction, externalId: Option<string>) {
    !HasText(externalId) || t.externalId.None? || t.externalId == externalId
  }

  /**
   * `check_import_hash`: the first stored row with the hash; with an
   * external id given, the first such row whose external id is absent or
   * the same.
   */
  function CheckImportHash(store: seq<Transaction>, importHash: string, externalId: Option<string>): (r: Option<Transaction>)
    ensures r.Some? ==> r.value in store && r.value.importHash == importHash && ExternalIdAgrees(r.value, externalId)
    ensures r.None? <==> forall t :: t in store && t.importHash == importHash ==> !ExternalIdAgrees(t, externalId)
  {
    var matches := TxnsByImportHash(store, importHash);
    match FirstIndex(matches, (m: Transaction) => ExternalIdAgrees(m, externalId))
    case Some(k) => Some(matches[k])
    case None =>
      assert forall t :: t in matches ==> !ExternalIdAgrees(t, externalId);
      None
  }

  /** A stored row from the other kind of source: bank rows carry an external id, budget-app rows none. */
  predicate Opposite(t: Transaction, hasExternalId: bool) {
    if hasExternalId then t.externalId.None? else t.externalId.Some?
  }

  /** `check_cross_format_duplicate`: the opposite-source rows with the dedup key, in store order. */
  function CrossFormatMatches(store: seq<Transaction>, dedupKey: string, hasExternalId: bool): (r: seq<Transaction>)
    ensures forall t :: t in r <==> t in store && t.dedupKey == dedupKey && Opposite(t, hasExternalId)
  {
    if store == [] then []
    else
      (if store[0].dedupKey == dedupKey && Opposite(store[0], hasExternalId) then [store[0]] else []) +
      CrossFormatMatches(store[1..], dedupKey, hasExternalId)
  }

  /** The amounts of the rows, in order. */
  function AmountsOf(rows: seq<Transaction>): (r: seq<Cents>)
    ensures |r| == |rows|
    ensures forall i :: 0 <= i < |rows| ==> r[i] == rows[i].amount
  {
    seq(|rows|, i requires 0 <= i < |rows| => rows[i].amount)
  }

  /** The rows at the given indices, in index order. */
  function Pick(rows: seq<Transaction>, c: seq<nat>): (r: seq<Transaction>)
    requires IsCombo(c, |rows|)
    ensures |r| == |c|
    ensures forall k :: 0 <= k < |c| ==> r[k] == rows[c[k]]
  {
    seq(|c|, k requires 0 <= k < |c| => rows[c[k]])
  }

  lemma {:induction false} PickSum(rows: seq<Transaction>, c: seq<nat>)
    requires IsCombo(c, |rows|)
    ensures SumOf(Pick(rows, c), Amount) == SumAt(AmountsOf(rows), c)
  {
    if c != [] {
      assert IsCombo(c[1..], |rows|);
      PickSum(rows, c[1..]);
      assert Pick(rows, c)[1..] == Pick(rows, c[1..]);
    }
  }

  /** The candidates of the split-sum tier: same account and date, other source, related description. */
  predicate SplitCandidate(t: Transaction, accountId: string, date: string, rawDescription: string,
                           hasExternalId: bool)
  {
    t.accountId == accountId && t.date == date && Opposite(t, hasExternalId) &&
    DescriptionsRelated(rawDescription, t.rawDescription)
  }

  /**
   * The rows the split-sum tier searches, in store order: the account's
   * rows of the date, from the other source, with a related description.
   * The source narrows in three stages and gives up when a stage leaves
   * fewer than two rows; each stage keeps a subsequence of the one before,
   * so that is the same as giving up when this last one has fewer than two.
   */
  function SplitCandidates(store: seq<Transaction>, accountId: string, date: string, rawDescription: string,
                           hasExternalId: bool): (r: seq<Transaction>)
    ensures |r| <= |store|
    ensures forall t :: t in r <==> t in store && SplitCandidate(t, accountId, date, rawDescription, hasExternalId)
  {
    if store == [] then []
    else
      (if SplitCandidate(store[0], accountId, date, rawDescription, hasExternalId) then [store[0]] else []) +
      SplitCandidates(store[1..], accountId, date, rawDescription, hasExternalId)
  }

  /** The rows' amounts add up to the amount within a cent. */
  predicate SumsTo(rows: seq<Transaction>, amount: Cents) {
    Abs(SumOf(rows, Amount) - amount) <= SubsetSumTolerance
  }

  /** The first smallest group of the rows whose amounts sum to the amount within a cent. */
  function SubsetMatching(related: seq<Transaction>, amount: Cents): (r: Option<seq<Transaction>>)
    ensures r.Some? ==> |r.value| >= 2 && forall t :: t in r.value ==> t in related
    ensures r.Some? ==> SumsTo(r.value, amount)
  {
    var found := FindSubsetSum(AmountsOf(related), amount, SubsetSumTolerance);
    if found.None? then None
    else
      PickFacts(related, found.value, amount);
      Some(Pick(related, found.value))
  }

  /** `check_split_sum_duplicate`: a group of at least two candidates adding up to the amount. */
  function SplitSumMatches(store: seq<Transaction>, accountId: string, date: string, amount: Cents,
                           rawDescription: string, hasExternalId: bool): (r: Option<seq<Transaction>>)
    ensures r.Some? ==> |r.value| >= 2
    ensures r.Some? ==> forall t :: t in r.value ==>
      t in store && SplitCandidate(t, accountId, date, rawDescription, hasExternalId)
    ensures r.Some? ==> SumsTo(r.value, amount)
  {
    var related := SplitCandidates(store, accountId, date, rawDescription, hasExternalId);
    if |related| < 2 then None else SubsetMatching(related, amount)
  }

  lemma PickFacts(related: seq<Transaction>, c: seq<nat>, amount: Cents)
    requires IsCombo(c, |related|) && Fits(AmountsOf(related), amount, SubsetSumTolerance, c)
    ensures forall t :: t in Pick(related, c) ==> t in related
    ensures SumsTo(Pick(related, c), amount)
  {
    PickSum(related, c);
    forall t | t in Pick(related, c)
      ensures t in related
    {
      var k :| 0 <= k < |c| && Pick(related, c)[k] == t;
    }
  }

  // ── The fuzzy tier ──────────────────────────────────────

  /** A stored row's description for comparison: its normalized description, else the raw one normalized. */
  function ExistingDescription(t: Transaction): string {
    if t.normalizedDescription.Some? && t.normalizedDescription.value != "" then t.normalizedDescription.value
    else NormalizeDescription(t.rawDescription)
  }

  function Score(t: Transaction, normalized: string, ratio: (string, string) -> real): real
    requires IsRatio(ratio)
  {
    DescriptionSimilarity(normalized, ExistingDescription(t), ratio)
  }

  /**
   * The scan of `check_fuzzy_duplicate`: the first candidate with the
   * highest score above zero, and that score (no candidate and 0 when
   * every score is 0).
   */
  function BestMatch(cands: seq<Transaction>, normalized: string, ratio: (string, string) -> real): (b: (Option<Transaction>, real))
    requires IsRatio(ratio)
    ensures 0.0 <= b.1 <= 1.0
    ensures b.0.None? ==> b.1 == 0.0
    decreases |cands|
  {
    if cands == [] then (None, 0.0)
    else
      var b := BestMatch(cands[..|cands| - 1], normalized, ratio);
      var last := cands[|cands| - 1];
      var s := Score(last, normalized, ratio);
      if s > b.1 then (Some(last), s) else b
  }

  /** No candidate scores above the scan's score. */
  lemma {:induction false} BestMatchMax(cands: seq<Transaction>, normalized: string, ratio: (string, string) -> real)
    requires IsRatio(ratio)
    ensures forall i :: 0 <= i < |cands| ==> Score(cands[i], normalized, ratio) <= BestMatch(cands, normalized, ratio).1
    decreases |cands|
  {
    if cands != [] {
      var init := cands[..|cands| - 1];
      BestMatchMax(init, normalized, ratio);
      assert forall i :: 0 <= i < |init| ==> init[i] == cands[i];
    }
  }

  /** The row the scan keeps is the first candidate with the best score, and that score is above zero. */
  lemma {:induction false} BestMatchFirst(cands: seq<Transaction>, normalized: string, ratio: (string, string) -> real)
    returns (i: nat)
    requires IsRatio(ratio) && BestMatch(cands, normalized, ratio).0.Some?
    ensures var b := BestMatch(cands, normalized, ratio);
      i < |cands| && cands[i] == b.0.value && Score(cands[i], normalized, ratio) == b.1 && b.1 > 0.0 &&
      forall j :: 0 <= j < i ==> Score(cands[j], normalized, ratio) < b.1
    decreases |cands|
  {
    var init := cands[..|cands| - 1];
    var b := BestMatch(init, normalized, ratio);
    var last := cands[|cands| - 1];
    if Score(last, normalized, ratio) > b.1 {
      assert BestMatch(cands, normalized, ratio) == (Some(last), Score(last, normalized, ratio));
      i := |cands| - 1;
      BestMatchMax(init, normalized, ratio);
      assert forall j :: 0 <= j < i ==> init[j] == cands[j];
    } else {
      assert BestMatch(cands, normalized, ratio) == b;
      i := BestMatchFirst(init, normalized, ratio);
      assert forall j :: 0 <= j <= i ==> init[j] == cands[j];
    }
  }

  /**
   * The scan's score is the highest of all, and a row it keeps is the
   * first candidate with that score, which is above zero.
   */
  lemma BestMatchIsBest(cands: seq<Transaction>, normalized: string, ratio: (string, string) -> real)
    requires IsRatio(ratio)
    ensures var b := BestMatch(cands, normalized, ratio);
      forall i :: 0 <= i < |cands| ==> Score(cands[i], normalized, ratio) <= b.1
    ensures var b := BestMatch(cands, normalized, ratio);
      b.0.Some? ==> exists i :: (0 <= i < |cands| && cands[i] == b.0.value &&
        Score(cands[i], normalized, ratio) == b.1 && b.1 > 0.0 &&
        forall j :: 0 <= j < i ==> Score(cands[j], normalized, ratio) < b.1)
  {
    BestMatchMax(cands, normalized, ratio);
    if BestMatch(cands, normalized, ratio).0.Some? {
      var i := BestMatchFirst(cands, normalized, ratio);
    }
  }

  /**
   * `check_fuzzy_duplicate` with its threshold given: flagged exactly when
   * the best score among the rows with the dedup key reaches the threshold,
   * carrying that row and score.
   */
  function FuzzyVerdict(store: seq<Transaction>, dedupKey: string, rawDescription: string, threshold: real,
                        ratio: (string, string) -> real): (r: DedupResult)
    requires IsRatio(ratio)
    ensures r.New? || r.Flagged?
    ensures r.Flagged? ==> threshold <= r.confidence <= 1.0
    ensures r.Flagged? ==> forall t :: t in store && t.dedupKey == dedupKey ==>
      Score(t, NormalizeDescription(rawDescription), ratio) <= r.confidence
    ensures r.Flagged? && r.matched.Some? ==> (
      r.matched.value in store && r.matched.value.dedupKey == dedupKey &&
      Score(r.matched.value, NormalizeDescription(rawDescription), ratio) == r.confidence)
    ensures threshold > 0.0 ==> (r.Flagged? <==>
      exists t :: t in store && t.dedupKey == dedupKey && Score(t, NormalizeDescription(rawDescription), ratio) >= threshold)
    ensures threshold > 0.0 && r.Flagged? ==> r.matched.Some?
  {
    var cands := TxnsByDedupKey(store, dedupKey);
    if cands == [] then New
    else
      var normalized := NormalizeDescription(rawDescription);
      var b := BestMatch(cands, normalized, ratio);
      BestMatchIsBest(cands, normalized, ratio);
      assert forall t :: t in cands ==> Score(t, normalized, ratio) <= b.1;
      if b.1 >= threshold then Flagged(b.0, b.1) else New
  }

  /** The threshold argument of `check_fuzzy_duplicate`: 0.85 when omitted. */
  function ThresholdOrDefault(threshold: Option<real>): real {
    if threshold.Some? then threshold.value else FuzzyThreshold
  }

  /** The loop of `check_fuzzy_duplicate`: a later candidate replaces the kept one only with a higher score. */
  method ScanBest(cands: seq<Transaction>, normalized: string, ratio: (string, string) -> real)
    returns (bestMatch: Option<Transaction>, bestScore: real)
    requires IsRatio(ratio)
    ensures (bestMatch, bestScore) == BestMatch(cands, normalized, ratio)
  {
    bestMatch, bestScore := None, 0.0;
    for i := 0 to |cands|
      invariant (bestMatch, bestScore) == BestMatch(cands[..i], normalized, ratio)
    {
      assert cands[..i + 1][..i] == cands[..i];
      var score := DescriptionSimilarity(normalized, ExistingDescription(cands[i]), ratio);
      if score > bestScore {
        bestScore := score;
        bestMatch := Some(cands[i]);
      }
    }
    assert cands[..|cands|] == cands;
  }

  /** `check_fuzzy_duplicate`: the scan over the candidates, keeping the first best score. */
  method CheckFuzzyDuplicate(store: seq<Transaction>, dedupKey: string, rawDescription: string,
                             threshold: Option<real>, ratio: (string, string) -> real) returns (r: DedupResult)
    requires IsRatio(ratio)
    ensures r == FuzzyVerdict(store, dedupKey, rawDescription, ThresholdOrDefault(threshold), ratio)
  {
    var t := ThresholdOrDefault(threshold);
    var cands := TxnsByDedupKey(store, dedupKey);
    if cands == [] {
      return New;
    }
    var normalized := NormalizeDescription(rawDescription);
    var bestMatch, bestScore := ScanBest(cands, normalized, ratio);
    if bestScore >= t {
      r := Flagged(bestMatch, bestScore);
    } else {
      r := New;
    }
  }

  // ── The whole pipeline for one row ──────────────────────

  /**
   * Neither the external-id tier nor the import-hash tier finds the row in
   * the store: no stored row of the account has its external id, and no
   * stored row with its import hash agrees on the external id.
   */
  predicate Unstored(store: seq<Transaction>, accountId: string, externalId: Option<string>, importHash: string) {
    (HasText(externalId) ==> forall t :: t in store && t.accountId == accountId ==> t.externalId != externalId) &&
    (forall t :: t in store && t.importHash == importHash ==> !ExternalIdAgrees(t, externalId))
  }

  function RawHash(raw: RawTransaction): string {
    ImportHash(raw.accountId, raw.date, raw.amount, raw.rawDescription)
  }

  function RawKey(raw: RawTransaction): string {
    DedupKey(raw.accountId, raw.date, raw.amount)
  }

  /**
   * The tiers after the two identity tiers: cross-format, split sum, then
   * fuzzy only for a row without an external id.
   */
  function LaterTiers(store: seq<Transaction>, raw: RawTransaction, ratio: (string, string) -> real): (r: DedupResult)
    requires IsRatio(ratio)
    ensures r.Duplicate? ==> r.tier in {"cross_format", "split_sum"}
    ensures r.Duplicate? ==> r.matched.Some? && r.matched.value in store
    ensures r.Duplicate? && r.tier == "cross_format" ==>
      r.splits.None? && r.matched.value.dedupKey == RawKey(raw) && Opposite(r.matched.value, HasText(raw.externalId))
    ensures r.Duplicate? && r.tier == "split_sum" ==>
      r.splits.Some? && |r.splits.value| >= 2 && r.matched == Some(r.splits.value[0]) &&
      SumsTo(r.splits.value, raw.amount) &&
      forall t :: t in r.splits.value ==>
        t in store && SplitCandidate(t, raw.accountId, raw.date, raw.rawDescription, HasText(raw.externalId))
    ensures !r.Duplicate? ==>
      forall t :: t in store && t.dedupKey == RawKey(raw) ==> !Opposite(t, HasText(raw.externalId))
    ensures r.Flagged? ==> FuzzyThreshold <= r.confidence <= 1.0 && r.matched.Some?
    ensures r.Flagged? <==> (!r.Duplicate? && !HasText(raw.externalId) &&
      exists t :: t in store && t.dedupKey == RawKey(raw) &&
        Score(t, NormalizeDescription(raw.rawDescription), ratio) >= FuzzyThreshold)
  {
    var cross := CrossFormatMatches(store, RawKey(raw), HasText(raw.externalId));
    if cross != [] then
      assert cross[0] in cross;
      Duplicate("cross_format", Some(cross[0]), None)
    else
      var split := SplitTier(store, raw);
      if split.Duplicate? then split else FuzzyTier(store, raw, ratio)
  }

  /** The split-sum tier: a duplicate carrying the group found, and its first row. */
  function SplitTier(store: seq<Transaction>, raw: RawTransaction): (r: DedupResult)
    ensures r.New? || (r.Duplicate? && r.tier == "split_sum")
    ensures r.Duplicate? ==> r.matched.Some? && r.matched.value in store
    ensures r.Duplicate? ==>
      r.splits.Some? && |r.splits.value| >= 2 && r.matched == Some(r.splits.value[0]) &&
      SumsTo(r.splits.value, raw.amount) &&
      forall t :: t in r.splits.value ==>
        t in store && SplitCandidate(t, raw.accountId, raw.date, raw.rawDescription, HasText(raw.externalId))
  {
    var splits := SplitSumMatches(store, raw.accountId, raw.date, raw.amount, raw.rawDescription,
                                  HasText(raw.externalId));
    if splits.Some? then
      assert splits.value[0] in splits.value;
      Duplicate("split_sum", Some(splits.value[0]), splits)
    else New
  }

  /** The fuzzy tier is skipped for a row with an external id: that id already proved new. */
  function FuzzyTier(store: seq<Transaction>, raw: RawTransaction, ratio: (string, string) -> real): (r: DedupResult)
    requires IsRatio(ratio)
    ensures r.New? || r.Flagged?
    ensures r.Flagged? ==> FuzzyThreshold <= r.confidence <= 1.0 && r.matched.Some?
    ensures r.Flagged? <==> (!HasText(raw.externalId) &&
      exists t :: t in store && t.dedupKey == RawKey(raw) &&
        Score(t, NormalizeDescription(raw.rawDescription), ratio) >= FuzzyThreshold)
  {
    if !HasText(raw.externalId) then FuzzyVerdict(store, RawKey(raw), raw.rawDescription, FuzzyThreshold, ratio)
    else New
  }

  /**
   * `deduplicate`: the tiers in order (external id, import hash,
   * cross-format, split sum, fuzzy); the first that finds the row decides.
   */
  function Deduplicate(store: seq<Transaction>, raw: RawTransaction, ratio: (string, string) -> real): (r: DedupResult)
    requires IsRatio(ratio)
    ensures r.Duplicate? ==> r.tier in {"external_id", "import_hash", "cross_format", "split_sum"}
    ensures r.Duplicate? ==> r.matched.Some? && r.matched.value in store
    ensures r.Duplicate? && r.tier != "split_sum" ==> r.splits.None?
    ensures (r.Duplicate? && r.tier == "external_id") <==>
      HasText(raw.externalId) &&
      exists t :: t in store && t.accountId == raw.accountId && t.externalId == raw.externalId
    ensures Unstored(store, raw.accountId, raw.externalId, RawHash(raw)) <==>
      !(r.Duplicate? && r.tier in {"external_id", "import_hash"})
    ensures r.Duplicate? && r.tier == "import_hash" ==>
      r.matched.value.importHash == RawHash(raw) && ExternalIdAgrees(r.matched.value, raw.externalId)
    ensures !(r.Duplicate? && r.tier in {"external_id", "import_hash"}) ==> r == LaterTiers(store, raw, ratio)
  {
    var byId := CheckExternalId(store, raw.accountId, raw.externalId);
    if byId.Some? then Duplicate("external_id", byId, None)
    else
      var byHash := CheckImportHash(store, RawHash(raw), raw.externalId);
      if byHash.Some? then Duplicate("import_hash", byHash, None)
      else LaterTiers(store, raw, ratio)
  }

  // ── The batch ───────────────────────────────────────────

  /**
   * What `process_batch` accumulates over a batch: the rows to insert as
   * pending and as flagged, the duplicate results, and the bookkeeping
   * for intra-batch dedup, the cross-format count and split-sum use.
   */
  datatype BatchState = BatchState(
    newTxns: seq<Transaction>,
    duplicates: seq<DedupResult>,
    flagged: seq<Transaction>,
    seenExternalIds: set<(string, string)>,
    seenImportHashes: set<string>,
    crossFormatUsed: map<string, nat>,
    splitSumConsumed: set<string>)

  const EmptyBatch := BatchState([], [], [], {}, {}, map[], {})

  /** `dict.get(key, 0)`. */
  function Used(m: map<string, nat>, k: string): nat {
    if k in m then m[k] else 0
  }

  /** The matched splits of a result (none unless it is a split-sum duplicate). */
  function SplitsOf(r: DedupResult): seq<Transaction> {
    if r.Duplicate? && r.splits.Some? then r.splits.value else []
  }

  function SplitIds(rows: seq<Transaction>): set<string> {
    set t | t in rows :: t.id
  }

  /** The stored form of an accepted row: normalized description, both keys, the import, source and status. */
  function BatchTxn(raw: RawTransaction, id: string, importId: string, source: string, flagged: bool): (t: Transaction)
    ensures t.accountId == raw.accountId && t.date == raw.date && t.amount == raw.amount
    ensures t.rawDescription == raw.rawDescription && t.externalId == raw.externalId
    ensures t.importHash == RawHash(raw) && t.dedupKey == RawKey(raw)
    ensures t.normalizedDescription == Some(NormalizeDescription(raw.rawDescription))
    ensures t.id == id && t.importId == importId && t.source == source
    ensures t.status == if flagged then "flagged" else "pending"
    ensures t.memo == raw.memo && t.txnType == raw.txnType && t.checkNum == raw.checkNum && t.balance == raw.balance
    ensures t.confidence.None? && t.categorizationMethod.None? && t.receiptLookupStatus.None?
  {
    NewTransaction(id, raw.accountId, raw.date, raw.amount, raw.rawDescription, importId, RawHash(raw), RawKey(raw))
      .(normalizedDescription := Some(NormalizeDescription(raw.rawDescription)),
        memo := raw.memo, txnType := raw.txnType, checkNum := raw.checkNum, balance := raw.balance,
        externalId := raw.externalId, source := source, status := if flagged then "flagged" else "pending")
  }

  /** A row that goes in: its identifiers are recorded and it joins the pending or the flagged rows. */
  function Accept(st: BatchState, raw: RawTransaction, id: string, importId: string, source: string,
                  flagged: bool): BatchState
  {
    var t := BatchTxn(raw, id, importId, source, flagged);
    st.(seenExternalIds := if HasText(raw.externalId) then st.seenExternalIds + {(raw.accountId, raw.externalId.value)}
                           else st.seenExternalIds,
        seenImportHashes := st.seenImportHashes + {RawHash(raw)},
        newTxns := if flagged then st.newTxns else st.newTxns + [t],
        flagged := if flagged then st.flagged + [t] else st.flagged)
  }

  /**
   * What the loop does with the verdict of the tiers: a cross-format
   * duplicate counts only while the key has unused opposite-source rows,
   * and a split-sum duplicate only when none of its splits was used
   * before; otherwise the row goes in as new.
   */
  function Settle(store: seq<Transaction>, st: BatchState, raw: RawTransaction, id: string, importId: string,
                  source: string, result: DedupResult): BatchState
  {
    if result.Duplicate? && result.tier == "cross_format" then
      var dk := RawKey(raw);
      var used := Used(st.crossFormatUsed, dk);
      if used < |CrossFormatMatches(store, dk, HasText(raw.externalId))| then
        st.(crossFormatUsed := st.crossFormatUsed[dk := used + 1], duplicates := st.duplicates + [result])
      else Accept(st, raw, id, importId, source, false)
    else if result.Duplicate? && result.tier == "split_sum" then
      var matched := SplitIds(SplitsOf(result));
      if matched * st.splitSumConsumed == {} then
        st.(splitSumConsumed := st.splitSumConsumed + matched, duplicates := st.duplicates + [result])
      else Accept(st, raw, id, importId, source, false)
    else if result.Duplicate? then st.(duplicates := st.duplicates + [result])
    else Accept(st, raw, id, importId, source, result.Flagged?)
  }

  /** One row of `process_batch`: the two intra-batch checks, then the tiers against the store. */
  function Step(store: seq<Transaction>, st: BatchState, raw: RawTransaction, id: string, importId: string,
                source: string, ratio: (string, string) -> real): BatchState
    requires IsRatio(ratio)
  {
    if HasText(raw.externalId) && (raw.accountId, raw.externalId.value) in st.seenExternalIds then
      st.(duplicates := st.duplicates + [Duplicate("external_id", None, None)])
    else if RawHash(raw) in st.seenImportHashes && !HasText(raw.externalId) then
      st.(duplicates := st.duplicates + [Duplicate("import_hash", None, None)])
    else Settle(store, st, raw, id, importId, source, Deduplicate(store, raw, ratio))
  }

  /** The state after the rows, in order; `ids[i]` is the id a row `raws[i]` that goes in receives. */
  function Run(store: seq<Transaction>, raws: seq<RawTransaction>, ids: seq<string>, importId: string,
               source: string, ratio: (string, string) -> real): BatchState
    requires |ids| == |raws| && IsRatio(ratio)
    decreases |raws|
  {
    if raws == [] then EmptyBatch
    else
      var n := |raws| - 1;
      Step(store, Run(store, raws[..n], ids[..n], importId, source, ratio), raws[n], ids[n], importId, source, ratio)
  }

  // ── What a batch guarantees ─────────────────────────────

  lemma {:induction false} RunSizes(store: seq<Transaction>, raws: seq<RawTransaction>, ids: seq<string>,
                                    importId: string, source: string, ratio: (string, string) -> real)
    requires |ids| == |raws| && IsRatio(ratio)
    ensures var st := Run(store, raws, ids, importId, source, ratio);
      |st.newTxns| + |st.duplicates| + |st.flagged| == |raws|
    decreases |raws|
  {
    if raws != [] {
      var n := |raws| - 1;
      RunSizes(store, raws[..n], ids[..n], importId, source, ratio);
      StepSizes(store, Run(store, raws[..n], ids[..n], importId, source, ratio), raws[n], ids[n], importId, source, ratio);
    }
  }

  /** Each row lands in exactly one of the three lists. */
  lemma StepSizes(store: seq<Transaction>, st: BatchState, raw: RawTransaction, id: string, importId: string,
                  source: string, ratio: (string, string) -> real)
    requires IsRatio(ratio)
    ensures var st' := Step(store, st, raw, id, importId, source, ratio);
      |st'.newTxns| + |st'.duplicates| + |st'.flagged| == |st.newTxns| + |st.duplicates| + |st.flagged| + 1
  {
    if !(HasText(raw.externalId) && (raw.accountId, raw.externalId.value) in st.seenExternalIds) &&
       !(RawHash(raw) in st.seenImportHashes && !HasText(raw.externalId)) {
      SettleSizes(store, st, raw, id, importId, source, Deduplicate(store, raw, ratio));
    }
  }

  lemma SettleSizes(store: seq<Transaction>, st: BatchState, raw: RawTransaction, id: string, importId: string,
                    source: string, result: DedupResult)
    ensures var st' := Settle(store, st, raw, id, importId, source, result);
      |st'.newTxns| + |st'.duplicates| + |st'.flagged| == |st.newTxns| + |st.duplicates| + |st.flagged| + 1
  {
    SettleRows(store, st, raw, id, importId, source, result);
  }

  /** A row that goes in adds itself to the pending or the flagged rows, and nothing to the duplicates. */
  lemma AcceptRows(st: BatchState, raw: RawTransaction, id: string, importId: string, source: string, flagged: bool)
    ensures var st' := Accept(st, raw, id, importId, source, flagged);
      st'.duplicates == st.duplicates &&
      (if flagged then st'.flagged == st.flagged + [BatchTxn(raw, id, importId, source, true)] && st'.newTxns == st.newTxns
       else st'.newTxns == st.newTxns + [BatchTxn(raw, id, importId, source, false)] && st'.flagged == st.flagged)
  {
  }

  /** Settling a verdict records one duplicate, or accepts the row: pending, or flagged when the verdict flags it. */
  lemma SettleRows(store: seq<Transaction>, st: BatchState, raw: RawTransaction, id: string, importId: string,
                   source: string, result: DedupResult)
    ensures var st' := Settle(store, st, raw, id, importId, source, result);
      (st'.newTxns == st.newTxns && st'.flagged == st.flagged && |st'.duplicates| == |st.duplicates| + 1) ||
      (st'.newTxns == st.newTxns + [BatchTxn(raw, id, importId, source, false)] && st'.flagged == st.flagged &&
       st'.duplicates == st.duplicates) ||
      (st'.flagged == st.flagged + [BatchTxn(raw, id, importId, source, true)] && st'.newTxns == st.newTxns &&
       st'.duplicates == st.duplicates && result.Flagged?)
  {
    if result.Duplicate? && result.tier == "cross_format" {
      AcceptRows(st, raw, id, importId, source, false);
    } else if result.Duplicate? && result.tier == "split_sum" {
      AcceptRows(st, raw, id, importId, source, false);
    } else if !result.Duplicate? {
      AcceptRows(st, raw, id, importId, source, result.Flagged?);
    }
  }

  /** A cross-format duplicate matched on key `k`. */
  predicate CrossFor(r: DedupResult, k: string) {
    r.Duplicate? && r.tier == "cross_format" && r.matched.Some? && r.matched.value.dedupKey == k
  }

  function CountCross(dups: seq<DedupResult>, k: string): nat {
    if dups == [] then 0
    else CountCross(dups[..|dups| - 1], k) + (if CrossFor(dups[|dups| - 1], k) then 1 else 0)
  }

  /** Accepted rows without an external id that have import hash `h`. */
  function CountHash(rows: seq<Transaction>, h: string): nat {
    if rows == [] then 0
    else CountHash(rows[..|rows| - 1], h) + (if NoIdWithHash(rows[|rows| - 1], h) then 1 else 0)
  }

  predicate NoIdWithHash(t: Transaction, h: string) {
    !HasText(t.externalId) && t.importHash == h
  }

  predicate HasExternalId(t: Transaction, a: string, e: string) {
    HasText(t.externalId) && t.accountId == a && t.externalId.value == e
  }

  /** Accepted rows of account `a` with external id `e`. */
  function CountExt(rows: seq<Transaction>, a: string, e: string): nat {
    if rows == [] then 0
    else CountExt(rows[..|rows| - 1], a, e) + (if HasExternalId(rows[|rows| - 1], a, e) then 1 else 0)
  }

  /** The larger of the two cross-format match counts for a key. */
  function MaxCross(store: seq<Transaction>, k: string): nat {
    var a := |CrossFormatMatches(store, k, true)|;
    var b := |CrossFormatMatches(store, k, false)|;
    if a < b then b else a
  }

  /** Per key, the cross-format duplicates recorded are the slots used, and no more than the store offers. */
  ghost predicate CrossCounted(store: seq<Transaction>, st: BatchState) {
    forall k :: CountCross(st.duplicates, k) == Used(st.crossFormatUsed, k) <= MaxCross(store, k)
  }

  /** The split groups of the duplicates are pairwise disjoint and all marked consumed. */
  predicate SplitsDisjoint(st: BatchState) {
    (forall i, j :: 0 <= i < j < |st.duplicates| ==>
      SplitIds(SplitsOf(st.duplicates[i])) * SplitIds(SplitsOf(st.duplicates[j])) == {}) &&
    (forall i :: 0 <= i < |st.duplicates| ==> SplitIds(SplitsOf(st.duplicates[i])) <= st.splitSumConsumed)
  }

  /** At most one accepted row without external id per import hash, and none for an unseen hash. */
  ghost predicate HashesOnce(st: BatchState) {
    forall h :: CountHash(st.newTxns, h) + CountHash(st.flagged, h) <= if h in st.seenImportHashes then 1 else 0
  }

  /** At most one accepted row per account and external id, and none for an unseen pair. */
  ghost predicate ExternalIdsOnce(st: BatchState) {
    forall a, e :: CountExt(st.newTxns, a, e) + CountExt(st.flagged, a, e) <= if (a, e) in st.seenExternalIds then 1 else 0
  }

  /** No accepted row is one the identity tiers find in the store. */
  predicate AcceptedUnstored(store: seq<Transaction>, st: BatchState) {
    forall t :: t in st.newTxns + st.flagged ==> Unstored(store, t.accountId, t.externalId, t.importHash)
  }

  ghost predicate BatchInvariant(store: seq<Transaction>, st: BatchState) {
    CrossCounted(store, st) && SplitsDisjoint(st) && HashesOnce(st) && ExternalIdsOnce(st) &&
    AcceptedUnstored(store, st)
  }

  lemma CountsAppend(rows: seq<Transaction>, t: Transaction, a: string, e: string, h: string)
    ensures CountHash(rows + [t], h) == CountHash(rows, h) + (if NoIdWithHash(t, h) then 1 else 0)
    ensures CountExt(rows + [t], a, e) == CountExt(rows, a, e) + (if HasExternalId(t, a, e) then 1 else 0)
  {
    assert (rows + [t])[..|rows|] == rows;
  }

  lemma AcceptKeeps(store: seq<Transaction>, st: BatchState, raw: RawTransaction, id: string, importId: string,
                    source: string, flagged: bool)
    requires BatchInvariant(store, st)
    requires HasText(raw.externalId) ==> (raw.accountId, raw.externalId.value) !in st.seenExternalIds
    requires !HasText(raw.externalId) ==> RawHash(raw) !in st.seenImportHashes
    requires Unstored(store, raw.accountId, raw.externalId, RawHash(raw))
    ensures BatchInvariant(store, Accept(st, raw, id, importId, source, flagged))
  {
    var st' := Accept(st, raw, id, importId, source, flagged);
    var t := BatchTxn(raw, id, importId, source, flagged);
    assert st'.duplicates == st.duplicates && st'.crossFormatUsed == st.crossFormatUsed;
    assert st'.splitSumConsumed == st.splitSumConsumed;
    assert HashesOnce(st') by {
      forall h
        ensures CountHash(st'.newTxns, h) + CountHash(st'.flagged, h) <= if h in st'.seenImportHashes then 1 else 0
      {
        CountsAppend(if flagged then st.flagged else st.newTxns, t, "", "", h);
      }
    }
    assert ExternalIdsOnce(st') by {
      forall a, e
        ensures CountExt(st'.newTxns, a, e) + CountExt(st'.flagged, a, e) <= if (a, e) in st'.seenExternalIds then 1 else 0
      {
        CountsAppend(if flagged then st.flagged else st.newTxns, t, a, e, "");
      }
    }
    assert AcceptedUnstored(store, st') by {
      forall u | u in st'.newTxns + st'.flagged
        ensures Unstored(store, u.accountId, u.externalId, u.importHash)
      {
        if u != t {
          assert u in st.newTxns + st.flagged;
        }
      }
    }
  }

  /** Appending a duplicate that is not a cross-format one leaves the cross-format counts alone. */
  lemma CountCrossAppend(dups: seq<DedupResult>, r: DedupResult, k: string)
    ensures CountCross(dups + [r], k) == CountCross(dups, k) + (if CrossFor(r, k) then 1 else 0)
  {
    assert (dups + [r])[..|dups|] == dups;
  }

  /** Recording a duplicate without splits and outside the cross-format tier keeps the invariant. */
  lemma PlainDuplicateKeeps(store: seq<Transaction>, st: BatchState, r: DedupResult)
    requires BatchInvariant(store, st)
    requires !(r.Duplicate? && r.tier == "cross_format") && SplitsOf(r) == []
    ensures BatchInvariant(store, st.(duplicates := st.duplicates + [r]))
  {
    var st' := st.(duplicates := st.duplicates + [r]);
    forall k ensures CountCross(st'.duplicates, k) == Used(st'.crossFormatUsed, k) <= MaxCross(store, k) {
      CountCrossAppend(st.duplicates, r, k);
    }
    assert SplitIds(SplitsOf(r)) == {};
  }

  lemma CrossDuplicateKeeps(store: seq<Transaction>, st: BatchState, raw: RawTransaction, r: DedupResult)
    requires BatchInvariant(store, st)
    requires r.Duplicate? && r.tier == "cross_format" && r.splits.None?
    requires r.matched.Some? && r.matched.value.dedupKey == RawKey(raw)
    requires Used(st.crossFormatUsed, RawKey(raw)) < |CrossFormatMatches(store, RawKey(raw), HasText(raw.externalId))|
    ensures BatchInvariant(store, st.(crossFormatUsed := st.crossFormatUsed[RawKey(raw) := Used(st.crossFormatUsed, RawKey(raw)) + 1],
                                     duplicates := st.duplicates + [r]))
  {
    var dk := RawKey(raw);
    var st' := st.(crossFormatUsed := st.crossFormatUsed[dk := Used(st.crossFormatUsed, dk) + 1],
                   duplicates := st.duplicates + [r]);
    forall k ensures CountCross(st'.duplicates, k) == Used(st'.crossFormatUsed, k) <= MaxCross(store, k) {
      CountCrossAppend(st.duplicates, r, k);
    }
    assert SplitsOf(r) == [];
    assert SplitIds(SplitsOf(r)) == {};
  }

  lemma SplitDuplicateKeeps(store: seq<Transaction>, st: BatchState, r: DedupResult)
    requires BatchInvariant(store, st)
    requires r.Duplicate? && r.tier == "split_sum"
    requires SplitIds(SplitsOf(r)) * st.splitSumConsumed == {}
    ensures BatchInvariant(store, st.(splitSumConsumed := st.splitSumConsumed + SplitIds(SplitsOf(r)),
                                     duplicates := st.duplicates + [r]))
  {
    var st' := st.(splitSumConsumed := st.splitSumConsumed + SplitIds(SplitsOf(r)), duplicates := st.duplicates + [r]);
    forall k ensures CountCross(st'.duplicates, k) == Used(st'.crossFormatUsed, k) <= MaxCross(store, k) {
      CountCrossAppend(st.duplicates, r, k);
    }
  }

  lemma StepKeeps(store: seq<Transaction>, st: BatchState, raw: RawTransaction, id: string, importId: string,
                  source: string, ratio: (string, string) -> real)
    requires IsRatio(ratio) && BatchInvariant(store, st)
    ensures BatchInvariant(store, Step(store, st, raw, id, importId, source, ratio))
  {
    if HasText(raw.externalId) && (raw.accountId, raw.externalId.value) in st.seenExternalIds {
      PlainDuplicateKeeps(store, st, Duplicate("external_id", None, None));
    } else if RawHash(raw) in st.seenImportHashes && !HasText(raw.externalId) {
      PlainDuplicateKeeps(store, st, Duplicate("import_hash", None, None));
    } else {
      var result := Deduplicate(store, raw, ratio);
      if result.Duplicate? && result.tier in {"external_id", "import_hash"} {
        PlainDuplicateKeeps(store, st, result);
      } else {
        assert result == LaterTiers(store, raw, ratio);
        SettleKeeps(store, st, raw, id, importId, source, result);
      }
    }
  }

  /** Settling a verdict of the later tiers on a row new to the batch and to the identity tiers keeps the invariant. */
  lemma SettleKeeps(store: seq<Transaction>, st: BatchState, raw: RawTransaction, id: string, importId: string,
                    source: string, result: DedupResult)
    requires BatchInvariant(store, st)
    requires HasText(raw.externalId) ==> (raw.accountId, raw.externalId.value) !in st.seenExternalIds
    requires !HasText(raw.externalId) ==> RawHash(raw) !in st.seenImportHashes
    requires Unstored(store, raw.accountId, raw.externalId, RawHash(raw))
    requires result.Duplicate? ==> result.tier in {"cross_format", "split_sum"} && result.matched.Some?
    requires result.Duplicate? && result.tier == "cross_format" ==>
      result.splits.None? && result.matched.value.dedupKey == RawKey(raw)
    ensures BatchInvariant(store, Settle(store, st, raw, id, importId, source, result))
  {
    var dk := RawKey(raw);
    if result.Duplicate? && result.tier == "cross_format" {
      if Used(st.crossFormatUsed, dk) < |CrossFormatMatches(store, dk, HasText(raw.externalId))| {
        CrossDuplicateKeeps(store, st, raw, result);
      } else {
        AcceptKeeps(store, st, raw, id, importId, source, false);
      }
    } else if result.Duplicate? {
      if SplitIds(SplitsOf(result)) * st.splitSumConsumed == {} {
        SplitDuplicateKeeps(store, st, result);
      } else {
        AcceptKeeps(store, st, raw, id, importId, source, false);
      }
    } else {
      AcceptKeeps(store, st, raw, id, importId, source, result.Flagged?);
    }
  }

  /**
   * After any batch: at most one accepted row per account and external id,
   * at most one accepted row without external id per import hash, no
   * accepted row that the identity tiers find in the store, no more
   * cross-format duplicates per key than opposite-source rows, and split
   * groups that never share a row.
   */
  lemma {:induction false} RunInvariant(store: seq<Transaction>, raws: seq<RawTransaction>, ids: seq<string>,
                                        importId: string, source: string, ratio: (string, string) -> real)
    requires |ids| == |raws| && IsRatio(ratio)
    ensures BatchInvariant(store, Run(store, raws, ids, importId, source, ratio))
    decreases |raws|
  {
    if raws == [] {
    } else {
      var n := |raws| - 1;
      RunInvariant(store, raws[..n], ids[..n], importId, source, ratio);
      StepKeeps(store, Run(store, raws[..n], ids[..n], importId, source, ratio), raws[n], ids[n], importId, source, ratio);
    }
  }

  /** A step adds at most one pending row and at most one flagged row, built from its own row. */
  lemma StepRows(store: seq<Transaction>, st: BatchState, raw: RawTransaction, id: string, importId: string,
                 source: string, ratio: (string, string) -> real)
    requires IsRatio(ratio)
    ensures var st' := Step(store, st, raw, id, importId, source, ratio);
      st'.newTxns == st.newTxns || st'.newTxns == st.newTxns + [BatchTxn(raw, id, importId, source, false)]
    ensures var st' := Step(store, st, raw, id, importId, source, ratio);
      st'.flagged == st.flagged ||
      (st'.flagged == st.flagged + [BatchTxn(raw, id, importId, source, true)] && Deduplicate(store, raw, ratio).Flagged?)
  {
    if !(HasText(raw.externalId) && (raw.accountId, raw.externalId.value) in st.seenExternalIds) &&
       !(RawHash(raw) in st.seenImportHashes && !HasText(raw.externalId)) {
      SettleRows(store, st, raw, id, importId, source, Deduplicate(store, raw, ratio));
    }
  }

  /** The last row of a batch adds at most itself to the pending rows, and to the flagged rows only when flagged. */
  lemma RunLast(store: seq<Transaction>, raws: seq<RawTransaction>, ids: seq<string>,
                importId: string, source: string, ratio: (string, string) -> real)
    requires |ids| == |raws| && IsRatio(ratio) && raws != []
    ensures var n := |raws| - 1;
      var prev := Run(store, raws[..n], ids[..n], importId, source, ratio);
      var st := Run(store, raws, ids, importId, source, ratio);
      (st.newTxns == prev.newTxns || st.newTxns == prev.newTxns + [BatchTxn(raws[n], ids[n], importId, source, false)]) &&
      (st.flagged == prev.flagged ||
       (st.flagged == prev.flagged + [BatchTxn(raws[n], ids[n], importId, source, true)] &&
        Deduplicate(store, raws[n], ratio).Flagged?))
  {
    var n := |raws| - 1;
    StepRows(store, Run(store, raws[..n], ids[..n], importId, source, ratio), raws[n], ids[n], importId, source, ratio);
  }

  /** `t` is row `raws[i]` stored with id `ids[i]`, pending or flagged, for some `i`. */
  predicate BuiltFrom(t: Transaction, raws: seq<RawTransaction>, ids: seq<string>, importId: string,
                      source: string, flagged: bool)
    requires |ids| == |raws|
  {
    exists i :: 0 <= i < |raws| && t == BatchTxn(raws[i], ids[i], importId, source, flagged)
  }

  /** `t` is built, flagged, from a row the fuzzy tier flags. */
  predicate FlaggedFrom(store: seq<Transaction>, t: Transaction, raws: seq<RawTransaction>, ids: seq<string>,
                        importId: string, source: string, ratio: (string, string) -> real)
    requires |ids| == |raws| && IsRatio(ratio)
  {
    exists i :: 0 <= i < |raws| && t == BatchTxn(raws[i], ids[i], importId, source, true) &&
      Deduplicate(store, raws[i], ratio).Flagged?
  }

  /** The row a pending row of a batch was built from. */
  lemma {:induction false} PendingOrigin(store: seq<Transaction>, raws: seq<RawTransaction>, ids: seq<string>,
                                         importId: string, source: string, ratio: (string, string) -> real,
                                         t: Transaction) returns (i: nat)
    requires |ids| == |raws| && IsRatio(ratio)
    requires t in Run(store, raws, ids, importId, source, ratio).newTxns
    ensures i < |raws| && t == BatchTxn(raws[i], ids[i], importId, source, false)
    decreases |raws|
  {
    var n := |raws| - 1;
    var prev := Run(store, raws[..n], ids[..n], importId, source, ratio);
    RunLast(store, raws, ids, importId, source, ratio);
    if t in prev.newTxns {
      i := PendingOrigin(store, raws[..n], ids[..n], importId, source, ratio, t);
      assert raws[..n][i] == raws[i] && ids[..n][i] == ids[i];
    } else {
      i := n;
    }
  }

  /** Every pending row a batch accepts is one of its rows, with that row's id. */
  lemma RunPending(store: seq<Transaction>, raws: seq<RawTransaction>, ids: seq<string>,
                   importId: string, source: string, ratio: (string, string) -> real)
    requires |ids| == |raws| && IsRatio(ratio)
    ensures forall t :: t in Run(store, raws, ids, importId, source, ratio).newTxns ==>
      BuiltFrom(t, raws, ids, importId, source, false)
  {
    forall t | t in Run(store, raws, ids, importId, source, ratio).newTxns
      ensures BuiltFrom(t, raws, ids, importId, source, false)
    {
      var i := PendingOrigin(store, raws, ids, importId, source, ratio, t);
    }
  }

  /** The row a flagged row of a batch was built from; the fuzzy tier flags it. */
  lemma {:induction false} FlaggedOrigin(store: seq<Transaction>, raws: seq<RawTransaction>, ids: seq<string>,
                                         importId: string, source: string, ratio: (string, string) -> real,
                                         t: Transaction) returns (i: nat)
    requires |ids| == |raws| && IsRatio(ratio)
    requires t in Run(store, raws, ids, importId, source, ratio).flagged
    ensures i < |raws| && t == BatchTxn(raws[i], ids[i], importId, source, true)
    ensures Deduplicate(store, raws[i], ratio).Flagged?
    decreases |raws|
  {
    var n := |raws| - 1;
    var prev := Run(store, raws[..n], ids[..n], importId, source, ratio);
    RunLast(store, raws, ids, importId, source, ratio);
    if t in prev.flagged {
      i := FlaggedOrigin(store, raws[..n], ids[..n], importId, source, ratio, t);
      assert raws[..n][i] == raws[i] && ids[..n][i] == ids[i];
    } else {
      i := n;
    }
  }

  /** Every flagged row a batch accepts is one of its rows that the fuzzy tier flags, with that row's id. */
  lemma RunFlagged(store: seq<Transaction>, raws: seq<RawTransaction>, ids: seq<string>,
                   importId: string, source: string, ratio: (string, string) -> real)
    requires |ids| == |raws| && IsRatio(ratio)
    ensures forall t :: t in Run(store, raws, ids, importId, source, ratio).flagged ==>
      FlaggedFrom(store, t, raws, ids, importId, source, ratio)
  {
    forall t | t in Run(store, raws, ids, importId, source, ratio).flagged
      ensures FlaggedFrom(store, t, raws, ids, importId, source, ratio)
    {
      var i := FlaggedOrigin(store, raws, ids, importId, source, ratio, t);
    }
  }

  /** Every row a batch accepts, pending or flagged, carries the batch's import id. */
  lemma RunImportIds(store: seq<Transaction>, raws: seq<RawTransaction>, ids: seq<string>,
                     importId: string, source: string, ratio: (string, string) -> real)
    requires |ids| == |raws| && IsRatio(ratio)
    ensures var st := Run(store, raws, ids, importId, source, ratio);
      forall t :: t in st.newTxns + st.flagged ==> t.importId == importId
  {
    var st := Run(store, raws, ids, importId, source, ratio);
    forall t | t in st.newTxns + st.flagged
      ensures t.importId == importId
    {
      if t in st.newTxns {
        var i := PendingOrigin(store, raws, ids, importId, source, ratio, t);
      } else {
        var i := FlaggedOrigin(store, raws, ids, importId, source, ratio, t);
      }
    }
  }

  /** A non-empty batch names a stored import exactly when its own import id is stored. */
  lemma BatchImports(imports: seq<Import>, store: seq<Transaction>, raws: seq<RawTransaction>, ids: seq<string>,
                     importId: string, source: string, ratio: (string, string) -> real)
    requires |ids| == |raws| && IsRatio(ratio)
    ensures var st := Run(store, raws, ids, importId, source, ratio);
      var all := st.newTxns + st.flagged;
      all != [] ==> ((forall j :: 0 <= j < |all| ==> HasImport(imports, all[j].importId)) <==> HasImport(imports, importId))
  {
    var st := Run(store, raws, ids, importId, source, ratio);
    var all := st.newTxns + st.flagged;
    RunImportIds(store, raws, ids, importId, source, ratio);
    forall j | 0 <= j < |all|
      ensures all[j].importId == importId
    {
      assert all[j] in all;
    }
    if all != [] && forall j :: 0 <= j < |all| ==> HasImport(imports, all[j].importId) {
      assert HasImport(imports, all[0].importId);
    }
  }

  /** `BatchResult`: the counts and the rows written (pending ones first). */
  datatype BatchResult = BatchResult(newCount: nat, duplicateCount: nat, flaggedCount: nat,
                                     transactions: seq<Transaction>)

  /**
   * The body of the loop of `process_batch` for one row, on the loop's
   * accumulators: the intra-batch checks, the tiers, the count and split
   * checks, then the row built and recorded.
   */
  method ProcessRow(store: seq<Transaction>, st: BatchState, raw: RawTransaction, id: string, importId: string,
                    source: string, ratio: (string, string) -> real) returns (st': BatchState)
    requires IsRatio(ratio)
    ensures st' == Step(store, st, raw, id, importId, source, ratio)
  {
    st' := st;
    if HasText(raw.externalId) && (raw.accountId, raw.externalId.value) in st'.seenExternalIds {
      st' := st'.(duplicates := st'.duplicates + [Duplicate("external_id", None, None)]);
      return;
    }
    var importHashEarly := RawHash(raw);
    if importHashEarly in st'.seenImportHashes && !HasText(raw.externalId) {
      st' := st'.(duplicates := st'.duplicates + [Duplicate("import_hash", None, None)]);
      return;
    }
    var result := Deduplicate(store, raw, ratio);
    st' := SettleRow(store, st', raw, id, importId, source, result);
  }

  /** The rest of the loop body, once the tiers have given their verdict on the row. */
  method SettleRow(store: seq<Transaction>, st: BatchState, raw: RawTransaction, id: string, importId: string,
                   source: string, result: DedupResult) returns (st': BatchState)
    ensures st' == Settle(store, st, raw, id, importId, source, result)
  {
    st' := st;
    var result := result;
    if result.Duplicate? && result.tier == "cross_format" {
      var dk := RawKey(raw);
      var crossMatches := CrossFormatMatches(store, dk, HasText(raw.externalId));
      var used := Used(st'.crossFormatUsed, dk);
      if used < |crossMatches| {
        st' := st'.(crossFormatUsed := st'.crossFormatUsed[dk := used + 1], duplicates := st'.duplicates + [result]);
        return;
      }
      result := New;
    }
    if result.Duplicate? && result.tier == "split_sum" {
      var matchedIds := SplitIds(SplitsOf(result));
      if matchedIds * st'.splitSumConsumed == {} {
        st' := st'.(splitSumConsumed := st'.splitSumConsumed + matchedIds, duplicates := st'.duplicates + [result]);
        return;
      }
      result := New;
    }
    if result.Duplicate? {
      st' := st'.(duplicates := st'.duplicates + [result]);
      return;
    }
    if HasText(raw.externalId) {
      st' := st'.(seenExternalIds := st'.seenExternalIds + {(raw.accountId, raw.externalId.value)});
    }
    st' := st'.(seenImportHashes := st'.seenImportHashes + {RawHash(raw)});
    var txn := BatchTxn(raw, id, importId, source, result.Flagged?);
    if result.Flagged? {
      st' := st'.(flagged := st'.flagged + [txn]);
    } else {
      st' := st'.(newTxns := st'.newTxns + [txn]);
    }
  }

  /** The loop of `process_batch`: the rows in order, each against the store and the batch so far. */
  method ProcessRows(store: seq<Transaction>, rawTxns: seq<RawTransaction>, ids: seq<string>, importId: string,
                     source: string, ratio: (string, string) -> real) returns (st: BatchState)
    requires |ids| == |rawTxns| && IsRatio(ratio)
    ensures st == Run(store, rawTxns, ids, importId, source, ratio)
  {
    st := EmptyBatch;
    for i := 0 to |rawTxns|
      invariant st == Run(store, rawTxns[..i], ids[..i], importId, source, ratio)
    {
      assert rawTxns[..i + 1][..i] == rawTxns[..i] && ids[..i + 1][..i] == ids[..i];
      st := ProcessRow(store, st, rawTxns[i], ids[i], importId, source, ratio);
    }
    assert rawTxns[..|rawTxns|] == rawTxns && ids[..|ids|] == ids;
  }

  /**
   * `process_batch`: every row through the intra-batch checks and the
   * tiers (against the store as it was before the batch), then the pending
   * and flagged rows written in one all-or-nothing insert. The result is
   * absent when the store refuses the insert (the source raises): an id is
   * taken, or the import the rows name is not stored.
   */
  method ProcessBatch(repo: Repository, rawTxns: seq<RawTransaction>, ids: seq<string>, importId: string,
                      source: string, ratio: (string, string) -> real) returns (r: Option<BatchResult>)
    requires repo.Valid() && |ids| == |rawTxns| && IsRatio(ratio)
    modifies repo
    ensures repo.Valid()
    ensures repo.imports == old(repo.imports) && repo.allocs == old(repo.allocs)
    ensures repo.transfers == old(repo.transfers) && repo.receiptMatches == old(repo.receiptMatches)
    ensures repo.usage == old(repo.usage)
    ensures var st := Run(old(repo.txns), rawTxns, ids, importId, source, ratio);
      r.Some? ==> r.value == BatchResult(|st.newTxns|, |st.duplicates|, |st.flagged|, st.newTxns + st.flagged) &&
                  repo.txns == old(repo.txns) + st.newTxns + st.flagged
    ensures var st := Run(old(repo.txns), rawTxns, ids, importId, source, ratio);
      var all := st.newTxns + st.flagged;
      r.None? <==> (all != [] && (!HasImport(old(repo.imports), importId) || !(DistinctBy(all, TxnId) &&
        forall i, j :: 0 <= i < |old(repo.txns)| && 0 <= j < |all| ==> old(repo.txns)[i].id != all[j].id)))
    ensures r.None? ==> repo.txns == old(repo.txns)
  {
    var st := ProcessRows(repo.txns, rawTxns, ids, importId, source, ratio);
    var allInsert := st.newTxns + st.flagged;
    BatchImports(repo.imports, repo.txns, rawTxns, ids, importId, source, ratio);
    if allInsert != [] {
      var ok := repo.InsertTransactionsBatch(allInsert);
      if !ok {
        return None;
      }
    }
    r := Some(BatchResult(|st.newTxns|, |st.duplicates|, |st.flagged|, allInsert));
  }
}

=== FILE: dicts.dfy ===
/**
 * Python's insertion-ordered `dict` as an association list: a key keeps the
 * position of its first insertion, and writing it again replaces the value
 * in place.
 */
module Dicts {
  import opened Wrappers

  type Dict<K, V> = seq<(K, V)>

  function Keys<K, V>(d: Dict<K, V>): (r: seq<K>)
    ensures |r| == |d|
  {
    if d == [] then [] else [d[0].0] + Keys(d[1..])
  }

  /** The key at each position is the key of the pair there. */
  lemma {:induction false} KeysAt<K, V>(d: Dict<K, V>)
    ensures forall i :: 0 <= i < |d| ==> Keys(d)[i] == d[i].0
  {
    if d != [] {
      KeysAt(d[1..]);
    }
  }

  lemma {:induction false} KeysAppend<K, V>(a: Dict<K, V>, b: Dict<K, V>)
    ensures Keys(a + b) == Keys(a) + Keys(b)
  {
    if a == [] {
      assert a + b == b;
    } else {
      KeysAppend(a[1..], b);
      assert (a + b)[0] == a[0];
      assert (a + b)[1..] == a[1..] + b;
    }
  }

  /** No key occurs twice. */
  predicate UniqueKeys<K(==), V>(d: Dict<K, V>) {
    forall i, j :: 0 <= i < j < |d| ==> d[i].0 != d[j].0
  }

  /** `d.get(k)`: the value of the first pair with key `k`. */
  function Get<K(==), V>(d: Dict<K, V>, k: K): Option<V> {
    if d == [] then None
    else if d[0].0 == k then Some(d[0].1)
    else Get(d[1..], k)
  }

  /** Get finds a value exactly for the keys of the dict. */
  lemma {:induction false} GetSome<K, V>(d: Dict<K, V>, k: K)
    ensures Get(d, k).Some? <==> k in Keys(d)
  {
    if d != [] {
      GetSome(d[1..], k);
    }
  }

  /** A value Get finds is paired with its key in the dict. */
  lemma {:induction false} GetIn<K, V>(d: Dict<K, V>, k: K)
    requires Get(d, k).Some?
    ensures (k, Get(d, k).value) in d
  {
    if d[0].0 != k {
      GetIn(d[1..], k);
      assert d == [d[0]] + d[1..];
    }
  }

  /** `d[k] = v`: replace in place when present, append otherwise. */
  function Put<K(==), V>(d: Dict<K, V>, k: K, v: V): (r: Dict<K, V>)
    ensures k in Keys(d) ==> Keys(r) == Keys(d)
    ensures k !in Keys(d) ==> r == d + [(k, v)]
  {
    if d == [] then [(k, v)]
    else if d[0].0 == k then [(k, v)] + d[1..]
    else [d[0]] + Put(d[1..], k, v)
  }

  /** Reading a key just written gives the value written; other keys keep their values. */
  lemma {:induction false} PutGet<K, V>(d: Dict<K, V>, k: K, v: V, k': K)
    ensures Get(Put(d, k, v), k') == if k' == k then Some(v) else Get(d, k')
  {
    if d != [] && d[0].0 != k {
      PutGet(d[1..], k, v, k');
    }
  }

  /** Writing never creates a second pair for a key. */
  lemma PutUnique<K, V>(d: Dict<K, V>, k: K, v: V)
    requires UniqueKeys(d)
    ensures UniqueKeys(Put(d, k, v))
  {
    var r := Put(d, k, v);
    KeysAt(d);
    KeysAt(r);
    if k in Keys(d) {
      assert forall i :: 0 <= i < |r| ==> r[i].0 == d[i].0;
    } else {
      assert forall i :: 0 <= i < |d| ==> d[i].0 != k;
    }
  }

  /** The dict built by writing the pairs of `ps` in order. */
  function FromPairs<K(==), V>(ps: seq<(K, V)>): Dict<K, V> {
    if ps == [] then [] else Put(FromPairs(ps[..|ps| - 1]), ps[|ps| - 1].0, ps[|ps| - 1].1)
  }

  /** The built dict has one pair per distinct key of `ps`. */
  lemma {:induction false} FromPairsKeys<K, V>(ps: seq<(K, V)>)
    ensures UniqueKeys(FromPairs(ps))
    ensures forall k :: k in Keys(FromPairs(ps)) <==> k in Keys(ps)
  {
    if ps != [] {
      var init := ps[..|ps| - 1];
      var last := ps[|ps| - 1];
      var d := FromPairs(init);
      FromPairsKeys(init);
      PutUnique(d, last.0, last.1);
      assert FromPairs(ps) == Put(d, last.0, last.1);
      KeysSnoc(ps);
      if last.0 !in Keys(d) {
        KeysSnoc(d + [last]);
        assert (d + [last])[..|d|] == d;
      }
    }
  }

  /** A key's value in the built dict is the value of its last pair. */
  lemma {:induction false} FromPairsLast<K, V>(ps: seq<(K, V)>, i: nat)
    requires i < |ps|
    requires forall j :: i < j < |ps| ==> ps[j].0 != ps[i].0
    ensures Get(FromPairs(ps), ps[i].0) == Some(ps[i].1)
  {
    var n := |ps| - 1;
    PutGet(FromPairs(ps[..n]), ps[n].0, ps[n].1, ps[i].0);
    if i < n {
      FromPairsLast(ps[..n], i);
    }
  }

  /** A value of the built dict is one that `ps` pairs with its key. */
  lemma {:induction false} FromPairsIn<K, V>(ps: seq<(K, V)>, k: K)
    requires Get(FromPairs(ps), k).Some?
    ensures (k, Get(FromPairs(ps), k).value) in ps
  {
    var n := |ps| - 1;
    PutGet(FromPairs(ps[..n]), ps[n].0, ps[n].1, k);
    if k != ps[n].0 {
      FromPairsIn(ps[..n], k);
      assert ps[..n] <= ps;
    }
  }

  /** Sum of the values paired with `k`. */
  function SumFor<K(==)>(ps: seq<(K, real)>, k: K): real {
    if ps == [] then 0.0
    else SumFor(ps[..|ps| - 1], k) + (if ps[|ps| - 1].0 == k then ps[|ps| - 1].1 else 0.0)
  }

  /** Sum of all the values. */
  function SumValues<K>(ps: seq<(K, real)>): real {
    if ps == [] then 0.0 else SumValues(ps[..|ps| - 1]) + ps[|ps| - 1].1
  }

  /**
   * `d[k] = d.get(k, 0) + v` for each pair in turn: the per-key totals,
   * keys in order of first appearance.
   */
  function Tally<K(==)>(ps: seq<(K, real)>): Dict<K, real> {
    if ps == [] then [] else AddTo(Tally(ps[..|ps| - 1]), ps[|ps| - 1].0, ps[|ps| - 1].1)
  }

  /** `d[k] = d.get(k, 0) + v`. */
  function AddTo<K(==)>(d: Dict<K, real>, k: K, v: real): Dict<K, real> {
    if d == [] then [(k, v)]
    else if d[0].0 == k then [(k, d[0].1 + v)] + d[1..]
    else [d[0]] + AddTo(d[1..], k, v)
  }

  lemma {:induction false} AddToGet<K>(d: Dict<K, real>, k: K, v: real, k': K)
    ensures Get(AddTo(d, k, v), k') == if k' == k then Some(Current(d, k) + v) else Get(d, k')
  {
    var r := AddTo(d, k, v);
    if d == [] {
      assert Current(d, k) == 0.0;
    } else if d[0].0 == k {
      assert r[0] == (k, d[0].1 + v) && r[1..] == d[1..];
      assert Current(d, k) == d[0].1;
    } else {
      AddToGet(d[1..], k, v, k');
      assert r[0] == d[0] && r[1..] == AddTo(d[1..], k, v);
      assert Current(d, k) == Current(d[1..], k);
    }
  }

  /** `d.get(k, 0)`. */
  function Current<K(==)>(d: Dict<K, real>, k: K): real {
    match Get(d, k)
    case Some(x) => x
    case None => 0.0
  }

  lemma {:induction false} AddToKeys<K>(d: Dict<K, real>, k: K, v: real)
    requires UniqueKeys(d)
    ensures UniqueKeys(AddTo(d, k, v))
    ensures forall k' :: k' in Keys(AddTo(d, k, v)) <==> k' in Keys(d) || k' == k
  {
    if d != [] && d[0].0 != k {
      AddToKeys(d[1..], k, v);
      var r := AddTo(d, k, v);
      assert r == [d[0]] + AddTo(d[1..], k, v);
      assert Keys(r) == [d[0].0] + Keys(AddTo(d[1..], k, v));
      var t := AddTo(d[1..], k, v);
      KeysAt(d);
      KeysAt(t);
      assert d[0].0 !in Keys(d[1..]) by {
        KeysAt(d[1..]);
      }
      assert d[0].0 !in Keys(t);
      assert forall i :: 1 <= i < |r| ==> r[i] == t[i - 1];
    } else if d != [] {
      var r := AddTo(d, k, v);
      assert r[1..] == d[1..];
      assert Keys(r) == Keys(d);
      KeysAt(d);
      KeysAt(r);
    }
  }

  lemma {:induction false} KeysSnoc<K, V>(ps: seq<(K, V)>)
    requires ps != []
    ensures Keys(ps) == Keys(ps[..|ps| - 1]) + [ps[|ps| - 1].0]
  {
    if |ps| > 1 {
      var init := ps[..|ps| - 1];
      KeysSnoc(ps[1..]);
      assert ps[1..][..|ps| - 2] == init[1..];
      assert Keys(init) == [ps[0].0] + Keys(init[1..]);
    }
  }

  /** A key's tally is the sum of its values; a key that never occurs has none. */
  lemma {:induction false} TallyGet<K>(ps: seq<(K, real)>, k: K)
    ensures Get(Tally(ps), k) == if k in Keys(ps) then Some(SumFor(ps, k)) else None
  {
    if ps != [] {
      var init := ps[..|ps| - 1];
      var p := ps[|ps| - 1];
      TallyGet(init, k);
      TallyStep(ps, k, Tally(init));
      KeysSnoc(ps);
      assert SumFor(ps, k) == SumFor(init, k) + (if p.0 == k then p.1 else 0.0);
      if k == p.0 && k !in Keys(init) {
        SumForAbsent(init, k);
      }
    }
  }

  lemma TallyStep<K>(ps: seq<(K, real)>, k: K, d: Dict<K, real>)
    requires ps != [] && d == Tally(ps[..|ps| - 1])
    ensures Get(Tally(ps), k) == if k == ps[|ps| - 1].0 then Some(Current(d, k) + ps[|ps| - 1].1) else Get(d, k)
  {
    assert Tally(ps) == AddTo(d, ps[|ps| - 1].0, ps[|ps| - 1].1);
    AddToGet(d, ps[|ps| - 1].0, ps[|ps| - 1].1, k);
  }

  lemma {:induction false} SumForAbsent<K>(ps: seq<(K, real)>, k: K)
    requires k !in Keys(ps)
    ensures SumFor(ps, k) == 0.0
  {
    if ps != [] {
      KeysSnoc(ps);
      SumForAbsent(ps[..|ps| - 1], k);
    }
  }

  /** The tally has one entry per distinct key. */
  lemma {:induction false} TallyKeys<K>(ps: seq<(K, real)>)
    ensures UniqueKeys(Tally(ps))
    ensures forall k :: k in Keys(Tally(ps)) <==> k in Keys(ps)
  {
    if ps != [] {
      var init := ps[..|ps| - 1];
      TallyKeys(init);
      AddToKeys(Tally(init), ps[|ps| - 1].0, ps[|ps| - 1].1);
      KeysSnoc(ps);
    }
  }

  /** With no negative values, one key's sum lies between zero and the whole sum. */
  lemma {:induction false} SumForBounds<K>(ps: seq<(K, real)>, k: K)
    requires forall i :: 0 <= i < |ps| ==> ps[i].1 >= 0.0
    ensures 0.0 <= SumFor(ps, k) <= SumValues(ps)
  {
    if ps != [] {
      SumForBounds(ps[..|ps| - 1], k);
    }
  }

  /** With unique keys, the pair at a position is the one Get finds. */
  lemma {:induction false} GetAt<K, V>(d: Dict<K, V>, b: nat)
    requires UniqueKeys(d) && b < |d|
    ensures Get(d, d[b].0) == Some(d[b].1)
  {
    if b > 0 {
      assert d[0].0 != d[b].0;
      assert d[1..][b - 1] == d[b];
      GetAt(d[1..], b - 1);
    }
  }
}

=== FILE: gmail_client.dfy ===
/**
 * The mail client's pure parts: which text body a receipt message yields,
 * and which date window a receipt search covers. The mail service itself
 * is a parameter: a listing function over the window and a fetched message.
 */
module GmailClient {
  import opened Wrappers

  /**
   * One MIME part of a message payload: its type, its body data (still
   * base64url-encoded; "" when absent) and its nested parts.
   */
  datatype Part = Part(mimeType: string, data: string, parts: seq<Part>)

  const TextPlain := "text/plain"
  const TextHtml := "text/html"

  // ── Body selection ─────────────────────────────────────

  /** The parts of a list and all their nested parts, in depth-first pre-order. */
  function Flatten(ps: seq<Part>): (r: seq<Part>)
    decreases ps
  {
    if ps == [] then []
    else [ps[0]] + Flatten(ps[0].parts) + Flatten(ps[1..])
  }

  /** The data of the first part of type `mime` that has data. */
  function FirstData(flat: seq<Part>, mime: string): (r: Option<string>)
    ensures r.Some? ==> r.value != ""
    ensures r.None? ==> forall i :: 0 <= i < |flat| ==> flat[i].mimeType != mime || flat[i].data == ""
  {
    if flat == [] then None
    else if flat[0].mimeType == mime && flat[0].data != "" then Some(flat[0].data)
    else FirstData(flat[1..], mime)
  }

  /** The first text/plain and first text/html data found so far. */
  datatype Found = Found(plain: Option<string>, html: Option<string>)

  /** One part seen by the search: it fills a slot only while the slot is empty. */
  function Note(st: Found, p: Part): Found {
    if p.mimeType == TextPlain && p.data != "" && st.plain.None? then st.(plain := Some(p.data))
    else if p.mimeType == TextHtml && p.data != "" && st.html.None? then st.(html := Some(p.data))
    else st
  }

  /** `_search_parts`: each part is noted before its nested parts are searched. */
  function Search(st: Found, ps: seq<Part>): Found
    decreases ps
  {
    if ps == [] then st
    else Search(Search(Note(st, ps[0]), ps[0].parts), ps[1..])
  }

  /** Noting a flat list of parts in order. */
  function NoteAll(st: Found, flat: seq<Part>): Found
    decreases |flat|
  {
    if flat == [] then st else NoteAll(Note(st, flat[0]), flat[1..])
  }

  lemma {:induction false} NoteAllAppend(st: Found, a: seq<Part>, b: seq<Part>)
    decreases |a|
    ensures NoteAll(st, a + b) == NoteAll(NoteAll(st, a), b)
  {
    if a == [] {
      assert a + b == b;
    } else {
      assert (a + b)[0] == a[0];
      assert (a + b)[1..] == a[1..] + b;
      NoteAllAppend(Note(st, a[0]), a[1..], b);
    }
  }

  /** The recursive search notes exactly the parts of the pre-order walk. */
  lemma {:induction false} SearchIsWalk(st: Found, ps: seq<Part>)
    decreases ps
    ensures Search(st, ps) == NoteAll(st, Flatten(ps))
  {
    if ps != [] {
      var p := ps[0];
      SearchIsWalk(Note(st, p), p.parts);
      SearchIsWalk(Search(Note(st, p), p.parts), ps[1..]);
      NoteAllAppend(st, [p] + Flatten(p.parts), Flatten(ps[1..]));
      NoteAllAppend(st, [p], Flatten(p.parts));
      assert NoteAll(st, [p]) == Note(st, p) by {
        assert [p][1..] == [];
      }
    }
  }

  /** A filled slot is kept; an empty one receives the first matching data of the walk. */
  lemma {:induction false} NoteAllFirst(st: Found, flat: seq<Part>)
    ensures NoteAll(st, flat).plain == (if st.plain.Some? then st.plain else FirstData(flat, TextPlain))
    ensures NoteAll(st, flat).html == (if st.html.Some? then st.html else FirstData(flat, TextHtml))
    decreases |flat|
  {
    if flat != [] {
      NoteAllFirst(Note(st, flat[0]), flat[1..]);
    }
  }

  /**
   * `_extract_body`: the payload's own body when it has data; otherwise
   * the first text/plain part of the walk, else the first text/html part,
   * else "". `decode` is the base64url decoding.
   */
  function ExtractBody(payload: Part, decode: string -> string): (r: string)
    ensures payload.data != "" ==> r == decode(payload.data)
    ensures payload.data == "" ==>
      var flat := Flatten(payload.parts);
      var plain := FirstData(flat, TextPlain);
      var html := FirstData(flat, TextHtml);
      r == (if plain.Some? then decode(plain.value) else if html.Some? then decode(html.value) else "")
  {
    if payload.data != "" then decode(payload.data)
    else
      var found := Search(Found(None, None), payload.parts);
      SearchIsWalk(Found(None, None), payload.parts);
      NoteAllFirst(Found(None, None), Flatten(payload.parts));
      if found.plain.Some? then decode(found.plain.value)
      else if found.html.Some? then decode(found.html.value)
      else ""
  }

  /** A plain-text part nested anywhere is preferred to an HTML part that comes before it. */
  lemma PlainBeatsEarlierHtml(html: string, plain: string, decode: string -> string)
    requires html != "" && plain != ""
    ensures ExtractBody(Part("multipart/mixed", "", [
      Part(TextHtml, html, []),
      Part("multipart/alternative", "", [Part(TextPlain, plain, [])])]), decode) == decode(plain)
  {
    var inner := [Part(TextPlain, plain, [])];
    var ps := [Part(TextHtml, html, []), Part("multipart/alternative", "", inner)];
    assert Flatten(inner) == [Part(TextPlain, plain, [])] by {
      assert inner[1..] == [];
    }
    assert Flatten(ps[1..]) == [ps[1]] + Flatten(inner) by {
      assert ps[1..][1..] == [];
    }
    assert Flatten(ps[0].parts) == [];
    var flat := [ps[0], ps[1], inner[0]];
    assert Flatten(ps) == flat;
    assert TextHtml[5] != TextPlain[5];
    assert "multipart/alternative" != TextPlain;
    assert FirstData(flat, TextPlain) == FirstData(flat[1..], TextPlain);
    assert flat[1..][1..] == [inner[0]];
    assert FirstData(flat[1..], TextPlain) == FirstData([inner[0]], TextPlain);
    assert FirstData(flat, TextPlain) == Some(plain);
  }

  /** `get_message_body`: a failed fetch yields "". */
  function MessageBody(fetched: Option<Part>, decode: string -> string): (r: string)
    ensures fetched.None? ==> r == ""
    ensures fetched.Some? ==> r == ExtractBody(fetched.value, decode)
  {
    if fetched.None? then "" else ExtractBody(fetched.value, decode)
  }

  // ── Receipt search ─────────────────────────────────────

  /** Days searched before the charge and after it, per merchant type. */
  datatype Window = Window(daysBefore: nat, daysAfter: nat)

  function WindowFor(merchantType: string): (r: Option<Window>)
    ensures r.Some? <==> merchantType == "apple" || merchantType == "amazon"
  {
    if merchantType == "apple" then Some(Window(3, 1))
    else if merchantType == "amazon" then Some(Window(14, 1))
    else None
  }

  /**
   * The day numbers that bound the search, `after:` and `before:`, for a
   * charge on day `chargeDay`; None for a merchant type it does not know.
   */
  function SearchBounds(merchantType: string, chargeDay: int): (r: Option<(int, int)>)
    ensures r.Some? <==> merchantType == "apple" || merchantType == "amazon"
    ensures r.Some? ==> r.value.0 < chargeDay < r.value.1
    ensures merchantType == "apple" ==> r == Some((chargeDay - 3, chargeDay + 1))
    ensures merchantType == "amazon" ==> r == Some((chargeDay - 14, chargeDay + 1))
  {
    var w := WindowFor(merchantType);
    if w.None? then None
    else Some((chargeDay - w.value.daysBefore, chargeDay + w.value.daysAfter))
  }

  /**
   * `search_receipts`: the ids `list` returns for the window, or None for
   * an unknown merchant type or a failed call (`list` giving None).
   */
  function SearchReceipts(merchantType: string, chargeDay: int, list: ((int, int)) -> Option<seq<string>>): (r: Option<seq<string>>)
    ensures SearchBounds(merchantType, chargeDay).None? ==> r.None?
    ensures SearchBounds(merchantType, chargeDay).Some? ==> r == list(SearchBounds(merchantType, chargeDay).value)
  {
    var bounds := SearchBounds(merchantType, chargeDay);
    if bounds.None? then None else list(bounds.value)
  }
}

=== FILE: historical.dfy ===
/**
 * Categorisation by history: past categorised transactions with the same
 * normalized description vote for a category, first at the same amount
 * (unanimity) and then at any amount (weighted agreement).
 */
module Historical {
  import opened Wrappers
  import opened Dicts
  import opened Models
  import opened Repo

  const ExactMinCount: nat := 2
  const ExactConfidence: real := 0.95
  const DescMinCount: nat := 3
  const DescMinAgreement: real := 0.80
  const DescConfidence: real := 0.85
  /** A user-sourced allocation counts 1.5 times: its extra weight is one half. */
  const UserExtraWeight: real := 0.5
  /** "Same amount" means within one cent. */
  const AmountToleranceCents: nat := 1

  datatype HistoricalMatch = HistoricalMatch(
    categoryId: string,
    confidence: real,
    matchLevel: string,
    matchCount: nat,
    agreementPct: real)

  /** History rows at the transaction's amount. */
  function ExactRows(rows: seq<CategoryCount>, amount: Cents): (r: seq<CategoryCount>)
    ensures |r| <= |rows|
    ensures forall x :: x in r <==> x in rows && Abs(x.amount - amount) <= AmountToleranceCents
  {
    if rows == [] then []
    else (if Abs(rows[0].amount - amount) <= AmountToleranceCents then [rows[0]] else [])
         + ExactRows(rows[1..], amount)
  }

  function SumCnt(rows: seq<CategoryCount>): nat {
    if rows == [] then 0 else rows[0].cnt + SumCnt(rows[1..])
  }

  /** All rows name one category. */
  predicate SingleCategory(rows: seq<CategoryCount>)
    requires rows != []
  {
    forall x :: x in rows ==> x.categoryId == rows[0].categoryId
  }

  /** The exact level applies: at least two past matches at the amount, all one category. */
  predicate ExactApplies(rows: seq<CategoryCount>, amount: Cents) {
    var exact := ExactRows(rows, amount);
    exact != [] && SumCnt(exact) >= ExactMinCount && SingleCategory(exact)
  }

  function RowWeight(r: CategoryCount): real {
    r.cnt as real + r.userCnt as real * UserExtraWeight
  }

  /** Each row's vote: its category and its weight. */
  function Votes(rows: seq<CategoryCount>): (r: seq<(string, real)>)
    ensures |r| == |rows|
    ensures forall i :: 0 <= i < |rows| ==> r[i] == (rows[i].categoryId, RowWeight(rows[i]))
  {
    seq(|rows|, i requires 0 <= i < |rows| => (rows[i].categoryId, RowWeight(rows[i])))
  }

  /** Sum of the weights of every row. */
  function TotalWeight(rows: seq<CategoryCount>): real { SumValues(Votes(rows)) }

  /** Sum of the weights of the rows of category `c`. */
  function WeightOf(rows: seq<CategoryCount>, c: string): real { SumFor(Votes(rows), c) }

  /** Some row names category `c`. */
  predicate HasCategory(rows: seq<CategoryCount>, c: string) {
    exists i :: 0 <= i < |rows| && rows[i].categoryId == c
  }

  lemma HasCategoryVotes(rows: seq<CategoryCount>, c: string)
    ensures HasCategory(rows, c) <==> c in Keys(Votes(rows))
  {
    var v := Votes(rows);
    KeysAt(v);
    if c in Keys(v) {
      var i :| 0 <= i < |v| && Keys(v)[i] == c;
      assert rows[i].categoryId == c;
    }
    if HasCategory(rows, c) {
      var i :| 0 <= i < |rows| && rows[i].categoryId == c;
      assert Keys(v)[i] == c;
    }
  }

  /** `cat_weights`: the per-category sums of the votes, categories in order of first appearance. */
  function CategoryWeights(rows: seq<CategoryCount>): (d: Dict<string, real>)
    ensures UniqueKeys(d)
    ensures forall c :: c in Keys(d) <==> HasCategory(rows, c)
    ensures forall c :: Get(d, c) == if HasCategory(rows, c) then Some(WeightOf(rows, c)) else None
  {
    var d := Tally(Votes(rows));
    TallyKeys(Votes(rows));
    forall c
      ensures (c in Keys(d) <==> HasCategory(rows, c)) &&
              Get(d, c) == if HasCategory(rows, c) then Some(WeightOf(rows, c)) else None
    {
      TallyGet(Votes(rows), c);
      HasCategoryVotes(rows, c);
    }
    d
  }

  /** Position of the first largest value (`max` over a dict keeps the first of equal maxima). */
  function BestIndex(d: Dict<string, real>, n: nat): (b: nat)
    requires 0 < n <= |d|
    ensures b < n
    ensures forall j :: 0 <= j < n ==> d[j].1 <= d[b].1
    ensures forall j :: 0 <= j < b ==> d[j].1 < d[b].1
  {
    if n == 1 then 0
    else
      var b := BestIndex(d, n - 1);
      if d[n - 1].1 > d[b].1 then n - 1 else b
  }

  /**
   * The voting of `match_historical` over the history rows: the exact
   * level first, then the description level.
   */
  function MatchRows(rows: seq<CategoryCount>, amount: Cents): (r: Option<HistoricalMatch>)
    ensures rows == [] ==> r.None?
    ensures r.Some? ==> r.value.matchLevel in {"exact", "description"}
    ensures (r.Some? && r.value.matchLevel == "exact") <==> rows != [] && ExactApplies(rows, amount)
    ensures r.Some? && r.value.matchLevel == "exact" ==>
      r.value == HistoricalMatch(ExactRows(rows, amount)[0].categoryId, ExactConfidence, "exact",
                                 SumCnt(ExactRows(rows, amount)), 1.0)
    ensures r.Some? && r.value.matchLevel == "description" ==>
      SumCnt(rows) >= DescMinCount && r.value.matchCount == SumCnt(rows) &&
      r.value.confidence == DescConfidence
  {
    if rows == [] then None
    else if ExactApplies(rows, amount) then
      var exact := ExactRows(rows, amount);
      Some(HistoricalMatch(exact[0].categoryId, ExactConfidence, "exact", SumCnt(exact), 1.0))
    else
      var totalWeighted := TotalWeight(rows);
      var totalCount := SumCnt(rows);
      if totalCount < DescMinCount then None
      else
        var (best, bestWeight) := BestVote(rows);
        var agreement := if totalWeighted > 0.0 then bestWeight / totalWeighted else 0.0;
        if agreement >= DescMinAgreement then
          Some(HistoricalMatch(best, DescConfidence, "description", totalCount, agreement))
        else None
  }

  /** Weights are never negative, so no category outweighs the total. */
  lemma WeightBounds(rows: seq<CategoryCount>, c: string)
    ensures 0.0 <= WeightOf(rows, c) <= TotalWeight(rows)
  {
    SumForBounds(Votes(rows), c);
  }

  /** The largest entry of the weights dict outweighs every category. */
  lemma BestOutweighs(rows: seq<CategoryCount>, b: nat, c: string)
    requires b < |CategoryWeights(rows)|
    requires forall j :: 0 <= j < |CategoryWeights(rows)| ==> CategoryWeights(rows)[j].1 <= CategoryWeights(rows)[b].1
    ensures CategoryWeights(rows)[b].1 == WeightOf(rows, CategoryWeights(rows)[b].0)
    ensures WeightOf(rows, c) <= CategoryWeights(rows)[b].1
  {
    var weights := CategoryWeights(rows);
    GetAt(weights, b);
    KeysAt(weights);
    assert Keys(weights)[b] == weights[b].0;
    if HasCategory(rows, c) {
      var p := Get(weights, c).value;
      GetIn(weights, c);
      assert (c, p) in weights;
    } else {
      HasCategoryVotes(rows, c);
      SumForAbsent(Votes(rows), c);
      WeightBounds(rows, weights[b].0);
    }
  }

  /**
   * `max(cat_weights, key=cat_weights.get)`: the first category of
   * greatest weight, with that weight, which no category exceeds.
   */
  function BestVote(rows: seq<CategoryCount>): (v: (string, real))
    requires rows != []
    ensures HasCategory(rows, v.0)
    ensures v.1 == WeightOf(rows, v.0)
    ensures forall c :: WeightOf(rows, c) <= v.1
  {
    var weights := CategoryWeights(rows);
    assert HasCategory(rows, rows[0].categoryId);
    var b := BestIndex(weights, |weights|);
    forall c ensures WeightOf(rows, c) <= weights[b].1 {
      BestOutweighs(rows, b, c);
    }
    KeysAt(weights);
    assert Keys(weights)[b] == weights[b].0;
    assert weights[b].0 in Keys(weights);
    BestOutweighs(rows, b, weights[b].0);
    weights[b]
  }

  /**
   * A description-level match names a category of greatest weight; its
   * agreement is that weight over the total, at least 80 percent, and so
   * at most 1.
   */
  lemma DescriptionMatchIsBest(rows: seq<CategoryCount>, amount: Cents, c: string)
    requires MatchRows(rows, amount).Some? && MatchRows(rows, amount).value.matchLevel == "description"
    ensures var m := MatchRows(rows, amount).value;
      TotalWeight(rows) > 0.0 &&
      m.agreementPct == WeightOf(rows, m.categoryId) / TotalWeight(rows) &&
      DescMinAgreement <= m.agreementPct <= 1.0 &&
      WeightOf(rows, c) <= WeightOf(rows, m.categoryId)
  {
    var m := MatchRows(rows, amount).value;
    assert rows != [] && !ExactApplies(rows, amount);
    var (best, w) := BestVote(rows);
    var tw := TotalWeight(rows);
    var agreement := if tw > 0.0 then w / tw else 0.0;
    assert m == HistoricalMatch(best, DescConfidence, "description", SumCnt(rows), agreement);
    assert tw > 0.0;
    WeightBounds(rows, best);
    assert agreement <= 1.0 by {
      assert agreement * tw == w;
    }
  }

  /**
   * No description-level result means every category falls short of 80
   * percent of the total weight (given three past matches, no exact match
   * and some weight).
   */
  lemma NoMatchMeansNoMajority(rows: seq<CategoryCount>, amount: Cents, c: string)
    requires rows != [] && !ExactApplies(rows, amount) && MatchRows(rows, amount).None?
    requires SumCnt(rows) >= DescMinCount && TotalWeight(rows) > 0.0
    ensures WeightOf(rows, c) < DescMinAgreement * TotalWeight(rows)
  {
    var (best, w) := BestVote(rows);
    var tw := TotalWeight(rows);
    assert w / tw < DescMinAgreement;
    QuotientBelow(w, tw, DescMinAgreement);
  }

  lemma QuotientBelow(x: real, y: real, k: real)
    requires y > 0.0 && x / y < k
    ensures x < k * y
  {
    assert x == (x / y) * y;
  }

  /**
   * `match_historical`: no result without a description, without a store
   * or without history; otherwise the voting over the description's
   * history (the join the store computes).
   */
  function MatchHistorical(description: Option<string>, amount: Cents,
                           store: Option<(seq<Transaction>, seq<Allocation>)>): (r: Option<HistoricalMatch>)
    ensures (description.None? || description.value == "" || store.None?) ==> r.None?
    ensures description.Some? && description.value != "" && store.Some? ==>
      r == MatchRows(HistoricalCategoryCounts(store.value.0, store.value.1, description.value), amount)
  {
    if description.None? || description.value == "" || store.None? then None
    else MatchRows(HistoricalCategoryCounts(store.value.0, store.value.1, description.value), amount)
  }

  /** Disagreeing rows at the amount never produce an exact match. */
  lemma DisagreementFallsThrough(rows: seq<CategoryCount>, amount: Cents, i: nat, j: nat)
    requires i < |ExactRows(rows, amount)| && j < |ExactRows(rows, amount)|
    requires ExactRows(rows, amount)[i].categoryId != ExactRows(rows, amount)[j].categoryId
    ensures MatchRows(rows, amount).None? || MatchRows(rows, amount).value.matchLevel == "description"
  {
    var exact := ExactRows(rows, amount);
    assert exact[i] in exact && exact[j] in exact;
  }
}

=== FILE: json.dfy ===
/**
 * The JSON replies of the language model as the source reads them: the
 * decoded value (decoding itself, `json.loads`, is a parameter of the
 * parsers), Python truthiness and `dict.get` on it, `float()` on a decoded
 * value, and the stripping of Markdown code fences around a reply.
 */
module Json {
  import opened Wrappers
  import opened Text

  /** A decoded JSON value; numbers are exact reals. */
  datatype Json =
    | JNull
    | JBool(b: bool)
    | JNum(n: real)
    | JStr(s: string)
    | JArr(elems: seq<Json>)
    | JObj(fields: seq<(string, Json)>)

  /** Python truthiness of a decoded value. */
  predicate Truthy(j: Json) {
    match j
    case JNull => false
    case JBool(b) => b
    case JNum(n) => n != 0.0
    case JStr(s) => s != ""
    case JArr(a) => a != []
    case JObj(f) => f != []
  }

  /**
   * `data.get(key)` on a decoded object: the value of the last pair with
   * the key (a repeated key keeps its last value when decoded).
   */
  function Field(fields: seq<(string, Json)>, key: string): (r: Option<Json>)
    ensures r.Some? ==> (key, r.value) in fields
    ensures r.None? <==> forall i :: 0 <= i < |fields| ==> fields[i].0 != key
  {
    if fields == [] then None
    else if fields[|fields| - 1].0 == key then Some(fields[|fields| - 1].1)
    else Field(fields[..|fields| - 1], key)
  }

  // ── float() ─────────────────────────────────────────────

  function Pow10(k: nat): (r: nat)
    ensures r >= 1
  {
    if k == 0 then 1 else 10 * Pow10(k - 1)
  }

  /** Value of an unsigned decimal literal `digits[.digits]` with at least one digit. */
  function ParseUnsignedDecimal(s: string): Option<real> {
    var k := CharIndex(s, '.');
    var whole := s[..k];
    var frac := if k < |s| then s[k + 1..] else "";
    if DigitsOrEmpty(whole) && DigitsOrEmpty(frac) && |whole| + |frac| > 0 then
      Some(ParseNat(whole) as real + ParseNat(frac) as real / Pow10(|frac|) as real)
    else None
  }

  /**
   * `float(s)` on a string holding a decimal literal with an optional sign,
   * surrounded by optional whitespace; None where `float` raises ValueError.
   */
  function ParseDecimal(s: string): Option<real> {
    var t := Strip(s);
    if |t| > 0 && (t[0] == '-' || t[0] == '+') then
      match ParseUnsignedDecimal(t[1..])
      case Some(v) => Some(if t[0] == '-' then -v else v)
      case None => None
    else ParseUnsignedDecimal(t)
  }

  /** A whole number written in decimal digits reads back as itself. */
  lemma ParseDecimalNat(n: nat)
    ensures ParseDecimal(NatToString(n)) == Some(n as real)
  {
    var s := NatToString(n);
    assert IsDigit(s[0]) && IsDigit(s[|s| - 1]);
    StripNoSpaceEnds(s);
    UnsignedDigits(s);
    ParseNatOfNatToString(n);
  }

  lemma UnsignedDigits(s: string)
    requires AllDigits(s)
    ensures ParseUnsignedDecimal(s) == Some(ParseNat(s) as real)
  {
    NoDot(s);
    assert s[..|s|] == s;
  }

  lemma {:induction false} NoDot(s: string)
    requires AllDigits(s) || s == []
    ensures CharIndex(s, '.') == |s|
  {
    if s != [] {
      if |s| > 1 {
        assert AllDigits(s[1..]);
      }
      NoDot(s[1..]);
    }
  }

  /**
   * `float(v)` on a decoded value: a number is itself, a boolean is 1 or 0,
   * a string is read as a decimal literal; None where `float` raises
   * (null, arrays, objects, other strings).
   */
  function ToReal(j: Json): (r: Option<real>)
    ensures j.JNum? ==> r == Some(j.n)
    ensures j.JNull? || j.JArr? || j.JObj? ==> r.None?
  {
    match j
    case JNum(n) => Some(n)
    case JBool(b) => Some(if b then 1.0 else 0.0)
    case JStr(s) => ParseDecimal(s)
    case _ => None
  }

  /**
   * An amount in dollars held to the nearest cent (halves round up). Where
   * the source keeps a `float`, this rounding is the model's own.
   */
  function DollarsToCents(x: real): (c: int)
    ensures c as real - 0.5 <= x * 100.0 < c as real + 0.5
  {
    (x * 100.0 + 0.5).Floor
  }

  // ── Code fences ─────────────────────────────────────────

  /** Position of the first line feed in `s`, or |s| when there is none. */
  function NewlineIndex(s: string): (k: nat)
    ensures k <= |s|
    ensures forall i :: 0 <= i < k ==> s[i] != '\n'
    ensures k < |s| ==> s[k] == '\n'
  {
    if s == [] then 0 else if s[0] == '\n' then 0 else 1 + NewlineIndex(s[1..])
  }

  predicate NoNewline(s: string) { forall i :: 0 <= i < |s| ==> s[i] != '\n' }

  /** `s.split("\n")`: never empty, and no piece holds a line feed. */
  function SplitLines(s: string): (r: seq<string>)
    ensures |r| >= 1
    ensures forall k :: 0 <= k < |r| ==> NoNewline(r[k])
    decreases |s|
  {
    var k := NewlineIndex(s);
    if k == |s| then [s] else [s[..k]] + SplitLines(s[k + 1..])
  }

  /** `"\n".join(lines)`. */
  function JoinLines(lines: seq<string>): string {
    if lines == [] then ""
    else if |lines| == 1 then lines[0]
    else lines[0] + "\n" + JoinLines(lines[1..])
  }

  /** Joining lines that hold no line feed and splitting again gives the lines back. */
  lemma {:induction false} SplitJoin(lines: seq<string>)
    requires |lines| >= 1
    requires forall k :: 0 <= k < |lines| ==> NoNewline(lines[k])
    ensures SplitLines(JoinLines(lines)) == lines
  {
    var s := JoinLines(lines);
    if |lines| == 1 {
      NewlineIndexNone(lines[0]);
    } else {
      var rest := JoinLines(lines[1..]);
      assert s == lines[0] + "\n" + rest;
      NewlineIndexAt(s, |lines[0]|);
      assert s[..|lines[0]|] == lines[0];
      assert s[|lines[0]| + 1..] == rest;
      SplitJoin(lines[1..]);
    }
  }

  /** Splitting and joining again gives the text back. */
  lemma {:induction false} JoinSplit(s: string)
    ensures JoinLines(SplitLines(s)) == s
    decreases |s|
  {
    var k := NewlineIndex(s);
    if k < |s| {
      JoinSplit(s[k + 1..]);
      assert s == s[..k] + "\n" + s[k + 1..];
    }
  }

  lemma NewlineIndexNone(s: string)
    requires NoNewline(s)
    ensures NewlineIndex(s) == |s|
  {
  }

  lemma {:induction false} NewlineIndexAt(s: string, k: nat)
    requires k < |s| && s[k] == '\n'
    requires forall i :: 0 <= i < k ==> s[i] != '\n'
    ensures NewlineIndex(s) == k
  {
    if k > 0 {
      NewlineIndexAt(s[1..], k - 1);
    }
  }

  const Fence: string := "```"

  /** A line that opens or closes a code fence: after stripping it starts with three backticks. */
  predicate IsFence(line: string) { StartsWith(Strip(line), Fence) }

  /** The lines that are not fence lines, in order (the source's list comprehension). */
  function NonFence(lines: seq<string>): (r: seq<string>)
    ensures |r| <= |lines|
    ensures forall k :: 0 <= k < |r| ==> !IsFence(r[k])
    ensures forall l :: l in r <==> l in lines && !IsFence(l)
  {
    if lines == [] then []
    else (if IsFence(lines[0]) then [] else [lines[0]]) + NonFence(lines[1..])
  }

  /**
   * The reply text handed to the JSON decoder: the stripped reply, and when
   * it opens with a code fence, its lines without every fence line.
   */
  function StripFences(response: string): (r: string)
    ensures !StartsWith(Strip(response), Fence) ==> r == Strip(response)
  {
    var text := Strip(response);
    if StartsWith(text, Fence) then JoinLines(NonFence(SplitLines(text))) else text
  }

  /**
   * A fenced reply loses exactly its fence lines: the lines of the text
   * passed on are the reply's non-fence lines in order (or the single
   * empty line when every line was a fence), and none of them is a fence.
   */
  lemma StripFencesLines(response: string)
    requires StartsWith(Strip(response), Fence)
    ensures var kept := NonFence(SplitLines(Strip(response)));
      SplitLines(StripFences(response)) == if kept == [] then [""] else kept
    ensures forall k :: 0 <= k < |SplitLines(StripFences(response))| ==>
      !IsFence(SplitLines(StripFences(response))[k])
  {
    var lines := SplitLines(Strip(response));
    var kept := NonFence(lines);
    assert StripFences(response) == JoinLines(kept);
    if kept != [] {
      NonFenceNoNewline(lines);
      SplitJoin(kept);
    } else {
      assert SplitLines("") == [""];
      assert !IsFence("") by {
        assert Strip("") == "";
      }
    }
  }

  lemma {:induction false} NonFenceNoNewline(lines: seq<string>)
    requires forall k :: 0 <= k < |lines| ==> NoNewline(lines[k])
    ensures forall k :: 0 <= k < |NonFence(lines)| ==> NoNewline(NonFence(lines)[k])
  {
    if lines != [] {
      NonFenceNoNewline(lines[1..]);
      var head := if IsFence(lines[0]) then [] else [lines[0]];
      assert NonFence(lines) == head + NonFence(lines[1..]);
      assert forall k :: 0 <= k < |lines| - 1 ==> lines[1..][k] == lines[k + 1];
    }
  }
}

=== FILE: merchant_match.dfy ===
/**
 * Merchant matching against the two merchant lists: "auto" (always
 * confidence 1.0) and "high_confidence" (confidence from the rule's
 * consistency percentage).
 */
module MerchantMatch {
  import opened Wrappers
  import opened Text
  import opened Seqs
  import opened Config

  datatype MerchantMatch = MerchantMatch(
    categoryId: string,
    confidence: real,
    merchantName: string,
    tier: string)

  /** "exact" is case-insensitive equality, "contains" (the default) a case-insensitive substring; other types never match. */
  predicate PatternMatches(rule: MerchantRule, description: string) {
    var matchType := rule.matchType.GetOr("contains");
    if matchType == "exact" then Upper(description) == Upper(rule.pattern)
    else if matchType == "contains" then Contains(Upper(description), Upper(rule.pattern))
    else false
  }

  /** A rule produces a match when its pattern matches and it names a category. */
  predicate RuleHits(rule: MerchantRule, description: string) {
    PatternMatches(rule, description) && HasText(rule.categoryId)
  }

  /** The confidence a matched rule carries. */
  function RuleConfidence(rule: MerchantRule, overrideConfidence: Option<real>): (r: real)
    ensures overrideConfidence.Some? ==> r == overrideConfidence.value
    ensures overrideConfidence.None? && rule.consistency.None? ==> r == 0.85
    ensures overrideConfidence.None? && rule.consistency.Some? ==> r * 100.0 == rule.consistency.value
  {
    if overrideConfidence.Some? then overrideConfidence.value
    else rule.consistency.GetOr(85.0) / 100.0
  }

  /** `_match_against_rules`: the first rule that hits. */
  function MatchAgainstRules(description: string, rules: seq<MerchantRule>, tier: string,
                             overrideConfidence: Option<real>): (r: Option<MerchantMatch>)
    ensures r.None? <==> forall i :: 0 <= i < |rules| ==> !RuleHits(rules[i], description)
    ensures r.Some? ==>
      exists i :: 0 <= i < |rules| && RuleHits(rules[i], description) &&
        (forall k :: 0 <= k < i ==> !RuleHits(rules[k], description)) &&
        r.value.categoryId == rules[i].categoryId.value &&
        r.value.confidence == RuleConfidence(rules[i], overrideConfidence) &&
        r.value.merchantName == rules[i].merchantName.GetOr(rules[i].pattern)
    ensures r.Some? ==> r.value.tier == tier && r.value.categoryId != ""
  {
    match FirstIndex(rules, rule => RuleHits(rule, description))
    case None => None
    case Some(i) =>
      var rule := rules[i];
      Some(MerchantMatch(rule.categoryId.value, RuleConfidence(rule, overrideConfidence),
                         rule.merchantName.GetOr(rule.pattern), tier))
  }

  /** `match_merchant_auto`: tier "auto", confidence 1.0. */
  function MatchMerchantAuto(description: string, c: Config): (r: Option<MerchantMatch>)
    ensures r.Some? ==> r.value.tier == "auto" && r.value.confidence == 1.0
    ensures r.None? <==> forall i :: 0 <= i < |c.autoMerchants| ==> !RuleHits(c.autoMerchants[i], description)
  {
    MatchAgainstRules(description, c.autoMerchants, "auto", Some(1.0))
  }

  /** `match_merchant_high`: tier "high_confidence", confidence consistency / 100 (0.85 by default). */
  function MatchMerchantHigh(description: string, c: Config): (r: Option<MerchantMatch>)
    ensures r.Some? ==> r.value.tier == "high_confidence"
    ensures r.None? <==> forall i :: 0 <= i < |c.highMerchants| ==> !RuleHits(c.highMerchants[i], description)
    ensures r.Some? ==>
      exists i :: 0 <= i < |c.highMerchants| && RuleHits(c.highMerchants[i], description) &&
        r.value.confidence * 100.0 == c.highMerchants[i].consistency.GetOr(85.0)
  {
    MatchAgainstRules(description, c.highMerchants, "high_confidence", None)
  }

  /** An unknown match type never matches, and an empty "contains" pattern matches every description. */
  lemma MatchTypeCases(rule: MerchantRule, description: string)
    ensures rule.matchType.Some? && rule.matchType.value !in {"exact", "contains"} ==> !PatternMatches(rule, description)
    ensures rule.matchType.GetOr("contains") == "contains" && rule.pattern == "" ==> PatternMatches(rule, description)
  {
    if rule.matchType.GetOr("contains") == "contains" && rule.pattern == "" {
      assert Upper(rule.pattern) == "";
      assert StartsWith(Upper(description), "");
    }
  }
}

=== FILE: models.dfy ===
/**
 * The persisted records (one per table) and their default values. Money is
 * held in integer cents; confidences are exact reals; ids are supplied by
 * the caller (the source draws them from uuid4). Creation and update
 * timestamps are not modelled.
 */
module Models {
  import opened Wrappers

  /** An amount of money in cents (the source holds dollars in a float). */
  type Cents = int

  /** `abs` on a whole number of cents. */
  function Abs(x: int): nat { if x < 0 then -x else x }

  datatype Import = Import(
    id: string,
    fileName: string,
    fileHash: string,
    fileSize: Option<nat>,
    accountId: Option<string>,
    recordCount: Option<int>,
    status: string,
    errorMessage: Option<string>,
    completedAt: Option<string>)

  datatype Transaction = Transaction(
    id: string,
    accountId: string,
    date: string,
    amount: Cents,
    rawDescription: string,
    importId: string,
    importHash: string,
    dedupKey: string,
    normalizedDescription: Option<string>,
    memo: Option<string>,
    txnType: Option<string>,
    checkNum: Option<string>,
    balance: Option<Cents>,
    externalId: Option<string>,
    source: string,
    status: string,
    confidence: Option<real>,
    categorizationMethod: Option<string>,
    receiptLookupStatus: Option<string>)

  datatype Allocation = Allocation(
    id: string,
    transactionId: string,
    categoryId: string,
    amount: Cents,
    memo: Option<string>,
    tags: Option<string>,
    source: string,
    confidence: Option<real>)

  datatype Transfer = Transfer(
    id: string,
    fromTransactionId: string,
    toTransactionId: string,
    transferType: string,
    matchMethod: string,
    confidence: Option<real>)

  datatype ReceiptMatch = ReceiptMatch(
    id: string,
    transactionId: string,
    gmailMessageId: string,
    matchType: string,
    matchedItems: Option<string>,
    confidence: Option<real>)

  datatype ApiUsage = ApiUsage(
    id: string,
    month: string,
    service: string,
    requestCount: int,
    inputTokens: int,
    outputTokens: int,
    estimatedCostCents: int)

  /** `date[:7]`: the "YYYY-MM" month of an ISO date (the whole text when shorter). */
  function MonthOf(date: string): (m: string)
    ensures |m| == if |date| < 7 then |date| else 7
    ensures date == m + date[|m|..]
  {
    if |date| <= 7 then date else date[..7]
  }

  /** A transaction's amount, as a function value for sums. */
  function Amount(t: Transaction): Cents { t.amount }

  /** `Import(file_name, file_hash)` with every other field at its default. */
  function NewImport(id: string, fileName: string, fileHash: string): (r: Import)
    ensures r.id == id && r.fileName == fileName && r.fileHash == fileHash
    ensures r.status == "pending"
    ensures r.fileSize.None? && r.accountId.None? && r.recordCount.None?
    ensures r.errorMessage.None? && r.completedAt.None?
  {
    Import(id, fileName, fileHash, None, None, None, "pending", None, None)
  }

  /** `Transaction(...)` with the required fields given and every other field at its default. */
  function NewTransaction(id: string, accountId: string, date: string, amount: Cents,
                          rawDescription: string, importId: string, importHash: string,
                          dedupKey: string): (r: Transaction)
    ensures r.id == id && r.accountId == accountId && r.date == date && r.amount == amount
    ensures r.rawDescription == rawDescription && r.importId == importId
    ensures r.importHash == importHash && r.dedupKey == dedupKey
    ensures r.status == "pending" && r.source == "bank"
    ensures r.normalizedDescription.None? && r.memo.None? && r.txnType.None? && r.checkNum.None?
    ensures r.balance.None? && r.externalId.None? && r.confidence.None?
    ensures r.categorizationMethod.None? && r.receiptLookupStatus.None?
  {
    Transaction(id, accountId, date, amount, rawDescription, importId, importHash, dedupKey,
                None, None, None, None, None, None, "bank", "pending", None, None, None)
  }

  /** `Allocation(transaction_id, category_id, amount)` with the other fields at their defaults. */
  function NewAllocation(id: string, transactionId: string, categoryId: string, amount: Cents): (r: Allocation)
    ensures r.id == id && r.transactionId == transactionId && r.categoryId == categoryId && r.amount == amount
    ensures r.source == "auto" && r.memo.None? && r.tags.None? && r.confidence.None?
  {
    Allocation(id, transactionId, categoryId, amount, None, None, "auto", None)
  }

  /** `ApiUsage(month, service)` with every counter at zero. */
  function NewApiUsage(id: string, month: string, service: string): (r: ApiUsage)
    ensures r.id == id && r.month == month && r.service == service
    ensures r.requestCount == 0 && r.inputTokens == 0 && r.outputTokens == 0
    ensures r.estimatedCostCents == 0
  {
    ApiUsage(id, month, service, 0, 0, 0, 0)
  }
}

=== FILE: observer.dfy ===
/**
 * The import pipeline of the drop-folder watcher: the completeness check
 * a stable file must pass, the mapping of an OFX account number to an
 * account, and the outcome rules of processing one file (extension check,
 * file-level deduplication, import record, parse, batch deduplication,
 * categorisation, final import status).
 */
module Observer {
  import opened Wrappers
  import opened Text
  import opened Seqs
  import opened Models
  import opened Config
  import opened Json
  import opened Repo
  import opened ParserBase
  import Dedup
  import Receipts
  import Pipeline

  // ── File completeness ──────────────────────────────────

  /** Why a stable file is judged incomplete (`FileStabilityError`). */
  datatype Incomplete = EmptyCsv | CsvWithoutNewline | MissingOfxClose

  /**
   * `validate_file_completeness` over the file's suffix and content: a CSV
   * file must be non-empty and end in LF or CR, an OFX/QFX file must hold
   * a closing OFX tag in any letter case, and any other file passes.
   */
  function ValidateFileCompleteness(suffix: string, content: string): (r: Option<Incomplete>)
    ensures Lower(suffix) == ".csv" ==>
      (r.None? <==> |content| > 0 && (content[|content| - 1] == '\n' || content[|content| - 1] == '\r'))
    ensures Lower(suffix) == ".csv" && |content| == 0 ==> r == Some(EmptyCsv)
    ensures (Lower(suffix) == ".qfx" || Lower(suffix) == ".ofx") ==>
      (r.None? <==> Contains(Upper(content), "</OFX>"))
    ensures Lower(suffix) != ".csv" && Lower(suffix) != ".qfx" && Lower(suffix) != ".ofx" ==> r.None?
  {
    var s := Lower(suffix);
    if s == ".csv" then
      if |content| == 0 then Some(EmptyCsv)
      else if content[|content| - 1] != '\n' && content[|content| - 1] != '\r' then Some(CsvWithoutNewline)
      else None
    else if s == ".qfx" || s == ".ofx" then
      if !Contains(Upper(content), "</OFX>") then Some(MissingOfxClose) else None
    else None
  }

  lemma {:induction false} ContainsAt(hay: string, k: nat, needle: string)
    requires k <= |hay| && StartsWith(hay[k..], needle)
    ensures Contains(hay, needle)
    decreases k
  {
    if k == 0 {
      assert hay[0..] == hay;
    } else {
      assert hay[1..][k - 1..] == hay[k..];
      ContainsAt(hay[1..], k - 1, needle);
    }
  }

  /** The closing tag may be written in any letter case, anywhere in the file. */
  lemma OfxCloseAnyCase(suffix: string, content: string, k: nat)
    requires Lower(suffix) == ".qfx" || Lower(suffix) == ".ofx"
    requires k + 6 <= |content| && Upper(content[k..k + 6]) == "</OFX>"
    ensures ValidateFileCompleteness(suffix, content).None?
  {
    var up := Upper(content);
    forall i | 0 <= i < 6
      ensures up[k..][i] == "</OFX>"[i]
    {
      assert up[k..][i] == UpperChar(content[k + i]);
      assert Upper(content[k..k + 6])[i] == UpperChar(content[k..k + 6][i]);
    }
    assert up[k..][..6] == "</OFX>";
    ContainsAt(up, k, "</OFX>");
  }

  // ── Account resolution ─────────────────────────────────

  /** Index of the first account whose `qfx_acctid` is `acctid`. */
  function MatchingAccount(accounts: seq<Account>, acctid: string): (r: Option<nat>)
    ensures r.Some? ==> r.value < |accounts| && accounts[r.value].qfxAcctid == Some(acctid)
    ensures r.Some? ==> forall j :: 0 <= j < r.value ==> accounts[j].qfxAcctid != Some(acctid)
    ensures r.None? ==> forall j :: 0 <= j < |accounts| ==> accounts[j].qfxAcctid != Some(acctid)
  {
    if accounts == [] then None
    else if accounts[0].qfxAcctid == Some(acctid) then Some(0)
    else
      var m := MatchingAccount(accounts[1..], acctid);
      if m.None? then None else Some(m.value + 1)
  }

  /**
   * `_resolve_account_id`: the id of the first account mapped to the OFX
   * account number, or the number itself without a config or a match. None
   * when the matching account has no id (the source raises KeyError).
   */
  function ResolveAccountId(acctid: string, config: Option<Config>): (r: Option<string>)
    ensures config.None? ==> r == Some(acctid)
    ensures config.Some? && MatchingAccount(config.value.accounts, acctid).None? ==> r == Some(acctid)
    ensures config.Some? && MatchingAccount(config.value.accounts, acctid).Some? ==>
      r == config.value.accounts[MatchingAccount(config.value.accounts, acctid).value].id
  {
    if config.None? then Some(acctid)
    else
      var m := MatchingAccount(config.value.accounts, acctid);
      if m.None? then Some(acctid) else config.value.accounts[m.value].id
  }

  /** A later account mapped to the same number never wins over an earlier one. */
  lemma ResolveFirstWins(acctid: string, c: Config, i: nat)
    requires i < |c.accounts| && c.accounts[i].qfxAcctid == Some(acctid)
    requires forall j :: 0 <= j < i ==> c.accounts[j].qfxAcctid != Some(acctid)
    ensures ResolveAccountId(acctid, Some(c)) == c.accounts[i].id
  {
    var m := MatchingAccount(c.accounts, acctid);
    assert m.Some? && m.value == i;
  }

  // ── Processing one file ────────────────────────────────

  const SupportedExtensions: set<string> := {".qfx", ".ofx", ".csv"}

  /** The file as the pipeline sees it: name, suffix, content hash and size. */
  datatype BankFile = BankFile(name: string, suffix: string, hash: string, size: nat)

  /** `ImportResult`. */
  datatype ImportResult = ImportResult(
    fileName: string,
    status: string,
    newCount: nat,
    duplicateCount: nat,
    flaggedCount: nat,
    categorizedCount: nat,
    skippedCount: nat,
    errorMessage: Option<string>)

  /** An `ImportResult` with every count at its default of 0. */
  function Outcome(fileName: string, status: string, errorMessage: Option<string>): (r: ImportResult)
    ensures r.newCount == r.duplicateCount == r.flaggedCount == r.categorizedCount == r.skippedCount == 0
  {
    ImportResult(fileName, status, 0, 0, 0, 0, 0, errorMessage)
  }

  /** The import record written for a file before it is parsed. */
  function FileImport(importId: string, file: BankFile): Import {
    NewImport(importId, file.name, file.hash).(fileSize := Some(file.size))
  }

  /** A batch transaction is categorised when it is pending or flagged. */
  predicate Categorizable(t: Transaction) { t.status == "pending" || t.status == "flagged" }

  /** Every transaction a batch inserts is pending or flagged, so every one of them is categorised. */
  lemma BatchAllCategorizable(store: seq<Transaction>, raws: seq<RawTransaction>, ids: seq<string>,
                              importId: string, ratio: (string, string) -> real)
    requires |ids| == |raws| && Dedup.IsRatio(ratio)
    ensures var st := Dedup.Run(store, raws, ids, importId, "bank", ratio);
      Count(st.newTxns + st.flagged, Categorizable) == |st.newTxns| + |st.flagged|
  {
    var st := Dedup.Run(store, raws, ids, importId, "bank", ratio);
    var all := st.newTxns + st.flagged;
    forall i | 0 <= i < |all|
      ensures Categorizable(all[i])
    {
      if i < |st.newTxns| {
        assert all[i] in st.newTxns;
        var k := Dedup.PendingOrigin(store, raws, ids, importId, "bank", ratio, all[i]);
      } else {
        assert all[i] == st.flagged[i - |st.newTxns|];
        assert all[i] in st.flagged;
        var k := Dedup.FlaggedOrigin(store, raws, ids, importId, "bank", ratio, all[i]);
      }
    }
    CountAll(all, Categorizable);
  }

  /** One more transaction of the batch adds one to the count iff it is categorisable. */
  lemma CountStep(ts: seq<Transaction>, i: nat)
    requires i < |ts|
    ensures Count(ts[..i + 1], Categorizable) == Count(ts[..i], Categorizable) + (if Categorizable(ts[i]) then 1 else 0)
  {
    assert ts[..i + 1] == ts[..i] + [ts[i]];
    CountAppend(ts[..i], [ts[i]], Categorizable);
  }

  /**
   * Step 6 of `process_file`: the rows deduplicated and inserted as bank
   * rows. The store gains the batch's pending then flagged rows, which are
   * the transactions returned; the counts cover every row, and every
   * transaction returned is one to categorise. None, with the store as it
   * was, when the store refuses the insert.
   */
  method InsertBatch(repo: Repository, raws: seq<RawTransaction>, ids: seq<string>, importId: string,
                     ratio: (string, string) -> real) returns (batch: Option<Dedup.BatchResult>)
    requires repo.Valid() && |ids| == |raws| && Dedup.IsRatio(ratio)
    modifies repo
    ensures repo.Valid() && repo.imports == old(repo.imports) && repo.allocs == old(repo.allocs)
    ensures repo.transfers == old(repo.transfers) && repo.receiptMatches == old(repo.receiptMatches)
    ensures var st := Dedup.Run(old(repo.txns), raws, ids, importId, "bank", ratio);
      batch.Some? ==> batch.value.transactions == st.newTxns + st.flagged &&
                      repo.txns == old(repo.txns) + st.newTxns + st.flagged
    ensures batch.None? ==> repo.txns == old(repo.txns)
    ensures batch.Some? ==>
      batch.value.newCount + batch.value.duplicateCount + batch.value.flaggedCount == |raws| &&
      Count(batch.value.transactions, Categorizable) == batch.value.newCount + batch.value.flaggedCount
  {
    ghost var store := repo.txns;
    batch := Dedup.ProcessBatch(repo, raws, ids, importId, "bank", ratio);
    Dedup.RunSizes(store, raws, ids, importId, "bank", ratio);
    BatchAllCategorizable(store, raws, ids, importId, ratio);
  }

  /**
   * Step 7 of `process_file`: each pending or flagged transaction of the
   * batch categorised and recorded in turn; false when a write was refused
   * (the source raises).
   */
  method CategorizeBatch(repo: Repository, lookup: Option<Receipts.ReceiptLookup>, c: Config,
                         ts: seq<Transaction>, inputs: string -> Pipeline.TxnInputs,
                         decode: string -> Option<Json>)
    returns (ok: bool, categorized: nat)
    requires repo.Valid()
    requires lookup.Some? ==> lookup.value.repo == repo
    modifies repo, if lookup.Some? then {lookup.value} else {}
    ensures repo.Valid() && repo.imports == old(repo.imports)
    ensures ok ==> categorized == Count(ts, Categorizable)
  {
    ok, categorized := true, 0;
    var i := 0;
    while i < |ts| && ok
      invariant 0 <= i <= |ts|
      invariant repo.Valid() && repo.imports == old(repo.imports)
      invariant ok ==> categorized == Count(ts[..i], Categorizable)
    {
      CountStep(ts, i);
      if Categorizable(ts[i]) {
        var pass := Pipeline.Advance(repo, lookup, c, ts, i, inputs, decode);
        ok := pass.ok;
        if ok {
          categorized := categorized + 1;
        }
      }
      i := i + 1;
    }
    if ok {
      assert ts[..|ts|] == ts;
    }
  }

  /**
   * `process_file` for a file with the given content hash. `parsed` stands
   * for parser detection and parsing: the transactions and the skip count,
   * or the message of the exception they raise. `ids` are the new rows'
   * ids, `storeError` the message of a refused store write; pushing to the
   * sheets is not part of this model (its failures are swallowed).
   */
  method ProcessFile(repo: Repository, lookup: Option<Receipts.ReceiptLookup>, c: Config, file: BankFile,
                     importId: string, parsed: Result<(seq<RawTransaction>, nat), string>, ids: seq<string>,
                     ratio: (string, string) -> real, inputs: string -> Pipeline.TxnInputs,
                     decode: string -> Option<Json>, storeError: string)
    returns (r: ImportResult)
    requires repo.Valid() && Dedup.IsRatio(ratio)
    requires lookup.Some? ==> lookup.value.repo == repo
    requires parsed.Success? ==> |ids| == |parsed.value.0|
    modifies repo, if lookup.Some? then {lookup.value} else {}
    ensures repo.Valid()
    ensures r.fileName == file.name
    ensures r.status == "success" || r.status == "duplicate" || r.status == "error"
    ensures Lower(file.suffix) !in SupportedExtensions ==>
      r == Outcome(file.name, "error", Some("Unsupported file extension: " + file.suffix)) &&
      repo.imports == old(repo.imports) && repo.txns == old(repo.txns)
    ensures Lower(file.suffix) in SupportedExtensions && ImportByHash(old(repo.imports), file.hash).Some? ==>
      r == Outcome(file.name, "duplicate", None)
    ensures r.status == "duplicate" ==> repo.imports == old(repo.imports) && repo.txns == old(repo.txns)
    ensures r.status == "success" ==>
      parsed.Success? && r.skippedCount == parsed.value.1 &&
      r.newCount + r.duplicateCount + r.flaggedCount == |parsed.value.0| &&
      r.categorizedCount == r.newCount + r.flaggedCount &&
      repo.imports == old(repo.imports) +
        [WithImportStatus(FileImport(importId, file), "completed", Some(Some(|parsed.value.0|)), None, None)]
    ensures r.status == "error" && Lower(file.suffix) in SupportedExtensions ==>
      r.errorMessage.Some? &&
      repo.imports == old(repo.imports) +
        [WithImportStatus(FileImport(importId, file), "error", None, Some(r.errorMessage), None)]
    ensures parsed.Failure? && r.status == "error" && Lower(file.suffix) in SupportedExtensions ==>
      r.errorMessage == Some(parsed.error)
  {
    if Lower(file.suffix) !in SupportedExtensions {
      return Outcome(file.name, "error", Some("Unsupported file extension: " + file.suffix));
    }
    if ImportByHash(repo.imports, file.hash).Some? {
      return Outcome(file.name, "duplicate", None);
    }
    var imp := FileImport(importId, file);
    var inserted := repo.InsertImport(imp);
    if inserted.Failure? {
      return Outcome(file.name, "duplicate", None);
    }
    ghost var before := repo.imports;
    assert forall i :: 0 <= i < |before| - 1 ==> before[i].id != importId;
    assert before[..|before| - 1] == old(repo.imports);
    r := ImportParsed(repo, lookup, c, file, imp, parsed, ids, ratio, inputs, decode, storeError);
  }

  /**
   * The `try` block of `process_file`, once the file's import record is the
   * last one written: the parsed rows deduplicated, inserted and categorised,
   * and the import record closed as completed or as error.
   */
  method ImportParsed(repo: Repository, lookup: Option<Receipts.ReceiptLookup>, c: Config, file: BankFile,
                      imp: Import, parsed: Result<(seq<RawTransaction>, nat), string>, ids: seq<string>,
                      ratio: (string, string) -> real, inputs: string -> Pipeline.TxnInputs,
                      decode: string -> Option<Json>, storeError: string)
    returns (r: ImportResult)
    requires repo.Valid() && Dedup.IsRatio(ratio)
    requires |repo.imports| > 0 && repo.imports[|repo.imports| - 1] == imp
    requires forall i :: 0 <= i < |repo.imports| - 1 ==> repo.imports[i].id != imp.id
    requires lookup.Some? ==> lookup.value.repo == repo
    requires parsed.Success? ==> |ids| == |parsed.value.0|
    modifies repo, if lookup.Some? then {lookup.value} else {}
    ensures repo.Valid()
    ensures r.fileName == file.name
    ensures r.status == "success" || r.status == "error"
    ensures r.status == "success" ==>
      parsed.Success? && r.skippedCount == parsed.value.1 &&
      r.newCount + r.duplicateCount + r.flaggedCount == |parsed.value.0| &&
      r.categorizedCount == r.newCount + r.flaggedCount &&
      repo.imports == old(repo.imports)[..|old(repo.imports)| - 1] +
        [WithImportStatus(imp, "completed", Some(Some(|parsed.value.0|)), None, None)]
    ensures r.status == "error" ==>
      r.errorMessage.Some? &&
      repo.imports == old(repo.imports)[..|old(repo.imports)| - 1] +
        [WithImportStatus(imp, "error", None, Some(r.errorMessage), None)]
    ensures parsed.Failure? ==> r.status == "error" && r.errorMessage == Some(parsed.error)
  {
    ghost var before := repo.imports;
    if parsed.Failure? {
      r := Fail(repo, file, imp, parsed.error);
      return;
    }
    var raws, skipped := parsed.value.0, parsed.value.1;
    if raws == [] {
      repo.UpdateImportStatus(imp.id, "completed", Some(Some(0)), None, None);
      LastUpdated(before, repo.imports, imp, "completed", Some(Some(0)), None);
      return Outcome(file.name, "success", None).(skippedCount := skipped);
    }
    var batch := InsertBatch(repo, raws, ids, imp.id, ratio);
    if batch.None? {
      r := Fail(repo, file, imp, storeError);
      return;
    }
    var done, categorized := CategorizeBatch(repo, lookup, c, batch.value.transactions, inputs, decode);
    if !done {
      r := Fail(repo, file, imp, storeError);
      return;
    }
    repo.UpdateImportStatus(imp.id, "completed", Some(Some(|raws|)), None, None);
    LastUpdated(before, repo.imports, imp, "completed", Some(Some(|raws|)), None);
    r := ImportResult(file.name, "success", batch.value.newCount, batch.value.duplicateCount,
                      batch.value.flaggedCount, categorized, skipped, None);
  }

  /** The `except` branch of `process_file`: the import is marked as failed with the message. */
  method Fail(repo: Repository, file: BankFile, imp: Import, message: string) returns (r: ImportResult)
    requires repo.Valid() && |repo.imports| > 0 && repo.imports[|repo.imports| - 1] == imp
    requires forall i :: 0 <= i < |repo.imports| - 1 ==> repo.imports[i].id != imp.id
    modifies repo
    ensures repo.Valid() && repo.txns == old(repo.txns)
    ensures r == Outcome(file.name, "error", Some(message))
    ensures repo.imports == old(repo.imports)[..|old(repo.imports)| - 1] +
      [WithImportStatus(imp, "error", None, Some(Some(message)), None)]
  {
    ghost var before := repo.imports;
    repo.UpdateImportStatus(imp.id, "error", None, Some(Some(message)), None);
    LastUpdated(before, repo.imports, imp, "error", None, Some(Some(message)));
    r := Outcome(file.name, "error", Some(message));
  }

  /** Updating the status of the import that was appended last touches that record only. */
  lemma LastUpdated(before: seq<Import>, after: seq<Import>, imp: Import, status: string,
                    recordCount: Option<Option<int>>, errorMessage: Option<Option<string>>)
    requires |before| > 0 && before[|before| - 1] == imp
    requires forall i :: 0 <= i < |before| - 1 ==> before[i].id != imp.id
    requires |after| == |before|
    requires forall i :: 0 <= i < |after| ==>
      after[i] == (if before[i].id == imp.id
                   then WithImportStatus(before[i], status, recordCount, errorMessage, None)
                   else before[i])
    ensures after == before[..|before| - 1] + [WithImportStatus(imp, status, recordCount, errorMessage, None)]
  {
  }
}

=== FILE: overrides.dfy ===
/**
 * The override poller: corrections typed into the override columns of the
 * Transactions, Allocations and Review sheets are read back, applied to the
 * store, counted, and the columns are cleared when a sheet applied without
 * error. Sheet contents are parameters (a sheet is its rows of cell text,
 * header row first); the store is the repository object; the fuzzy
 * similarity of two strings and the id generator are parameters.
 */
module Overrides {
  import opened Wrappers
  import opened Text
  import opened Dicts
  import opened Models
  import opened Config
  import opened Repo
  import Seqs

  // ── A1 cell labels ─────────────────────────────────────

  /** A run of capital letters A-Z. */
  predicate IsLetters(s: string) {
    forall i :: 0 <= i < |s| ==> 'A' <= s[i] <= 'Z'
  }

  /**
   * The column letters of the 1-based column `c` (bijective base 26:
   * 1 is "A", 26 is "Z", 27 is "AA"); "" for 0.
   */
  function ColumnLabel(c: nat): (r: string)
    ensures IsLetters(r)
    ensures r == [] <==> c == 0
    decreases c
  {
    if c == 0 then [] else ColumnLabel((c - 1) / 26) + [(65 + (c - 1) % 26) as char]
  }

  /** The column number a run of letters spells: the inverse of ColumnLabel. */
  function ColumnNumber(s: string): (n: nat)
    requires IsLetters(s)
    ensures n == 0 <==> s == []
  {
    if s == [] then 0 else ColumnNumber(s[..|s| - 1]) * 26 + (s[|s| - 1] as int - 64)
  }

  /** Every column number is spelled by its label and read back from it. */
  lemma {:induction false} ColumnNumberOfLabel(c: nat)
    ensures ColumnNumber(ColumnLabel(c)) == c
    decreases c
  {
    if c > 0 {
      var s := ColumnLabel(c);
      assert s[..|s| - 1] == ColumnLabel((c - 1) / 26);
      ColumnNumberOfLabel((c - 1) / 26);
    }
  }

  /** Every run of letters is the label of the number it spells: no two labels collide. */
  lemma {:induction false} ColumnLabelOfNumber(s: string)
    requires IsLetters(s)
    ensures ColumnLabel(ColumnNumber(s)) == s
    decreases |s|
  {
    if s != [] {
      var p := s[..|s| - 1];
      var d := s[|s| - 1] as int - 64;
      var n := ColumnNumber(s);
      assert 1 <= d <= 26;
      assert n == ColumnNumber(p) * 26 + d;
      assert (n - 1) / 26 == ColumnNumber(p) && (n - 1) % 26 == d - 1;
      ColumnLabelOfNumber(p);
      assert s == p + [s[|s| - 1]];
    }
  }

  /** The labels the sheet layout relies on. */
  lemma ColumnLabelExamples()
    ensures ColumnLabel(1) == "A" && ColumnLabel(3) == "C" && ColumnLabel(16) == "P"
    ensures ColumnLabel(26) == "Z" && ColumnLabel(27) == "AA"
  {
    assert ColumnLabel(0) == [];
    assert ColumnLabel(1) == [] + ['A'];
    assert ColumnLabel(27) == ColumnLabel(1) + ['A'];
  }

  /** `_cell_label(row, col)`: the A1 name of a cell, column letters then row number. */
  function A1(row: nat, col: nat): (r: string)
    ensures r == ColumnLabel(col) + NatToString(row)
  {
    ColumnLabel(col) + NatToString(row)
  }

  /** The A1 name splits back into its column and row. */
  lemma A1Parts(row: nat, col: nat)
    ensures var s := A1(row, col);
      var k := |ColumnLabel(col)|;
      k <= |s| && IsLetters(s[..k]) && AllDigits(s[k..]) &&
      ColumnNumber(s[..k]) == col && ParseNat(s[k..]) == row
  {
    var s := A1(row, col);
    var k := |ColumnLabel(col)|;
    assert s[..k] == ColumnLabel(col) && s[k..] == NatToString(row);
    ColumnNumberOfLabel(col);
    ParseNatOfNatToString(row);
  }

  /** The cell names the tests of `_cell_label` expect. */
  lemma A1Examples()
    ensures A1(1, 1) == "A1" && A1(1, 26) == "Z1" && A1(1, 27) == "AA1"
    ensures A1(5, 3) == "C5" && A1(2, 16) == "P2"
  {
    ColumnLabelExamples();
  }

  /**
   * `_cell_label` as written: the loop peels the last letter off `c` with
   * `divmod(c - 1, 26)` and puts it in front of the label.
   */
  method CellLabel(row: nat, col: nat) returns (cell: string)
    ensures cell == A1(row, col)
  {
    var letters := "";
    var c := col;
    while c > 0
      invariant ColumnLabel(c) + letters == ColumnLabel(col)
      decreases c
    {
      var rem := (c - 1) % 26;
      assert ColumnLabel(c) == ColumnLabel((c - 1) / 26) + [(65 + rem) as char];
      c := (c - 1) / 26;
      letters := [(65 + rem) as char] + letters;
    }
    cell := letters + NatToString(row);
  }

  // ── Boolean cells ──────────────────────────────────────

  /** The spellings `_parse_bool` accepts, once stripped and lower-cased. */
  const TrueValues: set<string> := {"true", "yes", "1", "x", "y"}

  /** `_parse_bool`. */
  predicate ParseBool(v: string) {
    Lower(Strip(v)) in TrueValues
  }

  /** A blank cell is false; every accepted value is a short, non-blank one. */
  lemma ParseBoolNeedsText(v: string)
    ensures ParseBool(v) ==> 1 <= |Strip(v)| <= 4
    ensures Strip(v) == [] ==> !ParseBool(v)
  {
    assert |Lower(Strip(v))| == |Strip(v)|;
  }

  /** A string with no blank at either end is its own strip. */
  lemma StripUnpadded(s: string)
    requires s != [] && !IsSpace(s[0]) && !IsSpace(s[|s| - 1])
    ensures Strip(s) == s
  {
    assert Lead(s) == 0 && Trail(s) == 0;
  }

  /** The accepted spellings in capitals are accepted too. */
  lemma ParseBoolCapitals()
    ensures ParseBool("TRUE") && ParseBool("Yes") && ParseBool("X") && ParseBool("Y")
  {
    StripUnpadded("TRUE");
    assert Lower("TRUE") == "true";
    StripUnpadded("Yes");
    assert Lower("Yes") == "yes";
    StripUnpadded("X");
    assert Lower("X") == "x";
    StripUnpadded("Y");
    assert Lower("Y") == "y";
  }

  /** Blanks around an accepted spelling are ignored. */
  lemma ParseBoolPadded()
    ensures ParseBool(" 1 ") && ParseBool("yes\n")
  {
    assert Lead(" 1 ") == 1 && Trail(" 1 ") == 1;
    assert Strip(" 1 ") == "1" && Lower("1") == "1";
    assert Lead("yes\n") == 0 && Trail("yes\n") == 1;
    assert Strip("yes\n") == "yes" && Lower("yes") == "yes";
  }

  /** Other words, "0" and the blank cell are false. */
  lemma ParseBoolRejects()
    ensures !ParseBool("no") && !ParseBool("false") && !ParseBool("0") && !ParseBool("")
  {
    ParseBoolNeedsText("false");
    StripUnpadded("false");
    StripUnpadded("no");
    assert |Lower("no")| == 2;
    StripUnpadded("0");
    assert Lower("0") == ['0'];
  }

  // ── Category validation ────────────────────────────────

  /** The least similarity `get_close_matches` accepts. */
  const Cutoff: real := 0.7

  /**
   * `get_close_matches` keeps the candidate with the largest (similarity,
   * candidate) pair: the higher similarity, and on a tie the larger string.
   */
  predicate AtLeast(similarity: (string, string) -> real, word: string, a: string, b: string) {
    similarity(a, word) > similarity(b, word) ||
    (similarity(a, word) == similarity(b, word) && StrLe(b, a))
  }

  /** A candidate at least as good as the best of a list is at least as good as all of it. */
  lemma AtLeastTrans(word: string, ids: seq<string>, similarity: (string, string) -> real, a: string, best: string)
    requires forall x :: x in ids && similarity(x, word) >= Cutoff ==> AtLeast(similarity, word, best, x)
    requires AtLeast(similarity, word, a, best)
    ensures forall x :: x in ids && similarity(x, word) >= Cutoff ==> AtLeast(similarity, word, a, x)
  {
    forall x | x in ids && similarity(x, word) >= Cutoff
      ensures AtLeast(similarity, word, a, x)
    {
      if similarity(x, word) == similarity(a, word) {
        StrLeTrans(x, best, a);
      }
    }
  }

  /**
   * `difflib.get_close_matches(word, ids, n=1, cutoff=0.7)`, where
   * `similarity(candidate, word)` is the matcher's ratio: the best candidate
   * at or above the cutoff, or None.
   */
  function CloseMatch(word: string, ids: seq<string>, similarity: (string, string) -> real): (r: Option<string>)
    ensures r.Some? ==> r.value in ids && similarity(r.value, word) >= Cutoff
    ensures r.Some? ==> forall x :: x in ids && similarity(x, word) >= Cutoff ==> AtLeast(similarity, word, r.value, x)
    ensures r.None? <==> forall x :: x in ids ==> similarity(x, word) < Cutoff
  {
    if ids == [] then None
    else
      var rest := CloseMatch(word, ids[1..], similarity);
      assert forall x :: x in ids <==> x == ids[0] || x in ids[1..];
      if similarity(ids[0], word) < Cutoff then rest
      else if rest.None? || AtLeast(similarity, word, ids[0], rest.value) then
        StrLeRefl(ids[0]);
        if rest.Some? then
          AtLeastTrans(word, ids[1..], similarity, ids[0], rest.value);
          Some(ids[0])
        else
          Some(ids[0])
      else
        StrLeTotal(ids[0], rest.value);
        rest
  }

  /**
   * The category ids the configuration knows (`_get_valid_category_ids`):
   * the keys of the flattened category tree, none without a configuration.
   */
  function KnownIds(config: Option<Config>): (r: seq<string>)
    ensures config.None? ==> r == []
  {
    if config.None? then [] else Keys(FlattenCategoryTree(config.value))
  }

  /**
   * `_validate_category`: without known ids every id passes; a known id is
   * kept; another id is replaced by its close match, or refused (None).
   */
  function ValidateCategory(ids: seq<string>, id: string, similarity: (string, string) -> real): (r: Option<string>)
    ensures ids == [] || id in ids ==> r == Some(id)
    ensures ids != [] && r.Some? ==> r.value in ids
    ensures ids != [] && id !in ids && r.Some? ==> similarity(r.value, id) >= Cutoff
    ensures r.None? <==> ids != [] && id !in ids && forall x :: x in ids ==> similarity(x, id) < Cutoff
  {
    if ids == [] then Some(id)
    else if id in ids then Some(id)
    else CloseMatch(id, ids, similarity)
  }

  /** An id validation returned passes validation unchanged: validating twice is validating once. */
  lemma ValidateIdempotent(ids: seq<string>, id: string, similarity: (string, string) -> real)
    requires ValidateCategory(ids, id, similarity).Some?
    ensures var v := ValidateCategory(ids, id, similarity).value;
      ValidateCategory(ids, v, similarity) == Some(v)
  {
  }

  // ── Reading the override columns ───────────────────────

  /** The three sheets the poller reads. */
  datatype Sheet = TransactionsSheet | AllocationsSheet | ReviewSheet

  /** The 0-based column where a sheet's override columns begin. */
  function OverrideStart(sheet: Sheet): nat {
    match sheet
    case TransactionsSheet => 15
    case AllocationsSheet => 8
    case ReviewSheet => 21
  }

  /** How many override columns a sheet has. */
  function OverrideWidth(sheet: Sheet): nat {
    match sheet
    case TransactionsSheet => 6
    case AllocationsSheet => 2
    case ReviewSheet => 3
  }

  /** The column of the id a row must carry to be read: the transaction, the allocation, the transaction. */
  function IdColumn(sheet: Sheet): (k: nat)
    ensures k < OverrideStart(sheet)
  {
    match sheet
    case TransactionsSheet => 0
    case AllocationsSheet => 0
    case ReviewSheet => ReviewColTxnId
  }

  const ReviewColTxnId: nat := 18
  const ReviewColAllocId: nat := 19

  /** Longest category id an override may name. */
  const MaxCategoryLength: nat := 100

  /** The cell at column `k`, or "" past the end of a short row. */
  function CellAt(row: seq<string>, k: nat): (r: string)
    ensures k < |row| ==> r == row[k]
    ensures k >= |row| ==> r == ""
  {
    if k < |row| then row[k] else ""
  }

  /** Text with something in it and no blank at either end: what a stripped, non-blank cell gives. */
  predicate Trimmed(s: string) {
    s != [] && !IsSpace(s[0]) && !IsSpace(s[|s| - 1])
  }

  /** The text of a filled-in override cell. */
  type Filled = s: string | Trimmed(s) witness "a"

  /** One correction read from an override cell. */
  datatype Override =
    | Category(category: Filled)
    | Merchant(merchant: Filled)
    | Reviewed
    | TransferLink(linkedId: Filled)
    | NeedsSplit
    | Notes(notes: Filled)

  /** The override columns that hold text. */
  datatype TextColumn = CategoryColumn | MerchantColumn | LinkColumn | NotesColumn

  /** A text cell gives its override when the stripped cell is not blank. */
  function TextOverride(cell: string, column: TextColumn): (r: seq<Override>)
    ensures |r| <= 1
    ensures r != [] <==> Strip(cell) != ""
  {
    var v := Strip(cell);
    if v == "" then []
    else
      match column
      case CategoryColumn => [Category(v)]
      case MerchantColumn => [Merchant(v)]
      case LinkColumn => [TransferLink(v)]
      case NotesColumn => [Notes(v)]
  }

  /** A yes/no cell gives its override when it reads as true. */
  function FlagOverride(cell: string, o: Override): (r: seq<Override>)
    ensures |r| <= 1
    ensures r != [] <==> ParseBool(cell)
  {
    if ParseBool(cell) then [o] else []
  }

  /** An override column: a text column, or a yes/no column and the flag it raises. */
  datatype Column = TextCol(text: TextColumn) | FlagCol(flag: Override)

  /** The override columns of each sheet, left to right. */
  function Layout(sheet: Sheet): (cols: seq<Column>)
    ensures |cols| == OverrideWidth(sheet)
  {
    match sheet
    case TransactionsSheet =>
      [TextCol(CategoryColumn), TextCol(MerchantColumn), FlagCol(Reviewed),
       TextCol(LinkColumn), FlagCol(NeedsSplit), TextCol(NotesColumn)]
    case AllocationsSheet => [TextCol(CategoryColumn), TextCol(MerchantColumn)]
    case ReviewSheet => [TextCol(CategoryColumn), TextCol(MerchantColumn), FlagCol(Reviewed)]
  }

  /** The override, if any, one cell gives. */
  function ReadCell(cell: string, col: Column): (r: seq<Override>)
    ensures |r| <= 1
    ensures col.TextCol? ==> (r != [] <==> Strip(cell) != "")
    ensures col.FlagCol? ==> (r != [] <==> ParseBool(cell))
  {
    match col
    case TextCol(c) => TextOverride(cell, c)
    case FlagCol(o) => FlagOverride(cell, o)
  }

  /** The overrides of the cells from column `k` on, read as `cols`, in column order. */
  function ReadCells(row: seq<string>, k: nat, cols: seq<Column>): (r: seq<Override>)
    ensures |r| <= |cols|
    decreases |cols|
  {
    if cols == [] then [] else ReadCell(CellAt(row, k), cols[0]) + ReadCells(row, k + 1, cols[1..])
  }

  /** Cells that are blank, or missing, give no override. */
  lemma {:induction false} BlankCellsGiveNothing(row: seq<string>, k: nat, cols: seq<Column>)
    requires forall j :: k <= j < |row| ==> Strip(row[j]) == ""
    ensures ReadCells(row, k, cols) == []
    decreases |cols|
  {
    if cols != [] {
      var cell := CellAt(row, k);
      if k < |row| {
        ParseBoolNeedsText(row[k]);
      } else {
        ParseBoolNeedsText("");
      }
      assert ReadCell(cell, cols[0]) == [];
      BlankCellsGiveNothing(row, k + 1, cols[1..]);
    }
  }

  /** A row the poller acts on: the ids it names and its overrides in column order. */
  datatype RowRead = RowRead(txnId: string, allocId: string, overrides: seq<Override>)

  /**
   * The overrides of one sheet row, or None for a row the poller skips: one
   * that stops at or before the first override column, or has no id.
   * Transactions rows carry the transaction id in the first column;
   * Allocations rows the allocation id, then the transaction id; Review rows
   * both ids after the override columns.
   */
  function ReadRow(sheet: Sheet, row: seq<string>): (r: Option<RowRead>)
    ensures r.None? <==> |row| <= OverrideStart(sheet) || row[IdColumn(sheet)] == ""
    ensures r.Some? ==> r.value.overrides == ReadCells(row, OverrideStart(sheet), Layout(sheet))
    ensures r.Some? && sheet.TransactionsSheet? ==> r.value.txnId == row[0] && r.value.allocId == ""
    ensures r.Some? && sheet.AllocationsSheet? ==> r.value.allocId == row[0] && r.value.txnId == row[1]
    ensures r.Some? && sheet.ReviewSheet? ==>
      r.value.txnId == row[ReviewColTxnId] && r.value.allocId == row[ReviewColAllocId]
  {
    var start := OverrideStart(sheet);
    if |row| <= start || row[IdColumn(sheet)] == "" then None
    else
      var overrides := ReadCells(row, start, Layout(sheet));
      match sheet
      case TransactionsSheet => Some(RowRead(row[0], "", overrides))
      case AllocationsSheet => Some(RowRead(row[1], row[0], overrides))
      case ReviewSheet => Some(RowRead(row[ReviewColTxnId], row[ReviewColAllocId], overrides))
  }

  /** How many overrides a row asks for (none for a skipped row). */
  function RowAttempts(sheet: Sheet, row: seq<string>): (n: nat)
    ensures n <= OverrideWidth(sheet)
  {
    var r := ReadRow(sheet, row);
    if r.None? then 0 else |r.value.overrides|
  }

  /** How many overrides the data rows among the first `n` rows ask for (row 0 is the header). */
  function AttemptsBefore(sheet: Sheet, rows: seq<seq<string>>, n: nat): (k: nat)
    requires n <= |rows|
    ensures n <= 1 ==> k == 0
    decreases n
  {
    if n <= 1 then 0 else AttemptsBefore(sheet, rows, n - 1) + RowAttempts(sheet, rows[n - 1])
  }

  /** How many overrides the data rows of a sheet ask for. */
  function Attempts(sheet: Sheet, rows: seq<seq<string>>): (n: nat)
    ensures |rows| <= 1 ==> n == 0
  {
    AttemptsBefore(sheet, rows, |rows|)
  }

  /** A sheet asks for at most one override per override column of each data row. */
  lemma {:induction false} AttemptsBound(sheet: Sheet, rows: seq<seq<string>>, n: nat)
    requires n <= |rows|
    ensures AttemptsBefore(sheet, rows, n) <= OverrideWidth(sheet) * (if n <= 1 then 0 else n - 1)
    decreases n
  {
    if n > 1 {
      var w := OverrideWidth(sheet);
      AttemptsBound(sheet, rows, n - 1);
      assert w * (n - 1) == w * (if n - 1 <= 1 then 0 else n - 2) + w;
    }
  }

  /** A row whose override cells are blank, or only blanks, asks for nothing. */
  lemma BlankCellsAskNothing(sheet: Sheet, row: seq<string>)
    requires forall k :: OverrideStart(sheet) <= k < |row| ==> Strip(row[k]) == ""
    ensures RowAttempts(sheet, row) == 0
  {
    BlankCellsGiveNothing(row, OverrideStart(sheet), Layout(sheet));
  }

  // ── Clearing the override columns ──────────────────────

  /** One write to a sheet: an A1 range and the cell values written there. */
  datatype ClearRequest = ClearRequest(range: string, values: seq<seq<string>>)

  /**
   * `_clear_override_columns`: nothing for a sheet without data rows;
   * otherwise blanks over the `width` columns from `start` (0-based) on
   * every data row, rows 2 to `totalRows`.
   */
  function ClearRequestFor(totalRows: nat, start: nat, width: nat): (r: Option<ClearRequest>)
    ensures r.None? <==> totalRows <= 1
    ensures r.Some? ==> |r.value.values| == totalRows - 1
    ensures r.Some? ==> forall i :: 0 <= i < |r.value.values| ==>
      |r.value.values[i]| == width && forall j :: 0 <= j < width ==> r.value.values[i][j] == ""
  {
    if totalRows <= 1 then None
    else Some(ClearRequest(A1(2, start + 1) + ":" + A1(totalRows, start + width),
                           seq(totalRows - 1, _ => seq(width, _ => ""))))
  }

  /** `_clear_override_columns` as written, building both cell names with `_cell_label`. */
  method ClearOverrideColumns(totalRows: nat, start: nat, width: nat) returns (r: Option<ClearRequest>)
    ensures r == ClearRequestFor(totalRows, start, width)
  {
    if totalRows <= 1 {
      return None;
    }
    var first := CellLabel(2, start + 1);
    var last := CellLabel(totalRows, start + width);
    r := Some(ClearRequest(first + ":" + last, seq(totalRows - 1, _ => seq(width, _ => ""))));
  }

  /** The clears span exactly the override columns: P-U, I-J and V-X. */
  lemma ClearSpansOverrideColumns()
    ensures ColumnLabel(OverrideStart(TransactionsSheet) + 1) == "P"
    ensures ColumnLabel(OverrideStart(TransactionsSheet) + OverrideWidth(TransactionsSheet)) == "U"
    ensures ColumnLabel(OverrideStart(AllocationsSheet) + 1) == "I"
    ensures ColumnLabel(OverrideStart(AllocationsSheet) + OverrideWidth(AllocationsSheet)) == "J"
    ensures ColumnLabel(OverrideStart(ReviewSheet) + 1) == "V"
    ensures ColumnLabel(OverrideStart(ReviewSheet) + OverrideWidth(ReviewSheet)) == "X"
  {
    assert ColumnLabel(0) == [];
  }

  // ── Applying overrides: specification ─────────────────

  /** `OverrideAction`: the record of one applied override. */
  datatype OverrideAction = OverrideAction(
    sheet: string,
    rowIndex: nat,
    column: string,
    entityId: string,
    oldValue: Option<string>,
    newValue: string)

  /** What one apply call did: it recorded an action, or it counted an error. */
  datatype Outcome = Applied(action: OverrideAction) | Failed

  /** The counters of a `PollResult`. */
  datatype Tally = Tally(applied: nat, errors: nat, actions: seq<OverrideAction>)

  /** Every applied override has its action. */
  predicate Balanced(t: Tally) {
    |t.actions| == t.applied
  }

  /**
   * One apply call counted: an applied override adds 1 to `applied` and
   * its action, a failed one adds 1 to `errors`; exactly one counter moves.
   */
  function Count(t: Tally, out: Outcome): (r: Tally)
    ensures r.applied + r.errors == t.applied + t.errors + 1
    ensures out.Applied? <==> r.errors == t.errors
    ensures out.Applied? ==> r.actions == t.actions + [out.action]
    ensures out.Failed? ==> r.actions == t.actions
    ensures Balanced(t) ==> Balanced(r)
  {
    match out
    case Applied(a) => Tally(t.applied + 1, t.errors, t.actions + [a])
    case Failed => Tally(t.applied, t.errors + 1, t.actions)
  }

  /** The store after one apply call, and what the call reported. */
  datatype Step = Step(db: Db, out: Outcome)

  /** The allocation with this id. */
  function AllocById(allocs: seq<Allocation>, id: string): (r: Option<Allocation>)
    ensures r.Some? ==> r.value in allocs && r.value.id == id
    ensures r.None? <==> forall i :: 0 <= i < |allocs| ==> allocs[i].id != id
  {
    if allocs == [] then None
    else if allocs[0].id == id then Some(allocs[0])
    else AllocById(allocs[1..], id)
  }

  /** An id no row of the table uses yet (an insert with it is accepted). */
  predicate FreeTransferId(transfers: seq<Transfer>, id: string) {
    forall i :: 0 <= i < |transfers| ==> transfers[i].id != id
  }

  predicate FreeAllocId(allocs: seq<Allocation>, id: string) {
    forall i :: 0 <= i < |allocs| ==> allocs[i].id != id
  }

  /** A category id an override may name: not empty and at most 100 characters. */
  predicate CategoryIdOk(category: string) {
    category != "" && |category| <= MaxCategoryLength
  }

  /** `UPDATE transactions SET memo = ? WHERE id = ?`. */
  function MemoSet(txns: seq<Transaction>, id: string, memo: string): (r: seq<Transaction>)
    ensures |r| == |txns|
    ensures forall i :: 0 <= i < |txns| ==>
      r[i] == if txns[i].id == id then txns[i].(memo := Some(memo)) else txns[i]
  {
    seq(|txns|, i requires 0 <= i < |txns| => if txns[i].id == id then txns[i].(memo := Some(memo)) else txns[i])
  }

  /** An update that keeps every row's id keeps the ids unique. */
  lemma TxnIdsKept(before: seq<Transaction>, after: seq<Transaction>)
    requires |after| == |before|
    requires forall i :: 0 <= i < |before| ==> after[i].id == before[i].id
    ensures Seqs.DistinctBy(before, TxnId) ==> Seqs.DistinctBy(after, TxnId)
  {
    assert forall i :: 0 <= i < |before| ==> TxnId(after[i]) == TxnId(before[i]);
  }

  /** An update that keeps every allocation's id keeps the ids unique. */
  lemma AllocIdsKept(before: seq<Allocation>, after: seq<Allocation>)
    requires |after| == |before|
    requires forall i :: 0 <= i < |before| ==> after[i].id == before[i].id
    ensures Seqs.DistinctBy(before, (a: Allocation) => a.id) ==> Seqs.DistinctBy(after, (a: Allocation) => a.id)
  {
  }

  /** `UPDATE transactions SET normalized_description = ? WHERE id = ?`. */
  function MerchantSet(txns: seq<Transaction>, id: string, merchant: string): (r: seq<Transaction>)
    ensures |r| == |txns|
    ensures forall i :: 0 <= i < |txns| ==>
      r[i] == if txns[i].id == id then txns[i].(normalizedDescription := Some(merchant)) else txns[i]
  {
    seq(|txns|, i requires 0 <= i < |txns| =>
      if txns[i].id == id then txns[i].(normalizedDescription := Some(merchant)) else txns[i])
  }

  /** `UPDATE allocations SET category_id = ?, source = 'user' WHERE id = ?`. */
  function AllocCategorySet(allocs: seq<Allocation>, id: string, category: string): (r: seq<Allocation>)
    ensures |r| == |allocs|
    ensures forall i :: 0 <= i < |allocs| ==>
      r[i] == if allocs[i].id == id then allocs[i].(categoryId := category, source := "user") else allocs[i]
  {
    seq(|allocs|, i requires 0 <= i < |allocs| =>
      if allocs[i].id == id then allocs[i].(categoryId := category, source := "user") else allocs[i])
  }

  /**
   * The memo a notes override writes: the old memo, " | ", then the notes
   * when the transaction has a non-empty memo; the notes alone otherwise.
   */
  function NewMemo(memo: Option<string>, notes: string): (r: string)
    ensures HasText(memo) ==> |r| == |memo.value| + 3 + |notes| && r[..|memo.value|] == memo.value && r[|memo.value|..] == " | " + notes
    ensures !HasText(memo) ==> r == notes
  {
    if HasText(memo) then memo.value + " | " + notes else notes
  }

  /**
   * `_apply_reviewed_flag` / `_apply_needs_split`: the status is written
   * for whatever rows carry the id, and the override always counts as
   * applied, even for an id no transaction has.
   */
  function StatusStep(db: Db, txnId: string, status: string, column: string, rowIdx: nat): (s: Step)
    ensures s.out == Applied(OverrideAction("Transactions", rowIdx, column, txnId, None, status))
    ensures |s.db.txns| == |db.txns|
    ensures forall i :: 0 <= i < |db.txns| ==>
      s.db.txns[i].status == (if db.txns[i].id == txnId then status else db.txns[i].status)
    ensures s.db.(txns := db.txns) == db
  {
    Step(db.(txns := StatusUpdated(db.txns, txnId, status, None, None)),
         Applied(OverrideAction("Transactions", rowIdx, column, txnId, None, status)))
  }

  /** `_apply_notes`: refused for an unknown transaction; otherwise the memo gains the notes. */
  function NotesStep(db: Db, txnId: string, notes: string, rowIdx: nat): (s: Step)
    ensures s.out.Failed? <==> TxnById(db.txns, txnId).None?
    ensures s.out.Failed? ==> s.db == db
    ensures s.out.Applied? ==>
      var was := TxnById(db.txns, txnId).value.memo;
      s.out.action == OverrideAction("Transactions", rowIdx, "Override: Notes", txnId, was, NewMemo(was, notes)) &&
      s.db == db.(txns := MemoSet(db.txns, txnId, NewMemo(was, notes)))
  {
    var t := TxnById(db.txns, txnId);
    if t.None? then Step(db, Failed)
    else
      var memo := NewMemo(t.value.memo, notes);
      Step(db.(txns := MemoSet(db.txns, txnId, memo)),
           Applied(OverrideAction("Transactions", rowIdx, "Override: Notes", txnId, t.value.memo, memo)))
  }

  /** `_apply_merchant_override`: refused for an unknown transaction; otherwise the merchant name is replaced. */
  function MerchantStep(db: Db, txnId: string, merchant: string, rowIdx: nat): (s: Step)
    ensures s.out.Failed? <==> TxnById(db.txns, txnId).None?
    ensures s.out.Failed? ==> s.db == db
    ensures s.out.Applied? ==>
      var was := TxnById(db.txns, txnId).value.normalizedDescription;
      s.out.action == OverrideAction("Allocations", rowIdx, "Override: Merchant", txnId, was, merchant) &&
      s.db == db.(txns := MerchantSet(db.txns, txnId, merchant))
  {
    var t := TxnById(db.txns, txnId);
    if t.None? then Step(db, Failed)
    else Step(db.(txns := MerchantSet(db.txns, txnId, merchant)),
              Applied(OverrideAction("Allocations", rowIdx, "Override: Merchant", txnId,
                                     t.value.normalizedDescription, merchant)))
  }

  /**
   * `_apply_category_override`: refused for an unknown allocation, a
   * malformed id or an id validation rejects; otherwise the allocation
   * takes the validated category and becomes the user's.
   */
  function AllocCategoryStep(db: Db, ids: seq<string>, similarity: (string, string) -> real,
                             allocId: string, category: string, rowIdx: nat): (s: Step)
    ensures s.out.Failed? <==> AllocById(db.allocs, allocId).None? || !CategoryIdOk(category) ||
                               ValidateCategory(ids, category, similarity).None?
    ensures s.out.Failed? ==> s.db == db
    ensures s.out.Applied? ==>
      var v := ValidateCategory(ids, category, similarity).value;
      s.out.action == OverrideAction("Allocations", rowIdx, "Override: Category", allocId,
                                     Some(AllocById(db.allocs, allocId).value.categoryId), v) &&
      s.db == db.(allocs := AllocCategorySet(db.allocs, allocId, v))
  {
    var a := AllocById(db.allocs, allocId);
    if a.None? || !CategoryIdOk(category) then Step(db, Failed)
    else
      var v := ValidateCategory(ids, category, similarity);
      if v.None? then Step(db, Failed)
      else Step(db.(allocs := AllocCategorySet(db.allocs, allocId, v.value)),
                Applied(OverrideAction("Allocations", rowIdx, "Override: Category", allocId,
                                       Some(a.value.categoryId), v.value)))
  }

  /** The allocation an override creates: the whole amount, to the user's category, at full confidence. */
  function UserAllocation(id: string, t: Transaction, category: string): Allocation {
    Allocation(id, t.id, category, t.amount, None, None, "user", Some(1.0))
  }

  /**
   * `_create_allocation_from_override`: refused for an unknown transaction,
   * a malformed or rejected id, or an allocation id already taken;
   * otherwise one allocation of the whole amount is added and the
   * transaction becomes categorized by the user at confidence 1.
   */
  function CreateAllocationStep(db: Db, ids: seq<string>, similarity: (string, string) -> real,
                                txnId: string, category: string, newId: string, rowIdx: nat): (s: Step)
    ensures s.out.Failed? <==> TxnById(db.txns, txnId).None? || !CategoryIdOk(category) ||
                               ValidateCategory(ids, category, similarity).None? || !FreeAllocId(db.allocs, newId)
    ensures s.out.Failed? ==> s.db == db
    ensures s.out.Applied? ==>
      var v := ValidateCategory(ids, category, similarity).value;
      var t := TxnById(db.txns, txnId).value;
      s.out.action == OverrideAction("Review", rowIdx, "Override: Category", txnId, None, v) &&
      s.db == db.(allocs := db.allocs + [UserAllocation(newId, t, v)],
                  txns := StatusUpdated(db.txns, txnId, "categorized", Some(Some(1.0)), Some(Some("user_override"))))
  {
    var t := TxnById(db.txns, txnId);
    if t.None? || !CategoryIdOk(category) then Step(db, Failed)
    else
      var v := ValidateCategory(ids, category, similarity);
      if v.None? || !FreeAllocId(db.allocs, newId) then Step(db, Failed)
      else Step(db.(allocs := db.allocs + [UserAllocation(newId, t.value, v.value)],
                    txns := StatusUpdated(db.txns, txnId, "categorized", Some(Some(1.0)), Some(Some("user_override")))),
                Applied(OverrideAction("Review", rowIdx, "Override: Category", txnId, None, v.value)))
  }

  /**
   * `_apply_txn_category_override`: the id is checked and validated, then
   * handed to the transaction's first allocation, or to a new allocation
   * when the transaction has none.
   */
  function TxnCategoryStep(db: Db, ids: seq<string>, similarity: (string, string) -> real,
                           txnId: string, category: string, newId: string, rowIdx: nat): (s: Step)
    ensures !CategoryIdOk(category) || ValidateCategory(ids, category, similarity).None? ==>
      s == Step(db, Failed)
    ensures CategoryIdOk(category) && ValidateCategory(ids, category, similarity).Some? ==>
      var v := ValidateCategory(ids, category, similarity).value;
      var allocs := AllocationsByTransaction(db.allocs, txnId);
      s == if allocs != [] then AllocCategoryStep(db, ids, similarity, allocs[0].id, v, rowIdx)
           else CreateAllocationStep(db, ids, similarity, txnId, v, newId, rowIdx)
  {
    if !CategoryIdOk(category) then Step(db, Failed)
    else
      var v := ValidateCategory(ids, category, similarity);
      if v.None? then Step(db, Failed)
      else
        var allocs := AllocationsByTransaction(db.allocs, txnId);
        if allocs != [] then AllocCategoryStep(db, ids, similarity, allocs[0].id, v.value, rowIdx)
        else CreateAllocationStep(db, ids, similarity, txnId, v.value, newId, rowIdx)
  }

  /**
   * When the transaction has an allocation, a category the first check
   * accepts passes the second check unchanged, so the allocation takes it
   * (unless the validated id is over-long).
   */
  lemma TxnCategoryReachesAllocation(db: Db, ids: seq<string>, similarity: (string, string) -> real,
                                     txnId: string, category: string, newId: string, rowIdx: nat)
    requires CategoryIdOk(category)
    requires ValidateCategory(ids, category, similarity).Some?
    requires CategoryIdOk(ValidateCategory(ids, category, similarity).value)
    requires AllocationsByTransaction(db.allocs, txnId) != []
    ensures var s := TxnCategoryStep(db, ids, similarity, txnId, category, newId, rowIdx);
      var first := AllocationsByTransaction(db.allocs, txnId)[0];
      s.out.Applied? && s.out.action.newValue == ValidateCategory(ids, category, similarity).value &&
      s.out.action.entityId == first.id
  {
    var v := ValidateCategory(ids, category, similarity).value;
    var first := AllocationsByTransaction(db.allocs, txnId)[0];
    assert first in db.allocs;
    ValidateIdempotent(ids, category, similarity);
    assert AllocById(db.allocs, first.id).Some?;
  }

  /** Why a transfer link is refused, in the order the checks are made. */
  datatype LinkError = SelfLink | SourceLinked | LinkedMissing | LinkedLinked | SourceMissing

  /**
   * The checks `_apply_transfer_link` makes before linking: not to itself,
   * the source not yet in a transfer, the linked transaction present and
   * not in a transfer, the source present. On success, both transactions.
   */
  function TransferLinkCheck(txns: seq<Transaction>, transfers: seq<Transfer>, txnId: string, linkedId: string)
    : (r: Result<(Transaction, Transaction), LinkError>)
    ensures r == Failure(SelfLink) <==> txnId == linkedId
    ensures r == Failure(SourceLinked) <==> txnId != linkedId && txnId in LinkedIds(transfers)
    ensures r == Failure(LinkedMissing) <==>
      txnId != linkedId && txnId !in LinkedIds(transfers) && TxnById(txns, linkedId).None?
    ensures r == Failure(LinkedLinked) <==>
      txnId != linkedId && txnId !in LinkedIds(transfers) && TxnById(txns, linkedId).Some? &&
      linkedId in LinkedIds(transfers)
    ensures r == Failure(SourceMissing) <==>
      txnId != linkedId && txnId !in LinkedIds(transfers) && TxnById(txns, linkedId).Some? &&
      linkedId !in LinkedIds(transfers) && TxnById(txns, txnId).None?
    ensures r.Success? <==>
      txnId != linkedId && TxnById(txns, txnId).Some? && TxnById(txns, linkedId).Some? &&
      txnId !in LinkedIds(transfers) && linkedId !in LinkedIds(transfers)
    ensures r.Success? ==> r.value == (TxnById(txns, txnId).value, TxnById(txns, linkedId).value)
  {
    if txnId == linkedId then Failure(SelfLink)
    else if TransferByTransaction(transfers, txnId).Some? then Failure(SourceLinked)
    else
      var linked := TxnById(txns, linkedId);
      if linked.None? then Failure(LinkedMissing)
      else if TransferByTransaction(transfers, linkedId).Some? then Failure(LinkedLinked)
      else
        var source := TxnById(txns, txnId);
        if source.None? then Failure(SourceMissing)
        else Success((source.value, linked.value))
  }

  /** The transfer a link override records. */
  function UserTransfer(id: string, txnId: string, linkedId: string): Transfer {
    Transfer(id, txnId, linkedId, "user-linked", "user_override", Some(1.0))
  }

  /**
   * `_apply_transfer_link`: a refused check, or an id already taken, counts
   * an error and inserts nothing; otherwise one user-linked transfer is added.
   */
  function TransferLinkStep(db: Db, txnId: string, linkedId: string, newId: string, rowIdx: nat): (s: Step)
    ensures s.out.Failed? <==>
      TransferLinkCheck(db.txns, db.transfers, txnId, linkedId).Failure? || !FreeTransferId(db.transfers, newId)
    ensures s.out.Failed? ==> s.db == db
    ensures s.out.Applied? ==>
      s.out.action == OverrideAction("Transactions", rowIdx, "Override: Transfer Link", txnId, None, linkedId) &&
      s.db == db.(transfers := db.transfers + [UserTransfer(newId, txnId, linkedId)])
  {
    var check := TransferLinkCheck(db.txns, db.transfers, txnId, linkedId);
    if check.Failure? || !FreeTransferId(db.transfers, newId) then Step(db, Failed)
    else Step(db.(transfers := db.transfers + [UserTransfer(newId, txnId, linkedId)]),
              Applied(OverrideAction("Transactions", rowIdx, "Override: Transfer Link", txnId, None, linkedId)))
  }

  /** A self-link is refused whatever the store holds. */
  lemma SelfLinkRefused(db: Db, txnId: string, newId: string, rowIdx: nat)
    ensures TransferLinkStep(db, txnId, txnId, newId, rowIdx) == Step(db, Failed)
  {
  }

  /**
   * One override of a row, dispatched as the sheet's poll loop does: a
   * category goes through the transaction on the Transactions sheet, to
   * the named allocation on the Allocations sheet, and on the Review sheet
   * to the named allocation or, without one, to a new allocation.
   */
  function OverrideStep(db: Db, ids: seq<string>, similarity: (string, string) -> real, sheet: Sheet,
                        txnId: string, allocId: string, o: Override, newId: string, rowIdx: nat): (s: Step)
    ensures s.out.Failed? ==> s.db == db
  {
    match o
    case Category(c) =>
      if sheet.TransactionsSheet? then TxnCategoryStep(db, ids, similarity, txnId, c, newId, rowIdx)
      else if sheet.AllocationsSheet? || allocId != "" then AllocCategoryStep(db, ids, similarity, allocId, c, rowIdx)
      else CreateAllocationStep(db, ids, similarity, txnId, c, newId, rowIdx)
    case Merchant(m) => MerchantStep(db, txnId, m, rowIdx)
    case Reviewed => StatusStep(db, txnId, "reviewed", "Override: Reviewed", rowIdx)
    case TransferLink(l) => TransferLinkStep(db, txnId, l, newId, rowIdx)
    case NeedsSplit => StatusStep(db, txnId, "flagged", "Override: Needs Split", rowIdx)
    case Notes(n) => NotesStep(db, txnId, n, rowIdx)
  }

  /**
   * How many new record ids one override draws: `_create_allocation_from_override`
   * draws one once the transaction is found and the category validated,
   * `_apply_transfer_link` once the link checks pass; nothing else draws.
   */
  function Mints(db: Db, ids: seq<string>, similarity: (string, string) -> real, sheet: Sheet,
                 txnId: string, allocId: string, o: Override): (n: nat)
    ensures n <= 1
    ensures n == 1 ==> o.Category? || o.TransferLink?
  {
    match o
    case Category(c) =>
      if sheet.TransactionsSheet? then TxnCategoryMints(db, ids, similarity, txnId, c)
      else if sheet.AllocationsSheet? || allocId != "" then 0
      else CreateMints(db, ids, similarity, txnId, c)
    case TransferLink(l) => LinkMints(db, txnId, l)
    case _ => 0
  }

  function CreateMints(db: Db, ids: seq<string>, similarity: (string, string) -> real, txnId: string, category: string): nat {
    if TxnById(db.txns, txnId).Some? && CategoryIdOk(category) && ValidateCategory(ids, category, similarity).Some? then 1 else 0
  }

  function TxnCategoryMints(db: Db, ids: seq<string>, similarity: (string, string) -> real, txnId: string, category: string): nat {
    if !CategoryIdOk(category) || ValidateCategory(ids, category, similarity).None? then 0
    else if AllocationsByTransaction(db.allocs, txnId) != [] then 0
    else CreateMints(db, ids, similarity, txnId, ValidateCategory(ids, category, similarity).value)
  }

  function LinkMints(db: Db, txnId: string, linkedId: string): nat {
    if TransferLinkCheck(db.txns, db.transfers, txnId, linkedId).Success? then 1 else 0
  }

  /** What a poll has done so far: the store, the ids drawn, and the counters. */
  datatype PollState = PollState(db: Db, minted: nat, tally: Tally)

  /** The poll's fixed inputs: the known category ids, the similarity, and the id generator. */
  datatype PollEnv = PollEnv(ids: seq<string>, similarity: (string, string) -> real, newId: nat -> string)

  /** One override applied and counted, with the next id the generator hands out. */
  function ApplyOnce(env: PollEnv, p: PollState, sheet: Sheet, txnId: string, allocId: string, o: Override, rowIdx: nat)
    : (r: PollState)
    ensures r.tally.applied + r.tally.errors == p.tally.applied + p.tally.errors + 1
    ensures r.minted >= p.minted
  {
    var s := OverrideStep(p.db, env.ids, env.similarity, sheet, txnId, allocId, o, env.newId(p.minted), rowIdx);
    PollState(s.db, p.minted + Mints(p.db, env.ids, env.similarity, sheet, txnId, allocId, o), Count(p.tally, s.out))
  }

  /** The overrides of one row applied in column order. */
  function RunOverrides(env: PollEnv, p: PollState, sheet: Sheet, txnId: string, allocId: string,
                        os: seq<Override>, rowIdx: nat): PollState
    decreases |os|
  {
    if os == [] then p
    else ApplyOnce(env, RunOverrides(env, p, sheet, txnId, allocId, os[..|os| - 1], rowIdx),
                   sheet, txnId, allocId, os[|os| - 1], rowIdx)
  }

  /** One sheet row: nothing for a skipped row, otherwise its overrides in order. */
  function RunRow(env: PollEnv, p: PollState, sheet: Sheet, row: seq<string>, rowIdx: nat): PollState {
    var read := ReadRow(sheet, row);
    if read.None? then p
    else RunOverrides(env, p, sheet, read.value.txnId, read.value.allocId, read.value.overrides, rowIdx)
  }

  /** The data rows before `rows[n]` in order; data row `i` is reported as sheet row `i + 1`. */
  function RunRows(env: PollEnv, p: PollState, sheet: Sheet, rows: seq<seq<string>>, n: nat): PollState
    requires n <= |rows|
    decreases n
  {
    if n <= 1 then p else RunRow(env, RunRows(env, p, sheet, rows, n - 1), sheet, rows[n - 1], n)
  }

  /** One more data row: the state after it is that row run on the state before. */
  lemma RunRowsNext(env: PollEnv, start: PollState, sheet: Sheet, rows: seq<seq<string>>, i: nat,
                    before: PollState, after: PollState)
    requires 1 <= i < |rows|
    requires before == RunRows(env, start, sheet, rows, i)
    requires after == RunRow(env, before, sheet, rows[i], i + 1)
    ensures after == RunRows(env, start, sheet, rows, i + 1)
  {
  }

  /** A whole sheet: its data rows, or nothing when it has none. */
  function RunSheet(env: PollEnv, p: PollState, sheet: Sheet, rows: seq<seq<string>>): PollState {
    RunRows(env, p, sheet, rows, |rows|)
  }

  /** `poll`: Transactions, Allocations, then Review when the sheet exists, from zeroed counters. */
  function RunPoll(env: PollEnv, db: Db, minted: nat, txnRows: seq<seq<string>>, allocRows: seq<seq<string>>,
                   reviewRows: Option<seq<seq<string>>>): PollState
  {
    var a := RunSheet(env, PollState(db, minted, Tally(0, 0, [])), TransactionsSheet, txnRows);
    var b := RunSheet(env, a, AllocationsSheet, allocRows);
    if reviewRows.Some? then RunSheet(env, b, ReviewSheet, reviewRows.value) else b
  }

  /** Every override of a row is counted once, as applied or as an error. */
  lemma {:induction false} RunOverridesCounts(env: PollEnv, p: PollState, sheet: Sheet, txnId: string, allocId: string,
                                              os: seq<Override>, rowIdx: nat)
    ensures var r := RunOverrides(env, p, sheet, txnId, allocId, os, rowIdx);
      r.tally.applied + r.tally.errors == p.tally.applied + p.tally.errors + |os| &&
      r.tally.errors >= p.tally.errors && (Balanced(p.tally) ==> Balanced(r.tally))
    decreases |os|
  {
    if os != [] {
      RunOverridesCounts(env, p, sheet, txnId, allocId, os[..|os| - 1], rowIdx);
    }
  }

  /** Every override a sheet asks for is counted once. */
  lemma {:induction false} RunRowsCounts(env: PollEnv, p: PollState, sheet: Sheet, rows: seq<seq<string>>, n: nat)
    requires n <= |rows|
    ensures var r := RunRows(env, p, sheet, rows, n);
      r.tally.applied + r.tally.errors == p.tally.applied + p.tally.errors + AttemptsBefore(sheet, rows, n) &&
      r.tally.errors >= p.tally.errors
    decreases n
  {
    if n > 1 {
      RunRowsCounts(env, p, sheet, rows, n - 1);
      var q := RunRows(env, p, sheet, rows, n - 1);
      var read := ReadRow(sheet, rows[n - 1]);
      if read.Some? {
        RunOverridesCounts(env, q, sheet, read.value.txnId, read.value.allocId, read.value.overrides, n);
      }
    }
  }

  /**
   * A clean poll leaves the counters balanced: every applied override has
   * its recorded action, and the errors are the overrides not applied.
   */
  lemma RunPollCounts(env: PollEnv, db: Db, minted: nat, txnRows: seq<seq<string>>, allocRows: seq<seq<string>>,
                      reviewRows: Option<seq<seq<string>>>)
    ensures var r := RunPoll(env, db, minted, txnRows, allocRows, reviewRows);
      r.tally.applied + r.tally.errors ==
        Attempts(TransactionsSheet, txnRows) + Attempts(AllocationsSheet, allocRows) +
        (if reviewRows.Some? then Attempts(ReviewSheet, reviewRows.value) else 0)
  {
    var z := PollState(db, minted, Tally(0, 0, []));
    RunRowsCounts(env, z, TransactionsSheet, txnRows, |txnRows|);
    var a := RunSheet(env, z, TransactionsSheet, txnRows);
    RunRowsCounts(env, a, AllocationsSheet, allocRows, |allocRows|);
    if reviewRows.Some? {
      var b := RunSheet(env, a, AllocationsSheet, allocRows);
      RunRowsCounts(env, b, ReviewSheet, reviewRows.value, |reviewRows.value|);
    }
  }

  // ── The poller ─────────────────────────────────────────

  /** `PollResult`: the counters one poll updates in place. */
  class PollResult {
    var overridesApplied: nat
    var errors: nat
    var actions: seq<OverrideAction>

    function Current(): Tally
      reads this
    {
      Tally(overridesApplied, errors, actions)
    }

    ghost predicate Valid()
      reads this
    {
      Balanced(Current())
    }

    constructor ()
      ensures Valid()
      ensures overridesApplied == 0 && errors == 0 && actions == []
    {
      overridesApplied, errors, actions := 0, 0, [];
    }

    /** Counts one apply call. */
    method Record(out: Outcome)
      requires Valid()
      modifies this
      ensures Valid()
      ensures Current() == Count(old(Current()), out)
    {
      match out
      case Applied(a) =>
        actions := actions + [a];
        overridesApplied := overridesApplied + 1;
      case Failed =>
        errors := errors + 1;
    }
  }

  /**
   * `OverridePoller`: the store it corrects, the configuration whose
   * category tree validates category ids, the fuzzy similarity, and the id
   * generator (`newId(k)` is the k-th id it hands out). `validIds` is the
   * lazily filled cache of known category ids.
   */
  class OverridePoller {
    const repo: Repository
    const config: Option<Config>
    const similarity: (string, string) -> real
    const newId: nat -> string
    var validIds: Option<seq<string>>
    var minted: nat

    ghost predicate Valid()
      reads this, repo
    {
      repo.Valid() && (validIds.Some? ==> validIds.value == KnownIds(config))
    }

    function Tables(): Db
      reads repo
    {
      repo.Snapshot()
    }

    /** The poller's fixed inputs. */
    function Env(): PollEnv {
      PollEnv(KnownIds(config), similarity, newId)
    }

    /** The store, the ids drawn so far and the counters of `result`. */
    function State(result: PollResult): PollState
      reads this, repo, result
    {
      PollState(Tables(), minted, result.Current())
    }

    constructor (repo: Repository, config: Option<Config>, similarity: (string, string) -> real, newId: nat -> string)
      requires repo.Valid()
      ensures Valid()
      ensures this.repo == repo && this.config == config && this.similarity == similarity && this.newId == newId
      ensures validIds.None? && minted == 0
    {
      this.repo := repo;
      this.config := config;
      this.similarity := similarity;
      this.newId := newId;
      validIds := None;
      minted := 0;
    }

    /** `_get_valid_category_ids`: computed on first use, then read from the cache. */
    method ValidCategoryIds() returns (ids: seq<string>)
      requires Valid()
      modifies this
      ensures Valid()
      ensures ids == KnownIds(config) && validIds == Some(ids) && minted == old(minted)
    {
      if validIds.None? {
        validIds := Some(KnownIds(config));
      }
      ids := validIds.value;
    }

    /** `_validate_category`, over the cached ids. */
    method Validate(category: string) returns (v: Option<string>)
      requires Valid()
      modifies this
      ensures Valid()
      ensures v == ValidateCategory(KnownIds(config), category, similarity) && minted == old(minted)
    {
      var ids := ValidCategoryIds();
      v := ValidateCategory(ids, category, similarity);
    }

    /** The next new record id. */
    method FreshId() returns (id: string)
      modifies this
      ensures id == newId(old(minted)) && minted == old(minted) + 1 && validIds == old(validIds)
    {
      id := newId(minted);
      minted := minted + 1;
    }

    /** `_apply_reviewed_flag` and `_apply_needs_split`. */
    method ApplyStatus(txnId: string, status: string, column: string, rowIdx: nat, result: PollResult)
      returns (out: Outcome)
      requires Valid() && result.Valid()
      modifies this, repo, result
      ensures Valid() && result.Valid()
      ensures result.Current() == Count(old(result.Current()), out)
      ensures Step(Tables(), out) == StatusStep(old(Tables()), txnId, status, column, rowIdx)
      ensures minted == old(minted)
    {
      repo.UpdateTransactionStatus(txnId, status, None, None);
      out := Applied(OverrideAction("Transactions", rowIdx, column, txnId, None, status));
      result.Record(out);
    }

    /** `_apply_notes`. */
    method ApplyNotes(txnId: string, notes: string, rowIdx: nat, result: PollResult) returns (out: Outcome)
      requires Valid() && result.Valid()
      modifies this, repo, result
      ensures Valid() && result.Valid()
      ensures result.Current() == Count(old(result.Current()), out)
      ensures Step(Tables(), out) == NotesStep(old(Tables()), txnId, notes, rowIdx)
      ensures minted == old(minted)
    {
      var t := TxnById(repo.txns, txnId);
      if t.None? {
        out := Failed;
      } else {
        var memo := NewMemo(t.value.memo, notes);
        var before := repo.txns;
        TxnIdsKept(before, MemoSet(before, txnId, memo));
        repo.txns := MemoSet(before, txnId, memo);
        out := Applied(OverrideAction("Transactions", rowIdx, "Override: Notes", txnId, t.value.memo, memo));
      }
      result.Record(out);
    }

    /** `_apply_merchant_override`. */
    method ApplyMerchant(txnId: string, merchant: string, rowIdx: nat, result: PollResult) returns (out: Outcome)
      requires Valid() && result.Valid()
      modifies this, repo, result
      ensures Valid() && result.Valid()
      ensures result.Current() == Count(old(result.Current()), out)
      ensures Step(Tables(), out) == MerchantStep(old(Tables()), txnId, merchant, rowIdx)
      ensures minted == old(minted)
    {
      var t := TxnById(repo.txns, txnId);
      if t.None? {
        out := Failed;
      } else {
        var before := repo.txns;
        TxnIdsKept(before, MerchantSet(before, txnId, merchant));
        repo.txns := MerchantSet(before, txnId, merchant);
        out := Applied(OverrideAction("Allocations", rowIdx, "Override: Merchant", txnId,
                                      t.value.normalizedDescription, merchant));
      }
      result.Record(out);
    }

    /** `_apply_category_override`. */
    method ApplyAllocCategory(allocId: string, category: string, rowIdx: nat, result: PollResult)
      returns (out: Outcome)
      requires Valid() && result.Valid()
      modifies this, repo, result
      ensures Valid() && result.Valid()
      ensures result.Current() == Count(old(result.Current()), out)
      ensures Step(Tables(), out) == AllocCategoryStep(old(Tables()), KnownIds(config), similarity, allocId, category, rowIdx)
      ensures minted == old(minted)
    {
      var a := AllocById(repo.allocs, allocId);
      if a.None? || !CategoryIdOk(category) {
        out := Failed;
        result.Record(out);
        return;
      }
      var v := Validate(category);
      if v.None? {
        out := Failed;
        result.Record(out);
        return;
      }
      var before := repo.allocs;
      AllocIdsKept(before, AllocCategorySet(before, allocId, v.value));
      repo.allocs := AllocCategorySet(before, allocId, v.value);
      out := Applied(OverrideAction("Allocations", rowIdx, "Override: Category", allocId,
                                    Some(a.value.categoryId), v.value));
      result.Record(out);
    }

    /** `_create_allocation_from_override`. */
    method CreateAllocation(txnId: string, category: string, rowIdx: nat, result: PollResult)
      returns (out: Outcome)
      requires Valid() && result.Valid()
      modifies this, repo, result
      ensures Valid() && result.Valid()
      ensures result.Current() == Count(old(result.Current()), out)
      ensures Step(Tables(), out) ==
        CreateAllocationStep(old(Tables()), KnownIds(config), similarity, txnId, category, newId(old(minted)), rowIdx)
      ensures minted == old(minted) + CreateMints(old(Tables()), KnownIds(config), similarity, txnId, category)
    {
      var t := TxnById(repo.txns, txnId);
      if t.None? || !CategoryIdOk(category) {
        out := Failed;
        result.Record(out);
        return;
      }
      var v := Validate(category);
      if v.None? {
        out := Failed;
        result.Record(out);
        return;
      }
      var id := FreshId();
      assert HasTransaction(repo.txns, t.value.id) by {
        var k :| 0 <= k < |repo.txns| && repo.txns[k] == t.value;
      }
      var ok := repo.InsertAllocation(UserAllocation(id, t.value, v.value));
      if !ok {
        out := Failed;
        result.Record(out);
        return;
      }
      repo.UpdateTransactionStatus(txnId, "categorized", Some(Some(1.0)), Some(Some("user_override")));
      out := Applied(OverrideAction("Review", rowIdx, "Override: Category", txnId, None, v.value));
      result.Record(out);
    }

    /** `_apply_txn_category_override`. */
    method ApplyTxnCategory(txnId: string, category: string, rowIdx: nat, result: PollResult)
      returns (out: Outcome)
      requires Valid() && result.Valid()
      modifies this, repo, result
      ensures Valid() && result.Valid()
      ensures result.Current() == Count(old(result.Current()), out)
      ensures Step(Tables(), out) ==
        TxnCategoryStep(old(Tables()), KnownIds(config), similarity, txnId, category, newId(old(minted)), rowIdx)
      ensures minted == old(minted) + TxnCategoryMints(old(Tables()), KnownIds(config), similarity, txnId, category)
    {
      if !CategoryIdOk(category) {
        out := Failed;
        result.Record(out);
        return;
      }
      var v := Validate(category);
      if v.None? {
        out := Failed;
        result.Record(out);
        return;
      }
      var allocs := AllocationsByTransaction(repo.allocs, txnId);
      if allocs != [] {
        out := ApplyAllocCategory(allocs[0].id, v.value, rowIdx, result);
      } else {
        out := CreateAllocation(txnId, v.value, rowIdx, result);
      }
    }

    /** `_apply_transfer_link`. */
    method ApplyTransferLink(txnId: string, linkedId: string, rowIdx: nat, result: PollResult)
      returns (out: Outcome)
      requires Valid() && result.Valid()
      modifies this, repo, result
      ensures Valid() && result.Valid()
      ensures result.Current() == Count(old(result.Current()), out)
      ensures Step(Tables(), out) == TransferLinkStep(old(Tables()), txnId, linkedId, newId(old(minted)), rowIdx)
      ensures minted == old(minted) + LinkMints(old(Tables()), txnId, linkedId)
    {
      var check := TransferLinkCheck(repo.txns, repo.transfers, txnId, linkedId);
      if check.Failure? {
        out := Failed;
        result.Record(out);
        return;
      }
      var id := FreshId();
      var ok := repo.InsertTransfer(UserTransfer(id, txnId, linkedId));
      if !ok {
        out := Failed;
      } else {
        out := Applied(OverrideAction("Transactions", rowIdx, "Override: Transfer Link", txnId, None, linkedId));
      }
      result.Record(out);
    }

    /** One override of a sheet row, handed to the apply method the poll loop calls for it. */
    method Apply(sheet: Sheet, txnId: string, allocId: string, o: Override, rowIdx: nat, result: PollResult)
      returns (out: Outcome)
      requires Valid() && result.Valid()
      modifies this, repo, result
      ensures Valid() && result.Valid()
      ensures result.Current() == Count(old(result.Current()), out)
      ensures Step(Tables(), out) ==
        OverrideStep(old(Tables()), KnownIds(config), similarity, sheet, txnId, allocId, o, newId(old(minted)), rowIdx)
      ensures minted == old(minted) + Mints(old(Tables()), KnownIds(config), similarity, sheet, txnId, allocId, o)
    {
      match o
      case Category(c) =>
        if sheet.TransactionsSheet? {
          out := ApplyTxnCategory(txnId, c, rowIdx, result);
        } else if sheet.AllocationsSheet? || allocId != "" {
          out := ApplyAllocCategory(allocId, c, rowIdx, result);
        } else {
          out := CreateAllocation(txnId, c, rowIdx, result);
        }
      case Merchant(m) =>
        out := ApplyMerchant(txnId, m, rowIdx, result);
      case Reviewed =>
        out := ApplyStatus(txnId, "reviewed", "Override: Reviewed", rowIdx, result);
      case TransferLink(l) =>
        out := ApplyTransferLink(txnId, l, rowIdx, result);
      case NeedsSplit =>
        out := ApplyStatus(txnId, "flagged", "Override: Needs Split", rowIdx, result);
      case Notes(n) =>
        out := ApplyNotes(txnId, n, rowIdx, result);
    }

    /** The overrides one data row asks for, applied in column order. */
    method PollRow(sheet: Sheet, row: seq<string>, rowIdx: nat, result: PollResult)
      requires Valid() && result.Valid()
      modifies this, repo, result
      ensures Valid() && result.Valid()
      ensures result.overridesApplied + result.errors ==
        old(result.overridesApplied + result.errors) + RowAttempts(sheet, row)
      ensures result.errors >= old(result.errors)
      ensures State(result) == RunRow(Env(), old(State(result)), sheet, row, rowIdx)
    {
      var read := ReadRow(sheet, row);
      if read.Some? {
        ApplyAll(sheet, read.value.txnId, read.value.allocId, read.value.overrides, rowIdx, result);
      }
    }

    /** The loop of a row's overrides: each is applied and counted, in order. */
    method ApplyAll(sheet: Sheet, txnId: string, allocId: string, todo: seq<Override>, rowIdx: nat, result: PollResult)
      requires Valid() && result.Valid()
      modifies this, repo, result
      ensures Valid() && result.Valid()
      ensures result.overridesApplied + result.errors == old(result.overridesApplied + result.errors) + |todo|
      ensures result.errors >= old(result.errors)
      ensures State(result) == RunOverrides(Env(), old(State(result)), sheet, txnId, allocId, todo, rowIdx)
    {
      var j := 0;
      while j < |todo|
        invariant 0 <= j <= |todo|
        invariant Valid() && result.Valid()
        invariant State(result) == RunOverrides(Env(), old(State(result)), sheet, txnId, allocId, todo[..j], rowIdx)
      {
        var _ := Apply(sheet, txnId, allocId, todo[j], rowIdx, result);
        assert todo[..j + 1][..j] == todo[..j];
        j := j + 1;
      }
      assert todo[..j] == todo;
      RunOverridesCounts(Env(), old(State(result)), sheet, txnId, allocId, todo, rowIdx);
    }

    /**
     * `_poll_transaction_overrides`, `_poll_allocation_overrides` and
     * `_poll_review_overrides` over the sheet's rows (header first): every
     * override asked for is counted once, as applied or as an error, and
     * the override columns are cleared exactly when the sheet has data rows
     * and added no error.
     */
    method PollSheet(sheet: Sheet, rows: seq<seq<string>>, result: PollResult) returns (clear: Option<ClearRequest>)
      requires Valid() && result.Valid()
      modifies this, repo, result
      ensures Valid() && result.Valid()
      ensures result.overridesApplied + result.errors ==
        old(result.overridesApplied + result.errors) + Attempts(sheet, rows)
      ensures result.errors >= old(result.errors)
      ensures clear.Some? <==> |rows| > 1 && result.errors == old(result.errors)
      ensures clear.Some? ==> clear == ClearRequestFor(|rows|, OverrideStart(sheet), OverrideWidth(sheet))
      ensures State(result) == RunSheet(Env(), old(State(result)), sheet, rows)
    {
      if |rows| <= 1 {
        return None;
      }
      var errorsBefore := result.errors;
      ghost var before := State(result);
      PollRows(sheet, rows, result);
      RunRowsCounts(Env(), before, sheet, rows, |rows|);
      if result.errors == errorsBefore {
        clear := ClearOverrideColumns(|rows|, OverrideStart(sheet), OverrideWidth(sheet));
      } else {
        clear := None;
      }
    }

    /** Every data row of a sheet, in order. */
    method PollRows(sheet: Sheet, rows: seq<seq<string>>, result: PollResult)
      requires Valid() && result.Valid()
      requires |rows| > 1
      modifies this, repo, result
      ensures Valid() && result.Valid()
      ensures State(result) == RunSheet(Env(), old(State(result)), sheet, rows)
    {
      var i := 1;
      while i < |rows|
        invariant 1 <= i <= |rows|
        invariant Valid() && result.Valid()
        invariant State(result) == RunRows(Env(), old(State(result)), sheet, rows, i)
      {
        PollNext(sheet, rows, i, old(State(result)), result);
        i := i + 1;
      }
    }

    /** Data row `rows[i]` after the ones before it. */
    method PollNext(sheet: Sheet, rows: seq<seq<string>>, i: nat, ghost start: PollState, result: PollResult)
      requires 1 <= i < |rows| && Valid() && result.Valid()
      requires State(result) == RunRows(Env(), start, sheet, rows, i)
      modifies this, repo, result
      ensures Valid() && result.Valid()
      ensures State(result) == RunRows(Env(), start, sheet, rows, i + 1)
    {
      ghost var before := State(result);
      PollRow(sheet, rows[i], i + 1, result);
      RunRowsNext(Env(), start, sheet, rows, i, before, State(result));
    }

    /**
     * `poll`: the Transactions, Allocations and Review sheets in turn (the
     * Review sheet may be missing). The counts cover every override asked
     * for; with no error, every sheet that has data rows is cleared.
     */
    method Poll(txnRows: seq<seq<string>>, allocRows: seq<seq<string>>, reviewRows: Option<seq<seq<string>>>)
      returns (result: PollResult, txnClear: Option<ClearRequest>, allocClear: Option<ClearRequest>,
               reviewClear: Option<ClearRequest>)
      requires Valid()
      modifies this, repo
      ensures Valid() && fresh(result) && result.Valid()
      ensures result.overridesApplied + result.errors ==
        Attempts(TransactionsSheet, txnRows) + Attempts(AllocationsSheet, allocRows) +
        (if reviewRows.Some? then Attempts(ReviewSheet, reviewRows.value) else 0)
      ensures txnClear.Some? ==> txnClear == ClearRequestFor(|txnRows|, 15, 6)
      ensures allocClear.Some? ==> allocClear == ClearRequestFor(|allocRows|, 8, 2)
      ensures reviewClear.Some? ==> reviewRows.Some? && reviewClear == ClearRequestFor(|reviewRows.value|, 21, 3)
      ensures result.errors == 0 ==>
        (txnClear.Some? <==> |txnRows| > 1) && (allocClear.Some? <==> |allocRows| > 1) &&
        (reviewClear.Some? <==> reviewRows.Some? && |reviewRows.value| > 1)
      ensures State(result) == RunPoll(Env(), old(Tables()), old(minted), txnRows, allocRows, reviewRows)
    {
      result := new PollResult();
      txnClear := PollSheet(TransactionsSheet, txnRows, result);
      allocClear := PollSheet(AllocationsSheet, allocRows, result);
      if reviewRows.Some? {
        reviewClear := PollSheet(ReviewSheet, reviewRows.value, result);
      } else {
        reviewClear := None;
      }
    }
  }
}

=== FILE: pipeline.dfy ===
/**
 * The categorisation pipeline: the fallback chain over one pending
 * transaction (transfer, interest, merchant auto, history, amount rule,
 * account rule, merchant high, receipt lookup, language model, manual
 * review), the business-account category filter applied to its answers,
 * the two writes that record a result (allocation first, status second),
 * the transfer link, and the run over all pending transactions.
 */
module Pipeline {
  import opened Wrappers
  import opened Text
  import opened Seqs
  import opened Dicts
  import opened Models
  import opened Config
  import opened Json
  import opened Repo
  import opened TransferDetect
  import opened MerchantMatch
  import opened Historical
  import opened AmountRules
  import opened ClaudeAi
  import opened Receipts

  /** Days within which a transfer's counterpart is looked for. */
  const LinkWindowDays: nat := 5
  const LinkConfidence: real := 0.9

  /** The categorisation methods a result can carry. */
  const KnownMethods: set<string> := {
    "transfer", "transfer_inferred", "interest_detection", "merchant_auto", "historical_pattern",
    "amount_rule", "account_rule", "merchant_high", "gmail_receipt", "claude_ai", "manual_review"}

  datatype CategorizeResult = CategorizeResult(
    categoryId: string,
    confidence: real,
    methodName: string,
    isTransfer: bool,
    transferType: Option<string>,
    fromAccount: Option<string>,
    toAccount: Option<string>,
    receiptResult: Option<ReceiptResult>)

  /** A result that is not a transfer and carries no receipt. */
  function Plain(categoryId: string, confidence: real, methodName: string): (r: CategorizeResult)
    ensures r.categoryId == categoryId && r.confidence == confidence && r.methodName == methodName
    ensures !r.isTransfer && r.transferType.None? && r.receiptResult.None?
  {
    CategorizeResult(categoryId, confidence, methodName, false, None, None, None, None)
  }

  // ── The business-account filter ────────────────────────

  /** `_is_compatible`: the id starts with a compatible prefix or is a compatible id. */
  predicate IsCompatible(categoryId: string, f: CategoryFilter) {
    (exists i :: 0 <= i < |f.compatiblePrefixes| && StartsWith(categoryId, f.compatiblePrefixes[i])) ||
    categoryId in f.compatibleIds
  }

  /**
   * `_apply_filter`: the id itself without a filter or when compatible,
   * otherwise the account's default category (the id itself when the
   * filter names none).
   */
  function ApplyFilter(categoryId: string, f: Option<CategoryFilter>): (r: string)
    ensures f.None? ==> r == categoryId
    ensures f.Some? && IsCompatible(categoryId, f.value) ==> r == categoryId
    ensures f.Some? && !IsCompatible(categoryId, f.value) ==> r == f.value.defaultCategory.GetOr(categoryId)
  {
    if f.None? || IsCompatible(categoryId, f.value) then categoryId
    else f.value.defaultCategory.GetOr(categoryId)
  }

  /** Filtering twice is filtering once. */
  lemma ApplyFilterIdempotent(categoryId: string, f: Option<CategoryFilter>)
    ensures ApplyFilter(ApplyFilter(categoryId, f), f) == ApplyFilter(categoryId, f)
  {
  }

  /**
   * What the filter lets through on a filtered account: a compatible id,
   * or else the account's default category; an id is replaced only when
   * it is incompatible.
   */
  lemma ApplyFilterLands(categoryId: string, f: CategoryFilter)
    ensures var r := ApplyFilter(categoryId, Some(f));
      IsCompatible(r, f) || (f.defaultCategory.Some? && r == f.defaultCategory.value) || r == categoryId
    ensures ApplyFilter(categoryId, Some(f)) != categoryId ==>
      !IsCompatible(categoryId, f) && f.defaultCategory == Some(ApplyFilter(categoryId, Some(f)))
  {
  }

  // ── Steps 1 to 5 ───────────────────────────────────────

  /**
   * The category of a detected transfer: its type's configured category;
   * for an unconfigured type the "internal-transfer" category or the
   * fallback, and "uncategorized" when that is empty.
   */
  function TransferCategory(c: Config, transferType: string): (r: string)
    ensures Get(c.transferCategories, transferType).Some? ==> r == Get(c.transferCategories, transferType).value
    ensures Get(c.transferCategories, transferType).None? ==> (r != "" &&
      (Get(c.transferCategories, "internal-transfer") == Some(r) ||
       (Get(c.transferCategories, "internal-transfer").None? && r == FallbackCategory(c)) ||
       r == "uncategorized"))
  {
    match Get(c.transferCategories, transferType)
    case Some(cat) => cat
    case None =>
      var generic := Get(c.transferCategories, "internal-transfer").GetOr(FallbackCategory(c));
      if generic == "" then "uncategorized" else generic
  }

  /** Step 1: a configured transfer pattern, else the bank's transfer payee; confidence 1. */
  function TransferStep(txn: Transaction, c: Config): (r: Option<CategorizeResult>)
    ensures r.Some? ==> r.value.isTransfer && r.value.confidence == 1.0 && r.value.receiptResult.None?
    ensures r.Some? ==> r.value.methodName in {"transfer", "transfer_inferred"}
    ensures r.Some? && r.value.methodName == "transfer" <==>
      DetectTransfer(txn.rawDescription, txn.accountId, c.transfers).Some?
    ensures r.None? <==> (DetectTransfer(txn.rawDescription, txn.accountId, c.transfers).None? &&
      DetectTransferByTxnType(txn.txnType, txn.rawDescription, txn.amount, txn.accountId, c).None?)
    ensures r.Some? ==> (r.value.transferType.Some? &&
      r.value.categoryId == TransferCategory(c, r.value.transferType.value))
  {
    var detected := DetectTransfer(txn.rawDescription, txn.accountId, c.transfers);
    var m := if detected.Some? then detected
             else DetectTransferByTxnType(txn.txnType, txn.rawDescription, txn.amount, txn.accountId, c);
    match m
    case None => None
    case Some(t) =>
      Some(CategorizeResult(TransferCategory(c, t.transferType), 1.0,
                            if detected.Some? then "transfer" else "transfer_inferred",
                            true, Some(t.transferType), Some(t.fromAccount), Some(t.toAccount), None))
  }

  /** Step 1b: the account's interest FITID suffix; confidence 1, not filtered. */
  function InterestStep(txn: Transaction, c: Config): (r: Option<CategorizeResult>)
    ensures r.Some? <==> DetectInterest(txn.externalId, txn.accountId, c).Some?
    ensures r.Some? ==> r.value == Plain(DetectInterest(txn.externalId, txn.accountId, c).value, 1.0, "interest_detection")
  {
    match DetectInterest(txn.externalId, txn.accountId, c)
    case Some(cat) => Some(Plain(cat, 1.0, "interest_detection"))
    case None => None
  }

  /** Step 2: an auto merchant, filtered. */
  function AutoStep(txn: Transaction, c: Config): (r: Option<CategorizeResult>)
    ensures r.Some? <==> MatchMerchantAuto(txn.rawDescription, c).Some?
    ensures r.Some? ==> r.value == Plain(ApplyFilter(MatchMerchantAuto(txn.rawDescription, c).value.categoryId,
                                                     CategoryFilterFor(c, txn.accountId)), 1.0, "merchant_auto")
    ensures r.Some? ==> r.value.confidence == 1.0
  {
    match MatchMerchantAuto(txn.rawDescription, c)
    case Some(m) => Some(Plain(ApplyFilter(m.categoryId, CategoryFilterFor(c, txn.accountId)), m.confidence, "merchant_auto"))
    case None => None
  }

  /** Step 2.5: the store's history for the normalised description, filtered. */
  function HistoryStep(txn: Transaction, c: Config, history: Option<(seq<Transaction>, seq<Allocation>)>)
    : (r: Option<CategorizeResult>)
    ensures r.Some? <==> MatchHistorical(txn.normalizedDescription, txn.amount, history).Some?
    ensures r.Some? ==> var m := MatchHistorical(txn.normalizedDescription, txn.amount, history).value;
      r.value == Plain(ApplyFilter(m.categoryId, CategoryFilterFor(c, txn.accountId)), m.confidence, "historical_pattern")
  {
    match MatchHistorical(txn.normalizedDescription, txn.amount, history)
    case Some(m) => Some(Plain(ApplyFilter(m.categoryId, CategoryFilterFor(c, txn.accountId)), m.confidence, "historical_pattern"))
    case None => None
  }

  /** Step 3: an amount rule for the description on this account, filtered. */
  function AmountStep(txn: Transaction, c: Config): (r: Option<CategorizeResult>)
    ensures r.Some? <==> MatchAmountRule(txn.rawDescription, txn.amount, c.amountRules, Some(txn.accountId)).Some?
    ensures r.Some? ==> var m := MatchAmountRule(txn.rawDescription, txn.amount, c.amountRules, Some(txn.accountId)).value;
      r.value == Plain(ApplyFilter(m.categoryId, CategoryFilterFor(c, txn.accountId)), m.confidence, "amount_rule")
  {
    match MatchAmountRule(txn.rawDescription, txn.amount, c.amountRules, Some(txn.accountId))
    case Some(m) => Some(Plain(ApplyFilter(m.categoryId, CategoryFilterFor(c, txn.accountId)), m.confidence, "amount_rule"))
    case None => None
  }

  /** Step 4: the account's rule, filtered. */
  function AccountStep(txn: Transaction, c: Config): (r: Option<CategorizeResult>)
    ensures r.Some? <==> MatchAccountRule(txn.accountId, c.accountRules).Some?
    ensures r.Some? ==> var m := MatchAccountRule(txn.accountId, c.accountRules).value;
      r.value == Plain(ApplyFilter(m.categoryId, CategoryFilterFor(c, txn.accountId)), m.confidence, "account_rule")
  {
    match MatchAccountRule(txn.accountId, c.accountRules)
    case Some(m) => Some(Plain(ApplyFilter(m.categoryId, CategoryFilterFor(c, txn.accountId)), m.confidence, "account_rule"))
    case None => None
  }

  /** Step 5: a high-confidence merchant, filtered. */
  function HighStep(txn: Transaction, c: Config): (r: Option<CategorizeResult>)
    ensures r.Some? <==> MatchMerchantHigh(txn.rawDescription, c).Some?
    ensures r.Some? ==> var m := MatchMerchantHigh(txn.rawDescription, c).value;
      r.value == Plain(ApplyFilter(m.categoryId, CategoryFilterFor(c, txn.accountId)), m.confidence, "merchant_high")
  {
    match MatchMerchantHigh(txn.rawDescription, c)
    case Some(m) => Some(Plain(ApplyFilter(m.categoryId, CategoryFilterFor(c, txn.accountId)), m.confidence, "merchant_high"))
    case None => None
  }

  /**
   * The answers of steps 1 to 5 in priority order. `history` is the
   * store's transactions and allocations (None without a store).
   */
  function StepAnswers(txn: Transaction, c: Config, history: Option<(seq<Transaction>, seq<Allocation>)>)
    : seq<Option<CategorizeResult>>
  {
    [TransferStep(txn, c), InterestStep(txn, c), AutoStep(txn, c), HistoryStep(txn, c, history),
     AmountStep(txn, c), AccountStep(txn, c), HighStep(txn, c)]
  }

  /** The method each of steps 1b to 5 reports. */
  const StepMethods: seq<string> :=
    ["transfer", "interest_detection", "merchant_auto", "historical_pattern", "amount_rule", "account_rule", "merchant_high"]

  lemma StepAnswerMethods(txn: Transaction, c: Config, history: Option<(seq<Transaction>, seq<Allocation>)>, i: nat)
    requires 1 <= i < 7 && StepAnswers(txn, c, history)[i].Some?
    ensures var a := StepAnswers(txn, c, history)[i].value;
      a.methodName == StepMethods[i] && !a.isTransfer && a.receiptResult.None?
  {
    var a := StepAnswers(txn, c, history);
    if i == 1 {
      assert a[1] == InterestStep(txn, c);
    } else if i == 2 {
      assert a[2] == AutoStep(txn, c);
    } else if i == 3 {
      assert a[3] == HistoryStep(txn, c, history);
    } else if i == 4 {
      assert a[4] == AmountStep(txn, c);
    } else if i == 5 {
      assert a[5] == AccountStep(txn, c);
    } else {
      assert a[6] == HighStep(txn, c);
    }
  }

  /** Steps 1 to 5: the first step that answers. */
  function RuleSteps(txn: Transaction, c: Config, history: Option<(seq<Transaction>, seq<Allocation>)>)
    : (r: Option<CategorizeResult>)
    ensures var a := StepAnswers(txn, c, history);
      r.None? <==> forall i :: 0 <= i < 7 ==> a[i].None?
    ensures var a := StepAnswers(txn, c, history);
      r.Some? ==> exists i :: 0 <= i < 7 && a[i].Some? && r == a[i] && forall j :: 0 <= j < i ==> a[j].None?
  {
    var a := StepAnswers(txn, c, history);
    assert |a| == 7;
    match FirstIndex(a, Answered)
    case None => None
    case Some(i) => a[i]
  }

  predicate Answered(x: Option<CategorizeResult>) { x.Some? }

  /** The step whose answer steps 1 to 5 give. */
  lemma RuleStepsFirst(txn: Transaction, c: Config, history: Option<(seq<Transaction>, seq<Allocation>)>)
    returns (i: nat)
    requires RuleSteps(txn, c, history).Some?
    ensures var a := StepAnswers(txn, c, history);
      i < 7 && a[i].Some? && RuleSteps(txn, c, history) == a[i] && forall j :: 0 <= j < i ==> a[j].None?
  {
    i := FirstIndex(StepAnswers(txn, c, history), Answered).value;
  }

  /**
   * The answer of steps 1 to 5 is a transfer exactly when step 1 answers;
   * its method is a known one, and merchant, history and rule answers
   * carry a category the account's filter lets through.
   */
  lemma RuleStepsFacts(txn: Transaction, c: Config, history: Option<(seq<Transaction>, seq<Allocation>)>)
    requires RuleSteps(txn, c, history).Some?
    ensures var r := RuleSteps(txn, c, history).value;
      (r.isTransfer <==> TransferStep(txn, c).Some?) &&
      (r.isTransfer <==> r.methodName in {"transfer", "transfer_inferred"}) &&
      r.methodName in KnownMethods && r.receiptResult.None?
  {
    var a := StepAnswers(txn, c, history);
    var i := RuleStepsFirst(txn, c, history);
    assert a[0] == TransferStep(txn, c);
    if i > 0 {
      StepAnswerMethods(txn, c, history, i);
      StepMethodKnown(i);
      assert a[0].None?;
    }
  }

  /** Steps 6 to 8 report known, non-transfer methods. */
  lemma LateMethodsKnown()
    ensures forall m :: m in {"gmail_receipt", "claude_ai", "manual_review"} ==>
      m in KnownMethods && m !in {"transfer", "transfer_inferred"}
  {
  }

  /** Steps 1b to 5 report known, non-transfer methods. */
  lemma StepMethodKnown(i: nat)
    requires 1 <= i < 7
    ensures StepMethods[i] in KnownMethods && StepMethods[i] !in {"transfer", "transfer_inferred"}
  {
  }

  // ── Steps 6 to 8 ───────────────────────────────────────

  /** Step 6's answer: the first item's category (the fallback without one), filtered. */
  function ReceiptCategorization(res: ReceiptResult, c: Config, f: Option<CategoryFilter>): (r: CategorizeResult)
    ensures r.methodName == "gmail_receipt" && r.confidence == res.confidence && !r.isTransfer
    ensures r.receiptResult == Some(res)
    ensures res.items != [] && HasText(res.items[0].categoryId) ==>
      r.categoryId == ApplyFilter(res.items[0].categoryId.value, f)
    ensures res.items == [] || !HasText(res.items[0].categoryId) ==>
      r.categoryId == ApplyFilter(FallbackCategory(c), f)
  {
    var primary := if res.items != [] && HasText(res.items[0].categoryId) then res.items[0].categoryId.value
                   else FallbackCategory(c);
    CategorizeResult(ApplyFilter(primary, f), res.confidence, "gmail_receipt", false, None, None, None, Some(res))
  }

  /** Step 8: the fallback category, confidence 0, for review. */
  function ManualReview(c: Config): (r: CategorizeResult)
    ensures r.methodName == "manual_review" && r.categoryId == FallbackCategory(c) && r.confidence == 0.0
    ensures !r.isTransfer && r.receiptResult.None?
  {
    Plain(FallbackCategory(c), 0.0, "manual_review")
  }

  /**
   * Step 7 and its fall-through to step 8, as seen from the usage before
   * and after it: `reply` is None without a model, Some(None) when the
   * call raised.
   */
  predicate ModelStage(r: CategorizeResult, after: seq<ApiUsage>, before: seq<ApiUsage>, txn: Transaction,
                       c: Config, reply: Option<Option<string>>, decode: string -> Option<Json>, usageId: string)
  {
    var f := CategoryFilterFor(c, txn.accountId);
    if reply.None? || !Asks(before, txn) || reply.value.None? then r == ManualReview(c) && after == before
    else
      after == UsageUpsert(before, usageId, MonthOf(txn.date), CategorizeService, 1, 0, 0, CategorizeCostCents) &&
      match ParseResponse(reply.value.value, decode, c)
      case Some(cc) => r == Plain(ApplyFilter(cc.categoryId, f), cc.confidence, "claude_ai")
      case None => r == ManualReview(c)
  }

  /** The I/O of one receipt lookup: the mail search and fetches, the model's replies, and the usage-row ids. */
  datatype ReceiptIo = ReceiptIo(
    search: Option<seq<string>>,
    fetch: string -> string,
    replies: string -> Option<string>,
    gmailUsageId: string,
    usageId: string)

  function LookupSpec(txn: Transaction, io: ReceiptIo, cache: map<string, ParsedReceipt>, usage: seq<ApiUsage>,
                      hasClaude: bool, config: Option<Config>, decode: string -> Option<Json>): Resolution
  {
    ResolveSpec(txn, io.search, io.fetch, cache, usage, hasClaude, io.replies, decode,
                ValidReceiptCategories(config), io.gmailUsageId, io.usageId)
  }

  /** What the receipt lookup brings to a categorisation: its model switch, its configuration, and its cache before and after. */
  datatype LookupView = LookupView(hasClaude: bool, config: Option<Config>,
                                   cacheBefore: map<string, ParsedReceipt>, cacheAfter: map<string, ParsedReceipt>)

  /** The view of a lookup (None without one) between two caches. */
  function ViewOf(lookup: Option<ReceiptLookup>, before: map<string, ParsedReceipt>, after: map<string, ParsedReceipt>)
    : (v: Option<LookupView>)
    ensures v.Some? <==> lookup.Some?
  {
    if lookup.Some? then Some(LookupView(lookup.value.hasClaude, lookup.value.config, before, after)) else None
  }

  /**
   * `categorize_transaction` from the store `before` to the store `after`:
   * only the transactions and the usage may change. The first of steps 1
   * to 5 that answers is the result, read against the store's history,
   * and nothing is written; else the receipt lookup when there is one
   * (which records its lookup status, usage and cache), a match
   * answering; else the model stage.
   */
  predicate Categorized(r: CategorizeResult, before: Db, after: Db, lk: Option<LookupView>, txn: Transaction, c: Config,
                        io: ReceiptIo, reply: Option<Option<string>>, decode: string -> Option<Json>, modelUsageId: string)
  {
    after.imports == before.imports && after.allocs == before.allocs &&
    after.transfers == before.transfers && after.receiptMatches == before.receiptMatches &&
    var rules := RuleSteps(txn, c, Some((before.txns, before.allocs)));
    if rules.Some? then
      r == rules.value && after.txns == before.txns && after.usage == before.usage &&
      (lk.Some? ==> lk.value.cacheAfter == lk.value.cacheBefore)
    else if lk.Some? then
      var spec := LookupSpec(txn, io, lk.value.cacheBefore, before.usage, lk.value.hasClaude, lk.value.config, decode);
      lk.value.cacheAfter == spec.state.cache &&
      after.txns == (if spec.status.Some? then LookupStatusSet(before.txns, txn.id, spec.status.value) else before.txns) &&
      (spec.result.Some? ==> r == ReceiptCategorization(spec.result.value, c, CategoryFilterFor(c, txn.accountId)) &&
                             after.usage == spec.state.usage) &&
      (spec.result.None? ==> ModelStage(r, after.usage, spec.state.usage, txn, c, reply, decode, modelUsageId))
    else
      after.txns == before.txns && ModelStage(r, after.usage, before.usage, txn, c, reply, decode, modelUsageId)
  }

  /**
   * `categorize_transaction` (the store is always present): the first of
   * steps 1 to 5 that answers, read against the store's current history
   * and writing nothing; else the receipt lookup when there is one
   * (which records its lookup status, usage and cache), a match answering;
   * else the model when there is one; else manual review.
   */
  method CategorizeTransaction(repo: Repository, lookup: Option<ReceiptLookup>, txn: Transaction, c: Config,
                               io: ReceiptIo, reply: Option<Option<string>>, decode: string -> Option<Json>,
                               modelUsageId: string)
    returns (r: CategorizeResult)
    requires repo.Valid()
    requires lookup.Some? ==> lookup.value.repo == repo
    modifies repo, if lookup.Some? then {lookup.value} else {}
    ensures repo.Valid()
    ensures r.methodName in KnownMethods
    ensures r.isTransfer <==> r.methodName in {"transfer", "transfer_inferred"}
    ensures r.receiptResult.Some? ==> r.methodName == "gmail_receipt"
    ensures Categorized(r, old(repo.Snapshot()), repo.Snapshot(),
                        ViewOf(lookup, if lookup.Some? then old(lookup.value.cache) else map[],
                               if lookup.Some? then lookup.value.cache else map[]),
                        txn, c, io, reply, decode, modelUsageId)
  {
    var f := CategoryFilterFor(c, txn.accountId);
    LateMethodsKnown();
    var rules := RuleSteps(txn, c, Some((repo.txns, repo.allocs)));
    if rules.Some? {
      RuleStepsFacts(txn, c, Some((repo.txns, repo.allocs)));
      return rules.value;
    }
    if lookup.Some? {
      var res := lookup.value.Resolve(txn, io.search, io.fetch, io.replies, decode, io.gmailUsageId, io.usageId);
      ResolveStatuses(txn, io.search, io.fetch, old(lookup.value.cache), old(repo.usage), lookup.value.hasClaude,
                      io.replies, decode, ValidReceiptCategories(lookup.value.config), io.gmailUsageId, io.usageId);
      if res.Some? && res.value.matched {
        return ReceiptCategorization(res.value, c, f);
      }
    }
    r := ModelStep(repo, txn, c, reply, decode, modelUsageId);
  }

  /** Steps 7 and 8. */
  method ModelStep(repo: Repository, txn: Transaction, c: Config, reply: Option<Option<string>>,
                   decode: string -> Option<Json>, modelUsageId: string)
    returns (r: CategorizeResult)
    requires repo.Valid()
    modifies repo
    ensures repo.Valid()
    ensures repo.imports == old(repo.imports) && repo.txns == old(repo.txns) && repo.allocs == old(repo.allocs)
    ensures repo.transfers == old(repo.transfers) && repo.receiptMatches == old(repo.receiptMatches)
    ensures r.methodName in {"claude_ai", "manual_review"} && !r.isTransfer && r.receiptResult.None?
    ensures ModelStage(r, repo.usage, old(repo.usage), txn, c, reply, decode, modelUsageId)
  {
    if reply.Some? {
      var suggestion, _ := CategorizeSingle(repo, txn, c, reply.value, decode, modelUsageId);
      if suggestion.Some? {
        return Plain(ApplyFilter(suggestion.value.categoryId, CategoryFilterFor(c, txn.accountId)),
                     suggestion.value.confidence, "claude_ai");
      }
    }
    r := ManualReview(c);
  }

  // ── Recording a result ─────────────────────────────────

  /** "categorized" for every method but manual review, which is "flagged". */
  function StatusFor(methodName: string): (s: string)
    ensures s == "flagged" <==> methodName == "manual_review"
    ensures s == "categorized" <==> methodName != "manual_review"
  {
    if methodName != "manual_review" then "categorized" else "flagged"
  }

  /** The single allocation of a result: the whole amount under the result's category, source "auto". */
  function AutoAllocation(txn: Transaction, result: CategorizeResult, allocId: string): (a: Allocation)
    ensures a.id == allocId && a.transactionId == txn.id && a.categoryId == result.categoryId
    ensures a.amount == txn.amount && a.source == "auto" && a.confidence == Some(result.confidence)
    ensures a.memo.None? && a.tags.None?
  {
    Allocation(allocId, txn.id, result.categoryId, txn.amount, None, None, "auto", Some(result.confidence))
  }

  /** The ids drawn for `n` item allocations. */
  function ItemIds(ids: nat -> string, n: nat): (r: seq<string>)
    ensures |r| == n && forall k :: 0 <= k < n ==> r[k] == ids(k)
  {
    seq(n, k requires 0 <= k < n => ids(k))
  }

  /**
   * The direction of a transfer link: the detected accounts decide when
   * the transaction is on one of them; otherwise an outflow is the "from"
   * side.
   */
  function LinkDirection(txn: Transaction, result: CategorizeResult, otherId: string): (r: (string, string))
    ensures r == (txn.id, otherId) || r == (otherId, txn.id)
    ensures HasText(result.fromAccount) && HasText(result.toAccount) && txn.accountId == result.fromAccount.value ==>
      r == (txn.id, otherId)
    ensures (HasText(result.fromAccount) && HasText(result.toAccount) && txn.accountId != result.fromAccount.value &&
             txn.accountId == result.toAccount.value) ==> r == (otherId, txn.id)
    ensures !(HasText(result.fromAccount) && HasText(result.toAccount) &&
              (txn.accountId == result.fromAccount.value || txn.accountId == result.toAccount.value)) ==>
      r == (if txn.amount < 0 then (txn.id, otherId) else (otherId, txn.id))
  {
    var bySign := if txn.amount < 0 then (txn.id, otherId) else (otherId, txn.id);
    if HasText(result.fromAccount) && HasText(result.toAccount) then
      if txn.accountId == result.fromAccount.value then (txn.id, otherId)
      else if txn.accountId == result.toAccount.value then (otherId, txn.id)
      else bySign
    else bySign
  }

  /**
   * `_try_link_transfer` as a function of the tables: nothing when the
   * transaction is already linked or has no counterpart; otherwise a link
   * with the nearest candidate.
   */
  function LinkFor(txns: seq<Transaction>, transfers: seq<Transfer>, txn: Transaction, result: CategorizeResult,
                   transferId: string): (r: Option<Transfer>)
    ensures txn.id in LinkedIds(transfers) ==> r.None?
    ensures FindTransferCandidates(txns, transfers, txn, LinkWindowDays) == [] ==> r.None?
    ensures txn.id !in LinkedIds(transfers) && FindTransferCandidates(txns, transfers, txn, LinkWindowDays) != [] ==>
      r == Some(LinkWith(txn, result, FindTransferCandidates(txns, transfers, txn, LinkWindowDays)[0], transferId))
  {
    if TransferByTransaction(transfers, txn.id).Some? then None
    else
      var candidates := FindTransferCandidates(txns, transfers, txn, LinkWindowDays);
      if candidates == [] then None
      else Some(LinkWith(txn, result, candidates[0], transferId))
  }

  /** The transfer row linking the transaction with a counterpart. */
  function LinkWith(txn: Transaction, result: CategorizeResult, cp: Transaction, transferId: string): (r: Transfer)
    ensures r.id == transferId && r.matchMethod == "pattern_auto_link" && r.confidence == Some(LinkConfidence)
    ensures r.transferType != ""
    ensures (r.fromTransactionId, r.toTransactionId) == LinkDirection(txn, result, cp.id)
  {
    var (from, to) := LinkDirection(txn, result, cp.id);
    Transfer(transferId, from, to,
             if HasText(result.transferType) then result.transferType.value else "internal-transfer",
             "pattern_auto_link", Some(LinkConfidence))
  }

  /**
   * A link joins the transaction with its nearest unlinked counterpart: the
   * opposite amount, on another account.
   */
  lemma LinkForCounterpart(txns: seq<Transaction>, transfers: seq<Transfer>, txn: Transaction,
                           result: CategorizeResult, transferId: string)
    requires LinkFor(txns, transfers, txn, result, transferId).Some?
    ensures var cp := FindTransferCandidates(txns, transfers, txn, LinkWindowDays)[0];
      txn.id !in LinkedIds(transfers) && cp.id !in LinkedIds(transfers) &&
      cp.amount == -txn.amount && cp.accountId != txn.accountId &&
      LinkFor(txns, transfers, txn, result, transferId) == Some(LinkWith(txn, result, cp, transferId))
  {
    var candidates := FindTransferCandidates(txns, transfers, txn, LinkWindowDays);
    assert candidates[0] in candidates;
    CandidateMirrors(txns, transfers, txn, LinkWindowDays, candidates[0]);
  }

  /**
   * The link has the transaction on one side and the counterpart on the
   * other; without both detected accounts, the "from" side is the
   * outflow: the side whose amount is not positive.
   */
  lemma LinkWithSides(txn: Transaction, result: CategorizeResult, cp: Transaction, transferId: string)
    requires cp.amount == -txn.amount
    ensures var link := LinkWith(txn, result, cp, transferId);
      ((link.fromTransactionId == txn.id && link.toTransactionId == cp.id) ||
       (link.fromTransactionId == cp.id && link.toTransactionId == txn.id))
    ensures var link := LinkWith(txn, result, cp, transferId);
      txn.id != cp.id && (!HasText(result.fromAccount) || !HasText(result.toAccount)) ==>
        (link.fromTransactionId == txn.id ==> txn.amount < 0) &&
        (link.fromTransactionId == cp.id ==> cp.amount <= 0)
  {
  }

  /** A receipt result that the lookup records rather than the pipeline. */
  predicate ViaLookup(result: CategorizeResult, hasLookup: bool) {
    result.methodName == "gmail_receipt" && result.receiptResult.Some? && hasLookup
  }

  /**
   * `apply_categorization` from the store `before` to the store `after`
   * (`ok` false where the source raises): the imports and the usage never
   * change. A receipt result with a lookup writes its match row, then one
   * allocation per item and the status, unless the transaction already
   * had allocations. Otherwise the allocation is written first and the
   * status only if that succeeded (the store refuses an allocation whose
   * id is taken or whose transaction is not stored); a transfer with a type then links its
   * counterpart when one is found and the new transfer id is free.
   */
  predicate Recorded(before: Db, after: Db, ok: bool, txn: Transaction, result: CategorizeResult, hasLookup: bool,
                     allocId: string, transferId: string, matchId: string, itemAllocIds: nat -> string, itemsJson: string)
  {
    after.imports == before.imports && after.usage == before.usage &&
    if ViaLookup(result, hasLookup) then
      var res := result.receiptResult.value;
      var ids := ItemIds(itemAllocIds, |res.items|);
      after.transfers == before.transfers &&
      (!res.matched || res.items == [] ==>
        ok && after.txns == before.txns && after.allocs == before.allocs && after.receiptMatches == before.receiptMatches) &&
      (ok && res.matched && res.items != [] ==>
        after.receiptMatches == before.receiptMatches + [ReceiptMatchRow(matchId, txn, res, itemsJson)]) &&
      (ok && res.matched && res.items != [] && AllocationsByTransaction(before.allocs, txn.id) != [] ==>
        after.allocs == before.allocs && after.txns == before.txns) &&
      (ok && res.matched && res.items != [] && AllocationsByTransaction(before.allocs, txn.id) == [] ==>
        after.allocs == before.allocs + ReceiptAllocations(txn, res, ids) &&
        after.txns == StatusUpdated(before.txns, txn.id, "categorized", Some(Some(res.confidence)),
                                    Some(Some("gmail_receipt")))) &&
      (!ok ==> after.txns == before.txns)
    else
      after.receiptMatches == before.receiptMatches &&
      (ok <==> (forall i :: 0 <= i < |before.allocs| ==> before.allocs[i].id != allocId) &&
               HasTransaction(before.txns, txn.id)) &&
      (!ok ==> after.txns == before.txns && after.allocs == before.allocs && after.transfers == before.transfers) &&
      (ok ==>
        after.allocs == before.allocs + [AutoAllocation(txn, result, allocId)] &&
        after.txns == StatusUpdated(before.txns, txn.id, StatusFor(result.methodName),
                                    Some(Some(result.confidence)), Some(Some(result.methodName))) &&
        var link := if result.isTransfer && HasText(result.transferType)
                    then LinkFor(after.txns, before.transfers, txn, result, transferId) else None;
        after.transfers == (if link.Some? && forall i :: 0 <= i < |before.transfers| ==> before.transfers[i].id != transferId
                            then before.transfers + [link.value] else before.transfers))
  }

  /**
   * `apply_categorization`. A receipt result with a lookup is recorded by
   * the lookup. Otherwise the allocation is written first and the status
   * only after it succeeded (`ok` is false, and the status untouched, when
   * the allocation was refused); a transfer with a type then tries to link
   * its counterpart, a refused link being ignored.
   */
  method ApplyCategorization(repo: Repository, lookup: Option<ReceiptLookup>, txn: Transaction,
                             result: CategorizeResult, allocId: string, transferId: string, matchId: string,
                             itemAllocIds: nat -> string, itemsJson: string)
    returns (ok: bool)
    requires repo.Valid()
    requires lookup.Some? ==> lookup.value.repo == repo
    modifies repo
    ensures repo.Valid()
    ensures Recorded(old(repo.Snapshot()), repo.Snapshot(), ok, txn, result, lookup.Some?,
                     allocId, transferId, matchId, itemAllocIds, itemsJson)
  {
    if result.methodName == "gmail_receipt" && result.receiptResult.Some? && lookup.Some? {
      var res := result.receiptResult.value;
      var ids := ItemIds(itemAllocIds, |res.items|);
      ok := lookup.value.ApplyResult(txn, res, matchId, ids, itemsJson);
      return;
    }
    ok := repo.InsertAllocation(AutoAllocation(txn, result, allocId));
    if !ok {
      return;
    }
    repo.UpdateTransactionStatus(txn.id, StatusFor(result.methodName), Some(Some(result.confidence)),
                                 Some(Some(result.methodName)));
    if result.isTransfer && HasText(result.transferType) {
      TryLinkTransfer(repo, txn, result, transferId);
    }
  }

  /** `_try_link_transfer` on the store; a refused insert leaves the transfers as they were. */
  method TryLinkTransfer(repo: Repository, txn: Transaction, result: CategorizeResult, transferId: string)
    requires repo.Valid()
    modifies repo
    ensures repo.Valid()
    ensures repo.imports == old(repo.imports) && repo.txns == old(repo.txns) && repo.allocs == old(repo.allocs)
    ensures repo.receiptMatches == old(repo.receiptMatches) && repo.usage == old(repo.usage)
    ensures var link := LinkFor(old(repo.txns), old(repo.transfers), txn, result, transferId);
      repo.transfers == (if link.Some? && forall i :: 0 <= i < |old(repo.transfers)| ==> old(repo.transfers)[i].id != transferId
                         then old(repo.transfers) + [link.value] else old(repo.transfers))
  {
    var existing := TransferByTransaction(repo.transfers, txn.id);
    if existing.Some? {
      return;
    }
    var candidates := FindTransferCandidates(repo.txns, repo.transfers, txn, LinkWindowDays);
    if candidates == [] {
      return;
    }
    var (from, to) := LinkDirection(txn, result, candidates[0].id);
    var kind := if HasText(result.transferType) then result.transferType.value else "internal-transfer";
    var _ := repo.InsertTransfer(Transfer(transferId, from, to, kind, "pattern_auto_link", Some(LinkConfidence)));
  }

  // ── The run ────────────────────────────────────────────

  datatype PipelineResult = PipelineResult(total: nat, methodCounts: Dict<string, nat>, transferCount: nat)

  function CountsTotal(d: Dict<string, nat>): nat {
    if d == [] then 0 else d[0].1 + CountsTotal(d[1..])
  }

  /** `method_counts[m] = method_counts.get(m, 0) + 1`. */
  function Bump(d: Dict<string, nat>, m: string): Dict<string, nat> {
    Put(d, m, Get(d, m).GetOr(0) + 1)
  }

  function CountOf(d: Dict<string, nat>, m: string): nat { Get(d, m).GetOr(0) }

  /** Counting a method adds one to the total and to that method's count only. */
  lemma {:induction false} BumpCounts(d: Dict<string, nat>, m: string)
    ensures CountsTotal(Bump(d, m)) == CountsTotal(d) + 1
    ensures forall k :: CountOf(Bump(d, m), k) == CountOf(d, k) + (if k == m then 1 else 0)
    ensures forall k :: k in Keys(Bump(d, m)) <==> k in Keys(d) || k == m
  {
    forall k ensures CountOf(Bump(d, m), k) == CountOf(d, k) + (if k == m then 1 else 0) {
      PutGet(d, m, Get(d, m).GetOr(0) + 1, k);
    }
    if d != [] && d[0].0 != m {
      BumpCounts(d[1..], m);
      assert Bump(d, m) == [d[0]] + Bump(d[1..], m);
    }
  }

  /** The loop facts of `categorize_pending` survive counting one more answer. */
  lemma BumpKeeps(d: Dict<string, nat>, m: string)
    requires UniqueKeys(d) && m in KnownMethods
    requires forall k :: k in Keys(d) ==> k in KnownMethods
    ensures UniqueKeys(Bump(d, m))
    ensures forall k :: k in Keys(Bump(d, m)) ==> k in KnownMethods
    ensures CountsTotal(Bump(d, m)) == CountsTotal(d) + 1
    ensures CountOf(Bump(d, m), "transfer") + CountOf(Bump(d, m), "transfer_inferred") ==
      CountOf(d, "transfer") + CountOf(d, "transfer_inferred") + (if m in {"transfer", "transfer_inferred"} then 1 else 0)
  {
    BumpCounts(d, m);
    PutUnique(d, m, Get(d, m).GetOr(0) + 1);
    assert CountOf(Bump(d, m), "transfer") == CountOf(d, "transfer") + (if m == "transfer" then 1 else 0);
    assert CountOf(Bump(d, m), "transfer_inferred") ==
      CountOf(d, "transfer_inferred") + (if m == "transfer_inferred" then 1 else 0);
  }

  /** The per-transaction inputs of a run: the receipt I/O and the model's reply, and the ids of new rows. */
  datatype TxnInputs = TxnInputs(
    io: ReceiptIo,
    reply: Option<Option<string>>,
    modelUsageId: string,
    allocId: string,
    transferId: string,
    matchId: string,
    itemAllocIds: nat -> string,
    itemsJson: string)

  /** The cache of a lookup (empty without one). */
  function CacheOf(lookup: Option<ReceiptLookup>): map<string, ParsedReceipt>
    reads if lookup.Some? then {lookup.value} else {}
  {
    if lookup.Some? then lookup.value.cache else map[]
  }

  /**
   * One pass of the run: categorise the transaction, then record the
   * result; `mid` is the store between the two.
   */
  method ProcessOne(repo: Repository, lookup: Option<ReceiptLookup>, txn: Transaction, c: Config,
                    in_: TxnInputs, decode: string -> Option<Json>)
    returns (ok: bool, result: CategorizeResult, ghost mid: Db)
    requires repo.Valid()
    requires lookup.Some? ==> lookup.value.repo == repo
    modifies repo, if lookup.Some? then {lookup.value} else {}
    ensures repo.Valid()
    ensures repo.imports == old(repo.imports)
    ensures result.methodName in KnownMethods
    ensures result.isTransfer <==> result.methodName in {"transfer", "transfer_inferred"}
    ensures Categorized(result, old(repo.Snapshot()), mid, ViewOf(lookup, old(CacheOf(lookup)), CacheOf(lookup)),
                        txn, c, in_.io, in_.reply, decode, in_.modelUsageId)
    ensures Recorded(mid, repo.Snapshot(), ok, txn, result, lookup.Some?,
                     in_.allocId, in_.transferId, in_.matchId, in_.itemAllocIds, in_.itemsJson)
  {
    result := CategorizeTransaction(repo, lookup, txn, c, in_.io, in_.reply, decode, in_.modelUsageId);
    mid := repo.Snapshot();
    ok := ApplyCategorization(repo, lookup, txn, result, in_.allocId, in_.transferId, in_.matchId,
                              in_.itemAllocIds, in_.itemsJson);
  }

  /** One pass of the run: the transaction, the answer it got, and whether that answer was recorded. */
  datatype Pass = Pass(txn: Transaction, result: CategorizeResult, ok: bool)

  /** The passes ran in the order of `ts`, the i-th over `ts[i]`. */
  predicate Chained(passes: seq<Pass>, ts: seq<Transaction>) {
    |passes| <= |ts| && forall i :: 0 <= i < |passes| ==> passes[i].txn == ts[i]
  }

  /** The method counts of the passes, counted in order. */
  function MethodCounts(passes: seq<Pass>): Dict<string, nat> {
    if passes == [] then [] else Bump(MethodCounts(passes[..|passes| - 1]), passes[|passes| - 1].result.methodName)
  }

  /** How many passes answered with a transfer. */
  function TransferPasses(passes: seq<Pass>): nat {
    if passes == [] then 0
    else TransferPasses(passes[..|passes| - 1]) + (if passes[|passes| - 1].result.isTransfer then 1 else 0)
  }

  /** Every pass answered with a known method, and flagged a transfer exactly for the transfer methods. */
  predicate KnownAnswers(passes: seq<Pass>) {
    forall k :: 0 <= k < |passes| ==>
      passes[k].result.methodName in KnownMethods &&
      (passes[k].result.isTransfer <==> passes[k].result.methodName in {"transfer", "transfer_inferred"})
  }

  /** The counts of known answers have one entry per method, add up to the passes, and agree on transfers. */
  lemma {:induction false} MethodCountsFacts(passes: seq<Pass>)
    requires KnownAnswers(passes)
    ensures UniqueKeys(MethodCounts(passes))
    ensures forall m :: m in Keys(MethodCounts(passes)) ==> m in KnownMethods
    ensures CountsTotal(MethodCounts(passes)) == |passes|
    ensures TransferPasses(passes) ==
      CountOf(MethodCounts(passes), "transfer") + CountOf(MethodCounts(passes), "transfer_inferred")
  {
    if passes != [] {
      var init := passes[..|passes| - 1];
      assert KnownAnswers(init) by {
        forall k | 0 <= k < |init| ensures init[k] == passes[k] { }
      }
      MethodCountsFacts(init);
      BumpKeeps(MethodCounts(init), passes[|passes| - 1].result.methodName);
    } else {
      assert Keys(MethodCounts(passes)) == [];
    }
  }

  /** Appending a pass over the next transaction extends the chain and its counts by that pass. */
  lemma {:induction false} ExtendPasses(passes: seq<Pass>, p: Pass, pending: seq<Transaction>)
    requires Chained(passes, pending) && KnownAnswers(passes)
    requires |passes| < |pending| && p.txn == pending[|passes|]
    requires p.result.methodName in KnownMethods
    requires p.result.isTransfer <==> p.result.methodName in {"transfer", "transfer_inferred"}
    ensures Chained(passes + [p], pending) && KnownAnswers(passes + [p])
    ensures MethodCounts(passes + [p]) == Bump(MethodCounts(passes), p.result.methodName)
    ensures TransferPasses(passes + [p]) == TransferPasses(passes) + (if p.result.isTransfer then 1 else 0)
  {
    var q := passes + [p];
    assert q[..|passes|] == passes;
    forall k | 0 <= k < |q| ensures q[k].txn == pending[k] && q[k].result == (if k < |passes| then passes[k] else p).result {
      if k < |passes| {
        assert q[k] == passes[k];
      }
    }
  }

  /** Runs the next pending transaction and reports it as a pass. */
  method Advance(repo: Repository, lookup: Option<ReceiptLookup>, c: Config, pending: seq<Transaction>, i: nat,
                 inputs: string -> TxnInputs, decode: string -> Option<Json>)
    returns (p: Pass)
    requires repo.Valid()
    requires lookup.Some? ==> lookup.value.repo == repo
    requires i < |pending|
    modifies repo, if lookup.Some? then {lookup.value} else {}
    ensures repo.Valid()
    ensures repo.imports == old(repo.imports)
    ensures p.txn == pending[i]
    ensures p.result.methodName in KnownMethods
    ensures p.result.isTransfer <==> p.result.methodName in {"transfer", "transfer_inferred"}
  {
    var ok, result, _ := ProcessOne(repo, lookup, pending[i], c, inputs(pending[i].id), decode);
    p := Pass(pending[i], result, ok);
  }

  /**
   * The loop of `categorize_pending` over the transactions `pending`:
   * each categorised and recorded in turn, stopping at the first write
   * that was refused.
   */
  method RunPending(repo: Repository, lookup: Option<ReceiptLookup>, c: Config, pending: seq<Transaction>,
                    inputs: string -> TxnInputs, decode: string -> Option<Json>)
    returns (r: Option<PipelineResult>, ghost passes: seq<Pass>)
    requires repo.Valid()
    requires lookup.Some? ==> lookup.value.repo == repo
    modifies repo, if lookup.Some? then {lookup.value} else {}
    ensures repo.Valid()
    ensures repo.imports == old(repo.imports)
    ensures Chained(passes, pending)
    ensures forall i :: 0 <= i < |passes| - 1 ==> passes[i].ok
    ensures KnownAnswers(passes)
    ensures r.Some? <==> |passes| == |pending| && (passes == [] || passes[|passes| - 1].ok)
    ensures r.Some? ==> r.value == PipelineResult(|pending|, MethodCounts(passes), TransferPasses(passes))
  {
    var counts: Dict<string, nat> := [];
    var transfers: nat := 0;
    passes := [];
    var i := 0;
    while i < |pending|
      invariant 0 <= i <= |pending| && |passes| == i
      invariant repo.Valid()
      invariant repo.imports == old(repo.imports)
      invariant Chained(passes, pending)
      invariant forall k :: 0 <= k < |passes| ==> passes[k].ok
      invariant KnownAnswers(passes)
      invariant counts == MethodCounts(passes) && transfers == TransferPasses(passes)
    {
      var p := Advance(repo, lookup, c, pending, i, inputs, decode);
      ExtendPasses(passes, p, pending);
      passes := passes + [p];
      if !p.ok {
        return None, passes;
      }
      counts := Bump(counts, p.result.methodName);
      if p.result.isTransfer {
        transfers := transfers + 1;
      }
      i := i + 1;
    }
    return Some(PipelineResult(|pending|, counts, transfers)), passes;
  }

  /**
   * `categorize_pending`: every pending transaction (newest first, at most
   * `limit`) categorised and recorded in turn. The counts add up to the
   * total, and the transfer count is the number of transfer answers. None
   * when a write was refused (the source raises).
   */
  method CategorizePending(repo: Repository, lookup: Option<ReceiptLookup>, c: Config, limit: int,
                           inputs: string -> TxnInputs, decode: string -> Option<Json>)
    returns (r: Option<PipelineResult>, ghost passes: seq<Pass>)
    requires repo.Valid()
    requires lookup.Some? ==> lookup.value.repo == repo
    modifies repo, if lookup.Some? then {lookup.value} else {}
    ensures repo.Valid()
    ensures repo.imports == old(repo.imports)
    ensures Chained(passes, Uncategorized(old(repo.txns), limit))
    ensures forall i :: 0 <= i < |passes| - 1 ==> passes[i].ok
    ensures r.Some? <==> |passes| == |Uncategorized(old(repo.txns), limit)| && (passes == [] || passes[|passes| - 1].ok)
    ensures r.Some? ==> r.value.total == |Uncategorized(old(repo.txns), limit)|
    ensures r.Some? ==> r.value.methodCounts == MethodCounts(passes) && r.value.transferCount == TransferPasses(passes)
    ensures r.Some? ==> CountsTotal(r.value.methodCounts) == r.value.total
    ensures r.Some? ==> forall m :: m in Keys(r.value.methodCounts) ==> m in KnownMethods
    ensures r.Some? ==> UniqueKeys(r.value.methodCounts)
    ensures r.Some? ==> (r.value.transferCount ==
      CountOf(r.value.methodCounts, "transfer") + CountOf(r.value.methodCounts, "transfer_inferred"))
  {
    var pending := Uncategorized(repo.txns, limit);
    r, passes := RunPending(repo, lookup, c, pending, inputs, decode);
    MethodCountsFacts(passes);
  }

}

=== FILE: push.dfy ===
/**
 * The one-way push from the database to the spreadsheet: the row
 * converters for each sheet, and `SheetsPush`, which queues appends and
 * clears, flushes them in chunks of at most 100 rows, and keeps a sliding
 * one-minute window of write times so that no more than 50 writes fall in
 * any minute. The spreadsheet service is a parameter: the set of sheets
 * whose lookup fails. The clock is a parameter too.
 */
module Push {
  import opened Wrappers
  import opened Dicts
  import opened Models
  import opened Config
  import opened Queries

  /** A value written to one spreadsheet cell. */
  datatype Cell = Str(s: string) | Money(cents: int) | Num(x: real) | Int(n: int) | Flag(b: bool)

  type SheetRow = seq<Cell>

  // ── Sheet column schemas ───────────────────────────────

  const TxnDataHeaders: seq<string> := [
    "id", "date", "amount", "raw_description", "normalized_description",
    "memo", "txn_type", "check_num", "account_id", "status",
    "confidence", "categorization_method", "is_transfer",
    "receipt_lookup_status", "category_id"]
  const TxnOverrideHeaders: seq<string> := [
    "Override: Category", "Override: Merchant", "Override: Reviewed",
    "Override: Transfer Link", "Override: Needs Split", "Override: Notes"]
  const AllocDataHeaders: seq<string> := [
    "id", "transaction_id", "category_id", "amount", "memo", "tags", "source", "confidence"]
  const AllocOverrideHeaders: seq<string> := ["Override: Category", "Override: Merchant"]
  const TransferHeaders: seq<string> := [
    "id", "from_transaction_id", "to_transaction_id", "transfer_type", "match_method", "confidence"]
  const SummaryHeaders: seq<string> := [
    "month", "category_id", "category_name", "level_0", "level_1",
    "level_2", "total_amount", "transaction_count"]
  const CategoryHeaders: seq<string> := [
    "category_id", "name", "level", "level_0", "level_1",
    "level_2", "level_3", "is_leaf", "is_income", "is_transfer"]
  const ReviewDataHeaders: seq<string> := [
    "date", "account_id", "amount", "normalized_description",
    "category_id", "alloc_amount", "confidence", "categorization_method",
    "source", "status", "is_transfer", "raw_description", "memo",
    "receipt_lookup_status", "txn_type", "check_num",
    "alloc_memo", "alloc_tags",
    "transaction_id", "allocation_id", "alloc_confidence"]
  const ReviewOverrideHeaders: seq<string> := [
    "Override: Category", "Override: Merchant", "Override: Reviewed"]

  const SheetTransactions := "Transactions"
  const SheetAllocations := "Allocations"
  const SheetTransfers := "Transfers"
  const SheetSummary := "Summary"
  const SheetReview := "Review"
  const SheetCategories := "Categories"

  const MaxWritesPerMinute := 50
  const BatchSize := 100

  // ── Data transformation ────────────────────────────────

  /** `_val`: an absent value becomes the empty string; any other value is kept. */
  function Val(v: Option<Cell>): (r: Cell)
    ensures v.None? ==> r == Str("")
    ensures v.Some? ==> r == v.value
  {
    if v.None? then Str("") else v.value
  }

  function OptStr(o: Option<string>): Option<Cell> {
    if o.None? then None else Some(Str(o.value))
  }

  function OptNum(o: Option<real>): Option<Cell> {
    if o.None? then None else Some(Num(o.value))
  }

  /** A present text value is written as itself; only absence becomes "". */
  lemma ValKeepsText(o: Option<string>)
    ensures o.Some? ==> Val(OptStr(o)) == Str(o.value)
    ensures o.None? ==> Val(OptStr(o)) == Str("")
  {
  }

  /** The cells of a Transactions row, one per column, named as the columns are. */
  datatype TxnCells = TxnCells(
    id: Cell, date: Cell, amount: Cell, rawDescription: Cell, normalizedDescription: Cell,
    memo: Cell, txnType: Cell, checkNum: Cell, accountId: Cell, status: Cell,
    confidence: Cell, categorizationMethod: Cell, isTransfer: Cell,
    receiptLookupStatus: Cell, categoryId: Cell)

  /** What `txn_to_row` writes in each column. */
  function TxnCellsOf(txn: Transaction, transferFlag: bool, categoryId: Option<string>): TxnCells {
    TxnCells(
      id := Str(txn.id), date := Str(txn.date), amount := Money(txn.amount),
      rawDescription := Str(txn.rawDescription),
      normalizedDescription := Val(OptStr(txn.normalizedDescription)),
      memo := Val(OptStr(txn.memo)), txnType := Val(OptStr(txn.txnType)),
      checkNum := Val(OptStr(txn.checkNum)), accountId := Str(txn.accountId),
      status := Str(txn.status), confidence := Val(OptNum(txn.confidence)),
      categorizationMethod := Val(OptStr(txn.categorizationMethod)),
      isTransfer := Flag(transferFlag),
      receiptLookupStatus := Val(OptStr(txn.receiptLookupStatus)),
      categoryId := Val(OptStr(categoryId)))
  }

  /** The order in which `txn_to_row` lists the cells. */
  function TxnLayout(c: TxnCells): (r: SheetRow)
    ensures |r| == |TxnDataHeaders|
  {
    [c.id, c.date, c.amount, c.rawDescription, c.normalizedDescription,
     c.memo, c.txnType, c.checkNum, c.accountId, c.status,
     c.confidence, c.categorizationMethod, c.isTransfer,
     c.receiptLookupStatus, c.categoryId]
  }

  /** `txn_to_row`. */
  function TxnToRow(txn: Transaction, transferFlag: bool, categoryId: Option<string>): (r: SheetRow)
    ensures |r| == |TxnDataHeaders|
  {
    TxnLayout(TxnCellsOf(txn, transferFlag, categoryId))
  }

  /** The cell under the column named `header`. */
  function TxnColumn(c: TxnCells, header: string): Cell {
    if header == "id" then c.id
    else if header == "date" then c.date
    else if header == "amount" then c.amount
    else if header == "raw_description" then c.rawDescription
    else if header == "normalized_description" then c.normalizedDescription
    else if header == "memo" then c.memo
    else if header == "txn_type" then c.txnType
    else if header == "check_num" then c.checkNum
    else if header == "account_id" then c.accountId
    else if header == "status" then c.status
    else if header == "confidence" then c.confidence
    else if header == "categorization_method" then c.categorizationMethod
    else if header == "is_transfer" then c.isTransfer
    else if header == "receipt_lookup_status" then c.receiptLookupStatus
    else if header == "category_id" then c.categoryId
    else Str("")
  }

  /** Every cell of a Transactions row sits under the header that names it. */
  lemma TxnLayoutMatchesHeaders(c: TxnCells)
    ensures forall i :: 0 <= i < |TxnDataHeaders| ==> TxnLayout(c)[i] == TxnColumn(c, TxnDataHeaders[i])
  {
    var r := TxnLayout(c);
    forall i | 0 <= i < |TxnDataHeaders|
      ensures r[i] == TxnColumn(c, TxnDataHeaders[i])
    {
    }
  }

  /** `alloc_to_row`. */
  function AllocToRow(a: Allocation): (r: SheetRow)
    ensures |r| == |AllocDataHeaders|
  {
    [Str(a.id), Str(a.transactionId), Str(a.categoryId), Money(a.amount),
     Val(OptStr(a.memo)), Val(OptStr(a.tags)), Str(a.source), Val(OptNum(a.confidence))]
  }

  /** The cell the Allocations sheet holds under the column named `header`. */
  function AllocColumn(a: Allocation, header: string): Cell {
    if header == "id" then Str(a.id)
    else if header == "transaction_id" then Str(a.transactionId)
    else if header == "category_id" then Str(a.categoryId)
    else if header == "amount" then Money(a.amount)
    else if header == "memo" then Val(OptStr(a.memo))
    else if header == "tags" then Val(OptStr(a.tags))
    else if header == "source" then Str(a.source)
    else if header == "confidence" then Val(OptNum(a.confidence))
    else Str("")
  }

  lemma AllocRowMatchesHeaders(a: Allocation)
    ensures forall i :: 0 <= i < |AllocDataHeaders| ==> AllocToRow(a)[i] == AllocColumn(a, AllocDataHeaders[i])
  {
    var r := AllocToRow(a);
    forall i | 0 <= i < |AllocDataHeaders|
      ensures r[i] == AllocColumn(a, AllocDataHeaders[i])
    {
    }
  }

  /** `transfer_to_row`. */
  function TransferToRow(x: Transfer): (r: SheetRow)
    ensures |r| == |TransferHeaders|
  {
    [Str(x.id), Str(x.fromTransactionId), Str(x.toTransactionId), Str(x.transferType),
     Str(x.matchMethod), Val(OptNum(x.confidence))]
  }

  /** The cell the Transfers sheet holds under the column named `header`. */
  function TransferColumn(x: Transfer, header: string): Cell {
    if header == "id" then Str(x.id)
    else if header == "from_transaction_id" then Str(x.fromTransactionId)
    else if header == "to_transaction_id" then Str(x.toTransactionId)
    else if header == "transfer_type" then Str(x.transferType)
    else if header == "match_method" then Str(x.matchMethod)
    else if header == "confidence" then Val(OptNum(x.confidence))
    else Str("")
  }

  lemma TransferRowMatchesHeaders(x: Transfer)
    ensures forall i :: 0 <= i < |TransferHeaders| ==> TransferToRow(x)[i] == TransferColumn(x, TransferHeaders[i])
  {
    var r := TransferToRow(x);
    forall i | 0 <= i < |TransferHeaders|
      ensures r[i] == TransferColumn(x, TransferHeaders[i])
    {
    }
  }

  /**
   * `summary_to_row`: the category's name and first three levels come from
   * the lookup when it has the category, and are "" otherwise.
   */
  function SummaryToRow(month: string, row: CategoryTotal, catLookup: Option<Dict<string, CategoryEntry>>): (r: SheetRow)
    ensures |r| == |SummaryHeaders|
    ensures r[0] == Str(month) && r[1] == Str(row.categoryId)
    ensures r[6] == Money(row.total) && r[7] == Int(row.txnCount)
    ensures var meta := if catLookup.None? then None else Get(catLookup.value, row.categoryId);
      if meta.None? then r[2] == r[3] == r[4] == r[5] == Str("")
      else r[2] == Str(meta.value.name) && r[3] == Str(meta.value.level0) &&
           r[4] == Str(meta.value.level1) && r[5] == Str(meta.value.level2)
  {
    var meta := if catLookup.None? then None else Get(catLookup.value, row.categoryId);
    if meta.None? then
      [Str(month), Str(row.categoryId), Str(""), Str(""), Str(""), Str(""), Money(row.total), Int(row.txnCount)]
    else
      [Str(month), Str(row.categoryId), Str(meta.value.name), Str(meta.value.level0),
       Str(meta.value.level1), Str(meta.value.level2), Money(row.total), Int(row.txnCount)]
  }

  /** `category_to_row`. */
  function CategoryToRow(e: CategoryEntry): (r: SheetRow)
    ensures |r| == |CategoryHeaders|
  {
    [Str(e.categoryId), Str(e.name), Int(e.level), Str(e.level0), Str(e.level1),
     Str(e.level2), Str(e.level3), Flag(e.isLeaf), Flag(e.isIncome), Flag(e.isTransfer)]
  }

  /** The cell the Categories sheet holds under the column named `header`. */
  function CategoryColumn(e: CategoryEntry, header: string): Cell {
    if header == "category_id" then Str(e.categoryId)
    else if header == "name" then Str(e.name)
    else if header == "level" then Int(e.level)
    else if header == "level_0" then Str(e.level0)
    else if header == "level_1" then Str(e.level1)
    else if header == "level_2" then Str(e.level2)
    else if header == "level_3" then Str(e.level3)
    else if header == "is_leaf" then Flag(e.isLeaf)
    else if header == "is_income" then Flag(e.isIncome)
    else if header == "is_transfer" then Flag(e.isTransfer)
    else Str("")
  }

  lemma CategoryRowMatchesHeaders(e: CategoryEntry)
    ensures forall i :: 0 <= i < |CategoryHeaders| ==> CategoryToRow(e)[i] == CategoryColumn(e, CategoryHeaders[i])
  {
    var r := CategoryToRow(e);
    forall i | 0 <= i < |CategoryHeaders|
      ensures r[i] == CategoryColumn(e, CategoryHeaders[i])
    {
    }
  }

  /** The cells of a Review row, one per column, named as the columns are. */
  datatype ReviewCells = ReviewCells(
    date: Cell, accountId: Cell, amount: Cell, normalizedDescription: Cell,
    categoryId: Cell, allocAmount: Cell, confidence: Cell, categorizationMethod: Cell,
    source: Cell, status: Cell, isTransfer: Cell, rawDescription: Cell, memo: Cell,
    receiptLookupStatus: Cell, txnType: Cell, checkNum: Cell,
    allocMemo: Cell, allocTags: Cell,
    transactionId: Cell, allocationId: Cell, allocConfidence: Cell)

  /**
   * What `review_to_row` writes in each column for a transaction paired
   * with one of its allocations, or with none: without an allocation the
   * allocation columns are "" and the allocated amount is the whole
   * transaction amount.
   */
  function ReviewCellsOf(txn: Transaction, alloc: Option<Allocation>, transferFlag: bool): ReviewCells {
    ReviewCells(
      date := Str(txn.date), accountId := Str(txn.accountId), amount := Money(txn.amount),
      normalizedDescription := Val(OptStr(txn.normalizedDescription)),
      categoryId := if alloc.Some? then Str(alloc.value.categoryId) else Str(""),
      allocAmount := if alloc.Some? then Money(alloc.value.amount) else Money(txn.amount),
      confidence := Val(OptNum(txn.confidence)),
      categorizationMethod := Val(OptStr(txn.categorizationMethod)),
      source := if alloc.Some? then Str(alloc.value.source) else Str(""),
      status := Str(txn.status), isTransfer := Flag(transferFlag),
      rawDescription := Str(txn.rawDescription), memo := Val(OptStr(txn.memo)),
      receiptLookupStatus := Val(OptStr(txn.receiptLookupStatus)),
      txnType := Val(OptStr(txn.txnType)), checkNum := Val(OptStr(txn.checkNum)),
      allocMemo := if alloc.Some? then Val(OptStr(alloc.value.memo)) else Str(""),
      allocTags := if alloc.Some? then Val(OptStr(alloc.value.tags)) else Str(""),
      transactionId := Str(txn.id),
      allocationId := if alloc.Some? then Str(alloc.value.id) else Str(""),
      allocConfidence := if alloc.Some? then Val(OptNum(alloc.value.confidence)) else Str(""))
  }

  /** The order in which `review_to_row` lists the cells. */
  function ReviewLayout(c: ReviewCells): (r: SheetRow)
    ensures |r| == |ReviewDataHeaders|
  {
    [c.date, c.accountId, c.amount, c.normalizedDescription,
     c.categoryId, c.allocAmount, c.confidence, c.categorizationMethod,
     c.source, c.status, c.isTransfer, c.rawDescription, c.memo,
     c.receiptLookupStatus, c.txnType, c.checkNum,
     c.allocMemo, c.allocTags,
     c.transactionId, c.allocationId, c.allocConfidence]
  }

  /** `review_to_row`. */
  function ReviewToRow(txn: Transaction, alloc: Option<Allocation>, transferFlag: bool): (r: SheetRow)
    ensures |r| == |ReviewDataHeaders|
  {
    ReviewLayout(ReviewCellsOf(txn, alloc, transferFlag))
  }

  /** The cell under the column named `header`. */
  function ReviewColumn(c: ReviewCells, header: string): Cell {
    if header == "date" then c.date
    else if header == "account_id" then c.accountId
    else if header == "amount" then c.amount
    else if header == "normalized_description" then c.normalizedDescription
    else if header == "category_id" then c.categoryId
    else if header == "alloc_amount" then c.allocAmount
    else if header == "confidence" then c.confidence
    else if header == "categorization_method" then c.categorizationMethod
    else if header == "source" then c.source
    else if header == "status" then c.status
    else if header == "is_transfer" then c.isTransfer
    else if header == "raw_description" then c.rawDescription
    else if header == "memo" then c.memo
    else if header == "receipt_lookup_status" then c.receiptLookupStatus
    else if header == "txn_type" then c.txnType
    else if header == "check_num" then c.checkNum
    else if header == "alloc_memo" then c.allocMemo
    else if header == "alloc_tags" then c.allocTags
    else if header == "transaction_id" then c.transactionId
    else if header == "allocation_id" then c.allocationId
    else if header == "alloc_confidence" then c.allocConfidence
    else Str("")
  }

  /** Every cell of a Review row sits under the header that names it. */
  lemma ReviewLayoutMatchesHeaders(c: ReviewCells)
    ensures forall i :: 0 <= i < |ReviewDataHeaders| ==> ReviewLayout(c)[i] == ReviewColumn(c, ReviewDataHeaders[i])
  {
    var r := ReviewLayout(c);
    forall i | 0 <= i < |ReviewDataHeaders|
      ensures r[i] == ReviewColumn(c, ReviewDataHeaders[i])
    {
    }
  }

  // ── Rows of the high-level pushes ──────────────────────

  /** The category of a transaction's first allocation, if it has one. */
  function FirstCategory(allocs: seq<Allocation>): Option<string> {
    if allocs == [] then None else Some(allocs[0].categoryId)
  }

  /**
   * The Review rows of one transaction: one per allocation, carrying that
   * allocation, or one without an allocation when it has none.
   */
  function ReviewRowsOf(txn: Transaction, allocs: seq<Allocation>, transferFlag: bool): (r: seq<SheetRow>) {
    if allocs == [] then [ReviewToRow(txn, None, transferFlag)]
    else seq(|allocs|, j requires 0 <= j < |allocs| => ReviewToRow(txn, Some(allocs[j]), transferFlag))
  }

  /**
   * A transaction with allocations yields one Review row per allocation,
   * showing that allocation's id and amount; one without yields a single
   * row whose allocated amount is the transaction amount.
   */
  lemma ReviewRowsShape(txn: Transaction, allocs: seq<Allocation>, transferFlag: bool)
    ensures |ReviewRowsOf(txn, allocs, transferFlag)| == (if allocs == [] then 1 else |allocs|)
    ensures allocs == [] ==>
      ReviewRowsOf(txn, allocs, transferFlag)[0] == ReviewToRow(txn, None, transferFlag) &&
      ReviewCellsOf(txn, None, transferFlag).allocAmount == Money(txn.amount) &&
      ReviewCellsOf(txn, None, transferFlag).allocationId == Str("")
    ensures forall j :: 0 <= j < |allocs| ==>
      ReviewRowsOf(txn, allocs, transferFlag)[j] == ReviewToRow(txn, Some(allocs[j]), transferFlag) &&
      ReviewCellsOf(txn, Some(allocs[j]), transferFlag).allocAmount == Money(allocs[j].amount) &&
      ReviewCellsOf(txn, Some(allocs[j]), transferFlag).allocationId == Str(allocs[j].id)
  {
  }

  /** The rows of `push_review`, transaction by transaction. */
  function ReviewRows(txns: seq<Transaction>, allocMap: Dict<string, seq<Allocation>>, transferIds: set<string>): seq<SheetRow>
  {
    if txns == [] then []
    else
      var txn := txns[|txns| - 1];
      ReviewRows(txns[..|txns| - 1], allocMap, transferIds) +
      ReviewRowsOf(txn, Get(allocMap, txn.id).GetOr([]), txn.id in transferIds)
  }

  /** How many Review rows a transaction yields. */
  function RowsFor(txn: Transaction, allocMap: Dict<string, seq<Allocation>>): nat {
    var allocs := Get(allocMap, txn.id).GetOr([]);
    if allocs == [] then 1 else |allocs|
  }

  function TotalRows(txns: seq<Transaction>, allocMap: Dict<string, seq<Allocation>>): nat {
    if txns == [] then 0 else TotalRows(txns[..|txns| - 1], allocMap) + RowsFor(txns[|txns| - 1], allocMap)
  }

  /** The Review sheet gets one row per allocation, plus one per transaction without any. */
  lemma {:induction false} ReviewRowsCount(txns: seq<Transaction>, allocMap: Dict<string, seq<Allocation>>, transferIds: set<string>)
    ensures |ReviewRows(txns, allocMap, transferIds)| == TotalRows(txns, allocMap)
    ensures TotalRows(txns, allocMap) >= |txns|
  {
    if txns != [] {
      var txn := txns[|txns| - 1];
      ReviewRowsCount(txns[..|txns| - 1], allocMap, transferIds);
      ReviewRowsShape(txn, Get(allocMap, txn.id).GetOr([]), txn.id in transferIds);
    }
  }

  /**
   * The rows of `push_transactions`: one per transaction, in order, showing
   * its transfer flag and the category of its first allocation.
   */
  function TxnRows(txns: seq<Transaction>, allocMap: Dict<string, seq<Allocation>>, transferIds: set<string>): (r: seq<SheetRow>)
    ensures |r| == |txns|
  {
    seq(|txns|, i requires 0 <= i < |txns| =>
      TxnToRow(txns[i], txns[i].id in transferIds, FirstCategory(Get(allocMap, txns[i].id).GetOr([]))))
  }

  /** The Allocations rows, one per allocation, in order. */
  function AllocRows(allocs: seq<Allocation>): (r: seq<SheetRow>)
    ensures |r| == |allocs|
  {
    seq(|allocs|, i requires 0 <= i < |allocs| => AllocToRow(allocs[i]))
  }

  /** The Transfers rows, one per transfer, in order. */
  function TransferRows(xfers: seq<Transfer>): (r: seq<SheetRow>)
    ensures |r| == |xfers|
  {
    seq(|xfers|, i requires 0 <= i < |xfers| => TransferToRow(xfers[i]))
  }

  /** The Summary rows of one month, one per category total, with no hierarchy. */
  function SummaryRows(month: string, summary: seq<CategoryTotal>): (r: seq<SheetRow>)
    ensures |r| == |summary|
  {
    seq(|summary|, i requires 0 <= i < |summary| => SummaryToRow(month, summary[i], None))
  }

  // ── Chunks ─────────────────────────────────────────────

  /** `rows[i : i + 100]` for i = 0, 100, 200, … */
  function Chunks(rows: seq<SheetRow>): (r: seq<seq<SheetRow>>)
    decreases |rows|
  {
    if rows == [] then []
    else if |rows| <= BatchSize then [rows]
    else [rows[..BatchSize]] + Chunks(rows[BatchSize..])
  }

  function Join(cs: seq<seq<SheetRow>>): seq<SheetRow> {
    if cs == [] then [] else cs[0] + Join(cs[1..])
  }

  /** n rows take ceil(n / 100) chunks, each of 1 to 100 rows, which together are the rows in order. */
  lemma {:induction false} ChunksShape(rows: seq<SheetRow>)
    decreases |rows|
    ensures |Chunks(rows)| == (|rows| + BatchSize - 1) / BatchSize
    ensures Join(Chunks(rows)) == rows
    ensures forall j :: 0 <= j < |Chunks(rows)| ==> 0 < |Chunks(rows)[j]| <= BatchSize
  {
    if |rows| > BatchSize {
      var cs := Chunks(rows);
      ChunksShape(rows[BatchSize..]);
      assert cs[1..] == Chunks(rows[BatchSize..]);
      assert rows == rows[..BatchSize] + rows[BatchSize..];
    } else if rows != [] {
      assert Join([rows]) == rows + Join([]);
    }
  }

  /** The append calls a flush makes for one sheet: each chunk, tagged with the sheet. */
  function Tagged(sheet: string, cs: seq<seq<SheetRow>>): (r: seq<(string, seq<SheetRow>)>)
    ensures |r| == |cs|
  {
    if cs == [] then [] else [(sheet, cs[0])] + Tagged(sheet, cs[1..])
  }

  /** One step of the chunk loop: the chunk at `i` is `rows[i..end]`, and the rest start at `end`. */
  lemma ChunkStep(sheet: string, rows: seq<SheetRow>, i: nat, end: nat)
    requires i < |rows| && end == (if i + BatchSize <= |rows| then i + BatchSize else |rows|)
    ensures Tagged(sheet, Chunks(rows[i..])) == [(sheet, rows[i..end])] + Tagged(sheet, Chunks(rows[end..]))
  {
    var rest := rows[i..];
    if |rest| > BatchSize {
      assert rest[..BatchSize] == rows[i..end];
      assert rest[BatchSize..] == rows[end..];
    } else {
      assert rest == rows[i..end] && rows[end..] == [];
      assert Chunks(rest) == [rest];
      var one: seq<seq<SheetRow>> := [rest];
      assert one[1..] == [];
    }
  }

  // ── The flush, as a specification ──────────────────────

  /** Pending rows of one sheet that a flush sends: not empty, and the sheet can be opened. */
  predicate Sent(e: (string, seq<SheetRow>), broken: set<string>) {
    e.1 != [] && e.0 !in broken
  }

  datatype PushResult = PushResult(sheet: string, rowsPushed: nat, apiCalls: nat)

  function ResultOf(e: (string, seq<SheetRow>)): PushResult {
    PushResult(e.0, |e.1|, |Chunks(e.1)|)
  }

  /** The results of flushing the pending appends `p`, in dict order. */
  function Results(p: Dict<string, seq<SheetRow>>, broken: set<string>): seq<PushResult> {
    if p == [] then []
    else Results(p[..|p| - 1], broken) + (if Sent(p[|p| - 1], broken) then [ResultOf(p[|p| - 1])] else [])
  }

  /** The append calls of flushing `p`, in order. */
  function Calls(p: Dict<string, seq<SheetRow>>, broken: set<string>): seq<(string, seq<SheetRow>)> {
    if p == [] then []
    else Calls(p[..|p| - 1], broken) + (if Sent(p[|p| - 1], broken) then Tagged(p[|p| - 1].0, Chunks(p[|p| - 1].1)) else [])
  }

  /** The appends still pending after flushing `p`. */
  function Kept(p: Dict<string, seq<SheetRow>>, broken: set<string>): Dict<string, seq<SheetRow>> {
    if p == [] then []
    else Kept(p[..|p| - 1], broken) + (if Sent(p[|p| - 1], broken) then [] else [p[|p| - 1]])
  }

  /** A flushed sheet leaves the queue; an empty or failing one stays, in its place. */
  lemma {:induction false} KeptMembers(p: Dict<string, seq<SheetRow>>, broken: set<string>)
    ensures forall e :: e in Kept(p, broken) <==> e in p && !Sent(e, broken)
  {
    if p != [] {
      KeptMembers(p[..|p| - 1], broken);
      assert p == p[..|p| - 1] + [p[|p| - 1]];
    }
  }

  /** A flush keeps the queue's keys unique. */
  lemma {:induction false} KeptUnique(p: Dict<string, seq<SheetRow>>, broken: set<string>)
    requires UniqueKeys(p)
    ensures UniqueKeys(Kept(p, broken))
  {
    if p != [] {
      var init := p[..|p| - 1];
      KeptUnique(init, broken);
      KeptMembers(init, broken);
      var k := Kept(init, broken);
      forall e | e in k
        ensures e.0 != p[|p| - 1].0
      {
        var i :| 0 <= i < |init| && init[i] == e;
      }
    }
  }

  /**
   * Each result belongs to a queued sheet that could be opened and had
   * rows: it reports all of that sheet's rows and ceil(n / 100) calls.
   */
  lemma {:induction false} ResultOrigin(p: Dict<string, seq<SheetRow>>, broken: set<string>, k: nat) returns (i: nat)
    requires k < |Results(p, broken)|
    ensures i < |p| && Sent(p[i], broken)
    ensures Results(p, broken)[k] == PushResult(p[i].0, |p[i].1|, (|p[i].1| + BatchSize - 1) / BatchSize)
  {
    var init := p[..|p| - 1];
    if k < |Results(init, broken)| {
      i := ResultOrigin(init, broken, k);
    } else {
      i := |p| - 1;
      ChunksShape(p[i].1);
    }
  }

  /** Every queued sheet with rows that can be opened yields a result. */
  lemma {:induction false} ResultFor(p: Dict<string, seq<SheetRow>>, broken: set<string>, i: nat) returns (k: nat)
    requires i < |p| && Sent(p[i], broken)
    ensures k < |Results(p, broken)| && Results(p, broken)[k] == ResultOf(p[i])
  {
    var init := p[..|p| - 1];
    if i < |init| {
      k := ResultFor(init, broken, i);
    } else {
      k := |Results(init, broken)|;
    }
  }

  /** A flush of an empty queue returns no results and makes no calls. */
  lemma EmptyFlush(broken: set<string>)
    ensures Results([], broken) == [] && Calls([], broken) == [] && Kept([], broken) == []
  {
  }

  // ── The rate limiter, as a specification ───────────────

  /** Write times never decrease. */
  predicate Ascending(w: seq<real>) {
    forall i, j :: 0 <= i < j < |w| ==> w[i] <= w[j]
  }

  /** No write time is later than `t`. */
  predicate NotAfter(w: seq<real>, t: real) {
    w == [] || w[|w| - 1] <= t
  }

  /** The purge loop: drop leading write times at or before `cutoff`. */
  function DropThrough(w: seq<real>, cutoff: real): (r: seq<real>)
    ensures |r| <= |w| && r == w[|w| - |r|..]
    ensures r != [] ==> r[0] > cutoff
    decreases |w|
  {
    if w != [] && w[0] <= cutoff then DropThrough(w[1..], cutoff) else w
  }

  /** On ascending times, the purge leaves exactly the times after the cutoff. */
  lemma {:induction false} DropThroughExact(w: seq<real>, cutoff: real)
    requires Ascending(w)
    ensures forall x :: x in DropThrough(w, cutoff) ==> x > cutoff
    decreases |w|
  {
    if w != [] {
      if w[0] <= cutoff {
        DropThroughExact(w[1..], cutoff);
      } else {
        forall x | x in w
          ensures x > cutoff
        {
          var j :| 0 <= j < |w| && w[j] == x;
          assert w[0] <= w[j];
        }
      }
    }
  }

  /**
   * The limiter's invariant: at most 51 times are kept, and when there are
   * 51 the oldest lies at least a minute before the newest.
   */
  predicate Bounded(w: seq<real>) {
    |w| <= MaxWritesPerMinute + 1 &&
    (|w| == MaxWritesPerMinute + 1 ==> w[0] <= w[|w| - 1] - 60.0)
  }

  /** A write at `t` fits the window: fewer than 50 times kept, or the oldest of 50 a minute old. */
  predicate RoomAt(w: seq<real>, t: real) {
    |w| < MaxWritesPerMinute || (|w| == MaxWritesPerMinute && w[0] <= t - 60.0)
  }

  /** What the invariant means: at most 50 writes fall in the minute ending at the last one. */
  lemma BoundedWindow(w: seq<real>)
    requires Ascending(w) && Bounded(w) && w != []
    ensures |DropThrough(w, w[|w| - 1] - 60.0)| <= MaxWritesPerMinute
  {
    if |w| == MaxWritesPerMinute + 1 {
      assert DropThrough(w, w[|w| - 1] - 60.0) == DropThrough(w[1..], w[|w| - 1] - 60.0);
    }
  }

  /**
   * After the purge at `now` the limiter holds at most 50 ascending times,
   * all within the last minute.
   */
  lemma PurgeKeeps(w: seq<real>, now: real)
    requires Ascending(w) && Bounded(w) && NotAfter(w, now)
    ensures var d := DropThrough(w, now - 60.0);
      Ascending(d) && |d| <= MaxWritesPerMinute && NotAfter(d, now) && (d != [] ==> d[0] > now - 60.0)
  {
    var d := DropThrough(w, now - 60.0);
    SuffixAscending(w, |w| - |d|);
    assert d == w[|w| - |d|..];
    if |w| == MaxWritesPerMinute + 1 {
      assert d == DropThrough(w[1..], now - 60.0);
    }
  }

  /** A suffix of ascending times is ascending, and ends where the whole does. */
  lemma SuffixAscending(w: seq<real>, k: nat)
    requires Ascending(w) && k <= |w|
    ensures Ascending(w[k..])
    ensures forall t :: NotAfter(w, t) ==> NotAfter(w[k..], t)
  {
    var d := w[k..];
    forall i, j | 0 <= i < j < |d|
      ensures d[i] <= d[j]
    {
      assert d[i] == w[k + i] && d[j] == w[k + j];
    }
  }

  // ── SheetsPush ─────────────────────────────────────────

  class SheetsPush {
    /** Rows waiting to be appended, per sheet, in the order sheets were first queued. */
    var pendingAppends: Dict<string, seq<SheetRow>>
    /** Sheets waiting to be cleared. */
    var pendingClears: set<string>
    /** Times of the recent writes, oldest first. */
    var writeTimes: seq<real>

    ghost predicate Valid()
      reads this
    {
      UniqueKeys(pendingAppends) && Ascending(writeTimes) && Bounded(writeTimes)
    }

    constructor ()
      ensures Valid()
      ensures pendingAppends == [] && pendingClears == {} && writeTimes == []
    {
      pendingAppends := [];
      pendingClears := {};
      writeTimes := [];
    }

    /** `queue_append`: the rows go after the sheet's pending rows; a new sheet goes last. */
    method QueueAppend(sheet: string, rows: seq<SheetRow>)
      requires Valid()
      modifies this
      ensures Valid()
      ensures pendingAppends == Put(old(pendingAppends), sheet, Get(old(pendingAppends), sheet).GetOr([]) + rows)
      ensures Get(pendingAppends, sheet) == Some(Get(old(pendingAppends), sheet).GetOr([]) + rows)
      ensures forall k :: k != sheet ==> Get(pendingAppends, k) == Get(old(pendingAppends), k)
      ensures pendingClears == old(pendingClears) && writeTimes == old(writeTimes)
    {
      var v := Get(pendingAppends, sheet).GetOr([]) + rows;
      PutUnique(pendingAppends, sheet, v);
      forall k
        ensures Get(Put(pendingAppends, sheet, v), k) == if k == sheet then Some(v) else Get(pendingAppends, k)
      {
        PutGet(pendingAppends, sheet, v, k);
      }
      pendingAppends := Put(pendingAppends, sheet, v);
    }

    /** `queue_clear`. */
    method QueueClear(sheet: string)
      requires Valid()
      modifies this
      ensures Valid()
      ensures pendingClears == old(pendingClears) + {sheet}
      ensures pendingAppends == old(pendingAppends) && writeTimes == old(writeTimes)
    {
      pendingClears := pendingClears + {sheet};
    }

    /**
     * `_wait_for_rate_limit` at time `now`: purge the times a minute or
     * more old, then sleep until the oldest remaining one is a minute old
     * when 50 remain. Returns how long it sleeps.
     */
    method WaitForRateLimit(now: real) returns (sleep: real)
      requires Valid() && NotAfter(writeTimes, now)
      modifies this
      ensures writeTimes == DropThrough(old(writeTimes), now - 60.0)
      ensures sleep > 0.0 <==> |writeTimes| >= MaxWritesPerMinute
      ensures sleep > 0.0 ==> sleep == writeTimes[0] + 60.0 - now
      ensures sleep <= 0.0 ==> sleep == 0.0
      ensures Valid() && NotAfter(writeTimes, now + sleep) && RoomAt(writeTimes, now + sleep)
      ensures pendingAppends == old(pendingAppends) && pendingClears == old(pendingClears)
    {
      PurgeKeeps(writeTimes, now);
      Purge(now - 60.0);
      if |writeTimes| >= MaxWritesPerMinute {
        sleep := writeTimes[0] + 60.0 - now;
      } else {
        sleep := 0.0;
      }
    }

    /** The purge loop of `_wait_for_rate_limit`. */
    method Purge(cutoff: real)
      modifies this
      ensures writeTimes == DropThrough(old(writeTimes), cutoff)
      ensures pendingAppends == old(pendingAppends) && pendingClears == old(pendingClears)
    {
      while writeTimes != [] && writeTimes[0] <= cutoff
        invariant DropThrough(writeTimes, cutoff) == DropThrough(old(writeTimes), cutoff)
        invariant pendingAppends == old(pendingAppends) && pendingClears == old(pendingClears)
        decreases |writeTimes|
      {
        writeTimes := writeTimes[1..];
      }
    }

    /** `_record_write` at time `t`. */
    method RecordWrite(t: real)
      requires Valid() && NotAfter(writeTimes, t) && RoomAt(writeTimes, t)
      modifies this
      ensures writeTimes == old(writeTimes) + [t]
      ensures Valid() && NotAfter(writeTimes, t)
      ensures pendingAppends == old(pendingAppends) && pendingClears == old(pendingClears)
    {
      writeTimes := writeTimes + [t];
    }

    /** One write at time `now`: wait for the limiter, then record the write; returns the time of the write. */
    method Write(now: real) returns (at: real)
      requires Valid() && NotAfter(writeTimes, now)
      modifies this
      ensures writeTimes == DropThrough(old(writeTimes), now - 60.0) + [at]
      ensures now <= at && Valid() && NotAfter(writeTimes, at)
      ensures pendingAppends == old(pendingAppends) && pendingClears == old(pendingClears)
    {
      var sleep := WaitForRateLimit(now);
      at := now + sleep;
      RecordWrite(at);
    }

    /** The chunked appends of one sheet, starting at time `now`; returns the calls and the time after them. */
    method SendChunks(sheet: string, rows: seq<SheetRow>, now: real) returns (calls: seq<(string, seq<SheetRow>)>, later: real)
      requires Valid() && NotAfter(writeTimes, now)
      modifies this
      ensures calls == Tagged(sheet, Chunks(rows))
      ensures Valid() && NotAfter(writeTimes, later) && now <= later
      ensures pendingAppends == old(pendingAppends) && pendingClears == old(pendingClears)
    {
      calls := [];
      later := now;
      var i := 0;
      assert rows[i..] == rows;
      while i < |rows|
        invariant 0 <= i <= |rows|
        invariant calls + Tagged(sheet, Chunks(rows[i..])) == Tagged(sheet, Chunks(rows))
        invariant Valid() && NotAfter(writeTimes, later) && now <= later
        invariant pendingAppends == old(pendingAppends) && pendingClears == old(pendingClears)
        decreases |rows| - i
      {
        var end := if i + BatchSize <= |rows| then i + BatchSize else |rows|;
        ChunkStep(sheet, rows, i, end);
        later := Write(later);
        calls := calls + [(sheet, rows[i..end])];
        i := end;
      }
      assert rows[i..] == [];
    }

    /**
     * `flush` starting at time `now`, where `broken` names the sheets the
     * spreadsheet cannot open. Clears come first and a failed clear stays
     * queued; then each sheet with pending rows is appended in chunks of at
     * most 100 rows, and leaves the queue only when it was sent. Returns the
     * per-sheet results, every append call in order, and the time after.
     */
    method Flush(broken: set<string>, now: real) returns (results: seq<PushResult>, calls: seq<(string, seq<SheetRow>)>, later: real)
      requires Valid() && NotAfter(writeTimes, now)
      modifies this
      ensures Valid() && NotAfter(writeTimes, later) && now <= later
      ensures pendingClears == old(pendingClears) * broken
      ensures results == Results(old(pendingAppends), broken)
      ensures calls == Calls(old(pendingAppends), broken)
      ensures pendingAppends == Kept(old(pendingAppends), broken)
    {
      later := now;
      var todo := pendingClears;
      while todo != {}
        invariant todo <= old(pendingClears)
        invariant pendingClears == (old(pendingClears) - todo) * broken + todo
        invariant pendingAppends == old(pendingAppends)
        invariant Valid() && NotAfter(writeTimes, later) && now <= later
        decreases todo
      {
        var sheet :| sheet in todo;
        var sleep := WaitForRateLimit(later);
        later := later + sleep;
        if sheet !in broken {
          RecordWrite(later);
          pendingClears := pendingClears - {sheet};
        }
        todo := todo - {sheet};
      }

      var queued := pendingAppends;
      results, calls := [], [];
      var kept := [];
      for i := 0 to |queued|
        invariant results == Results(queued[..i], broken)
        invariant calls == Calls(queued[..i], broken)
        invariant kept == Kept(queued[..i], broken)
        invariant pendingAppends == queued && pendingClears == old(pendingClears) * broken
        invariant Valid() && NotAfter(writeTimes, later) && now <= later
      {
        assert queued[..i + 1][..i] == queued[..i];
        var sheet, rows := queued[i].0, queued[i].1;
        if rows != [] && sheet !in broken {
          var sent;
          sent, later := SendChunks(sheet, rows, later);
          results := results + [ResultOf(queued[i])];
          calls := calls + sent;
        } else {
          kept := kept + [queued[i]];
        }
      }
      assert queued[..|queued|] == queued;
      KeptUnique(queued, broken);
      pendingAppends := kept;
    }

    /**
     * What a `push_*` method does once it has its rows: queue them, flush,
     * and report the result of its own sheet (None when there are no rows
     * or the sheet was not sent).
     */
    method QueueAndFlush(sheet: string, rows: seq<SheetRow>, broken: set<string>, now: real)
      returns (r: Option<PushResult>, later: real)
      requires Valid() && NotAfter(writeTimes, now)
      modifies this
      ensures Valid() && now <= later
      ensures rows == [] ==> r.None? && unchanged(this)
      ensures rows != [] ==>
        var p := Put(old(pendingAppends), sheet, Get(old(pendingAppends), sheet).GetOr([]) + rows);
        r == ResultForSheet(Results(p, broken), sheet) &&
        pendingAppends == Kept(p, broken) && pendingClears == old(pendingClears) * broken
      ensures r.Some? ==> (r.value.sheet == sheet &&
        r.value.rowsPushed == |Get(old(pendingAppends), sheet).GetOr([])| + |rows|)
    {
      later := now;
      if rows == [] {
        return None, later;
      }
      ghost var queuedBefore := Get(pendingAppends, sheet).GetOr([]);
      QueueAppend(sheet, rows);
      ghost var p := pendingAppends;
      var results, calls;
      results, calls, later := Flush(broken, now);
      r := ResultForSheet(results, sheet);
      if r.Some? {
        var k := ResultSheetIndex(results, sheet);
        var i := ResultOrigin(p, broken, k);
        GetUniqueAt(p, i);
      }
    }

    /**
     * `push_transactions`: one row per transaction, with its transfer flag
     * (`transferIds`) and its first allocation's category (`allocMap`).
     */
    method PushTransactions(txns: seq<Transaction>, allocMap: Dict<string, seq<Allocation>>, transferIds: set<string>,
                            broken: set<string>, now: real) returns (r: Option<PushResult>, later: real)
      requires Valid() && NotAfter(writeTimes, now)
      modifies this
      ensures Valid() && now <= later
      ensures txns == [] ==> r.None? && unchanged(this)
      ensures !(txns == []) ==>
        var p := Put(old(pendingAppends), SheetTransactions, Get(old(pendingAppends), SheetTransactions).GetOr([]) + TxnRows(txns, allocMap, transferIds));
        r == ResultForSheet(Results(p, broken), SheetTransactions) &&
        pendingAppends == Kept(p, broken) && pendingClears == old(pendingClears) * broken
      ensures r.Some? ==> (r.value.sheet == SheetTransactions &&
        r.value.rowsPushed == |Get(old(pendingAppends), SheetTransactions).GetOr([])| + |txns|)
    {
      r, later := QueueAndFlush(SheetTransactions, TxnRows(txns, allocMap, transferIds), broken, now);
    }

    /** `push_review`: the Review rows of every transaction. */
    method PushReview(txns: seq<Transaction>, allocMap: Dict<string, seq<Allocation>>, transferIds: set<string>,
                      broken: set<string>, now: real) returns (r: Option<PushResult>, later: real)
      requires Valid() && NotAfter(writeTimes, now)
      modifies this
      ensures Valid() && now <= later
      ensures txns == [] ==> r.None? && unchanged(this)
      ensures !(txns == []) ==>
        var p := Put(old(pendingAppends), SheetReview, Get(old(pendingAppends), SheetReview).GetOr([]) + ReviewRows(txns, allocMap, transferIds));
        r == ResultForSheet(Results(p, broken), SheetReview) &&
        pendingAppends == Kept(p, broken) && pendingClears == old(pendingClears) * broken
      ensures r.Some? ==> (r.value.sheet == SheetReview &&
        r.value.rowsPushed == |Get(old(pendingAppends), SheetReview).GetOr([])| + TotalRows(txns, allocMap))
    {
      ReviewRowsCount(txns, allocMap, transferIds);
      r, later := QueueAndFlush(SheetReview, ReviewRows(txns, allocMap, transferIds), broken, now);
    }

    /** `push_allocations`. */
    method PushAllocations(allocs: seq<Allocation>, broken: set<string>, now: real) returns (r: Option<PushResult>, later: real)
      requires Valid() && NotAfter(writeTimes, now)
      modifies this
      ensures Valid() && now <= later
      ensures allocs == [] ==> r.None? && unchanged(this)
      ensures !(allocs == []) ==>
        var p := Put(old(pendingAppends), SheetAllocations, Get(old(pendingAppends), SheetAllocations).GetOr([]) + AllocRows(allocs));
        r == ResultForSheet(Results(p, broken), SheetAllocations) &&
        pendingAppends == Kept(p, broken) && pendingClears == old(pendingClears) * broken
      ensures r.Some? ==> (r.value.sheet == SheetAllocations &&
        r.value.rowsPushed == |Get(old(pendingAppends), SheetAllocations).GetOr([])| + |allocs|)
    {
      r, later := QueueAndFlush(SheetAllocations, AllocRows(allocs), broken, now);
    }

    /** `push_transfers`. */
    method PushTransfers(xfers: seq<Transfer>, broken: set<string>, now: real) returns (r: Option<PushResult>, later: real)
      requires Valid() && NotAfter(writeTimes, now)
      modifies this
      ensures Valid() && now <= later
      ensures xfers == [] ==> r.None? && unchanged(this)
      ensures !(xfers == []) ==>
        var p := Put(old(pendingAppends), SheetTransfers, Get(old(pendingAppends), SheetTransfers).GetOr([]) + TransferRows(xfers));
        r == ResultForSheet(Results(p, broken), SheetTransfers) &&
        pendingAppends == Kept(p, broken) && pendingClears == old(pendingClears) * broken
      ensures r.Some? ==> (r.value.sheet == SheetTransfers &&
        r.value.rowsPushed == |Get(old(pendingAppends), SheetTransfers).GetOr([])| + |xfers|)
    {
      r, later := QueueAndFlush(SheetTransfers, TransferRows(xfers), broken, now);
    }

    /** `push_summary`, given the month's category totals; the rows carry no hierarchy. */
    method PushSummary(month: string, summary: seq<CategoryTotal>, broken: set<string>, now: real) returns (r: Option<PushResult>, later: real)
      requires Valid() && NotAfter(writeTimes, now)
      modifies this
      ensures Valid() && now <= later
      ensures summary == [] ==> r.None? && unchanged(this)
      ensures !(summary == []) ==>
        var p := Put(old(pendingAppends), SheetSummary, Get(old(pendingAppends), SheetSummary).GetOr([]) + SummaryRows(month, summary));
        r == ResultForSheet(Results(p, broken), SheetSummary) &&
        pendingAppends == Kept(p, broken) && pendingClears == old(pendingClears) * broken
      ensures r.Some? ==> (r.value.sheet == SheetSummary &&
        r.value.rowsPushed == |Get(old(pendingAppends), SheetSummary).GetOr([])| + |summary|)
    {
      r, later := QueueAndFlush(SheetSummary, SummaryRows(month, summary), broken, now);
    }
  }

  // ── Which result a push reports ────────────────────────

  /** The `push_*` methods as written: the first result of the whole flush, whatever its sheet. */
  function FirstResult(results: seq<PushResult>): Option<PushResult> {
    if results == [] then None else Some(results[0])
  }

  /** The result for the pushed sheet. */
  function ResultForSheet(results: seq<PushResult>, sheet: string): (r: Option<PushResult>)
    ensures r.Some? ==> r.value in results && r.value.sheet == sheet
    ensures r.None? ==> forall x :: x in results ==> x.sheet != sheet
  {
    if results == [] then None
    else if results[0].sheet == sheet then Some(results[0])
    else ResultForSheet(results[1..], sheet)
  }

  lemma {:induction false} ResultSheetIndex(results: seq<PushResult>, sheet: string) returns (k: nat)
    requires ResultForSheet(results, sheet).Some?
    ensures k < |results| && results[k] == ResultForSheet(results, sheet).value
  {
    if results[0].sheet == sheet {
      k := 0;
    } else {
      k := ResultSheetIndex(results[1..], sheet);
      k := k + 1;
    }
  }

  /** In a dict with unique keys, the pair at position i is what Get finds for its key. */
  lemma {:induction false} GetUniqueAt<V>(d: Dict<string, V>, i: nat)
    requires UniqueKeys(d) && i < |d|
    ensures Get(d, d[i].0) == Some(d[i].1)
  {
    if i > 0 {
      assert d[1..][i - 1] == d[i];
      GetUniqueAt(d[1..], i - 1);
    }
  }

  /**
   * The result the source reports can belong to another sheet: rows left
   * queued for sheet `earlier` by a failed flush are sent first, and a
   * push to any other sheet then reports the `earlier` result. This holds
   * for every `push_*` method, each of which takes the first result.
   */
  lemma FirstResultCanBeOtherSheet(earlier: string, pushed: string, row: SheetRow)
    requires earlier != pushed
    ensures var p := Put([(earlier, [row])], pushed, [row]);
      var results := Results(p, {});
      FirstResult(results) == Some(PushResult(earlier, 1, 1)) &&
      ResultForSheet(results, pushed) == Some(PushResult(pushed, 1, 1))
  {
    var first: Dict<string, seq<SheetRow>> := [(earlier, [row])];
    var p := Put(first, pushed, [row]);
    assert p == first + [(pushed, [row])];
    assert p[..1] == first;
    assert first[..0] == [];
    assert Chunks([row]) == [[row]];
    var a, t := PushResult(earlier, 1, 1), PushResult(pushed, 1, 1);
    assert Results(first, {}) == [a];
    assert Results(p, {}) == [a, t];
    assert [a, t][1..] == [t];
  }
}

=== FILE: qfx_sgml.dfy ===
/**
 * The OFX 1.x SGML statement parser. Transaction blocks are cut out of the
 * file text from `<STMTTRN>` to the next block boundary, and a field is the
 * text after its opening tag up to the next tag or line break (closing tags
 * are optional in SGML OFX).
 */
module QfxSgml {
  import opened Wrappers
  import opened Text
  import opened Models
  import opened ParserBase

  // ── Searching the text ─────────────────────────────────

  /** Index of the first occurrence of `pat` in `s`, if there is one. */
  function Find(s: string, pat: string): (r: Option<nat>)
    decreases |s|
    ensures r.Some? ==> r.value + |pat| <= |s| && StartsWith(s[r.value..], pat)
    ensures r.Some? ==> forall j :: 0 <= j < r.value ==> !StartsWith(s[j..], pat)
    ensures r.None? ==> forall j :: 0 <= j <= |s| ==> !StartsWith(s[j..], pat)
  {
    if StartsWith(s, pat) then Some(0)
    else if |s| == 0 then None
    else
      var f := Find(s[1..], pat);
      assert forall j :: 1 <= j <= |s| ==> s[1..][j - 1..] == s[j..];
      if f.None? then None else Some(f.value + 1)
  }

  /** Number of places where `pat` starts in `s`. */
  function Occurrences(s: string, pat: string): nat
    decreases |s|
  {
    if |s| == 0 then 0
    else (if StartsWith(s, pat) then 1 else 0) + Occurrences(s[1..], pat)
  }

  /** A prefix in which `pat` does not start adds no occurrence. */
  lemma {:induction false} OccurrencesSkip(s: string, pat: string, n: nat)
    requires n <= |s|
    requires forall j :: 0 <= j < n ==> !StartsWith(s[j..], pat)
    ensures Occurrences(s, pat) == Occurrences(s[n..], pat)
  {
    if n > 0 {
      assert s[0..] == s;
      assert forall j :: 0 <= j < n - 1 ==> s[1..][j..] == s[j + 1..];
      OccurrencesSkip(s[1..], pat, n - 1);
      assert s[1..][n - 1..] == s[n..];
    } else {
      assert s[0..] == s;
    }
  }

  /**
   * Searching past a prefix that cannot hold the pattern: `pat` starts
   * with a character that occurs neither in `pre` nor again in `pat`.
   */
  lemma {:induction false} FindShift(pre: string, s: string, pat: string)
    requires |pat| > 0 && pat[0] !in pre && pat[0] !in pat[1..]
    ensures Find(pre + s, pat).Some? == Find(s, pat).Some?
    ensures Find(s, pat).Some? ==> Find(pre + s, pat).value == |pre| + Find(s, pat).value
  {
    if pre == [] {
      assert pre + s == s;
    } else {
      assert (pre + s)[0] == pre[0] != pat[0];
      assert !StartsWith(pre + s, pat);
      assert (pre + s)[1..] == pre[1..] + s;
      FindShift(pre[1..], s, pat);
    }
  }

  // ── Tags ───────────────────────────────────────────────

  /** The characters that end a tag's value: the next tag or a line break. */
  predicate EndsValue(c: char) { c == '<' || c == '\n' || c == '\r' }

  /** Length of the value text that starts `s`. */
  function ValueLen(s: string): (n: nat)
    ensures n <= |s|
    ensures forall i :: 0 <= i < n ==> !EndsValue(s[i])
    ensures n == |s| || EndsValue(s[n])
  {
    if |s| > 0 && !EndsValue(s[0]) then 1 + ValueLen(s[1..]) else 0
  }

  lemma {:induction false} ValueLenOf(v: string, rest: string)
    requires forall i :: 0 <= i < |v| ==> !EndsValue(v[i])
    requires rest == [] || EndsValue(rest[0])
    ensures ValueLen(v + rest) == |v|
  {
    if v == [] {
      assert v + rest == rest;
    } else {
      assert (v + rest)[1..] == v[1..] + rest;
      ValueLenOf(v[1..], rest);
    }
  }

  function OpenTag(tag: string): (r: string)
    ensures |r| == |tag| + 2 && r[0] == '<'
  {
    "<" + tag + ">"
  }

  /**
   * `_extract_tag`: the stripped text after the first `<TAG>`, up to the
   * next '<', LF or CR; None when the block has no `<TAG>`.
   */
  function ExtractTag(block: string, tag: string): (r: Option<string>)
    ensures r.None? <==> forall j :: 0 <= j <= |block| ==> !StartsWith(block[j..], OpenTag(tag))
  {
    var f := Find(block, OpenTag(tag));
    if f.None? then None
    else
      var rest := block[f.value + |OpenTag(tag)|..];
      Some(Strip(rest[..ValueLen(rest)]))
  }

  /**
   * A tag whose opening is preceded by no other '<' yields its value up to
   * the first '<', LF or CR, stripped, whatever follows.
   */
  lemma ExtractTagOf(pre: string, tag: string, v: string, rest: string)
    requires '<' !in pre && '<' !in tag
    requires forall i :: 0 <= i < |v| ==> !EndsValue(v[i])
    requires rest == [] || EndsValue(rest[0])
    ensures ExtractTag(pre + OpenTag(tag) + v + rest, tag) == Some(Strip(v))
  {
    var open := OpenTag(tag);
    FindOpenTag(pre, tag, v + rest);
    assert pre + open + v + rest == pre + open + (v + rest);
    assert (pre + open + (v + rest))[|pre| + |open|..] == v + rest;
    ValueLenOf(v, rest);
    assert (v + rest)[..|v|] == v;
  }

  lemma FindOpenTag(pre: string, tag: string, tail: string)
    requires '<' !in pre && '<' !in tag
    ensures Find(pre + OpenTag(tag) + tail, OpenTag(tag)) == Some(|pre|)
  {
    var open := OpenTag(tag);
    var s := open + tail;
    assert pre + open + tail == pre + s;
    assert open[1..] == tag + ">";
    assert s[..|open|] == open;
    FindShift(pre, s, open);
  }

  // ── Transaction blocks ─────────────────────────────────

  const StmtTrn := "<STMTTRN>"

  /** Where a block's text ends: a closing tag, the next block, or the end of the list. */
  predicate AtBoundary(s: string) {
    StartsWith(s, "</STMTTRN>") || StartsWith(s, StmtTrn) || StartsWith(s, "</BANKTRANLIST>")
  }

  /** Length of a block's body: up to the first boundary, or to the end of the text. */
  function BodyLen(s: string): (n: nat)
    decreases |s|
    ensures n <= |s|
    ensures n == |s| || AtBoundary(s[n..])
  {
    if |s| == 0 || AtBoundary(s) then 0
    else
      assert s[1..][BodyLen(s[1..])..] == s[1 + BodyLen(s[1..])..];
      1 + BodyLen(s[1..])
  }

  /** No boundary starts inside a block's body. */
  lemma {:induction false} BodyLenClear(s: string)
    decreases |s|
    ensures forall j :: 0 <= j < BodyLen(s) ==> !AtBoundary(s[j..])
  {
    if |s| > 0 && !AtBoundary(s) {
      BodyLenClear(s[1..]);
      assert s[0..] == s;
      assert forall j :: 1 <= j <= |s| ==> s[1..][j - 1..] == s[j..];
    }
  }

  lemma {:induction false} BodyLenOf(b: string, rest: string)
    requires '<' !in b
    requires rest == [] || AtBoundary(rest)
    ensures BodyLen(b + rest) == |b|
  {
    if b == [] {
      assert b + rest == rest;
      assert rest == [] ==> |rest| == 0;
    } else {
      var s := b + rest;
      assert s[0] == b[0] != '<';
      assert !AtBoundary(s);
      assert s[1..] == b[1..] + rest;
      BodyLenOf(b[1..], rest);
    }
  }

  /**
   * `_split_transactions`: the bodies of the `<STMTTRN>` blocks in file
   * order, found by trying each position from the left as `re.findall`
   * does; each body runs to the next boundary, the last one possibly to
   * the end of the text, and the search resumes at that boundary.
   */
  function Blocks(content: string): (r: seq<string>)
    decreases |content|
  {
    if |content| == 0 then []
    else if StartsWith(content, StmtTrn) then
      var rest := content[|StmtTrn|..];
      var n := BodyLen(rest);
      [rest[..n]] + Blocks(rest[n..])
    else Blocks(content[1..])
  }

  /** There is one block per `<STMTTRN>` tag in the text. */
  lemma {:induction false} BlocksCount(content: string)
    decreases |content|
    ensures |Blocks(content)| == Occurrences(content, StmtTrn)
  {
    if |content| > 0 {
      if StartsWith(content, StmtTrn) {
        TagNotInside(content);
        OccurrencesSkip(content[1..], StmtTrn, |StmtTrn| - 1);
        var rest := content[|StmtTrn|..];
        assert content[1..][|StmtTrn| - 1..] == rest;
        var n := BodyLen(rest);
        BodyLenClear(rest);
        OccurrencesSkip(rest, StmtTrn, n);
        BlocksCount(rest[n..]);
      } else {
        BlocksCount(content[1..]);
      }
    }
  }

  /** No other tag starts inside a `<STMTTRN>` tag. */
  lemma TagNotInside(at: string)
    requires StartsWith(at, StmtTrn)
    ensures forall j :: 0 <= j < |StmtTrn| - 1 ==> !StartsWith(at[1..][j..], StmtTrn)
  {
    var tail := StmtTrn[1..];
    assert tail == "STMTTRN>";
    forall j | 0 <= j < |StmtTrn| - 1
      ensures !StartsWith(at[1..][j..], StmtTrn)
    {
      assert at[1..][j..][0] == at[..|StmtTrn|][j + 1] == tail[j];
      assert tail[j] in tail;
    }
  }

  /**
   * A block whose body holds no '<' ends at the boundary that follows it,
   * or at the end of the text, and the rest is split on its own.
   */
  lemma BlocksCons(b: string, rest: string)
    requires '<' !in b
    requires rest == [] || AtBoundary(rest)
    ensures Blocks(StmtTrn + b + rest) == [b] + Blocks(rest)
  {
    var s := StmtTrn + b + rest;
    assert StartsWith(s, StmtTrn);
    assert s[|StmtTrn|..] == b + rest;
    BodyLenOf(b, rest);
    assert (b + rest)[..|b|] == b;
    assert (b + rest)[|b|..] == rest;
  }

  /** A truncated final transaction, with nothing after it, is still a block. */
  lemma BlocksTruncated(b: string)
    requires '<' !in b
    ensures Blocks(StmtTrn + b) == [b]
  {
    BlocksCons(b, []);
    assert StmtTrn + b + [] == StmtTrn + b;
  }

  /** Text before the first tag (the OFX header lines) does not change the blocks. */
  lemma {:induction false} BlocksSkip(pre: string, s: string)
    requires '<' !in pre
    ensures Blocks(pre + s) == Blocks(s)
    decreases |pre|
  {
    if pre == [] {
      assert pre + s == s;
    } else {
      var c := pre + s;
      assert c[0] == pre[0] != StmtTrn[0];
      assert c[1..] == pre[1..] + s;
      BlocksSkip(pre[1..], s);
    }
  }

  // ── Fields of a block ──────────────────────────────────

  /** `_extract_balance`: the first BALAMT of the file, if it reads as an amount. */
  function ExtractBalance(content: string): (r: Option<Cents>)
    ensures ExtractTag(content, "BALAMT").None? ==> r.None?
    ensures r.Some? ==> ParseCents(ExtractTag(content, "BALAMT").value) == r
  {
    var v := ExtractTag(content, "BALAMT");
    if v.None? then None else ParseCents(v.value)
  }

  /** The block carries a non-empty posting date and amount that both read. */
  predicate BlockReadable(block: string) {
    var dt := ExtractTag(block, "DTPOSTED");
    var amt := ExtractTag(block, "TRNAMT");
    HasText(dt) && HasText(amt) && ParseOfxDate(dt.value).Some? && ParseCents(amt.value).Some?
  }

  /**
   * The transaction carries the block's fields: NAME (or "") as its
   * description, FITID as its external id, MEMO, TRNTYPE and CHECKNUM as
   * they stand, the amount and date that TRNAMT and DTPOSTED read as, and
   * the parser's account and the file's balance.
   */
  predicate ReadFrom(t: RawTransaction, accountId: string, block: string, balance: Option<Cents>) {
    && t.accountId == accountId && t.balance == balance
    && t.rawDescription == ExtractTag(block, "NAME").GetOr("")
    && t.externalId == ExtractTag(block, "FITID")
    && t.memo == ExtractTag(block, "MEMO") && t.txnType == ExtractTag(block, "TRNTYPE")
    && t.checkNum == ExtractTag(block, "CHECKNUM") && t.budgetAppCategoryId.None?
    && ExtractTag(block, "TRNAMT").Some? && ParseCents(ExtractTag(block, "TRNAMT").value) == Some(t.amount)
    && ExtractTag(block, "DTPOSTED").Some? && ParseOfxDate(ExtractTag(block, "DTPOSTED").value) == Some(t.date)
  }

  /**
   * `_parse_transaction_block`: a transaction for a readable block, with
   * NAME (or "") as its description, FITID as its external id and the
   * file's balance; None for a block missing or spoiling its date or amount.
   */
  function ParseBlock(accountId: string, block: string, balance: Option<Cents>): (r: Option<RawTransaction>)
    ensures r.Some? <==> BlockReadable(block)
    ensures r.Some? ==> ReadFrom(r.value, accountId, block, balance)
  {
    var dtposted := ExtractTag(block, "DTPOSTED");
    var trnamt := ExtractTag(block, "TRNAMT");
    if !HasText(dtposted) || !HasText(trnamt) then None
    else
      var date := ParseOfxDate(dtposted.value);
      var amount := ParseCents(trnamt.value);
      if date.None? || amount.None? then None
      else
        var name := ExtractTag(block, "NAME");
        Some(RawTransaction(
          date.value, amount.value, name.GetOr(""), accountId,
          ExtractTag(block, "MEMO"), ExtractTag(block, "TRNTYPE"),
          ExtractTag(block, "FITID"), ExtractTag(block, "CHECKNUM"),
          balance, None))
  }

  // ── The file ───────────────────────────────────────────

  /** The transactions read from the blocks, in order. */
  function Parsed(accountId: string, blocks: seq<string>, balance: Option<Cents>): (r: seq<RawTransaction>)
    ensures |r| <= |blocks|
  {
    if blocks == [] then []
    else
      var t := ParseBlock(accountId, blocks[|blocks| - 1], balance);
      Parsed(accountId, blocks[..|blocks| - 1], balance) + (if t.Some? then [t.value] else [])
  }

  /** The blocks that yield no transaction. */
  function Skipped(accountId: string, blocks: seq<string>, balance: Option<Cents>): nat {
    if blocks == [] then 0
    else
      Skipped(accountId, blocks[..|blocks| - 1], balance)
        + (if ParseBlock(accountId, blocks[|blocks| - 1], balance).None? then 1 else 0)
  }

  lemma ParsedStep(accountId: string, blocks: seq<string>, balance: Option<Cents>, i: nat)
    requires i < |blocks|
    ensures var t := ParseBlock(accountId, blocks[i], balance);
      Parsed(accountId, blocks[..i + 1], balance) == Parsed(accountId, blocks[..i], balance) + (if t.Some? then [t.value] else []) &&
      Skipped(accountId, blocks[..i + 1], balance) == Skipped(accountId, blocks[..i], balance) + (if t.None? then 1 else 0)
  {
    assert blocks[..i + 1][..i] == blocks[..i];
  }

  /** Every block is either returned as a transaction or counted as skipped. */
  lemma {:induction false} ParsedAccounting(accountId: string, blocks: seq<string>, balance: Option<Cents>)
    ensures |Parsed(accountId, blocks, balance)| + Skipped(accountId, blocks, balance) == |blocks|
  {
    if blocks != [] {
      ParsedAccounting(accountId, blocks[..|blocks| - 1], balance);
    }
  }

  /** Every transaction of a file belongs to the parser's account and carries the file's balance. */
  lemma {:induction false} ParsedShareBalance(accountId: string, blocks: seq<string>, balance: Option<Cents>)
    ensures forall t :: t in Parsed(accountId, blocks, balance) ==> t.accountId == accountId && t.balance == balance
  {
    if blocks != [] {
      ParsedShareBalance(accountId, blocks[..|blocks| - 1], balance);
    }
  }

  /** Every returned transaction is read from one of the blocks. */
  lemma {:induction false} ParsedOrigin(accountId: string, blocks: seq<string>, balance: Option<Cents>, t: RawTransaction)
    returns (i: nat)
    requires t in Parsed(accountId, blocks, balance)
    ensures i < |blocks| && ParseBlock(accountId, blocks[i], balance) == Some(t)
  {
    var init := blocks[..|blocks| - 1];
    if t in Parsed(accountId, init, balance) {
      i := ParsedOrigin(accountId, init, balance, t);
      assert blocks[i] == init[i];
    } else {
      i := |blocks| - 1;
    }
  }

  // ── Detection ──────────────────────────────────────────

  /** The first 200 characters, which is all `detect` reads. */
  function Head(content: string): (r: string)
    ensures |r| <= 200 && |r| <= |content| && r == content[..|r|]
    ensures |content| <= 200 ==> r == content
  {
    if |content| <= 200 then content else content[..200]
  }

  lemma {:induction false} ContainsExtend(a: string, b: string, needle: string)
    requires Contains(a, needle)
    ensures Contains(a + b, needle)
    decreases |a|
  {
    if StartsWith(a, needle) {
      assert (a + b)[..|needle|] == a[..|needle|];
    } else {
      assert (a + b)[1..] == a[1..] + b;
      ContainsExtend(a[1..], b, needle);
    }
  }

  /**
   * `detect`: the head of the file names OFX header version 100 and holds
   * no XML declaration, in any case.
   */
  function Detect(content: string): (r: bool)
    ensures r ==> Contains(content, "OFXHEADER:100")
  {
    var head := Head(content);
    if Contains(head, "OFXHEADER:100") && !Contains(Lower(head), "<?xml") then
      assert content == head + content[|head|..];
      ContainsExtend(head, content[|head|..], "OFXHEADER:100");
      true
    else false
  }

  /** Nothing after the first 200 characters changes the verdict. */
  lemma DetectReadsHead(content: string, tail: string)
    requires |content| >= 200
    ensures Detect(content + tail) == Detect(content)
  {
    assert (content + tail)[..200] == content[..200];
  }

  /** A file that opens with an XML declaration, in any letter case, is not SGML. */
  lemma DetectRejectsXml(content: string)
    requires |content| >= 5 && Lower(content[..5]) == "<?xml"
    ensures !Detect(content)
  {
    var head := Head(content);
    var low := Lower(head);
    assert |head| >= 5;
    forall i | 0 <= i < 5
      ensures low[i] == "<?xml"[i]
    {
      assert head[i] == content[..5][i];
      assert Lower(content[..5])[i] == LowerChar(content[..5][i]);
    }
    assert low[..5] == "<?xml";
    assert StartsWith(low, "<?xml");
  }

  // ── The parser ─────────────────────────────────────────

  /** `QfxSgmlParser`: bound to one account; `skippedCount` is reset by every `parse`. */
  class QfxSgmlParser {
    const accountId: string
    var skippedCount: nat

    constructor (accountId: string)
      ensures this.accountId == accountId && skippedCount == 0
    {
      this.accountId := accountId;
      skippedCount := 0;
    }

    /**
     * `parse` over the file text: the readable blocks' transactions in
     * order, each with the file's balance, and the unreadable blocks counted.
     */
    method Parse(content: string) returns (txns: seq<RawTransaction>)
      modifies this
      ensures txns == Parsed(accountId, Blocks(content), ExtractBalance(content))
      ensures skippedCount == Skipped(accountId, Blocks(content), ExtractBalance(content))
      ensures |txns| + skippedCount == |Blocks(content)|
    {
      var balance := ExtractBalance(content);
      var blocks := Blocks(content);
      txns, skippedCount := ParseBlocks(accountId, blocks, balance);
    }
  }

  /** The loop of `parse` over the blocks: readable ones parsed in order, the others counted. */
  method ParseBlocks(accountId: string, blocks: seq<string>, balance: Option<Cents>)
    returns (txns: seq<RawTransaction>, skipped: nat)
    ensures txns == Parsed(accountId, blocks, balance)
    ensures skipped == Skipped(accountId, blocks, balance)
    ensures |txns| + skipped == |blocks|
  {
    txns := [];
    skipped := 0;
    var i := 0;
    while i < |blocks|
      invariant 0 <= i <= |blocks|
      invariant txns == Parsed(accountId, blocks[..i], balance)
      invariant |txns| + skipped == i
    {
      ParsedStep(accountId, blocks, balance, i);
      var t := ParseBlock(accountId, blocks[i], balance);
      if t.Some? {
        txns := txns + [t.value];
      } else {
        skipped := skipped + 1;
      }
      i := i + 1;
    }
    assert blocks[..|blocks|] == blocks;
    ParsedAccounting(accountId, blocks, balance);
  }
}

=== FILE: queries.dfy ===
/**
 * Queries over several tables: the derived transfer flag, the monthly
 * category summary, balance reconciliation and the status counters.
 */
module Queries {
  import opened Wrappers
  import opened Text
  import opened Seqs
  import opened Models
  import opened Repo

  /** `is_transfer`: the transaction takes part in a recorded transfer. */
  function IsTransfer(transfers: seq<Transfer>, txnId: string): (r: bool)
    ensures r <==> exists tr :: tr in transfers && (tr.fromTransactionId == txnId || tr.toTransactionId == txnId)
  {
    txnId in LinkedIds(transfers)
  }

  /** The flag agrees with the lookup of the transfer itself. */
  lemma IsTransferLookup(transfers: seq<Transfer>, txnId: string)
    ensures IsTransfer(transfers, txnId) <==> TransferByTransaction(transfers, txnId).Some?
  {
  }

  /**
   * `batch_is_transfer`: the ids of the list that take part in a transfer,
   * looked up 500 at a time.
   */
  method BatchIsTransfer(transfers: seq<Transfer>, txnIds: seq<string>) returns (result: set<string>)
    ensures result == set id | id in txnIds && IsTransfer(transfers, id)
  {
    result := {};
    var i := 0;
    while i < |txnIds|
      invariant 0 <= i <= |txnIds|
      invariant result == set id | id in txnIds[..i] && IsTransfer(transfers, id)
    {
      var end := if i + 500 < |txnIds| then i + 500 else |txnIds|;
      var chunk := txnIds[i..end];
      result := result + set id | id in chunk && IsTransfer(transfers, id);
      assert txnIds[..end] == txnIds[..i] + chunk;
      i := end;
    }
    assert txnIds[..i] == txnIds;
  }

  /** `get_transactions_with_transfer_flag`: the account's rows, each with its transfer flag. */
  function TransactionsWithTransferFlag(txns: seq<Transaction>, transfers: seq<Transfer>, accountId: string,
                                        dateFrom: Option<string>, dateTo: Option<string>): (r: seq<(Transaction, bool)>)
    ensures |r| == |TransactionsForAccount(txns, accountId, dateFrom, dateTo)|
    ensures forall i :: 0 <= i < |r| ==>
      r[i].0 == TransactionsForAccount(txns, accountId, dateFrom, dateTo)[i] &&
      (r[i].1 <==> IsTransfer(transfers, r[i].0.id))
  {
    var rows := TransactionsForAccount(txns, accountId, dateFrom, dateTo);
    seq(|rows|, i requires 0 <= i < |rows| => (rows[i], IsTransfer(transfers, rows[i].id)))
  }

  // ── Category summary ───────────────────────────────────

  /** One row of the allocations joined to transactions dated in the month. */
  datatype SpendRow = SpendRow(categoryId: string, amount: Cents)

  /** The allocations whose transaction's date starts with `month`. */
  function MonthRows(txns: seq<Transaction>, allocs: seq<Allocation>, month: string): (r: seq<SpendRow>)
    ensures |r| <= |allocs|
  {
    if allocs == [] then []
    else
      var here := match TxnById(txns, allocs[0].transactionId)
        case Some(t) => if StartsWith(t.date, month) then [SpendRow(allocs[0].categoryId, allocs[0].amount)] else []
        case None => [];
      here + MonthRows(txns, allocs[1..], month)
  }

  datatype CategoryTotal = CategoryTotal(categoryId: string, total: Cents, txnCount: nat)

  function RowCategory(r: SpendRow): string { r.categoryId }
  function RowAmount(r: SpendRow): int { r.amount }
  function TotalOf(c: CategoryTotal): int { c.total }
  function RowOne(r: SpendRow): int { 1 }

  /** `COUNT(*)` of a group: the number of rows of category `k`. */
  function RowsIn(rows: seq<SpendRow>, k: string): nat {
    Count(rows, (y: SpendRow) => RowCategory(y) == k)
  }

  /** The categories of the rows, in order of first appearance. */
  function SummaryKeys(rows: seq<SpendRow>): (keys: seq<string>)
    ensures forall i, j :: 0 <= i < j < |keys| ==> keys[i] != keys[j]
    ensures forall k :: k in keys <==> exists x :: x in rows && x.categoryId == k
  {
    var ks := seq(|rows|, i requires 0 <= i < |rows| => rows[i].categoryId);
    assert forall x :: x in rows ==> x.categoryId in ks by {
      forall x | x in rows
        ensures x.categoryId in ks
      {
        var i :| 0 <= i < |rows| && rows[i] == x;
        assert ks[i] == x.categoryId;
      }
    }
    Distinct(ks)
  }

  /** GROUP BY category: each category with its summed amount and its row count. */
  function GroupByCategory(rows: seq<SpendRow>): (r: seq<CategoryTotal>)
    ensures |r| == |SummaryKeys(rows)|
    ensures forall i :: 0 <= i < |r| ==> r[i].categoryId == SummaryKeys(rows)[i]
    ensures forall i :: 0 <= i < |r| ==> r[i].total == SumWithKey(rows, RowCategory, r[i].categoryId, RowAmount)
    ensures forall i :: 0 <= i < |r| ==> r[i].txnCount == RowsIn(rows, r[i].categoryId)
  {
    var keys := SummaryKeys(rows);
    seq(|keys|, i requires 0 <= i < |keys| =>
      CategoryTotal(keys[i], SumWithKey(rows, RowCategory, keys[i], RowAmount), RowsIn(rows, keys[i])))
  }

  /** Every group counts at least one row, and every row's category has a group. */
  lemma GroupsNonEmpty(rows: seq<SpendRow>)
    ensures forall i :: 0 <= i < |GroupByCategory(rows)| ==> GroupByCategory(rows)[i].txnCount >= 1
    ensures forall x :: x in rows ==>
      exists i :: 0 <= i < |GroupByCategory(rows)| && GroupByCategory(rows)[i].categoryId == x.categoryId
  {
    var g := GroupByCategory(rows);
    var keys := SummaryKeys(rows);
    forall i | 0 <= i < |g|
      ensures g[i].txnCount >= 1
    {
      assert keys[i] in keys;
      var x :| x in rows && x.categoryId == keys[i];
      var k :| 0 <= k < |rows| && rows[k] == x;
      assert RowCategory(rows[k]) == keys[i];
    }
    forall x | x in rows
      ensures exists i :: 0 <= i < |g| && g[i].categoryId == x.categoryId
    {
      assert x.categoryId in keys;
      var i :| 0 <= i < |keys| && keys[i] == x.categoryId;
      assert g[i].categoryId == x.categoryId;
    }
  }

  /** `get_category_summary`: the month's spending per category, smallest total first. */
  function CategorySummary(txns: seq<Transaction>, allocs: seq<Allocation>, month: string): (r: seq<CategoryTotal>)
    ensures multiset(r) == multiset(GroupByCategory(MonthRows(txns, allocs, month)))
    ensures Sorted(r, (a: CategoryTotal, b: CategoryTotal) => a.total <= b.total)
  {
    var g := GroupByCategory(MonthRows(txns, allocs, month));
    var le := (a: CategoryTotal, b: CategoryTotal) => a.total <= b.total;
    SortBySorted(g, le);
    SortBy(g, le)
  }

  function SumTotals(g: seq<CategoryTotal>): int {
    if g == [] then 0 else g[0].total + SumTotals(g[1..])
  }

  /** The per-category totals add up to all of the month's allocated amounts. */
  lemma {:induction false} GroupTotalsAddUp(rows: seq<SpendRow>)
    ensures SumTotals(GroupByCategory(rows)) == SumOf(rows, RowAmount)
  {
    var keys := SummaryKeys(rows);
    var g := GroupByCategory(rows);
    forall x | x in rows
      ensures RowCategory(x) in keys
    {
    }
    SumPerKeyTotal(keys, rows, RowCategory, RowAmount);
    SumTotalsPerKey(g, keys, rows);
  }

  function SumCounts(g: seq<CategoryTotal>): int {
    if g == [] then 0 else g[0].txnCount + SumCounts(g[1..])
  }

  /** The per-category row counts add up to the month's allocation rows. */
  lemma {:induction false} GroupCountsAddUp(rows: seq<SpendRow>)
    ensures SumCounts(GroupByCategory(rows)) == |rows|
  {
    var keys := SummaryKeys(rows);
    var g := GroupByCategory(rows);
    forall x | x in rows
      ensures RowCategory(x) in keys
    {
    }
    forall i | 0 <= i < |g|
      ensures g[i].txnCount == SumWithKey(rows, RowCategory, keys[i], RowOne)
    {
      RowsInSum(rows, keys[i]);
    }
    SumPerKeyTotal(keys, rows, RowCategory, RowOne);
    SumOfOnes(rows);
    SumCountsPerKey(g, keys, rows);
  }

  /** A group's row count is its sum of ones. */
  lemma {:induction false} RowsInSum(rows: seq<SpendRow>, k: string)
    ensures RowsIn(rows, k) == SumWithKey(rows, RowCategory, k, RowOne)
  {
    if rows != [] {
      RowsInSum(rows[1..], k);
    }
  }

  lemma {:induction false} SumOfOnes(rows: seq<SpendRow>)
    ensures SumOf(rows, RowOne) == |rows|
  {
    if rows != [] {
      SumOfOnes(rows[1..]);
    }
  }

  lemma {:induction false} SumCountsPerKey(g: seq<CategoryTotal>, keys: seq<string>, rows: seq<SpendRow>)
    requires |g| == |keys|
    requires forall i :: 0 <= i < |g| ==> g[i].txnCount == SumWithKey(rows, RowCategory, keys[i], RowOne)
    ensures SumCounts(g) == SumPerKey(keys, rows, RowCategory, RowOne)
  {
    if g != [] {
      assert forall i :: 0 <= i < |g[1..]| ==> g[1..][i] == g[i + 1] && keys[1..][i] == keys[i + 1];
      SumCountsPerKey(g[1..], keys[1..], rows);
    }
  }

  lemma {:induction false} SumTotalsPerKey(g: seq<CategoryTotal>, keys: seq<string>, rows: seq<SpendRow>)
    requires |g| == |keys|
    requires forall i :: 0 <= i < |g| ==> g[i].total == SumWithKey(rows, RowCategory, keys[i], RowAmount)
    ensures SumTotals(g) == SumPerKey(keys, rows, RowCategory, RowAmount)
  {
    if g != [] {
      assert forall i :: 0 <= i < |g[1..]| ==> g[1..][i] == g[i + 1] && keys[1..][i] == keys[i + 1];
      SumTotalsPerKey(g[1..], keys[1..], rows);
    }
  }

  // ── Reconciliation ─────────────────────────────────────

  predicate HasBalance(t: Transaction, accountId: string) {
    t.accountId == accountId && t.balance.Some?
  }

  /**
   * Position of the row `ORDER BY date DESC, rowid DESC LIMIT 1` picks
   * among the first `n` rows: a latest-dated row of the account with a
   * balance, the last such row on a tie.
   */
  function LastWithBalance(txns: seq<Transaction>, accountId: string, n: nat): (r: Option<nat>)
    requires n <= |txns|
    ensures r.Some? ==> r.value < n && HasBalance(txns[r.value], accountId)
    ensures r.None? <==> forall j :: 0 <= j < n ==> !HasBalance(txns[j], accountId)
    ensures r.Some? ==> forall j :: 0 <= j < n && HasBalance(txns[j], accountId) ==>
      StrLe(txns[j].date, txns[r.value].date) && (txns[j].date == txns[r.value].date ==> j <= r.value)
  {
    if n == 0 then None
    else
      var b := LastWithBalance(txns, accountId, n - 1);
      var t := txns[n - 1];
      StepFacts(txns, accountId, n - 1, b);
      if HasBalance(t, accountId) && (b.None? || StrLe(txns[b.value].date, t.date)) then Some(n - 1)
      else b
  }

  /**
   * A row dated no earlier than the best so far dominates everything
   * before it; one dated earlier is dated differently and no later.
   */
  lemma StepFacts(txns: seq<Transaction>, accountId: string, m: nat, b: Option<nat>)
    requires m < |txns|
    requires b.Some? ==>
      b.value < m &&
      forall j :: 0 <= j < m && HasBalance(txns[j], accountId) ==> StrLe(txns[j].date, txns[b.value].date)
    ensures StrLe(txns[m].date, txns[m].date)
    ensures b.Some? && StrLe(txns[b.value].date, txns[m].date) ==>
      forall j :: 0 <= j < m && HasBalance(txns[j], accountId) ==> StrLe(txns[j].date, txns[m].date)
    ensures b.Some? && !StrLe(txns[b.value].date, txns[m].date) ==>
      StrLe(txns[m].date, txns[b.value].date) && txns[m].date != txns[b.value].date
  {
    StrLeRefl(txns[m].date);
    if b.Some? {
      var d := txns[b.value].date;
      if StrLe(d, txns[m].date) {
        forall j | 0 <= j < m && HasBalance(txns[j], accountId)
          ensures StrLe(txns[j].date, txns[m].date)
        {
          StrLeTrans(txns[j].date, d, txns[m].date);
        }
      } else {
        StrLeTotal(d, txns[m].date);
        StrLeRefl(d);
      }
    }
  }

  datatype Reconciliation =
    | NoBalanceData
    | Reconciled(status: string, date: string, statementBalance: Cents, computedBalance: Cents, difference: nat)

  /** The rows the computed balance sums: the account's, up to the date, not in a transfer. */
  predicate CountsTowardBalance(t: Transaction, accountId: string, balanceDate: string, linked: set<string>) {
    t.accountId == accountId && StrLe(t.date, balanceDate) && t.id !in linked
  }

  /**
   * `get_reconciliation_data`: the latest statement balance of the account
   * against the sum of its non-transfer amounts up to that date. Amounts
   * are whole cents, so the source's "difference below one cent" is
   * equality.
   */
  function ReconciliationData(txns: seq<Transaction>, transfers: seq<Transfer>, accountId: string): (r: Reconciliation)
    ensures r.NoBalanceData? <==> forall t :: t in txns ==> !HasBalance(t, accountId)
    ensures r.Reconciled? ==>
      exists t :: t in txns && HasBalance(t, accountId) && t.date == r.date && t.balance == Some(r.statementBalance)
    ensures r.Reconciled? ==>
      r.computedBalance == SumOf(Filter(txns, (t: Transaction) => CountsTowardBalance(t, accountId, r.date, LinkedIds(transfers))), Amount)
    ensures r.Reconciled? ==> (r.status == "balanced" <==> r.computedBalance == r.statementBalance)
    ensures r.Reconciled? ==> r.status in {"balanced", "discrepancy"}
    ensures r.Reconciled? ==> r.difference as int == Abs(r.computedBalance - r.statementBalance)
  {
    match LastWithBalance(txns, accountId, |txns|)
    case None => NoBalanceData
    case Some(k) =>
      var last := txns[k];
      var linked := LinkedIds(transfers);
      var computed := SumOf(Filter(txns, (t: Transaction) => CountsTowardBalance(t, accountId, last.date, linked)), Amount);
      var difference := Abs(computed - last.balance.value);
      Reconciled(if difference == 0 then "balanced" else "discrepancy",
                 last.date, last.balance.value, computed, difference)
  }

  /** The statement row is the latest of the account's rows that carry a balance. */
  lemma ReconciliationUsesLatest(txns: seq<Transaction>, transfers: seq<Transfer>, accountId: string, t: Transaction)
    requires t in txns && HasBalance(t, accountId)
    ensures ReconciliationData(txns, transfers, accountId).Reconciled?
    ensures StrLe(t.date, ReconciliationData(txns, transfers, accountId).date)
  {
    var k :| 0 <= k < |txns| && txns[k] == t;
    assert HasBalance(txns[k], accountId);
  }

  // ── Status counters ────────────────────────────────────

  datatype StatusCounts = StatusCounts(totalTxns: nat, pending: nat, flagged: nat, categorized: nat,
                                       totalImports: nat, totalTransfers: nat)

  function StatusIs(s: string): Transaction -> bool {
    (t: Transaction) => t.status == s
  }

  /** `get_status_counts`: row counts of the tables and of the three main statuses. */
  function GetStatusCounts(txns: seq<Transaction>, imports: seq<Import>, transfers: seq<Transfer>): (r: StatusCounts)
    ensures r.totalTxns == |txns| && r.totalImports == |imports| && r.totalTransfers == |transfers|
    ensures r.pending == 0 <==> forall i :: 0 <= i < |txns| ==> txns[i].status != "pending"
    ensures r.flagged == 0 <==> forall i :: 0 <= i < |txns| ==> txns[i].status != "flagged"
    ensures r.categorized == 0 <==> forall i :: 0 <= i < |txns| ==> txns[i].status != "categorized"
  {
    StatusCounts(|txns|, Count(txns, StatusIs("pending")), Count(txns, StatusIs("flagged")),
                 Count(txns, StatusIs("categorized")), |imports|, |transfers|)
  }

  /** A transaction has one status, so the three counters never exceed the total. */
  lemma StatusCountsBounded(txns: seq<Transaction>, imports: seq<Import>, transfers: seq<Transfer>)
    ensures var c := GetStatusCounts(txns, imports, transfers);
      c.pending + c.flagged + c.categorized <= c.totalTxns
  {
    StatusCountsSum(txns);
  }

  lemma {:induction false} StatusCountsSum(txns: seq<Transaction>)
    ensures Count(txns, StatusIs("pending")) + Count(txns, StatusIs("flagged"))
          + Count(txns, StatusIs("categorized")) <= |txns|
  {
    if txns != [] {
      StatusCountsSum(txns[1..]);
    }
  }
}

=== FILE: receipt_lookup.dfy ===
/**
 * Step 6 of the categorisation cascade: Apple and Amazon charges are
 * matched against the line items of receipt e-mails. The mail search and
 * the bodies fetched, and the language model's replies, are parameters;
 * the replies are parsed here, cached per message, and the items are
 * matched to the charge by subset sum (Apple, within one dollar) or by the
 * receipt totals and item sums (Amazon, within five percent).
 */
module Receipts {
  import opened Wrappers
  import opened Text
  import opened Seqs
  import opened Models
  import opened Dicts
  import opened Config
  import opened Combinations
  import opened Json
  import opened Repo

  const AppleBillPattern: string := "APPLE.COM/BILL"
  const AmazonPattern: string := "AMAZON"
  const AmznPattern: string := "AMZN"
  /** Apple: the items must sum to the charge within one dollar. */
  const AppleToleranceCents: nat := 100
  const AppleConfidence: real := 0.85
  /** Monthly spending cap on model calls (shared with categorisation). */
  const MonthlyBudgetCents: nat := 500
  const ReceiptParseCostCents: nat := 3
  const ReceiptParseService: string := "claude_receipt_parse"
  const GmailSearchService: string := "gmail_search"
  /** At most this many of the messages found are fetched. */
  const MaxEmails: nat := 5

  datatype ReceiptItem = ReceiptItem(name: string, amount: Cents, categoryId: Option<string>)

  datatype ParsedReceipt = ParsedReceipt(items: seq<ReceiptItem>, orderTotal: Option<Cents>, shipmentTotal: Option<Cents>)

  const EmptyReceipt: ParsedReceipt := ParsedReceipt([], None, None)

  datatype ReceiptResult = ReceiptResult(
    matched: bool,
    items: seq<ReceiptItem>,
    gmailMessageId: Option<string>,
    matchType: Option<string>,
    confidence: real)

  function ItemAmount(it: ReceiptItem): Cents { it.amount }

  function ItemsTotal(items: seq<ReceiptItem>): int { SumOf(items, ItemAmount) }

  function ItemAmounts(items: seq<ReceiptItem>): (r: seq<Cents>)
    ensures |r| == |items|
    ensures forall i :: 0 <= i < |items| ==> r[i] == items[i].amount
  {
    seq(|items|, i requires 0 <= i < |items| => items[i].amount)
  }

  /** The items at the given indices, in index order. */
  function PickItems(items: seq<ReceiptItem>, c: seq<nat>): (r: seq<ReceiptItem>)
    requires IsCombo(c, |items|)
    ensures |r| == |c|
    ensures forall k :: 0 <= k < |c| ==> r[k] == items[c[k]]
  {
    seq(|c|, k requires 0 <= k < |c| => items[c[k]])
  }

  lemma {:induction false} PickItemsSum(items: seq<ReceiptItem>, c: seq<nat>)
    requires IsCombo(c, |items|)
    ensures ItemsTotal(PickItems(items, c)) == SumAt(ItemAmounts(items), c)
  {
    if c != [] {
      assert IsCombo(c[1..], |items|);
      PickItemsSum(items, c[1..]);
      assert PickItems(items, c)[1..] == PickItems(items, c[1..]);
    }
  }

  // ── Candidates ─────────────────────────────────────────

  /**
   * `_get_merchant_type`: on the upper-cased description, Apple's billing
   * marker first, then either Amazon marker; None otherwise.
   */
  function MerchantType(rawDescription: string): (r: Option<string>)
    ensures r == Some("apple") <==> Contains(Upper(rawDescription), AppleBillPattern)
    ensures r == Some("amazon") <==> (!Contains(Upper(rawDescription), AppleBillPattern) &&
      (Contains(Upper(rawDescription), AmazonPattern) || Contains(Upper(rawDescription), AmznPattern)))
    ensures r.None? || r == Some("apple") || r == Some("amazon")
  {
    var desc := Upper(rawDescription);
    if Contains(desc, AppleBillPattern) then Some("apple")
    else if Contains(desc, AmazonPattern) || Contains(desc, AmznPattern) then Some("amazon")
    else None
  }

  // ── Apple ──────────────────────────────────────────────

  predicate AppleFits(amounts: seq<Cents>, charge: nat, c: seq<nat>) {
    Abs(SumAt(amounts, c) - charge) <= AppleToleranceCents
  }

  /** The first non-empty index list (smallest size first, combination order) whose items sum to the charge within a dollar. */
  function AppleCombo(items: seq<ReceiptItem>, charge: nat): (r: Option<seq<nat>>)
    ensures r.Some? ==> IsCombo(r.value, |items|) && |r.value| >= 1 && AppleFits(ItemAmounts(items), charge, r.value)
  {
    var fits := (c: seq<nat>) => AppleFits(ItemAmounts(items), charge, c);
    SearchFacts(|items|, 1, fits);
    Search(|items|, 1, fits)
  }

  /**
   * `_resolve_apple`: the items of the first smallest subset summing to
   * |amount| within a dollar, reported under the first e-mail's id.
   */
  function ResolveApple(amount: Cents, items: seq<ReceiptItem>, bodies: seq<(string, string)>): (r: Option<ReceiptResult>)
    ensures r.Some? <==> AppleCombo(items, Abs(amount)).Some?
    ensures r.Some? ==> (r.value.matched && r.value.matchType == Some("apple_subset_sum") &&
      r.value.confidence == AppleConfidence &&
      r.value.gmailMessageId == (if bodies == [] then None else Some(bodies[0].0)))
    ensures r.Some? ==> r.value.items != [] && Abs(ItemsTotal(r.value.items) - Abs(amount)) <= AppleToleranceCents
  {
    match AppleCombo(items, Abs(amount))
    case None => None
    case Some(c) =>
      PickItemsSum(items, c);
      Some(ReceiptResult(true, PickItems(items, c), if bodies == [] then None else Some(bodies[0].0),
                         Some("apple_subset_sum"), AppleConfidence))
  }

  /**
   * No non-empty subset smaller than the one matched fits, and when none
   * is matched no non-empty subset fits at all.
   */
  lemma ResolveAppleMinimal(amount: Cents, items: seq<ReceiptItem>, bodies: seq<(string, string)>, d: seq<nat>)
    requires IsCombo(d, |items|) && |d| >= 1
    ensures var r := ResolveApple(amount, items, bodies);
      r.Some? ==> (r.value.items == PickItems(items, AppleCombo(items, Abs(amount)).value) &&
        (|d| < |r.value.items| ==> !AppleFits(ItemAmounts(items), Abs(amount), d)))
    ensures ResolveApple(amount, items, bodies).None? ==> !AppleFits(ItemAmounts(items), Abs(amount), d)
  {
    var fits := (c: seq<nat>) => AppleFits(ItemAmounts(items), Abs(amount), c);
    SearchFacts(|items|, 1, fits);
  }

  /** Among the subsets of its size, the one matched is the first in combination order that fits. */
  lemma AppleComboFirst(items: seq<ReceiptItem>, charge: nat)
    requires AppleCombo(items, charge).Some?
    ensures var c := AppleCombo(items, charge).value;
      exists i :: 0 <= i < |Combos(0, |items|, |c|)| && Combos(0, |items|, |c|)[i] == c &&
        forall j :: 0 <= j < i ==> !AppleFits(ItemAmounts(items), charge, Combos(0, |items|, |c|)[j])
  {
    var fits := (c: seq<nat>) => AppleFits(ItemAmounts(items), charge, c);
    SearchFirst(|items|, 1, fits);
  }

  // ── Amazon ─────────────────────────────────────────────

  /** A positive total within five percent of the charge: |total - charge| / charge <= 0.05. */
  predicate NearCharge(total: int, charge: nat) {
    total > 0 && 20 * Abs(total - charge) <= charge
  }

  function AmazonCombo(items: seq<ReceiptItem>, charge: nat): (r: Option<seq<nat>>)
    ensures r.Some? ==> IsCombo(r.value, |items|) && |r.value| >= 1 && NearCharge(SumAt(ItemAmounts(items), r.value), charge)
  {
    var fits := (c: seq<nat>) => NearCharge(SumAt(ItemAmounts(items), c), charge);
    SearchFacts(|items|, 1, fits);
    Search(|items|, 1, fits)
  }

  /**
   * `_subset_sum_match`: the whole list when its total is near the charge
   * ("amazon_shipment"), else the first smallest subset whose positive sum
   * is ("amazon_subset_sum").
   */
  function SubsetSumMatch(charge: nat, items: seq<ReceiptItem>, msgId: Option<string>, confidence: real): (r: Option<ReceiptResult>)
    ensures r.Some? ==> r.value.matched && r.value.gmailMessageId == msgId && r.value.confidence == confidence
    ensures r.Some? ==> r.value.items != [] && NearCharge(ItemsTotal(r.value.items), charge)
    ensures (r.Some? && r.value.matchType == Some("amazon_shipment")) <==> NearCharge(ItemsTotal(items), charge)
    ensures r.Some? && r.value.matchType == Some("amazon_shipment") ==> r.value.items == items
    ensures r.Some? ==> r.value.matchType == Some("amazon_shipment") || r.value.matchType == Some("amazon_subset_sum")
  {
    if NearCharge(ItemsTotal(items), charge) then
      Some(ReceiptResult(true, items, msgId, Some("amazon_shipment"), confidence))
    else
      match AmazonCombo(items, charge)
      case None => None
      case Some(c) =>
        PickItemsSum(items, c);
        Some(ReceiptResult(true, PickItems(items, c), msgId, Some("amazon_subset_sum"), confidence))
  }

  /**
   * A subset-sum match is the smallest fitting subset; no match means no
   * non-empty subset fits.
   */
  lemma SubsetSumMatchMinimal(charge: nat, items: seq<ReceiptItem>, msgId: Option<string>, confidence: real, d: seq<nat>)
    requires IsCombo(d, |items|) && |d| >= 1
    ensures var r := SubsetSumMatch(charge, items, msgId, confidence);
      r.Some? && r.value.matchType == Some("amazon_subset_sum") ==>
        r.value.items == PickItems(items, AmazonCombo(items, charge).value) &&
        (|d| < |r.value.items| ==> !NearCharge(SumAt(ItemAmounts(items), d), charge))
    ensures SubsetSumMatch(charge, items, msgId, confidence).None? ==> !NearCharge(SumAt(ItemAmounts(items), d), charge)
  {
    var fits := (c: seq<nat>) => NearCharge(SumAt(ItemAmounts(items), c), charge);
    SearchFacts(|items|, 1, fits);
  }

  predicate ShipmentFits(p: ParsedReceipt, charge: nat) {
    p.shipmentTotal.Some? && NearCharge(p.shipmentTotal.value, charge)
  }

  predicate OrderFits(p: ParsedReceipt, charge: nat) {
    p.orderTotal.Some? && NearCharge(p.orderTotal.value, charge)
  }

  /** Phase 1: the first e-mail whose shipment total is near the charge. */
  function ShipmentPhase(receipts: Dict<string, ParsedReceipt>, charge: nat): (r: Option<ReceiptResult>)
    ensures r.None? <==> forall i :: 0 <= i < |receipts| ==> !ShipmentFits(receipts[i].1, charge)
    ensures r.Some? ==> exists i :: (0 <= i < |receipts| && ShipmentFits(receipts[i].1, charge) &&
      (forall j :: 0 <= j < i ==> !ShipmentFits(receipts[j].1, charge)) &&
      r.value == ReceiptResult(true, receipts[i].1.items, Some(receipts[i].0), Some("amazon_shipment_total"), 0.90))
  {
    match FirstIndex(receipts, (e: (string, ParsedReceipt)) => ShipmentFits(e.1, charge))
    case Some(i) => Some(ReceiptResult(true, receipts[i].1.items, Some(receipts[i].0), Some("amazon_shipment_total"), 0.90))
    case None => None
  }

  /** Phase 2: the first e-mail whose order total is near the charge. */
  function OrderPhase(receipts: Dict<string, ParsedReceipt>, charge: nat): (r: Option<ReceiptResult>)
    ensures r.None? <==> forall i :: 0 <= i < |receipts| ==> !OrderFits(receipts[i].1, charge)
    ensures r.Some? ==> exists i :: (0 <= i < |receipts| && OrderFits(receipts[i].1, charge) &&
      (forall j :: 0 <= j < i ==> !OrderFits(receipts[j].1, charge)) &&
      r.value == ReceiptResult(true, receipts[i].1.items, Some(receipts[i].0), Some("amazon_order_total"), 0.85))
  {
    match FirstIndex(receipts, (e: (string, ParsedReceipt)) => OrderFits(e.1, charge))
    case Some(i) => Some(ReceiptResult(true, receipts[i].1.items, Some(receipts[i].0), Some("amazon_order_total"), 0.85))
    case None => None
  }

  /** Phase 3: the first e-mail whose own items match the charge. */
  function PerEmailPhase(receipts: Dict<string, ParsedReceipt>, charge: nat): (r: Option<ReceiptResult>)
    ensures r.Some? ==> (r.value.matchType == Some("amazon_shipment") || r.value.matchType == Some("amazon_subset_sum"))
    ensures r.Some? ==> (r.value.matched && r.value.confidence == 0.80 &&
      r.value.gmailMessageId.Some? && r.value.gmailMessageId.value in Keys(receipts) &&
      NearCharge(ItemsTotal(r.value.items), charge))
    ensures r.None? <==> forall i :: 0 <= i < |receipts| ==>
      SubsetSumMatch(charge, receipts[i].1.items, Some(receipts[i].0), 0.80).None?
  {
    if receipts == [] then None
    else
      var m := if receipts[0].1.items == [] then None
               else SubsetSumMatch(charge, receipts[0].1.items, Some(receipts[0].0), 0.80);
      if m.Some? then m
      else
        var rest := PerEmailPhase(receipts[1..], charge);
        assert forall i :: 1 <= i < |receipts| ==> receipts[i] == receipts[1..][i - 1];
        rest
  }

  /** Every item of every e-mail, in e-mail order. */
  function AllItems(receipts: Dict<string, ParsedReceipt>): (r: seq<ReceiptItem>)
    ensures forall i :: 0 <= i < |receipts| ==> forall it :: it in receipts[i].1.items ==> it in r
  {
    if receipts == [] then []
    else
      var rest := AllItems(receipts[1..]);
      assert forall i :: 1 <= i < |receipts| ==> receipts[i] == receipts[1..][i - 1];
      receipts[0].1.items + rest
  }

  /** Phase 4: with more than one e-mail, the items of all of them together, under the first e-mail's id. */
  function CrossEmailPhase(receipts: Dict<string, ParsedReceipt>, charge: nat): (r: Option<ReceiptResult>)
    ensures r.Some? ==> |receipts| > 1 && r.value.confidence == 0.75 && r.value.gmailMessageId == Some(receipts[0].0)
    ensures r.Some? ==> r == SubsetSumMatch(charge, AllItems(receipts), Some(receipts[0].0), 0.75)
  {
    if |receipts| > 1 then
      var all := AllItems(receipts);
      if all == [] then None else SubsetSumMatch(charge, all, Some(receipts[0].0), 0.75)
    else None
  }

  /**
   * `_resolve_amazon`: nothing for a zero charge; otherwise the phases in
   * order — shipment total (0.90), order total (0.85), one e-mail's items
   * (0.80), all e-mails' items (0.75) — and the first that matches.
   */
  function ResolveAmazon(amount: Cents, receipts: Dict<string, ParsedReceipt>): (r: Option<ReceiptResult>)
    ensures amount == 0 ==> r.None?
    ensures r.Some? ==> r.value.matched && r.value.gmailMessageId.Some? && r.value.gmailMessageId.value in Keys(receipts)
  {
    var charge := Abs(amount);
    if charge == 0 then None
    else
      KeysAt(receipts);
      var s := ShipmentPhase(receipts, charge);
      if s.Some? then s
      else
        var o := OrderPhase(receipts, charge);
        if o.Some? then o
        else
          var e := PerEmailPhase(receipts, charge);
          if e.Some? then e
          else
            var x := CrossEmailPhase(receipts, charge);
            x
  }

  /**
   * The phases are tried in order: a later phase answers only when every
   * earlier one found nothing, and the match type and confidence say which
   * phase answered.
   */
  lemma ResolveAmazonPhases(amount: Cents, receipts: Dict<string, ParsedReceipt>)
    requires amount != 0
    ensures var r := ResolveAmazon(amount, receipts);
      var charge := Abs(amount);
      (ShipmentPhase(receipts, charge).Some? ==> r == ShipmentPhase(receipts, charge)) &&
      (ShipmentPhase(receipts, charge).None? && OrderPhase(receipts, charge).Some? ==>
         r == OrderPhase(receipts, charge)) &&
      ((ShipmentPhase(receipts, charge).None? && OrderPhase(receipts, charge).None? &&
        PerEmailPhase(receipts, charge).Some?) ==> r == PerEmailPhase(receipts, charge)) &&
      ((ShipmentPhase(receipts, charge).None? && OrderPhase(receipts, charge).None? &&
        PerEmailPhase(receipts, charge).None?) ==> r == CrossEmailPhase(receipts, charge))
  {
  }

  /** Which phase answered, read off the result. */
  lemma ResolveAmazonKinds(amount: Cents, receipts: Dict<string, ParsedReceipt>)
    requires ResolveAmazon(amount, receipts).Some?
    ensures var r := ResolveAmazon(amount, receipts).value;
      (r.matchType == Some("amazon_shipment_total") && r.confidence == 0.90) ||
      (r.matchType == Some("amazon_order_total") && r.confidence == 0.85) ||
      ((r.matchType == Some("amazon_shipment") || r.matchType == Some("amazon_subset_sum")) &&
       (r.confidence == 0.80 || (r.confidence == 0.75 && |receipts| > 1)) &&
       NearCharge(ItemsTotal(r.items), Abs(amount)))
  {
    var charge := Abs(amount);
    var r := ResolveAmazon(amount, receipts);
    ResolveAmazonPhases(amount, receipts);
    if ShipmentPhase(receipts, charge).Some? {
      assert r == ShipmentPhase(receipts, charge);
    } else if OrderPhase(receipts, charge).Some? {
      assert r == OrderPhase(receipts, charge);
    } else if PerEmailPhase(receipts, charge).Some? {
      assert r == PerEmailPhase(receipts, charge);
    } else {
      assert r == CrossEmailPhase(receipts, charge);
    }
  }

  /** A total-phase match hands over all of that e-mail's items. */
  lemma ResolveAmazonTotals(amount: Cents, receipts: Dict<string, ParsedReceipt>)
    requires ResolveAmazon(amount, receipts).Some?
    requires ResolveAmazon(amount, receipts).value.confidence >= 0.85
    ensures var r := ResolveAmazon(amount, receipts).value;
      exists i :: 0 <= i < |receipts| && r.gmailMessageId == Some(receipts[i].0) && r.items == receipts[i].1.items &&
        (ShipmentFits(receipts[i].1, Abs(amount)) || OrderFits(receipts[i].1, Abs(amount)))
  {
  }

  // ── The model's reply ──────────────────────────────────

  /** `str(name)` for a string name; other JSON names are kept as "". */
  function NameText(j: Json): string {
    if j.JStr? then j.s else ""
  }

  function CategoryText(j: Option<Json>): Option<string> {
    if j.Some? && j.value.JStr? then Some(j.value.s) else None
  }

  /**
   * One entry of `_parse_items_list`: skipped (Success(None)) unless an
   * object with a truthy name and a positive amount; comparing a
   * non-numeric amount with 0 raises (Failure).
   */
  function ItemOf(entry: Json): (r: Result<Option<ReceiptItem>, string>)
    ensures !entry.JObj? ==> r == Success(None)
    ensures r.Success? && r.value.Some? ==> entry.JObj? && Truthy(Field(entry.fields, "name").GetOr(JStr("")))
  {
    if !entry.JObj? then Success(None)
    else
      var name := Field(entry.fields, "name").GetOr(JStr(""));
      var amount := Field(entry.fields, "amount").GetOr(JNum(0.0));
      var category := CategoryText(Field(entry.fields, "category_id"));
      if !Truthy(name) then Success(None)
      else match amount
        case JNum(n) =>
          if n > 0.0 then Success(Some(ReceiptItem(NameText(name), DollarsToCents(n), category))) else Success(None)
        case JBool(b) =>
          if b then Success(Some(ReceiptItem(NameText(name), 100, category))) else Success(None)
        case _ => Failure("TypeError")
  }

  /** `_parse_items_list`: the kept items in entry order, or Failure when an entry raises. */
  function ItemsOf(entries: seq<Json>): (r: Result<seq<ReceiptItem>, string>)
    ensures r.Success? ==> |r.value| <= |entries|
    ensures r.Success? ==> forall it :: it in r.value ==> it.amount >= 0
    ensures r.Success? <==> forall i :: 0 <= i < |entries| ==> ItemOf(entries[i]).Success?
  {
    if entries == [] then Success([])
    else
      var rest := ItemsOf(entries[1..]);
      assert forall i :: 1 <= i < |entries| ==> entries[i] == entries[1..][i - 1];
      match ItemOf(entries[0])
      case Failure(e) => Failure(e)
      case Success(head) =>
        if rest.Failure? then rest
        else
          assert head.Some? ==> head.value.amount >= 0 by {
            if head.Some? {
              var a := Field(entries[0].fields, "amount").GetOr(JNum(0.0));
              assert a.JNum? || a.JBool?;
            }
          }
          Success((if head.Some? then [head.value] else []) + rest.value)
  }

  /** An entry naming a string and a price of at least half a cent becomes an item with that name and price. */
  lemma ItemOfKeeps(name: string, dollars: real, category: Option<Json>)
    requires name != "" && dollars > 0.0
    ensures var entry := JObj([("name", JStr(name)), ("amount", JNum(dollars))] +
                              (if category.Some? then [("category_id", category.value)] else []));
      ItemOf(entry) == Success(Some(ReceiptItem(name, DollarsToCents(dollars), CategoryText(category))))
  {
    var fields := [("name", JStr(name)), ("amount", JNum(dollars))] +
                  (if category.Some? then [("category_id", category.value)] else []);
    assert Field(fields, "name") == Some(JStr(name)) by {
      if category.Some? {
        assert Field(fields, "name") == Field(fields[..2], "name");
      }
      assert fields[..2][..1] == [("name", JStr(name))];
    }
    assert Field(fields, "amount") == Some(JNum(dollars)) by {
      if category.Some? {
        assert Field(fields, "amount") == Field(fields[..2], "amount");
      }
    }
    if category.None? {
      assert Field(fields, "category_id") == None;
    } else {
      assert Field(fields, "category_id") == category;
    }
  }

  /** What iterating over `data.get("items", [])` sees: an array's elements, nothing for a string or an object, else it raises. */
  function ItemsValue(v: Json): (r: Result<seq<ReceiptItem>, string>)
    ensures v.JStr? || v.JObj? ==> r == Success([])
  {
    match v
    case JArr(es) => ItemsOf(es)
    case JStr(_) => Success([])
    case JObj(_) => Success([])
    case _ => Failure("TypeError")
  }

  /** `float(total)` held in cents; None when absent, null, or not a number. */
  function TotalOf(v: Option<Json>): (r: Option<Cents>)
    ensures v.None? || v == Some(JNull) ==> r.None?
    ensures v.Some? && v.value.JNum? ==> r == Some(DollarsToCents(v.value.n))
    ensures v.Some? && ToReal(v.value).None? ==> r.None?
  {
    if v.None? || v.value == JNull then None
    else match ToReal(v.value)
      case Some(x) => Some(DollarsToCents(x))
      case None => None
  }

  /**
   * `_parse_claude_response`: an empty receipt for text that is not JSON
   * or is neither a list nor an object; a list is the legacy item list;
   * an object gives its items and totals. Failure where the source raises.
   */
  function ParseReceiptResponse(response: string, decode: string -> Option<Json>): (r: Result<ParsedReceipt, string>)
    ensures decode(StripFences(response)).None? ==> r == Success(EmptyReceipt)
    ensures (decode(StripFences(response)).Some? &&
             !(decode(StripFences(response)).value.JArr? || decode(StripFences(response)).value.JObj?)) ==>
      r == Success(EmptyReceipt)
    ensures r.Success? ==> forall it :: it in r.value.items ==> it.amount >= 0
    ensures decode(StripFences(response)).Some? && decode(StripFences(response)).value.JObj? ==>
      var f := decode(StripFences(response)).value.fields;
      r.Success? ==> r.value.orderTotal == TotalOf(Field(f, "order_total")) &&
                     r.value.shipmentTotal == TotalOf(Field(f, "shipment_total"))
  {
    var d := decode(StripFences(response));
    if d.None? then Success(EmptyReceipt)
    else match d.value
      case JArr(es) =>
        (match ItemsOf(es)
         case Success(items) => Success(ParsedReceipt(items, None, None))
         case Failure(e) => Failure(e))
      case JObj(f) =>
        (match ItemsValue(Field(f, "items").GetOr(JArr([])))
         case Success(items) =>
           Success(ParsedReceipt(items, TotalOf(Field(f, "order_total")), TotalOf(Field(f, "shipment_total"))))
         case Failure(e) => Failure(e))
      case _ => Success(EmptyReceipt)
  }

  /** The receipt categories the configuration allows (empty: any category is kept). */
  function ValidReceiptCategories(config: Option<Config>): (r: set<string>)
    ensures config.None? ==> r == {}
    ensures config.Some? ==> forall c :: c in r <==> c in config.value.receiptCategories
  {
    if config.None? then {} else set i | 0 <= i < |config.value.receiptCategories| :: config.value.receiptCategories[i]
  }

  function ValidateItem(it: ReceiptItem, valid: set<string>): ReceiptItem {
    if HasText(it.categoryId) && valid != {} && it.categoryId.value !in valid
    then it.(categoryId := Some("uncategorized")) else it
  }

  /**
   * The category check after parsing: a non-empty category outside a
   * non-empty allowed set becomes "uncategorized"; names, amounts and
   * totals are kept.
   */
  function ValidateCategories(p: ParsedReceipt, valid: set<string>): (r: ParsedReceipt)
    ensures |r.items| == |p.items|
    ensures r.orderTotal == p.orderTotal && r.shipmentTotal == p.shipmentTotal
    ensures forall i :: 0 <= i < |r.items| ==>
      r.items[i].name == p.items[i].name && r.items[i].amount == p.items[i].amount
    ensures forall i :: 0 <= i < |r.items| ==>
      (HasText(r.items[i].categoryId) && valid != {} ==>
        r.items[i].categoryId.value in valid || r.items[i].categoryId == Some("uncategorized"))
    ensures valid == {} ==> r == p
  {
    var items := seq(|p.items|, i requires 0 <= i < |p.items| => ValidateItem(p.items[i], valid));
    if valid == {} then
      assert items == p.items;
      p
    else p.(items := items)
  }

  // ── Extraction with the per-message cache ──────────────

  datatype ExtractState = ExtractState(
    cache: map<string, ParsedReceipt>,
    receipts: Dict<string, ParsedReceipt>,
    usage: seq<ApiUsage>)

  /** The cached receipts of the bodies, keyed by message id in body order. */
  function CachedReceipts(bodies: seq<(string, string)>, cache: map<string, ParsedReceipt>): (r: Dict<string, ParsedReceipt>)
    ensures forall k :: k in Keys(r) ==> k in cache
  {
    if bodies == [] then []
    else
      var d := CachedReceipts(bodies[..|bodies| - 1], cache);
      var id := bodies[|bodies| - 1].0;
      if id in cache then
        assert Keys(Put(d, id, cache[id])) == Keys(d) || Keys(Put(d, id, cache[id])) == Keys(d) + [id] by {
          KeysAppend(d, [(id, cache[id])]);
        }
        Put(d, id, cache[id])
      else d
  }

  lemma {:induction false} UncachedNone(bodies: seq<(string, string)>, cache: map<string, ParsedReceipt>)
    requires forall p :: p in bodies ==> p.0 in cache
    ensures Uncached(bodies, cache) == []
  {
    if bodies != [] {
      assert forall p :: p in bodies[..|bodies| - 1] ==> p in bodies;
      UncachedNone(bodies[..|bodies| - 1], cache);
    }
  }

  /** The bodies whose message is not cached, in order. */
  function Uncached(bodies: seq<(string, string)>, cache: map<string, ParsedReceipt>): (r: seq<(string, string)>)
    ensures forall p :: p in r <==> p in bodies && p.0 !in cache
  {
    if bodies == [] then []
    else
      var rest := Uncached(bodies[..|bodies| - 1], cache);
      assert bodies == bodies[..|bodies| - 1] + [bodies[|bodies| - 1]];
      if bodies[|bodies| - 1].0 in cache then rest else rest + [bodies[|bodies| - 1]]
  }

  function MsgIds(bodies: seq<(string, string)>): (r: seq<string>)
    ensures |r| == |bodies|
    ensures forall i :: 0 <= i < |bodies| ==> r[i] == bodies[i].0
  {
    seq(|bodies|, i requires 0 <= i < |bodies| => bodies[i].0)
  }

  /**
   * One uncached message: the model's reply (None when the call raised,
   * which records no usage), 3 cents of usage per reply, and the parsed,
   * validated receipt cached and returned; a call or parse that raised
   * caches an empty receipt and returns nothing for the message.
   */
  function ParseOne(st: ExtractState, msgId: string, reply: Option<string>, decode: string -> Option<Json>,
                    valid: set<string>, usageId: string, month: string): (r: ExtractState)
    ensures msgId in r.cache
    ensures forall k :: k in st.cache ==> k in r.cache
    ensures reply.None? ==> r.usage == st.usage
    ensures reply.Some? ==> r.usage == UsageUpsert(st.usage, usageId, month, ReceiptParseService, 1, 0, 0, ReceiptParseCostCents)
    ensures reply.None? || ParseReceiptResponse(reply.value, decode).Failure? ==>
      r.cache[msgId] == EmptyReceipt && r.receipts == st.receipts
    ensures reply.Some? && ParseReceiptResponse(reply.value, decode).Success? ==>
      var v := ValidateCategories(ParseReceiptResponse(reply.value, decode).value, valid);
      r.cache[msgId] == v && r.receipts == Put(st.receipts, msgId, v)
  {
    if reply.None? then st.(cache := st.cache[msgId := EmptyReceipt])
    else
      var usage := UsageUpsert(st.usage, usageId, month, ReceiptParseService, 1, 0, 0, ReceiptParseCostCents);
      match ParseReceiptResponse(reply.value, decode)
      case Failure(_) => ExtractState(st.cache[msgId := EmptyReceipt], st.receipts, usage)
      case Success(p) =>
        var v := ValidateCategories(p, valid);
        ExtractState(st.cache[msgId := v], Put(st.receipts, msgId, v), usage)
  }

  /** The uncached messages parsed in order. */
  function ParseAll(st: ExtractState, todo: seq<(string, string)>, replies: string -> Option<string>,
                    decode: string -> Option<Json>, valid: set<string>, usageId: string, month: string): ExtractState
  {
    if todo == [] then st
    else
      var last := todo[|todo| - 1].0;
      ParseOne(ParseAll(st, todo[..|todo| - 1], replies, decode, valid, usageId, month),
               last, replies(last), decode, valid, usageId, month)
  }

  lemma ParseAllStep(st: ExtractState, todo: seq<(string, string)>, j: nat, replies: string -> Option<string>,
                     decode: string -> Option<Json>, valid: set<string>, usageId: string, month: string)
    requires j < |todo|
    ensures ParseAll(st, todo[..j + 1], replies, decode, valid, usageId, month) ==
      ParseOne(ParseAll(st, todo[..j], replies, decode, valid, usageId, month), todo[j].0, replies(todo[j].0),
               decode, valid, usageId, month)
  {
    assert todo[..j + 1][..j] == todo[..j];
  }

  /** Number of messages whose call returned (each costs 3 cents). */
  function Answered(todo: seq<(string, string)>, replies: string -> Option<string>): nat {
    if todo == [] then 0
    else Answered(todo[..|todo| - 1], replies) + (if replies(todo[|todo| - 1].0).Some? then 1 else 0)
  }

  /**
   * After the parse loop every message sent is cached, nothing cached
   * before is lost, and the month's model spending grew by 3 cents for
   * every reply (other months unchanged).
   */
  lemma {:induction false} ParseAllFacts(st: ExtractState, todo: seq<(string, string)>, replies: string -> Option<string>,
                                         decode: string -> Option<Json>, valid: set<string>, usageId: string, month: string)
    ensures var r := ParseAll(st, todo, replies, decode, valid, usageId, month);
      (forall p :: p in todo ==> p.0 in r.cache) &&
      (forall k :: k in st.cache ==> k in r.cache) &&
      (forall m :: MonthlyCost(r.usage, m) ==
         MonthlyCost(st.usage, m) + (if m == month then ReceiptParseCostCents * Answered(todo, replies) else 0))
  {
    if todo != [] {
      var init := todo[..|todo| - 1];
      ParseAllFacts(st, init, replies, decode, valid, usageId, month);
      var mid := ParseAll(st, init, replies, decode, valid, usageId, month);
      var last := todo[|todo| - 1].0;
      assert todo == init + [todo[|todo| - 1]];
      forall m
        ensures MonthlyCost(ParseAll(st, todo, replies, decode, valid, usageId, month).usage, m) ==
          MonthlyCost(st.usage, m) + (if m == month then ReceiptParseCostCents * Answered(todo, replies) else 0)
      {
        if replies(last).Some? {
          UpsertMonthlyCost(mid.usage, usageId, month, ReceiptParseService, 1, 0, 0, ReceiptParseCostCents, m);
        }
      }
    }
  }

  /** Whether the extraction calls the model: a configured model, uncached messages, and budget left. */
  predicate CallsModel(cache: map<string, ParsedReceipt>, usage: seq<ApiUsage>, bodies: seq<(string, string)>,
                       month: string, hasClaude: bool)
  {
    hasClaude && Uncached(bodies, cache) != [] && MonthlyCost(usage, month) < MonthlyBudgetCents as int
  }

  /**
   * `_claude_extract_receipts`: nothing without a model; the cached
   * receipts alone when every message is cached or the month's spending
   * has reached the cap (checked once, before the loop); otherwise the
   * cached receipts followed by each uncached message parsed in order.
   */
  function Extraction(cache: map<string, ParsedReceipt>, usage: seq<ApiUsage>, bodies: seq<(string, string)>,
                      month: string, hasClaude: bool, replies: string -> Option<string>,
                      decode: string -> Option<Json>, valid: set<string>, usageId: string): (r: ExtractState)
    ensures !hasClaude ==> r == ExtractState(cache, [], usage)
    ensures hasClaude && !CallsModel(cache, usage, bodies, month, hasClaude) ==>
      r == ExtractState(cache, CachedReceipts(bodies, cache), usage)
    ensures CallsModel(cache, usage, bodies, month, hasClaude) ==>
      r == ParseAll(ExtractState(cache, CachedReceipts(bodies, cache), usage), Uncached(bodies, cache),
                    replies, decode, valid, usageId, month)
  {
    if !hasClaude then ExtractState(cache, [], usage)
    else
      var st := ExtractState(cache, CachedReceipts(bodies, cache), usage);
      if !CallsModel(cache, usage, bodies, month, hasClaude) then st
      else ParseAll(st, Uncached(bodies, cache), replies, decode, valid, usageId, month)
  }

  /** The messages put to the model: the uncached ones, when the model is called at all. */
  function ModelCalls(cache: map<string, ParsedReceipt>, usage: seq<ApiUsage>, bodies: seq<(string, string)>,
                      month: string, hasClaude: bool): (r: seq<string>)
    ensures forall id :: id in r ==> id !in cache
    ensures MonthlyCost(usage, month) >= MonthlyBudgetCents as int ==> r == []
  {
    if CallsModel(cache, usage, bodies, month, hasClaude) then
      var u := Uncached(bodies, cache);
      assert forall i :: 0 <= i < |u| ==> u[i] in u;
      MsgIds(u)
    else []
  }

  /** Every message sent to the model is cached afterwards, so a later lookup never sends it again. */
  lemma ExtractionCaches(cache: map<string, ParsedReceipt>, usage: seq<ApiUsage>, bodies: seq<(string, string)>,
                         month: string, hasClaude: bool, replies: string -> Option<string>,
                         decode: string -> Option<Json>, valid: set<string>, usageId: string)
    ensures var r := Extraction(cache, usage, bodies, month, hasClaude, replies, decode, valid, usageId);
      (forall id :: id in ModelCalls(cache, usage, bodies, month, hasClaude) ==> id in r.cache) &&
      (forall k :: k in cache ==> k in r.cache) &&
      ModelCalls(r.cache, usage, bodies, month, hasClaude) == []
  {
    if CallsModel(cache, usage, bodies, month, hasClaude) {
      var st := ExtractState(cache, CachedReceipts(bodies, cache), usage);
      var u := Uncached(bodies, cache);
      ParseAllFacts(st, u, replies, decode, valid, usageId, month);
      forall id | id in ModelCalls(cache, usage, bodies, month, hasClaude)
        ensures id in Extraction(cache, usage, bodies, month, hasClaude, replies, decode, valid, usageId).cache
      {
        var i :| 0 <= i < |u| && MsgIds(u)[i] == id;
        assert u[i] in u;
      }
      var after := Extraction(cache, usage, bodies, month, hasClaude, replies, decode, valid, usageId).cache;
      forall p | p in bodies ensures p.0 in after {
        if p.0 !in cache {
          assert p in u;
        }
      }
      UncachedNone(bodies, after);
    }
  }

  // ── Fetching the bodies ────────────────────────────────

  /** The first five messages found, with their non-empty bodies, in search order. */
  function EmailBodies(msgIds: seq<string>, fetch: string -> string): (r: seq<(string, string)>)
    ensures |r| <= |msgIds|
    ensures forall p :: p in r ==> p.0 in msgIds && p.1 == fetch(p.0) && p.1 != ""
  {
    if msgIds == [] then []
    else
      var init := EmailBodies(msgIds[..|msgIds| - 1], fetch);
      var id := msgIds[|msgIds| - 1];
      assert forall x :: x in msgIds[..|msgIds| - 1] ==> x in msgIds;
      if fetch(id) != "" then init + [(id, fetch(id))] else init
  }

  function FirstEmails(msgIds: seq<string>): (r: seq<string>)
    ensures |r| <= MaxEmails && |r| <= |msgIds| && r == msgIds[..|r|]
    ensures |msgIds| <= MaxEmails ==> r == msgIds
  {
    if |msgIds| <= MaxEmails then msgIds else msgIds[..MaxEmails]
  }

  /** The receipts matched against a candidate's charge, by merchant. */
  function MatchReceipts(merchant: string, amount: Cents, receipts: Dict<string, ParsedReceipt>,
                         bodies: seq<(string, string)>): (r: Option<ReceiptResult>)
    ensures r.Some? ==> r.value.matched
    ensures merchant != "apple" && merchant != "amazon" ==> r.None?
  {
    if merchant == "apple" then
      var all := AllItems(receipts);
      if all == [] then None else ResolveApple(amount, all, bodies)
    else if merchant == "amazon" then ResolveAmazon(amount, receipts)
    else None
  }

  /** What `resolve` leaves behind: the lookup status written (if any), the result, and the cache and usage. */
  datatype Resolution = Resolution(status: Option<string>, result: Option<ReceiptResult>, state: ExtractState)

  /**
   * `resolve` as a function of its inputs: the search outcome (None for an
   * error), the body fetched for a message id ("" when unavailable), the
   * model's reply for a message id (None when the call raised).
   */
  function ResolveSpec(txn: Transaction, search: Option<seq<string>>, fetch: string -> string,
                       cache: map<string, ParsedReceipt>, usage: seq<ApiUsage>, hasClaude: bool,
                       replies: string -> Option<string>, decode: string -> Option<Json>, valid: set<string>,
                       gmailUsageId: string, usageId: string): Resolution
  {
    var merchant := MerchantType(txn.rawDescription);
    if merchant.None? || |txn.date| < 7 then Resolution(None, None, ExtractState(cache, [], usage))
    else
      var month := txn.date[..7];
      if search.None? then Resolution(Some("error"), None, ExtractState(cache, [], usage))
      else
        var searched := UsageUpsert(usage, gmailUsageId, month, GmailSearchService, 1, 0, 0, 0);
        var bodies := EmailBodies(FirstEmails(search.value), fetch);
        if search.value == [] || bodies == [] then Resolution(Some("no_email"), None, ExtractState(cache, [], searched))
        else
          var e := Extraction(cache, searched, bodies, month, hasClaude, replies, decode, valid, usageId);
          if e.receipts == [] then
            Resolution(Some(if hasClaude && MonthlyCost(e.usage, month) >= MonthlyBudgetCents as int
                            then "budget_exceeded" else "no_match"), None, e)
          else
            var result := MatchReceipts(merchant.value, txn.amount, e.receipts, bodies);
            Resolution(Some(if result.Some? && result.value.matched then "matched" else "no_match"), result, e)
  }

  /**
   * The lookup statuses: none for a non-candidate or an undated row,
   * "error" exactly when the search failed, "matched" exactly when a
   * result is returned, and otherwise one of no_email / no_match /
   * budget_exceeded; the model is never reached without a successful
   * search, and a failed search records no usage.
   */
  lemma ResolveStatuses(txn: Transaction, search: Option<seq<string>>, fetch: string -> string,
                        cache: map<string, ParsedReceipt>, usage: seq<ApiUsage>, hasClaude: bool,
                        replies: string -> Option<string>, decode: string -> Option<Json>, valid: set<string>,
                        gmailUsageId: string, usageId: string)
    ensures var r := ResolveSpec(txn, search, fetch, cache, usage, hasClaude, replies, decode, valid, gmailUsageId, usageId);
      (r.status.None? <==> MerchantType(txn.rawDescription).None? || |txn.date| < 7) &&
      (r.status == Some("error") <==> r.status.Some? && search.None?) &&
      (r.result.Some? <==> r.status == Some("matched")) &&
      (r.result.Some? ==> r.result.value.matched) &&
      (r.status.Some? ==> r.status.value in {"error", "no_email", "no_match", "budget_exceeded", "matched"}) &&
      (r.status == Some("error") || r.status.None? ==> r.state == ExtractState(cache, [], usage)) &&
      (search.Some? && search.value == [] && r.status.Some? ==> r.status == Some("no_email"))
  {
  }

  /** At most five messages are fetched, and only those with a body are passed on. */
  lemma FetchCap(msgIds: seq<string>, fetch: string -> string)
    ensures var b := EmailBodies(FirstEmails(msgIds), fetch);
      |b| <= MaxEmails && forall p :: p in b ==> p.0 in msgIds[..|FirstEmails(msgIds)|] && p.1 != ""
  {
  }

  // ── Applying a match ───────────────────────────────────

  /** `sign * abs(amount)`: the item's amount with the transaction's sign. */
  function Signed(txnAmount: Cents, itemAmount: Cents): Cents {
    if txnAmount < 0 then -(Abs(itemAmount) as int) else Abs(itemAmount)
  }

  /** The allocations `apply_result` records, one per item. */
  function ReceiptAllocations(txn: Transaction, result: ReceiptResult, allocIds: seq<string>): (r: seq<Allocation>)
    requires |allocIds| == |result.items|
    ensures |r| == |result.items|
    ensures forall i :: 0 <= i < |r| ==>
      r[i].id == allocIds[i] && r[i].transactionId == txn.id &&
      r[i].categoryId == (if HasText(result.items[i].categoryId) then result.items[i].categoryId.value else "uncategorized") &&
      r[i].memo == Some(result.items[i].name) && r[i].source == "gmail_receipt" &&
      r[i].confidence == Some(result.confidence) && r[i].tags.None?
    ensures forall i :: 0 <= i < |r| ==> r[i].amount == Signed(txn.amount, result.items[i].amount)
  {
    seq(|result.items|, i requires 0 <= i < |result.items| =>
      Allocation(allocIds[i], txn.id,
                 if HasText(result.items[i].categoryId) then result.items[i].categoryId.value else "uncategorized",
                 Signed(txn.amount, result.items[i].amount), Some(result.items[i].name), None,
                 "gmail_receipt", Some(result.confidence)))
  }

  function AllocAmount(a: Allocation): Cents { a.amount }

  function AbsTotal(items: seq<ReceiptItem>): nat {
    if items == [] then 0 else Abs(items[0].amount) + AbsTotal(items[1..])
  }

  /**
   * The allocations carry the transaction's sign: together they add up to
   * the items' absolute total, negated for a charge.
   */
  lemma {:induction false} ReceiptAllocationsTotal(txn: Transaction, result: ReceiptResult, allocIds: seq<string>)
    requires |allocIds| == |result.items|
    ensures SumOf(ReceiptAllocations(txn, result, allocIds), AllocAmount) ==
      if txn.amount < 0 then -(AbsTotal(result.items) as int) else AbsTotal(result.items)
    decreases |result.items|
  {
    var r := ReceiptAllocations(txn, result, allocIds);
    if result.items != [] {
      var rest := result.(items := result.items[1..]);
      ReceiptAllocationsTotal(txn, rest, allocIds[1..]);
      var r' := ReceiptAllocations(txn, rest, allocIds[1..]);
      assert r[1..] == r';
    }
  }

  /** The receipt match row of `apply_result`. */
  function ReceiptMatchRow(id: string, txn: Transaction, result: ReceiptResult, itemsJson: string): (m: ReceiptMatch)
    ensures m.id == id && m.transactionId == txn.id
    ensures m.gmailMessageId == result.gmailMessageId.GetOr("") && m.matchType == result.matchType.GetOr("")
    ensures m.matchedItems == Some(itemsJson) && m.confidence == Some(result.confidence)
  {
    ReceiptMatch(id, txn.id, result.gmailMessageId.GetOr(""), result.matchType.GetOr(""), Some(itemsJson),
                 Some(result.confidence))
  }

  /** The first loop of `_claude_extract_receipts`: cached receipts taken, uncached messages set aside. */
  method SplitCached(bodies: seq<(string, string)>, cache: map<string, ParsedReceipt>)
    returns (receipts: Dict<string, ParsedReceipt>, uncached: seq<(string, string)>)
    ensures receipts == CachedReceipts(bodies, cache)
    ensures uncached == Uncached(bodies, cache)
  {
    receipts := [];
    uncached := [];
    var i := 0;
    while i < |bodies|
      invariant 0 <= i <= |bodies|
      invariant receipts == CachedReceipts(bodies[..i], cache)
      invariant uncached == Uncached(bodies[..i], cache)
    {
      var (msgId, body) := bodies[i];
      assert bodies[..i + 1][..i] == bodies[..i];
      if msgId in cache {
        receipts := Put(receipts, msgId, cache[msgId]);
      } else {
        uncached := uncached + [(msgId, body)];
      }
      i := i + 1;
    }
    assert bodies[..i] == bodies;
  }

  predicate IsPrefix<T(==)>(a: seq<T>, b: seq<T>) { |a| <= |b| && b[..|a|] == a }

  /**
   * The receipt lookup of one pipeline run: the model's presence and the
   * configuration are fixed; the per-message parse cache grows.
   */
  class ReceiptLookup {
    const repo: Repository
    const hasClaude: bool
    const config: Option<Config>
    var cache: map<string, ParsedReceipt>

    constructor (repo: Repository, hasClaude: bool, config: Option<Config>)
      ensures this.repo == repo && this.hasClaude == hasClaude && this.config == config
      ensures cache == map[]
    {
      this.repo := repo;
      this.hasClaude := hasClaude;
      this.config := config;
      cache := map[];
    }

    /**
     * `_claude_extract_receipts` (the model's reply to each message is a
     * parameter): returns the receipts and the message ids put to the model.
     */
    method ExtractReceipts(bodies: seq<(string, string)>, month: string, replies: string -> Option<string>,
                           decode: string -> Option<Json>, usageId: string)
      returns (receipts: Dict<string, ParsedReceipt>, calls: seq<string>)
      requires repo.Valid()
      modifies this, repo
      ensures repo.Valid()
      ensures repo.imports == old(repo.imports) && repo.txns == old(repo.txns) && repo.allocs == old(repo.allocs)
      ensures repo.transfers == old(repo.transfers) && repo.receiptMatches == old(repo.receiptMatches)
      ensures ExtractState(cache, receipts, repo.usage) ==
        Extraction(old(cache), old(repo.usage), bodies, month, hasClaude, replies, decode,
                   ValidReceiptCategories(config), usageId)
      ensures calls == ModelCalls(old(cache), old(repo.usage), bodies, month, hasClaude)
    {
      if !hasClaude {
        return [], [];
      }
      var valid := ValidReceiptCategories(config);
      var uncached;
      receipts, uncached := SplitCached(bodies, cache);
      if uncached == [] {
        return receipts, [];
      }
      var currentCost := MonthlyCost(repo.usage, month);
      if currentCost >= MonthlyBudgetCents {
        return receipts, [];
      }
      receipts, calls := ParseUncached(receipts, uncached, replies, decode, valid, usageId, month);
    }

    /** The parse loop of `_claude_extract_receipts`: every uncached message in turn. */
    method ParseUncached(receipts: Dict<string, ParsedReceipt>, uncached: seq<(string, string)>,
                         replies: string -> Option<string>, decode: string -> Option<Json>, valid: set<string>,
                         usageId: string, month: string)
      returns (receipts': Dict<string, ParsedReceipt>, calls: seq<string>)
      requires repo.Valid()
      modifies this, repo
      ensures repo.Valid()
      ensures repo.imports == old(repo.imports) && repo.txns == old(repo.txns) && repo.allocs == old(repo.allocs)
      ensures repo.transfers == old(repo.transfers) && repo.receiptMatches == old(repo.receiptMatches)
      ensures ExtractState(cache, receipts', repo.usage) ==
        ParseAll(ExtractState(old(cache), receipts, old(repo.usage)), uncached, replies, decode, valid, usageId, month)
      ensures calls == MsgIds(uncached)
    {
      ghost var start := ExtractState(cache, receipts, repo.usage);
      receipts' := receipts;
      calls := [];
      var j := 0;
      while j < |uncached|
        invariant 0 <= j <= |uncached|
        invariant repo.Valid()
        invariant repo.imports == old(repo.imports) && repo.txns == old(repo.txns) && repo.allocs == old(repo.allocs)
        invariant repo.transfers == old(repo.transfers) && repo.receiptMatches == old(repo.receiptMatches)
        invariant ExtractState(cache, receipts', repo.usage) ==
          ParseAll(start, uncached[..j], replies, decode, valid, usageId, month)
        invariant calls == MsgIds(uncached[..j])
      {
        var msgId := uncached[j].0;
        ParseAllStep(start, uncached, j, replies, decode, valid, usageId, month);
        receipts' := ParseMessage(receipts', msgId, replies(msgId), decode, valid, usageId, month);
        calls := calls + [msgId];
        j := j + 1;
      }
      assert uncached[..j] == uncached;
    }

    /** One pass of the parse loop: the call's outcome recorded, parsed, cached. */
    method ParseMessage(receipts: Dict<string, ParsedReceipt>, msgId: string, reply: Option<string>,
                        decode: string -> Option<Json>, valid: set<string>, usageId: string, month: string)
      returns (receipts': Dict<string, ParsedReceipt>)
      requires repo.Valid()
      modifies this, repo
      ensures repo.Valid()
      ensures repo.imports == old(repo.imports) && repo.txns == old(repo.txns) && repo.allocs == old(repo.allocs)
      ensures repo.transfers == old(repo.transfers) && repo.receiptMatches == old(repo.receiptMatches)
      ensures ExtractState(cache, receipts', repo.usage) ==
        ParseOne(ExtractState(old(cache), receipts, old(repo.usage)), msgId, reply, decode, valid, usageId, month)
    {
      receipts' := receipts;
      if reply.None? {
        cache := cache[msgId := EmptyReceipt];
        return;
      }
      repo.IncrementApiUsage(usageId, month, ReceiptParseService, 1, 0, 0, ReceiptParseCostCents);
      var parsed := ParseReceiptResponse(reply.value, decode);
      if parsed.Failure? {
        cache := cache[msgId := EmptyReceipt];
      } else {
        var v := ValidateCategories(parsed.value, valid);
        cache := cache[msgId := v];
        receipts' := Put(receipts, msgId, v);
      }
    }

    /**
     * `resolve`: for an Apple or Amazon candidate with a date, writes the
     * lookup status and returns the match, as ResolveSpec gives them.
     */
    method Resolve(txn: Transaction, search: Option<seq<string>>, fetch: string -> string,
                   replies: string -> Option<string>, decode: string -> Option<Json>,
                   gmailUsageId: string, usageId: string)
      returns (r: Option<ReceiptResult>)
      requires repo.Valid()
      modifies this, repo
      ensures repo.Valid()
      ensures repo.imports == old(repo.imports) && repo.allocs == old(repo.allocs)
      ensures repo.transfers == old(repo.transfers) && repo.receiptMatches == old(repo.receiptMatches)
      ensures var spec := ResolveSpec(txn, search, fetch, old(cache), old(repo.usage), hasClaude, replies, decode,
                                      ValidReceiptCategories(config), gmailUsageId, usageId);
        r == spec.result && cache == spec.state.cache && repo.usage == spec.state.usage &&
        repo.txns == (if spec.status.Some? then LookupStatusSet(old(repo.txns), txn.id, spec.status.value)
                      else old(repo.txns))
    {
      var merchant := MerchantType(txn.rawDescription);
      if merchant.None? || txn.date == "" || |txn.date| < 7 {
        return None;
      }
      var month := txn.date[..7];
      if search.None? {
        repo.SetReceiptLookupStatus(txn.id, "error");
        return None;
      }
      repo.IncrementApiUsage(gmailUsageId, month, GmailSearchService, 1, 0, 0, 0);
      var messages := search.value;
      if messages == [] {
        repo.SetReceiptLookupStatus(txn.id, "no_email");
        return None;
      }
      var bodies := FetchBodies(FirstEmails(messages), fetch);
      if bodies == [] {
        repo.SetReceiptLookupStatus(txn.id, "no_email");
        return None;
      }
      var receipts, _ := ExtractReceipts(bodies, month, replies, decode, usageId);
      if receipts == [] {
        if hasClaude && MonthlyCost(repo.usage, month) >= MonthlyBudgetCents {
          repo.SetReceiptLookupStatus(txn.id, "budget_exceeded");
        } else {
          repo.SetReceiptLookupStatus(txn.id, "no_match");
        }
        return None;
      }
      r := MatchReceipts(merchant.value, txn.amount, receipts, bodies);
      if r.Some? && r.value.matched {
        repo.SetReceiptLookupStatus(txn.id, "matched");
      } else {
        repo.SetReceiptLookupStatus(txn.id, "no_match");
      }
    }

    /** The fetch loop: the non-empty bodies of the messages, in order. */
    method FetchBodies(first: seq<string>, fetch: string -> string) returns (bodies: seq<(string, string)>)
      ensures bodies == EmailBodies(first, fetch)
    {
      bodies := [];
      var i := 0;
      while i < |first|
        invariant 0 <= i <= |first|
        invariant bodies == EmailBodies(first[..i], fetch)
      {
        assert first[..i + 1][..i] == first[..i];
        var body := fetch(first[i]);
        if body != "" {
          bodies := bodies + [(first[i], body)];
        }
        i := i + 1;
      }
      assert first[..i] == first;
    }

    /**
     * `apply_result`: nothing unless a match with items; otherwise the
     * receipt match row, then — unless the transaction already has
     * allocations — one allocation per item and the status "categorized"
     * by "gmail_receipt". `ok` is false when a row was refused (the source
     * raises); the status is then left as it was.
     */
    method ApplyResult(txn: Transaction, result: ReceiptResult, matchId: string, allocIds: seq<string>,
                       itemsJson: string)
      returns (ok: bool)
      requires repo.Valid()
      requires |allocIds| == |result.items|
      modifies repo
      ensures repo.Valid()
      ensures repo.imports == old(repo.imports) && repo.transfers == old(repo.transfers) && repo.usage == old(repo.usage)
      ensures !result.matched || result.items == [] ==>
        ok && repo.txns == old(repo.txns) && repo.allocs == old(repo.allocs) &&
        repo.receiptMatches == old(repo.receiptMatches)
      ensures result.matched && result.items != [] && ok ==>
        repo.receiptMatches == old(repo.receiptMatches) + [ReceiptMatchRow(matchId, txn, result, itemsJson)]
      ensures result.matched && result.items != [] && ok && AllocationsByTransaction(old(repo.allocs), txn.id) != [] ==>
        repo.allocs == old(repo.allocs) && repo.txns == old(repo.txns)
      ensures result.matched && result.items != [] && ok && AllocationsByTransaction(old(repo.allocs), txn.id) == [] ==>
        repo.allocs == old(repo.allocs) + ReceiptAllocations(txn, result, allocIds) &&
        repo.txns == StatusUpdated(old(repo.txns), txn.id, "categorized", Some(Some(result.confidence)),
                                   Some(Some("gmail_receipt")))
      ensures !ok ==> (repo.txns == old(repo.txns) && IsPrefix(old(repo.allocs), repo.allocs) &&
        IsPrefix(repo.allocs[|old(repo.allocs)|..], ReceiptAllocations(txn, result, allocIds)))
    {
      if !result.matched || result.items == [] {
        return true;
      }
      ok := repo.InsertReceiptMatch(ReceiptMatchRow(matchId, txn, result, itemsJson));
      if !ok {
        return;
      }
      var existing := AllocationsByTransaction(repo.allocs, txn.id);
      if existing != [] {
        return;
      }
      var allocs := ReceiptAllocations(txn, result, allocIds);
      ok := InsertAllocations(allocs);
      if !ok {
        return;
      }
      repo.UpdateTransactionStatus(txn.id, "categorized", Some(Some(result.confidence)), Some(Some("gmail_receipt")));
    }

    /** The allocation rows written one by one; on a refusal the rows before it stay written. */
    method InsertAllocations(allocs: seq<Allocation>) returns (ok: bool)
      requires repo.Valid()
      modifies repo
      ensures repo.Valid()
      ensures repo.imports == old(repo.imports) && repo.transfers == old(repo.transfers)
      ensures repo.usage == old(repo.usage) && repo.txns == old(repo.txns)
      ensures repo.receiptMatches == old(repo.receiptMatches)
      ensures ok ==> repo.allocs == old(repo.allocs) + allocs
      ensures !ok ==> IsPrefix(old(repo.allocs), repo.allocs) && IsPrefix(repo.allocs[|old(repo.allocs)|..], allocs)
    {
      var i := 0;
      while i < |allocs|
        invariant 0 <= i <= |allocs|
        invariant repo.Valid()
        invariant repo.imports == old(repo.imports) && repo.transfers == old(repo.transfers)
        invariant repo.usage == old(repo.usage) && repo.txns == old(repo.txns)
        invariant repo.receiptMatches == old(repo.receiptMatches)
        invariant repo.allocs == old(repo.allocs) + allocs[..i]
      {
        var inserted := repo.InsertAllocation(allocs[i]);
        if !inserted {
          assert repo.allocs[|old(repo.allocs)|..] == allocs[..i];
          return false;
        }
        assert allocs[..i + 1] == allocs[..i] + [allocs[i]];
        i := i + 1;
      }
      assert allocs[..i] == allocs;
      return true;
    }
  }
}

=== FILE: repository.dfy ===
/**
 * The SQLite store. Each table is a sequence of rows in insertion (rowid)
 * order; a query without ORDER BY returns rows in that order. The
 * `Repository` class holds the tables and updates them in place; the
 * queries are functions of the tables.
 */
module Repo {
  import opened Wrappers
  import opened Text
  import opened Seqs
  import opened Dates
  import opened Models

  function TxnId(t: Transaction): string { t.id }

  /** Every id that takes part in a recorded transfer, on either side. */
  function LinkedIds(transfers: seq<Transfer>): (r: set<string>)
    ensures forall id :: id in r <==>
      exists tr :: tr in transfers && (tr.fromTransactionId == id || tr.toTransactionId == id)
  {
    (set tr | tr in transfers :: tr.fromTransactionId) + (set tr | tr in transfers :: tr.toTransactionId)
  }

  // ── Constraints the schema enforces (foreign keys are on) ──

  /** The `transactions.import_id` foreign key: a stored import has the id. */
  predicate HasImport(imports: seq<Import>, id: string) {
    exists k :: 0 <= k < |imports| && imports[k].id == id
  }

  /** The `allocations.transaction_id` foreign key: a stored transaction has the id. */
  predicate HasTransaction(txns: seq<Transaction>, id: string) {
    exists k :: 0 <= k < |txns| && txns[k].id == id
  }

  /** The UNIQUE (from_transaction_id, to_transaction_id) constraint of the transfers table. */
  predicate HasPair(transfers: seq<Transfer>, from: string, to: string) {
    exists k :: 0 <= k < |transfers| &&
      transfers[k].fromTransactionId == from && transfers[k].toTransactionId == to
  }

  // ── Imports ─────────────────────────────────────────────

  /** `get_import_by_hash`: the import recorded for a file hash. */
  function ImportByHash(imports: seq<Import>, fileHash: string): (r: Option<Import>)
    ensures r.Some? ==> r.value in imports && r.value.fileHash == fileHash
    ensures r.None? <==> forall i :: 0 <= i < |imports| ==> imports[i].fileHash != fileHash
  {
    match FirstIndex(imports, (i: Import) => i.fileHash == fileHash)
    case Some(k) => Some(imports[k])
    case None => None
  }

  datatype ImportError = DuplicateImport(fileHash: string, existingId: Option<string>)

  /**
   * `update_import_status`: the status always, and each optional column
   * when it was passed (outer None = not passed).
   */
  function WithImportStatus(imp: Import, status: string, recordCount: Option<Option<int>>,
                            errorMessage: Option<Option<string>>,
                            completedAt: Option<Option<string>>): (r: Import)
    ensures r.status == status
    ensures r.recordCount == (if recordCount.Some? then recordCount.value else imp.recordCount)
    ensures r.errorMessage == (if errorMessage.Some? then errorMessage.value else imp.errorMessage)
    ensures r.completedAt == (if completedAt.Some? then completedAt.value else imp.completedAt)
    ensures r.(status := imp.status, recordCount := imp.recordCount,
               errorMessage := imp.errorMessage, completedAt := imp.completedAt) == imp
  {
    imp.(status := status,
         recordCount := recordCount.GetOr(imp.recordCount),
         errorMessage := errorMessage.GetOr(imp.errorMessage),
         completedAt := completedAt.GetOr(imp.completedAt))
  }

  // ── Transactions ────────────────────────────────────────

  /** `get_transaction`: the row with this id. */
  function TxnById(txns: seq<Transaction>, id: string): (r: Option<Transaction>)
    ensures r.Some? ==> r.value in txns && r.value.id == id
    ensures r.None? <==> forall i :: 0 <= i < |txns| ==> txns[i].id != id
  {
    match FirstIndex(txns, (t: Transaction) => t.id == id)
    case Some(k) => Some(txns[k])
    case None => None
  }

  /** With unique ids, the row found by id is the one at its position. */
  lemma TxnByIdAt(txns: seq<Transaction>, i: nat)
    requires i < |txns| && DistinctBy(txns, TxnId)
    ensures TxnById(txns, txns[i].id) == Some(txns[i])
  {
    var r := TxnById(txns, txns[i].id);
    var k :| 0 <= k < |txns| && txns[k] == r.value;
    assert TxnId(txns[k]) == TxnId(txns[i]);
  }

  /** `get_transaction_by_external_id`: the first row of the account with this external id. */
  function TxnByExternalId(txns: seq<Transaction>, accountId: string, externalId: string): (r: Option<Transaction>)
    ensures r.Some? ==> r.value in txns && r.value.accountId == accountId
    ensures r.Some? ==> r.value.externalId == Some(externalId)
    ensures r.None? <==> forall i :: 0 <= i < |txns| ==>
      !(txns[i].accountId == accountId && txns[i].externalId == Some(externalId))
  {
    match FirstIndex(txns, (t: Transaction) => t.accountId == accountId && t.externalId == Some(externalId))
    case Some(k) => Some(txns[k])
    case None => None
  }

  predicate DateAsc(a: Transaction, b: Transaction) { StrLe(a.date, b.date) }
  predicate DateDesc(a: Transaction, b: Transaction) { StrLe(b.date, a.date) }

  lemma DateOrders()
    ensures TotalPreorder(DateAsc) && TotalPreorder(DateDesc)
  {
    forall a: Transaction, b: Transaction
      ensures DateAsc(a, b) || DateAsc(b, a)
      ensures DateDesc(a, b) || DateDesc(b, a)
    {
      StrLeTotal(a.date, b.date);
    }
    forall a: Transaction, b: Transaction, c: Transaction | DateAsc(a, b) && DateAsc(b, c)
      ensures DateAsc(a, c)
    {
      StrLeTrans(a.date, b.date, c.date);
    }
    forall a: Transaction, b: Transaction, c: Transaction | DateDesc(a, b) && DateDesc(b, c)
      ensures DateDesc(a, c)
    {
      StrLeTrans(c.date, b.date, a.date);
    }
  }

  /** `get_transactions_by_import_id`: the import's rows, by date and then rowid. */
  function TxnsByImportId(txns: seq<Transaction>, importId: string): (r: seq<Transaction>)
    ensures multiset(r) == multiset(Filter(txns, (t: Transaction) => t.importId == importId))
    ensures forall t :: t in r <==> t in txns && t.importId == importId
    ensures Sorted(r, DateAsc)
  {
    var f := Filter(txns, (t: Transaction) => t.importId == importId);
    var r := SortBy(f, DateAsc);
    DateOrders();
    SortBySorted(f, DateAsc);
    assert forall t :: t in r <==> t in multiset(f);
    r
  }

  /** `get_transactions_by_import_hash`. */
  function TxnsByImportHash(txns: seq<Transaction>, importHash: string): (r: seq<Transaction>)
    ensures forall t :: t in r <==> t in txns && t.importHash == importHash
  {
    Filter(txns, (t: Transaction) => t.importHash == importHash)
  }

  /** `get_transactions_by_dedup_key`. */
  function TxnsByDedupKey(txns: seq<Transaction>, dedupKey: string): (r: seq<Transaction>)
    ensures forall t :: t in r <==> t in txns && t.dedupKey == dedupKey
  {
    if txns == [] then []
    else (if txns[0].dedupKey == dedupKey then [txns[0]] else []) + TxnsByDedupKey(txns[1..], dedupKey)
  }

  /** `get_transactions_by_account_and_date`. */
  function TxnsByAccountAndDate(txns: seq<Transaction>, accountId: string, date: string): (r: seq<Transaction>)
    ensures forall t :: t in r <==> t in txns && t.accountId == accountId && t.date == date
  {
    Filter(txns, (t: Transaction) => t.accountId == accountId && t.date == date)
  }

  predicate Pending(t: Transaction) { t.status == "pending" }

  /**
   * `get_uncategorized_transactions`: pending rows, newest first, at most
   * `limit` of them (a negative LIMIT means no limit in SQLite). Each
   * stored pending row appears at most once, and every pending row left
   * out is dated no later than every row returned.
   */
  function Uncategorized(txns: seq<Transaction>, limit: int): (r: seq<Transaction>)
    ensures forall t :: t in r ==> t in txns && t.status == "pending"
    ensures limit >= 0 ==> |r| <= limit
    ensures |r| == |Filter(txns, Pending)| || (limit >= 0 && |r| == limit)
    ensures Sorted(r, DateDesc)
    ensures multiset(r) <= multiset(Filter(txns, Pending))
    ensures forall t, i :: t in multiset(Filter(txns, Pending)) - multiset(r) && 0 <= i < |r| ==>
      StrLe(t.date, r[i].date)
  {
    var f := Filter(txns, Pending);
    var k := if 0 <= limit < |f| then limit else |f|;
    NewestFirst(f, k);
    SortBy(f, DateDesc)[..k]
  }

  /** The first `k` rows of the newest-first order of `f`. */
  lemma NewestFirst(f: seq<Transaction>, k: nat)
    requires k <= |f|
    ensures var r := SortBy(f, DateDesc)[..k];
      |r| == k && (forall t :: t in r ==> t in f) && Sorted(r, DateDesc) &&
      multiset(r) <= multiset(f) &&
      forall t, i :: t in multiset(f) - multiset(r) && 0 <= i < |r| ==> StrLe(t.date, r[i].date)
  {
    var sorted := SortBy(f, DateDesc);
    DateOrders();
    SortBySorted(f, DateDesc);
    TakeSortedFirst(sorted, DateDesc, k);
    var r := sorted[..k];
    forall t | t in r ensures t in f {
      assert t in multiset(r);
    }
    assert Sorted(r, DateDesc) by {
      forall i | 0 <= i < |r| - 1 ensures DateDesc(r[i], r[i + 1]) {
        assert DateDesc(sorted[i], sorted[i + 1]);
      }
    }
  }

  /**
   * `update_transaction_status`: the status always; the confidence and
   * the method only when passed (outer None = not passed), where an inner
   * None writes NULL.
   */
  function WithStatus(t: Transaction, status: string, confidence: Option<Option<real>>,
                      how: Option<Option<string>>): (r: Transaction)
    ensures r.status == status
    ensures r.confidence == (if confidence.Some? then confidence.value else t.confidence)
    ensures r.categorizationMethod == (if how.Some? then how.value else t.categorizationMethod)
    ensures r.(status := t.status, confidence := t.confidence,
               categorizationMethod := t.categorizationMethod) == t
  {
    t.(status := status,
       confidence := confidence.GetOr(t.confidence),
       categorizationMethod := how.GetOr(t.categorizationMethod))
  }

  /** `update_transaction_status` on the table: the rows with the id get WithStatus, the others are kept. */
  function StatusUpdated(txns: seq<Transaction>, id: string, status: string, confidence: Option<Option<real>>,
                         how: Option<Option<string>>): (r: seq<Transaction>)
    ensures |r| == |txns|
    ensures forall i :: 0 <= i < |txns| ==>
      r[i] == if txns[i].id == id then WithStatus(txns[i], status, confidence, how) else txns[i]
  {
    seq(|txns|, i requires 0 <= i < |txns| =>
      if txns[i].id == id then WithStatus(txns[i], status, confidence, how) else txns[i])
  }

  /** `set_receipt_lookup_status` on the table: only the rows with the id change, and only that column. */
  function LookupStatusSet(txns: seq<Transaction>, id: string, status: string): (r: seq<Transaction>)
    ensures |r| == |txns|
    ensures forall i :: 0 <= i < |txns| ==>
      r[i] == if txns[i].id == id then txns[i].(receiptLookupStatus := Some(status)) else txns[i]
  {
    seq(|txns|, i requires 0 <= i < |txns| =>
      if txns[i].id == id then txns[i].(receiptLookupStatus := Some(status)) else txns[i])
  }

  /** `get_transactions_for_account`: the account's rows in the date range, by date and rowid. */
  function TransactionsForAccount(txns: seq<Transaction>, accountId: string,
                                  dateFrom: Option<string>, dateTo: Option<string>): (r: seq<Transaction>)
    ensures forall t :: t in r <==>
      t in txns && t.accountId == accountId &&
      (HasText(dateFrom) ==> StrLe(dateFrom.value, t.date)) &&
      (HasText(dateTo) ==> StrLe(t.date, dateTo.value))
    ensures Sorted(r, DateAsc)
  {
    var f := Filter(txns, (t: Transaction) =>
      t.accountId == accountId &&
      (HasText(dateFrom) ==> StrLe(dateFrom.value, t.date)) &&
      (HasText(dateTo) ==> StrLe(t.date, dateTo.value)));
    var r := SortBy(f, DateAsc);
    DateOrders();
    SortBySorted(f, DateAsc);
    assert forall t :: t in r <==> t in multiset(f);
    r
  }

  // ── Allocations ─────────────────────────────────────────

  /** `get_allocations_by_transaction`. */
  function AllocationsByTransaction(allocs: seq<Allocation>, txnId: string): (r: seq<Allocation>)
    ensures forall a :: a in r <==> a in allocs && a.transactionId == txnId
  {
    Filter(allocs, (a: Allocation) => a.transactionId == txnId)
  }

  // ── Transfers ───────────────────────────────────────────

  /** `get_transfer_by_transaction`: the first transfer with the transaction on either side. */
  function TransferByTransaction(transfers: seq<Transfer>, txnId: string): (r: Option<Transfer>)
    ensures r.Some? ==> r.value in transfers
    ensures r.Some? ==> r.value.fromTransactionId == txnId || r.value.toTransactionId == txnId
    ensures r.None? <==> txnId !in LinkedIds(transfers)
  {
    match FirstIndex(transfers, (tr: Transfer) => tr.fromTransactionId == txnId || tr.toTransactionId == txnId)
    case Some(k) => Some(transfers[k])
    case None =>
      assert forall tr :: tr in transfers ==> tr.fromTransactionId != txnId && tr.toTransactionId != txnId;
      None
  }

  /**
   * The day distance between two stored dates, or None when JULIANDAY of
   * either is NULL.
   */
  function DateDistance(a: string, b: string): (r: Option<nat>)
    ensures r.Some? <==> JulianDay(a).Some? && JulianDay(b).Some?
  {
    match (JulianDay(a), JulianDay(b))
    case (Some(x), Some(y)) => Some(DayDistance(x, y))
    case _ => None
  }

  /** The WHERE clause of `find_transfer_candidates`. */
  predicate IsCandidate(c: Transaction, txn: Transaction, days: int, linked: set<string>) {
    c.accountId != txn.accountId &&
    c.amount + txn.amount == 0 &&
    DateDistance(c.date, txn.date).Some? && DateDistance(c.date, txn.date).value <= days &&
    c.id !in linked
  }

  /** Sort key: nearer dates first; an unreadable date sorts first, as NULL does. */
  function Nearness(c: Transaction, txn: Transaction): int {
    match DateDistance(c.date, txn.date)
    case Some(d) => d
    case None => -1
  }

  /**
   * `find_transfer_candidates`: rows of other accounts with exactly the
   * opposite amount, dated within `days` days, not yet in a transfer,
   * nearest date first.
   */
  function FindTransferCandidates(txns: seq<Transaction>, transfers: seq<Transfer>,
                                  txn: Transaction, days: int): (r: seq<Transaction>)
    ensures forall c :: c in r <==> c in txns && IsCandidate(c, txn, days, LinkedIds(transfers))
    ensures Sorted(r, (a: Transaction, b: Transaction) => Nearness(a, txn) <= Nearness(b, txn))
  {
    var linked := LinkedIds(transfers);
    var f := Filter(txns, (c: Transaction) => IsCandidate(c, txn, days, linked));
    var le := (a: Transaction, b: Transaction) => Nearness(a, txn) <= Nearness(b, txn);
    var r := SortBy(f, le);
    SortBySorted(f, le);
    assert forall c :: c in r <==> c in multiset(f);
    r
  }

  /** A candidate mirrors the transaction: another account, the negated amount, a readable date. */
  lemma CandidateMirrors(txns: seq<Transaction>, transfers: seq<Transfer>, txn: Transaction,
                         days: int, c: Transaction)
    requires c in FindTransferCandidates(txns, transfers, txn, days)
    ensures c.amount == -txn.amount && c.accountId != txn.accountId
    ensures c.id !in LinkedIds(transfers)
    ensures JulianDay(txn.date).Some? && 0 <= days
  {
  }

  // ── API usage ───────────────────────────────────────────

  /** `get_monthly_cost`: the summed estimated cost of the month's rows (0 when none). */
  function MonthlyCost(usage: seq<ApiUsage>, month: string): int {
    if usage == [] then 0
    else (if usage[0].month == month then usage[0].estimatedCostCents else 0) + MonthlyCost(usage[1..], month)
  }

  predicate SameKey(u: ApiUsage, month: string, service: string) {
    u.month == month && u.service == service
  }

  /**
   * The upsert of `increment_api_usage`: the (month, service) row has its
   * counters increased, or a new row holding the increments is appended.
   */
  function UsageUpsert(usage: seq<ApiUsage>, newId: string, month: string, service: string,
                       requests: int, tokensIn: int, tokensOut: int, cost: int): (r: seq<ApiUsage>)
  {
    if usage == [] then [ApiUsage(newId, month, service, requests, tokensIn, tokensOut, cost)]
    else if SameKey(usage[0], month, service) then
      [usage[0].(requestCount := usage[0].requestCount + requests,
                 inputTokens := usage[0].inputTokens + tokensIn,
                 outputTokens := usage[0].outputTokens + tokensOut,
                 estimatedCostCents := usage[0].estimatedCostCents + cost)] + usage[1..]
    else [usage[0]] + UsageUpsert(usage[1..], newId, month, service, requests, tokensIn, tokensOut, cost)
  }

  /** An upsert adds its cost to its own month and leaves every other month's cost alone. */
  lemma {:induction false} UpsertMonthlyCost(usage: seq<ApiUsage>, newId: string, month: string, service: string,
                                             requests: int, tokensIn: int, tokensOut: int, cost: int, m: string)
    ensures MonthlyCost(UsageUpsert(usage, newId, month, service, requests, tokensIn, tokensOut, cost), m)
         == MonthlyCost(usage, m) + (if m == month then cost else 0)
  {
    var r := UsageUpsert(usage, newId, month, service, requests, tokensIn, tokensOut, cost);
    if usage == [] {
      assert r[1..] == [];
    } else if SameKey(usage[0], month, service) {
      assert r[1..] == usage[1..];
    } else {
      assert r[1..] == UsageUpsert(usage[1..], newId, month, service, requests, tokensIn, tokensOut, cost);
      UpsertMonthlyCost(usage[1..], newId, month, service, requests, tokensIn, tokensOut, cost, m);
    }
  }

  /** An upsert keeps (month, service) unique: the row count grows only for a new key. */
  lemma {:induction false} UpsertKeepsKeysUnique(usage: seq<ApiUsage>, newId: string, month: string, service: string,
                                                 requests: int, tokensIn: int, tokensOut: int, cost: int)
    requires DistinctBy(usage, (u: ApiUsage) => (u.month, u.service))
    ensures var r := UsageUpsert(usage, newId, month, service, requests, tokensIn, tokensOut, cost);
      DistinctBy(r, (u: ApiUsage) => (u.month, u.service)) &&
      (forall u :: u in r ==> (u.month, u.service) == (month, service) || u in usage) &&
      |r| == |usage| + (if exists u :: u in usage && SameKey(u, month, service) then 0 else 1)
  {
    var r := UsageUpsert(usage, newId, month, service, requests, tokensIn, tokensOut, cost);
    if usage == [] {
    } else if SameKey(usage[0], month, service) {
      assert forall i :: 0 < i < |r| ==> r[i] == usage[i];
    } else {
      var rest := UsageUpsert(usage[1..], newId, month, service, requests, tokensIn, tokensOut, cost);
      assert DistinctBy(usage[1..], (u: ApiUsage) => (u.month, u.service)) by {
        forall i, j | 0 <= i < j < |usage[1..]|
          ensures (usage[1..][i].month, usage[1..][i].service) != (usage[1..][j].month, usage[1..][j].service)
        {
          assert usage[1..][i] == usage[i + 1] && usage[1..][j] == usage[j + 1];
        }
      }
      UpsertKeepsKeysUnique(usage[1..], newId, month, service, requests, tokensIn, tokensOut, cost);
      assert r == [usage[0]] + rest;
      assert (exists u :: u in usage && SameKey(u, month, service)) <==>
             (exists u :: u in usage[1..] && SameKey(u, month, service)) by {
        assert forall u :: u in usage ==> u == usage[0] || u in usage[1..];
      }
      forall i, j | 0 <= i < j < |r|
        ensures (r[i].month, r[i].service) != (r[j].month, r[j].service)
      {
        if i == 0 {
          assert r[j] == rest[j - 1];
          assert rest[j - 1] in rest;
          if (rest[j - 1].month, rest[j - 1].service) == (month, service) {
          } else {
            var k :| 0 <= k < |usage[1..]| && usage[1..][k] == rest[j - 1];
            assert usage[k + 1] == rest[j - 1];
          }
        } else {
          assert r[i] == rest[i - 1] && r[j] == rest[j - 1];
        }
      }
    }
  }

  // ── Historical queries ─────────────────────────────────

  /** One row of the join of allocations with their categorized transactions. */
  datatype JoinRow = JoinRow(categoryId: string, amount: Cents, userSourced: bool)

  /**
   * The rows `get_historical_category_counts` groups: one per allocation
   * whose transaction has this normalized description and is categorized.
   */
  function JoinRows(txns: seq<Transaction>, allocs: seq<Allocation>, description: string): (r: seq<JoinRow>)
    ensures |r| <= |allocs|
  {
    if allocs == [] then []
    else
      var a := allocs[0];
      var here := match TxnById(txns, a.transactionId)
        case Some(t) =>
          if t.normalizedDescription == Some(description) && t.status == "categorized"
          then [JoinRow(a.categoryId, t.amount, a.source == "user")] else []
        case None => [];
      here + JoinRows(txns, allocs[1..], description)
  }

  datatype CategoryCount = CategoryCount(categoryId: string, amount: Cents, cnt: nat, userCnt: nat)

  function GroupKey(r: JoinRow): (string, Cents) { (r.categoryId, r.amount) }

  /**
   * `get_historical_category_counts`: one entry per distinct (category,
   * amount) of the joined rows, with the number of rows and the number of
   * user-sourced rows.
   */
  function HistoricalCategoryCounts(txns: seq<Transaction>, allocs: seq<Allocation>, description: string): (r: seq<CategoryCount>)
  {
    var rows := JoinRows(txns, allocs, description);
    var keys := Distinct(seq(|rows|, i requires 0 <= i < |rows| => GroupKey(rows[i])));
    seq(|keys|, i requires 0 <= i < |keys| =>
      CategoryCount(keys[i].0, keys[i].1,
                    Count(rows, (x: JoinRow) => GroupKey(x) == keys[i]),
                    Count(rows, (x: JoinRow) => GroupKey(x) == keys[i] && x.userSourced)))
  }

  /**
   * Each group is non-empty, counts at most as many user rows as rows, and
   * the groups are exactly the distinct (category, amount) pairs of the join.
   */
  lemma HistoricalCountsShape(txns: seq<Transaction>, allocs: seq<Allocation>, description: string)
    ensures var r := HistoricalCategoryCounts(txns, allocs, description);
      var rows := JoinRows(txns, allocs, description);
      (forall i :: 0 <= i < |r| ==> 1 <= r[i].cnt && r[i].userCnt <= r[i].cnt) &&
      (forall i, j :: 0 <= i < j < |r| ==> (r[i].categoryId, r[i].amount) != (r[j].categoryId, r[j].amount)) &&
      (forall x :: x in rows ==> exists i :: 0 <= i < |r| && (r[i].categoryId, r[i].amount) == GroupKey(x))
  {
    var r := HistoricalCategoryCounts(txns, allocs, description);
    var rows := JoinRows(txns, allocs, description);
    forall i | 0 <= i < |r|
      ensures 1 <= r[i].cnt && r[i].userCnt <= r[i].cnt
    {
      HistoricalGroupCounts(txns, allocs, description, i);
    }
    forall x | x in rows
      ensures exists i :: 0 <= i < |r| && (r[i].categoryId, r[i].amount) == GroupKey(x)
    {
      HistoricalGroupOf(txns, allocs, description, x);
    }
  }

  lemma HistoricalGroupCounts(txns: seq<Transaction>, allocs: seq<Allocation>, description: string, i: nat)
    requires i < |HistoricalCategoryCounts(txns, allocs, description)|
    ensures var g := HistoricalCategoryCounts(txns, allocs, description)[i];
      1 <= g.cnt && g.userCnt <= g.cnt
  {
    var rows := JoinRows(txns, allocs, description);
    var ks := seq(|rows|, i requires 0 <= i < |rows| => GroupKey(rows[i]));
    var k := Distinct(ks)[i];
    assert k in ks;
    var j :| 0 <= j < |rows| && ks[j] == k;
    var p := (x: JoinRow) => GroupKey(x) == k;
    assert p(rows[j]);
    CountMono(rows, (x: JoinRow) => GroupKey(x) == k && x.userSourced, p);
  }

  lemma HistoricalGroupOf(txns: seq<Transaction>, allocs: seq<Allocation>, description: string, x: JoinRow)
    requires x in JoinRows(txns, allocs, description)
    ensures var r := HistoricalCategoryCounts(txns, allocs, description);
      exists i :: 0 <= i < |r| && (r[i].categoryId, r[i].amount) == GroupKey(x)
  {
    var r := HistoricalCategoryCounts(txns, allocs, description);
    var rows := JoinRows(txns, allocs, description);
    var ks := seq(|rows|, i requires 0 <= i < |rows| => GroupKey(rows[i]));
    var keys := Distinct(ks);
    var j :| 0 <= j < |rows| && rows[j] == x;
    assert ks[j] in keys;
    var i :| 0 <= i < |keys| && keys[i] == ks[j];
    assert (r[i].categoryId, r[i].amount) == keys[i];
  }

  // ── The store ───────────────────────────────────────────

  /** The store's tables as one value. */
  datatype Db = Db(
    imports: seq<Import>,
    txns: seq<Transaction>,
    allocs: seq<Allocation>,
    transfers: seq<Transfer>,
    receiptMatches: seq<ReceiptMatch>,
    usage: seq<ApiUsage>)

  class Repository {
    var imports: seq<Import>
    var txns: seq<Transaction>
    var allocs: seq<Allocation>
    var transfers: seq<Transfer>
    var receiptMatches: seq<ReceiptMatch>
    var usage: seq<ApiUsage>

    /** The table constraints: primary keys, the unique file hash, the unique (month, service). */
    ghost predicate Valid()
      reads this
    {
      DistinctBy(imports, (i: Import) => i.id) &&
      DistinctBy(imports, (i: Import) => i.fileHash) &&
      DistinctBy(txns, TxnId) &&
      DistinctBy(allocs, (a: Allocation) => a.id) &&
      DistinctBy(transfers, (t: Transfer) => t.id) &&
      DistinctBy(receiptMatches, (m: ReceiptMatch) => m.id) &&
      DistinctBy(usage, (u: ApiUsage) => (u.month, u.service))
    }

    /** The tables as they stand. */
    function Snapshot(): Db
      reads this
    {
      Db(imports, txns, allocs, transfers, receiptMatches, usage)
    }

    /** A fresh, empty database. */
    constructor ()
      ensures Valid()
      ensures imports == [] && txns == [] && allocs == [] && transfers == []
      ensures receiptMatches == [] && usage == []
    {
      imports, txns, allocs, transfers, receiptMatches, usage := [], [], [], [], [], [];
    }

    /**
     * `insert_import`: refused with DuplicateImportError (carrying the id
     * already recorded for the hash, if any) when the hash or the id is
     * already present.
     */
    method InsertImport(imp: Import) returns (r: Result<Import, ImportError>)
      requires Valid()
      modifies this
      ensures Valid()
      ensures txns == old(txns) && allocs == old(allocs) && transfers == old(transfers)
      ensures receiptMatches == old(receiptMatches) && usage == old(usage)
      ensures r.Success? <==> forall i :: 0 <= i < |old(imports)| ==>
        old(imports)[i].fileHash != imp.fileHash && old(imports)[i].id != imp.id
      ensures r.Success? ==> r.value == imp && imports == old(imports) + [imp]
      ensures r.Failure? ==> imports == old(imports)
      ensures r.Failure? ==> r.error == DuplicateImport(imp.fileHash,
        match ImportByHash(old(imports), imp.fileHash) case Some(e) => Some(e.id) case None => None)
    {
      if forall i :: 0 <= i < |imports| ==> imports[i].fileHash != imp.fileHash && imports[i].id != imp.id {
        imports := imports + [imp];
        r := Success(imp);
      } else {
        var existing := ImportByHash(imports, imp.fileHash);
        r := Failure(DuplicateImport(imp.fileHash, match existing case Some(e) => Some(e.id) case None => None));
      }
    }

    /** `update_import_status`: every row with the id gets the new status and the passed columns. */
    method UpdateImportStatus(importId: string, status: string, recordCount: Option<Option<int>>,
                              errorMessage: Option<Option<string>>, completedAt: Option<Option<string>>)
      requires Valid()
      modifies this
      ensures Valid()
      ensures txns == old(txns) && allocs == old(allocs) && transfers == old(transfers)
      ensures receiptMatches == old(receiptMatches) && usage == old(usage)
      ensures |imports| == |old(imports)|
      ensures forall i :: 0 <= i < |imports| ==>
        (imports[i] ==
          if old(imports)[i].id == importId
          then WithImportStatus(old(imports)[i], status, recordCount, errorMessage, completedAt)
          else old(imports)[i])
    {
      var old_ := imports;
      imports := seq(|old_|, i requires 0 <= i < |old_| =>
        if old_[i].id == importId then WithImportStatus(old_[i], status, recordCount, errorMessage, completedAt)
        else old_[i]);
    }

    /**
     * `insert_transaction`: refused (nothing written) when the id is taken
     * or no stored import has the row's import id.
     */
    method InsertTransaction(t: Transaction) returns (ok: bool)
      requires Valid()
      modifies this
      ensures Valid()
      ensures imports == old(imports) && allocs == old(allocs) && transfers == old(transfers)
      ensures receiptMatches == old(receiptMatches) && usage == old(usage)
      ensures ok <==> (forall i :: 0 <= i < |old(txns)| ==> old(txns)[i].id != t.id) &&
                      HasImport(old(imports), t.importId)
      ensures txns == if ok then old(txns) + [t] else old(txns)
    {
      ok := (forall i :: 0 <= i < |txns| ==> txns[i].id != t.id) && HasImport(imports, t.importId);
      if ok {
        txns := txns + [t];
      }
    }

    /**
     * `insert_transactions_batch`: all rows or none. The batch is refused
     * when two of its rows share an id, one reuses a stored id or one names
     * an import that is not stored.
     */
    method InsertTransactionsBatch(batch: seq<Transaction>) returns (ok: bool)
      requires Valid()
      modifies this
      ensures Valid()
      ensures imports == old(imports) && allocs == old(allocs) && transfers == old(transfers)
      ensures receiptMatches == old(receiptMatches) && usage == old(usage)
      ensures ok <==> (DistinctBy(batch, TxnId) &&
        (forall i, j :: 0 <= i < |old(txns)| && 0 <= j < |batch| ==> old(txns)[i].id != batch[j].id) &&
        forall j :: 0 <= j < |batch| ==> HasImport(old(imports), batch[j].importId))
      ensures txns == if ok then old(txns) + batch else old(txns)
    {
      ok := DistinctBy(batch, TxnId) &&
        (forall i, j :: 0 <= i < |txns| && 0 <= j < |batch| ==> txns[i].id != batch[j].id) &&
        forall j :: 0 <= j < |batch| ==> HasImport(imports, batch[j].importId);
      if ok {
        var before := txns;
        txns := txns + batch;
        forall i, j | 0 <= i < j < |txns|
          ensures TxnId(txns[i]) != TxnId(txns[j])
        {
          if j < |before| {
          } else if i < |before| {
            assert txns[j] == batch[j - |before|];
          } else {
            assert txns[i] == batch[i - |before|] && txns[j] == batch[j - |before|];
          }
        }
      }
    }

    /** `update_transaction_status`. */
    method UpdateTransactionStatus(txnId: string, status: string, confidence: Option<Option<real>>,
                                   how: Option<Option<string>>)
      requires Valid()
      modifies this
      ensures Valid()
      ensures imports == old(imports) && allocs == old(allocs) && transfers == old(transfers)
      ensures receiptMatches == old(receiptMatches) && usage == old(usage)
      ensures txns == StatusUpdated(old(txns), txnId, status, confidence, how)
    {
      txns := StatusUpdated(txns, txnId, status, confidence, how);
      assert forall i :: 0 <= i < |txns| ==> txns[i].id == old(txns)[i].id;
    }

    /** `set_receipt_lookup_status`. */
    method SetReceiptLookupStatus(txnId: string, status: string)
      requires Valid()
      modifies this
      ensures Valid()
      ensures imports == old(imports) && allocs == old(allocs) && transfers == old(transfers)
      ensures receiptMatches == old(receiptMatches) && usage == old(usage)
      ensures txns == LookupStatusSet(old(txns), txnId, status)
    {
      txns := LookupStatusSet(txns, txnId, status);
      assert forall i :: 0 <= i < |txns| ==> txns[i].id == old(txns)[i].id;
    }

    /** `insert_allocation`: refused when the id is taken or the transaction is not stored. */
    method InsertAllocation(a: Allocation) returns (ok: bool)
      requires Valid()
      modifies this
      ensures Valid()
      ensures imports == old(imports) && txns == old(txns) && transfers == old(transfers)
      ensures receiptMatches == old(receiptMatches) && usage == old(usage)
      ensures ok <==> (forall i :: 0 <= i < |old(allocs)| ==> old(allocs)[i].id != a.id) &&
                      HasTransaction(old(txns), a.transactionId)
      ensures allocs == if ok then old(allocs) + [a] else old(allocs)
    {
      ok := (forall i :: 0 <= i < |allocs| ==> allocs[i].id != a.id) && HasTransaction(txns, a.transactionId);
      if ok {
        allocs := allocs + [a];
      }
    }

    /**
     * `insert_allocations_batch`: all rows or none. The batch is refused when
     * two of its rows share an id, one reuses a stored id or one names a
     * transaction that is not stored.
     */
    method InsertAllocationsBatch(batch: seq<Allocation>) returns (ok: bool)
      requires Valid()
      modifies this
      ensures Valid()
      ensures imports == old(imports) && txns == old(txns) && transfers == old(transfers)
      ensures receiptMatches == old(receiptMatches) && usage == old(usage)
      ensures ok <==> (DistinctBy(batch, (a: Allocation) => a.id) &&
        (forall i, j :: 0 <= i < |old(allocs)| && 0 <= j < |batch| ==> old(allocs)[i].id != batch[j].id) &&
        forall j :: 0 <= j < |batch| ==> HasTransaction(old(txns), batch[j].transactionId))
      ensures allocs == if ok then old(allocs) + batch else old(allocs)
    {
      ok := DistinctBy(batch, (a: Allocation) => a.id) &&
        (forall i, j :: 0 <= i < |allocs| && 0 <= j < |batch| ==> allocs[i].id != batch[j].id) &&
        forall j :: 0 <= j < |batch| ==> HasTransaction(txns, batch[j].transactionId);
      if ok {
        var before := allocs;
        allocs := allocs + batch;
        forall i, j | 0 <= i < j < |allocs|
          ensures allocs[i].id != allocs[j].id
        {
          if j < |before| {
          } else if i < |before| {
            assert allocs[j] == batch[j - |before|];
          } else {
            assert allocs[i] == batch[i - |before|] && allocs[j] == batch[j - |before|];
          }
        }
      }
    }

    /** `insert_transfer`: refused when the id is taken or the (from, to) pair is already recorded. */
    method InsertTransfer(tr: Transfer) returns (ok: bool)
      requires Valid()
      modifies this
      ensures Valid()
      ensures imports == old(imports) && txns == old(txns) && allocs == old(allocs)
      ensures receiptMatches == old(receiptMatches) && usage == old(usage)
      ensures ok <==> (forall i :: 0 <= i < |old(transfers)| ==> old(transfers)[i].id != tr.id) &&
                      !HasPair(old(transfers), tr.fromTransactionId, tr.toTransactionId)
      ensures transfers == if ok then old(transfers) + [tr] else old(transfers)
    {
      ok := (forall i :: 0 <= i < |transfers| ==> transfers[i].id != tr.id) &&
        !HasPair(transfers, tr.fromTransactionId, tr.toTransactionId);
      if ok {
        transfers := transfers + [tr];
      }
    }

    /** `insert_receipt_match`: refused when the id is taken. */
    method InsertReceiptMatch(m: ReceiptMatch) returns (ok: bool)
      requires Valid()
      modifies this
      ensures Valid()
      ensures imports == old(imports) && txns == old(txns) && allocs == old(allocs)
      ensures transfers == old(transfers) && usage == old(usage)
      ensures ok <==> forall i :: 0 <= i < |old(receiptMatches)| ==> old(receiptMatches)[i].id != m.id
      ensures receiptMatches == if ok then old(receiptMatches) + [m] else old(receiptMatches)
    {
      ok := forall i :: 0 <= i < |receiptMatches| ==> receiptMatches[i].id != m.id;
      if ok {
        receiptMatches := receiptMatches + [m];
      }
    }

    /**
     * `increment_api_usage`: adds to the (month, service) counters, creating
     * the row under `newId` (the source draws it at random) if absent.
     */
    method IncrementApiUsage(newId: string, month: string, service: string,
                             requests: int, tokensIn: int, tokensOut: int, cost: int)
      requires Valid()
      modifies this
      ensures Valid()
      ensures imports == old(imports) && txns == old(txns) && allocs == old(allocs)
      ensures transfers == old(transfers) && receiptMatches == old(receiptMatches)
      ensures usage == UsageUpsert(old(usage), newId, month, service, requests, tokensIn, tokensOut, cost)
      ensures forall m :: MonthlyCost(usage, m) == MonthlyCost(old(usage), m) + (if m == month then cost else 0)
    {
      UpsertKeepsKeysUnique(usage, newId, month, service, requests, tokensIn, tokensOut, cost);
      var before := usage;
      usage := UsageUpsert(usage, newId, month, service, requests, tokensIn, tokensOut, cost);
      forall m {
        UpsertMonthlyCost(before, newId, month, service, requests, tokensIn, tokensOut, cost, m);
      }
    }
  }
}

=== FILE: seqs.dfy ===
/**
 * Sequence operations that stand for SQL WHERE / ORDER BY / LIMIT and for
 * Python list comprehensions.
 */
module Seqs {
  import opened Wrappers

  /** Position of the first element of `s` that satisfies `p` (a first-hit scan). */
  function FirstIndex<T>(s: seq<T>, p: T -> bool): (r: Option<nat>)
    ensures r.Some? ==> r.value < |s| && p(s[r.value])
    ensures r.Some? ==> forall j :: 0 <= j < r.value ==> !p(s[j])
    ensures r.None? <==> forall j :: 0 <= j < |s| ==> !p(s[j])
  {
    if s == [] then None
    else if p(s[0]) then Some(0)
    else match FirstIndex(s[1..], p)
      case Some(j) => Some(j + 1)
      case None => None
  }
  /** The elements of `s` that satisfy `p`, in their original order. */
  function Filter<T(!new)>(s: seq<T>, p: T -> bool): (r: seq<T>)
    ensures |r| <= |s|
    ensures forall x :: x in r <==> x in s && p(x)
    ensures forall i :: 0 <= i < |r| ==> p(r[i])
  {
    if s == [] then [] else (if p(s[0]) then [s[0]] else []) + Filter(s[1..], p)
  }

  /** Number of elements of `s` that satisfy `p`. */
  function Count<T>(s: seq<T>, p: T -> bool): (n: nat)
    ensures n <= |s|
    ensures n == 0 <==> forall i :: 0 <= i < |s| ==> !p(s[i])
  {
    if s == [] then 0 else (if p(s[0]) then 1 else 0) + Count(s[1..], p)
  }

  lemma {:induction false} CountAppend<T>(a: seq<T>, b: seq<T>, p: T -> bool)
    ensures Count(a + b, p) == Count(a, p) + Count(b, p)
  {
    if a != [] {
      assert (a + b)[1..] == a[1..] + b;
      assert (a + b)[0] == a[0];
      CountAppend(a[1..], b, p);
      assert Count(a + b, p) == (if p(a[0]) then 1 else 0) + Count(a[1..] + b, p);
    } else {
      assert a + b == b;
    }
  }

  /** Every element of `s` satisfies `p` exactly when the count is the length. */
  lemma {:induction false} CountAll<T>(s: seq<T>, p: T -> bool)
    ensures Count(s, p) == |s| <==> forall i :: 0 <= i < |s| ==> p(s[i])
  {
    if s != [] {
      CountAll(s[1..], p);
      assert forall i :: 1 <= i < |s| ==> s[i] == s[1..][i - 1];
    }
  }

  /** Sum of the values `f` gives the elements of `s`. */
  function SumOf<T>(s: seq<T>, f: T -> int): int {
    if s == [] then 0 else f(s[0]) + SumOf(s[1..], f)
  }

  lemma {:induction false} SumOfAppend<T>(a: seq<T>, b: seq<T>, f: T -> int)
    ensures SumOf(a + b, f) == SumOf(a, f) + SumOf(b, f)
  {
    if a != [] {
      assert (a + b)[1..] == a[1..] + b;
      assert (a + b)[0] == a[0];
      SumOfAppend(a[1..], b, f);
      assert SumOf(a + b, f) == f(a[0]) + SumOf(a[1..] + b, f);
    } else {
      assert a + b == b;
    }
  }

  /** The first `limit` elements (SQL LIMIT). */
  function Take<T>(s: seq<T>, limit: nat): (r: seq<T>)
    ensures |r| == if limit < |s| then limit else |s|
    ensures forall i :: 0 <= i < |r| ==> r[i] == s[i]
  {
    if limit < |s| then s[..limit] else s
  }

  /** A total preorder, the kind of order SQL ORDER BY sorts by. */
  ghost predicate TotalPreorder<T(!new)>(le: (T, T) -> bool) {
    (forall a, b :: le(a, b) || le(b, a)) &&
    (forall a, b, c :: le(a, b) && le(b, c) ==> le(a, c))
  }

  predicate Sorted<T>(s: seq<T>, le: (T, T) -> bool) {
    forall i :: 0 <= i < |s| - 1 ==> le(s[i], s[i + 1])
  }

  /** Insert `x` before the first element it may precede. */
  function Insert<T>(x: T, s: seq<T>, le: (T, T) -> bool): (r: seq<T>)
    ensures multiset(r) == multiset(s) + multiset{x}
    ensures |r| == |s| + 1
    ensures r != [] && (r[0] == x || (s != [] && r[0] == s[0]))
  {
    if s == [] then [x]
    else if le(x, s[0]) then [x] + s
    else
      assert s == [s[0]] + s[1..];
      [s[0]] + Insert(x, s[1..], le)
  }

  lemma {:induction false} InsertSorted<T(!new)>(x: T, s: seq<T>, le: (T, T) -> bool)
    requires TotalPreorder(le) && Sorted(s, le)
    ensures Sorted(Insert(x, s, le), le)
  {
    if s != [] && !le(x, s[0]) {
      InsertSorted(x, s[1..], le);
    }
  }

  /** Stable insertion sort: a sorted permutation of `s`. */
  function SortBy<T>(s: seq<T>, le: (T, T) -> bool): (r: seq<T>)
    ensures multiset(r) == multiset(s)
    ensures |r| == |s|
  {
    if s == [] then []
    else
      assert s == [s[0]] + s[1..];
      Insert(s[0], SortBy(s[1..], le), le)
  }

  lemma {:induction false} SortBySorted<T(!new)>(s: seq<T>, le: (T, T) -> bool)
    requires TotalPreorder(le)
    ensures Sorted(SortBy(s, le), le)
  {
    if s != [] {
      SortBySorted(s[1..], le);
      InsertSorted(s[0], SortBy(s[1..], le), le);
    }
  }

  /** In a sorted sequence every element may precede every later one. */
  lemma {:induction false} SortedLe<T(!new)>(s: seq<T>, le: (T, T) -> bool, i: nat, j: nat)
    requires TotalPreorder(le) && Sorted(s, le) && i <= j < |s|
    ensures le(s[i], s[j])
    decreases j - i
  {
    if i < j {
      SortedLe(s, le, i + 1, j);
    }
  }

  /**
   * The first `k` elements of a sorted sequence may precede every element
   * left out: a LIMIT after an ORDER BY keeps the first rows of the order.
   */
  lemma TakeSortedFirst<T(!new)>(s: seq<T>, le: (T, T) -> bool, k: nat)
    requires TotalPreorder(le) && Sorted(s, le) && k <= |s|
    ensures multiset(s[..k]) <= multiset(s)
    ensures forall t, i :: t in multiset(s) - multiset(s[..k]) && 0 <= i < k ==> le(s[i], t)
  {
    assert s == s[..k] + s[k..];
    assert multiset(s) - multiset(s[..k]) == multiset(s[k..]);
    forall t, i | t in multiset(s) - multiset(s[..k]) && 0 <= i < k
      ensures le(s[i], t)
    {
      var j :| k <= j < |s| && s[j] == t by {
        assert t in s[k..];
      }
      SortedLe(s, le, i, j);
    }
  }

  /** No two elements of `s` share a key (a UNIQUE column). */
  predicate DistinctBy<T, K(==)>(s: seq<T>, key: T -> K) {
    forall i, j :: 0 <= i < j < |s| ==> key(s[i]) != key(s[j])
  }

  /** Counting under a weaker condition never gives less. */
  lemma {:induction false} CountMono<T>(s: seq<T>, p: T -> bool, q: T -> bool)
    requires forall x :: p(x) ==> q(x)
    ensures Count(s, p) <= Count(s, q)
  {
    if s != [] {
      CountMono(s[1..], p, q);
    }
  }

  /** The distinct elements of `s` in order of first appearance. */
  function Distinct<T(==,!new)>(s: seq<T>): (r: seq<T>)
    ensures forall x :: x in r <==> x in s
    ensures forall i, j :: 0 <= i < j < |r| ==> r[i] != r[j]
  {
    if s == [] then []
    else
      var init := Distinct(s[..|s| - 1]);
      assert s == s[..|s| - 1] + [s[|s| - 1]];
      if s[|s| - 1] in init then init else init + [s[|s| - 1]]
  }

  /** The sum of `f` over the elements of `s` whose key is `k`. */
  function SumWithKey<T, K(==)>(s: seq<T>, key: T -> K, k: K, f: T -> int): int {
    if s == [] then 0 else (if key(s[0]) == k then f(s[0]) else 0) + SumWithKey(s[1..], key, k, f)
  }

  /** Per-element sums over a list of keys: `g(k)` is the sum over the rows with key `k`. */
  function SumPerKey<T, K(==)>(keys: seq<K>, s: seq<T>, key: T -> K, f: T -> int): int {
    if keys == [] then 0 else SumWithKey(s, key, keys[0], f) + SumPerKey(keys[1..], s, key, f)
  }

  /** Summing per key over a list holding every key once gives the whole sum. */
  lemma {:induction false} SumPerKeyTotal<T, K>(keys: seq<K>, s: seq<T>, key: T -> K, f: T -> int)
    requires forall i, j :: 0 <= i < j < |keys| ==> keys[i] != keys[j]
    requires forall x :: x in s ==> key(x) in keys
    ensures SumPerKey(keys, s, key, f) == SumOf(s, f)
  {
    if s != [] {
      SumPerKeyTotal(keys, s[1..], key, f);
      SumPerKeySplit(keys, s, key, f);
    } else {
      SumPerKeyEmpty(keys, s, key, f);
    }
  }

  lemma {:induction false} SumPerKeyEmpty<T, K>(keys: seq<K>, s: seq<T>, key: T -> K, f: T -> int)
    requires s == []
    ensures SumPerKey(keys, s, key, f) == 0
  {
    if keys != [] {
      SumPerKeyEmpty(keys[1..], s, key, f);
    }
  }

  /** Peeling the first row off: it adds its value under the one key it has. */
  lemma {:induction false} SumPerKeySplit<T, K>(keys: seq<K>, s: seq<T>, key: T -> K, f: T -> int)
    requires s != []
    requires forall i, j :: 0 <= i < j < |keys| ==> keys[i] != keys[j]
    ensures SumPerKey(keys, s, key, f)
         == SumPerKey(keys, s[1..], key, f) + (if key(s[0]) in keys then f(s[0]) else 0)
  {
    if keys != [] {
      SumPerKeySplit(keys[1..], s, key, f);
      if key(s[0]) == keys[0] {
        assert key(s[0]) !in keys[1..] by {
          forall j | 0 <= j < |keys[1..]|
            ensures keys[1..][j] != keys[0]
          {
            assert keys[1..][j] == keys[j + 1];
          }
        }
      } else {
        assert key(s[0]) in keys <==> key(s[0]) in keys[1..] by {
          assert keys == [keys[0]] + keys[1..];
        }
      }
    }
  }
}

=== FILE: text.dfy ===
/**
 * Character and string primitives the source takes from Python's `str`
 * (upper/lower, strip, split, `in`, startswith/endswith, isdigit) and the
 * decimal formatting and parsing of money amounts in integer cents.
 * Only the ASCII behaviour of these primitives is modelled.
 */
module Text {
  import opened Wrappers

  /** A Python string that may be None is truthy when it is present and non-empty. */
  predicate HasText(s: Option<string>) { s.Some? && s.value != "" }

  predicate IsDigit(c: char) { '0' <= c <= '9' }

  /** Python's `str.isdigit`: non-empty and every character a digit. */
  predicate AllDigits(s: string) {
    |s| > 0 && forall i :: 0 <= i < |s| ==> IsDigit(s[i])
  }

  /**
   * The six ASCII whitespace characters: space, tab, newline, carriage
   * return, vertical tab and form feed. Python's `\s` and `str.strip`
   * also accept `\x1c` to `\x1f` and the Unicode spaces, which are not
   * modelled here.
   */
  predicate IsSpace(c: char) {
    c == ' ' || c == '\t' || c == '\n' || c == '\r' || c == '\U{0B}' || c == '\U{0C}'
  }

  predicate NoSpace(s: string) { forall i :: 0 <= i < |s| ==> !IsSpace(s[i]) }

  predicate IsLowerLetter(c: char) { 'a' <= c <= 'z' }

  function UpperChar(c: char): char {
    if IsLowerLetter(c) then (c as int - 32) as char else c
  }

  function LowerChar(c: char): char {
    if 'A' <= c <= 'Z' then (c as int + 32) as char else c
  }

  /** `str.upper()`. */
  function Upper(s: string): (r: string)
    ensures |r| == |s|
    ensures forall i :: 0 <= i < |r| ==> !IsLowerLetter(r[i])
    ensures forall i :: 0 <= i < |r| ==> (IsSpace(r[i]) <==> IsSpace(s[i]))
    ensures forall i :: 0 <= i < |r| ==> (IsDigit(r[i]) <==> IsDigit(s[i]))
  {
    seq(|s|, i requires 0 <= i < |s| => UpperChar(s[i]))
  }

  /** `str.lower()`. */
  function Lower(s: string): string {
    seq(|s|, i requires 0 <= i < |s| => LowerChar(s[i]))
  }

  /** Number of leading whitespace characters. */
  function Lead(s: string): (n: nat)
    ensures n <= |s|
    ensures forall i :: 0 <= i < n ==> IsSpace(s[i])
    ensures n == |s| || !IsSpace(s[n])
  {
    if |s| > 0 && IsSpace(s[0]) then 1 + Lead(s[1..]) else 0
  }

  /** Number of trailing whitespace characters. */
  function Trail(s: string): (n: nat)
    ensures n <= |s|
    ensures forall i :: |s| - n <= i < |s| ==> IsSpace(s[i])
    ensures n == |s| || !IsSpace(s[|s| - 1 - n])
  {
    if |s| > 0 && IsSpace(s[|s| - 1]) then 1 + Trail(s[..|s| - 1]) else 0
  }

  /** `str.strip()`: the slice of `s` between its leading and trailing whitespace. */
  function Strip(s: string): (r: string)
    ensures r == [] || (!IsSpace(r[0]) && !IsSpace(r[|r| - 1]))
    ensures |r| <= |s|
  {
    var a := Lead(s);
    if a == |s| then [] else s[a..|s| - Trail(s)]
  }

  /** `needle in hay` for strings (the empty string is in every string). */
  predicate Contains(hay: string, needle: string)
    decreases |hay|
  {
    StartsWith(hay, needle) || (|hay| > 0 && Contains(hay[1..], needle))
  }

  predicate StartsWith(s: string, prefix: string) {
    |prefix| <= |s| && s[..|prefix|] == prefix
  }

  predicate EndsWith(s: string, suffix: string) {
    |suffix| <= |s| && s[|s| - |suffix|..] == suffix
  }

  /** Length of the run of non-whitespace characters that starts `s`. */
  function WordLen(s: string): (n: nat)
    ensures n <= |s|
    ensures forall i :: 0 <= i < n ==> !IsSpace(s[i])
    ensures n == |s| || IsSpace(s[n])
  {
    if |s| > 0 && !IsSpace(s[0]) then 1 + WordLen(s[1..]) else 0
  }

  /** `str.split()` with no separator: the maximal runs of non-whitespace characters. */
  function Words(s: string): (r: seq<string>)
    ensures forall k :: 0 <= k < |r| ==> |r[k]| > 0 && NoSpace(r[k])
    decreases |s|
  {
    var a := Lead(s);
    if a == |s| then []
    else
      var w := WordLen(s[a..]);
      [s[a..a + w]] + Words(s[a + w..])
  }

  /** `str.zfill(2)` on a string of at most two characters. */
  function ZFill2(s: string): (r: string)
    ensures |r| == if |s| >= 2 then |s| else 2
    ensures EndsWith(r, s) && forall i :: 0 <= i < |r| - |s| ==> r[i] == '0'
  {
    if |s| >= 2 then s else seq(2 - |s|, _ => '0') + s
  }

  function DigitChar(d: nat): char
    requires d < 10
  {
    ('0' as int + d) as char
  }

  function DigitValue(c: char): nat
    requires IsDigit(c)
  {
    c as int - '0' as int
  }

  /** Decimal spelling of a natural number, as `str(n)` prints it. */
  function NatToString(n: nat): (r: string)
    ensures AllDigits(r)
    ensures n > 0 ==> r[0] != '0'
  {
    if n < 10 then [DigitChar(n)] else NatToString(n / 10) + [DigitChar(n % 10)]
  }

  /** Value of a string of decimal digits (0 for the empty string). */
  function ParseNat(s: string): nat
    requires forall i :: 0 <= i < |s| ==> IsDigit(s[i])
  {
    if s == [] then 0 else 10 * ParseNat(s[..|s| - 1]) + DigitValue(s[|s| - 1])
  }

  /** `str(i)` for an integer. */
  function IntToString(i: int): (r: string)
    ensures |r| > 0
    ensures forall k :: 0 <= k < |r| ==> r[k] == '-' || IsDigit(r[k])
  {
    if i < 0 then "-" + NatToString(-i) else NatToString(i)
  }

  /** Inverse of IntToString. */
  function ParseInt(s: string): Option<int> {
    if |s| > 1 && s[0] == '-' && AllDigits(s[1..]) then Some(-(ParseNat(s[1..]) as int))
    else if AllDigits(s) then Some(ParseNat(s))
    else None
  }

  lemma {:induction false} ParseNatOfNatToString(n: nat)
    ensures ParseNat(NatToString(n)) == n
  {
    if n >= 10 {
      var s := NatToString(n);
      assert s[..|s| - 1] == NatToString(n / 10);
      ParseNatOfNatToString(n / 10);
    }
  }

  /** ParseInt undoes IntToString on every integer. */
  lemma IntToStringRoundTrip(i: int)
    ensures ParseInt(IntToString(i)) == Some(i)
  {
    if i < 0 {
      assert IntToString(i)[1..] == NatToString(-i);
      ParseNatOfNatToString(-i);
    } else {
      ParseNatOfNatToString(i);
    }
  }

  /** The two-digit cents part of a non-negative amount. */
  function TwoDigits(n: nat): (r: string)
    requires n < 100
    ensures |r| == 2 && AllDigits(r)
  {
    [DigitChar(n / 10), DigitChar(n % 10)]
  }

  /** `whole.ff` for a non-negative number of cents. */
  function CentsText(m: nat): (r: string)
    ensures |r| >= 4 && r[|r| - 3] == '.' && IsDigit(r[0]) && IsDigit(r[|r| - 1])
  {
    NatToString(m / 100) + "." + TwoDigits(m % 100)
  }

  /** Python's `f"{amount:.2f}"` for an amount held as integer cents. */
  function FormatCents(c: int): (r: string)
    ensures |r| >= 4 && r[|r| - 3] == '.'
  {
    if c < 0 then "-" + CentsText(-c) else CentsText(c)
  }

  /** `s.find(c)`: index of the first `c` in `s`, or |s| when there is none. */
  function CharIndex(s: string, c: char): (k: nat)
    ensures k <= |s|
    ensures forall i :: 0 <= i < k ==> s[i] != c
    ensures k < |s| ==> s[k] == c
  {
    if s == [] then 0 else if s[0] == c then 0 else 1 + CharIndex(s[1..], c)
  }

  /** `s.split(c)`: the pieces between the occurrences of `c`; always at least one. */
  function SplitOn(s: string, c: char): (r: seq<string>)
    ensures |r| >= 1
    ensures forall k :: 0 <= k < |r| ==> c !in r[k]
    decreases |s|
  {
    var k := CharIndex(s, c);
    if k == |s| then [s] else [s[..k]] + SplitOn(s[k + 1..], c)
  }

  /** `c.join(parts)`. */
  function JoinOn(parts: seq<string>, c: char): string
    requires |parts| >= 1
  {
    if |parts| == 1 then parts[0] else parts[0] + [c] + JoinOn(parts[1..], c)
  }

  /** Joining the pieces of a split gives back the text. */
  lemma {:induction false} SplitOnJoin(s: string, c: char)
    ensures JoinOn(SplitOn(s, c), c) == s
    decreases |s|
  {
    var k := CharIndex(s, c);
    if k < |s| {
      var rest := SplitOn(s[k + 1..], c);
      assert SplitOn(s, c) == [s[..k]] + rest;
      assert ([s[..k]] + rest)[1..] == rest;
      SplitOnJoin(s[k + 1..], c);
      assert s == s[..k] + [c] + s[k + 1..];
    }
  }

  /** Splitting a join of pieces free of the separator gives back the pieces. */
  lemma {:induction false} JoinOnSplit(parts: seq<string>, c: char)
    requires |parts| >= 1
    requires forall k :: 0 <= k < |parts| ==> c !in parts[k]
    ensures SplitOn(JoinOn(parts, c), c) == parts
  {
    if |parts| == 1 {
      CharIndexAbsent(parts[0], c);
    } else {
      var s := JoinOn(parts, c);
      CharIndexAt(s, c, |parts[0]|);
      assert s[..|parts[0]|] == parts[0];
      assert s[|parts[0]| + 1..] == JoinOn(parts[1..], c);
      JoinOnSplit(parts[1..], c);
    }
  }

  lemma {:induction false} CharIndexAbsent(s: string, c: char)
    requires c !in s
    ensures CharIndex(s, c) == |s|
  {
    if s != [] {
      CharIndexAbsent(s[1..], c);
    }
  }

  /** `s.replace(c, "")`. */
  function Remove(s: string, c: char): (r: string)
    ensures |r| <= |s|
  {
    if s == [] then [] else (if s[0] == c then [] else [s[0]]) + Remove(s[1..], c)
  }

  /** Removing a character the text does not hold changes nothing. */
  lemma {:induction false} RemoveAbsent(s: string, c: char)
    requires c !in s
    ensures Remove(s, c) == s
  {
    if s != [] {
      RemoveAbsent(s[1..], c);
    }
  }

  lemma {:induction false} RemoveAppend(a: string, b: string, c: char)
    ensures Remove(a + b, c) == Remove(a, c) + Remove(b, c)
  {
    if a == [] {
      assert a + b == b;
    } else {
      assert (a + b)[0] == a[0] && (a + b)[1..] == a[1..] + b;
      RemoveAppend(a[1..], b, c);
    }
  }

  predicate DigitsOrEmpty(s: string) { forall i :: 0 <= i < |s| ==> IsDigit(s[i]) }

  /** Cents value of an unsigned decimal `digits[.digits]` with at least one digit. */
  function ParseUnsignedCents(s: string): Option<nat> {
    var k := CharIndex(s, '.');
    var whole := s[..k];
    var frac := if k < |s| then s[k + 1..] else "";
    if DigitsOrEmpty(whole) && DigitsOrEmpty(frac) && |whole| + |frac| > 0 then
      var f := frac + "00";
      Some(100 * ParseNat(whole) + 10 * DigitValue(f[0]) + DigitValue(f[1]))
    else None
  }

  /**
   * `float(s)` followed by conversion to cents, for plain decimal literals
   * with an optional sign; whitespace around the literal is ignored.
   * Digits past the second decimal are dropped, and the exponent,
   * underscore, `inf` and `nan` forms of `float` are not read.
   */
  function ParseCents(s: string): Option<int> {
    var t := Strip(s);
    if |t| > 0 && (t[0] == '-' || t[0] == '+') then
      match ParseUnsignedCents(t[1..])
      case Some(v) => Some(if t[0] == '-' then -(v as int) else v as int)
      case None => None
    else
      match ParseUnsignedCents(t)
      case Some(v) => Some(v)
      case None => None
  }

  lemma StripNoSpaceEnds(s: string)
    requires |s| > 0 && !IsSpace(s[0]) && !IsSpace(s[|s| - 1])
    ensures Strip(s) == s
  {
  }

  /** An unsigned `whole.ff` literal parses to 100 * whole + ff cents. */
  lemma ParseUnsignedCentsOf(w: string, t: string)
    requires AllDigits(w) && |t| == 2 && AllDigits(t)
    ensures ParseUnsignedCents(w + "." + t) == Some(100 * ParseNat(w) + 10 * DigitValue(t[0]) + DigitValue(t[1]))
  {
    var u := w + "." + t;
    CharIndexAt(u, '.', |w|);
    assert u[..|w|] == w;
    assert u[|w| + 1..] == t;
    assert (t + "00")[0] == t[0] && (t + "00")[1] == t[1];
  }

  /** A negative literal with no surrounding whitespace parses to minus its unsigned part. */
  lemma ParseCentsNegative(u: string, m: nat)
    requires ParseUnsignedCents(u) == Some(m)
    requires |u| > 0 && IsDigit(u[0]) && IsDigit(u[|u| - 1])
    ensures ParseCents("-" + u) == Some(-(m as int))
  {
    var r := "-" + u;
    assert r[|r| - 1] == u[|u| - 1];
    StripNoSpaceEnds(r);
    assert r[1..] == u;
  }

  /** An unsigned literal with no surrounding whitespace parses to its value. */
  lemma ParseCentsNonNegative(u: string, m: nat)
    requires ParseUnsignedCents(u) == Some(m)
    requires |u| > 0 && IsDigit(u[0]) && IsDigit(u[|u| - 1])
    ensures ParseCents(u) == Some(m)
  {
    StripNoSpaceEnds(u);
  }

  lemma CentsDigits(m: nat)
    ensures 100 * (m / 100) + 10 * ((m % 100) / 10) + (m % 100) % 10 == m
  {
  }

  lemma ParseCentsText(m: nat)
    ensures ParseUnsignedCents(CentsText(m)) == Some(m)
  {
    var t := TwoDigits(m % 100);
    ParseUnsignedCentsOf(NatToString(m / 100), t);
    ParseNatOfNatToString(m / 100);
    CentsDigits(m);
  }

  /** Distinct amounts are written differently. */
  lemma FormatCentsInjective(a: int, b: int)
    requires FormatCents(a) == FormatCents(b)
    ensures a == b
  {
    FormatCentsRoundTrip(a);
    FormatCentsRoundTrip(b);
  }

  /** Parsing a formatted amount gives back the same number of cents. */
  lemma FormatCentsRoundTrip(c: int)
    ensures ParseCents(FormatCents(c)) == Some(c)
  {
    if c < 0 {
      ParseCentsText(-c);
      ParseCentsNegative(CentsText(-c), -c);
    } else {
      ParseCentsText(c);
      ParseCentsNonNegative(CentsText(c), c);
    }
  }

  lemma CharIndexAt(s: string, c: char, k: nat)
    requires k < |s| && s[k] == c
    requires forall i :: 0 <= i < k ==> s[i] != c
    ensures CharIndex(s, c) == k
  {
    if k > 0 {
      CharIndexAt(s[1..], c, k - 1);
    }
  }

  /** Lexicographic order on strings, as SQLite and Python compare text. */
  predicate StrLe(a: string, b: string) {
    a == [] || (b != [] && (a[0] < b[0] || (a[0] == b[0] && StrLe(a[1..], b[1..]))))
  }

  lemma {:induction false} StrLeTotal(a: string, b: string)
    ensures StrLe(a, b) || StrLe(b, a)
  {
    if a != [] && b != [] && a[0] == b[0] {
      StrLeTotal(a[1..], b[1..]);
    }
  }

  lemma {:induction false} StrLeTrans(a: string, b: string, c: string)
    requires StrLe(a, b) && StrLe(b, c)
    ensures StrLe(a, c)
  {
    if a != [] && b != [] && c != [] && a[0] == b[0] && b[0] == c[0] {
      StrLeTrans(a[1..], b[1..], c[1..]);
    }
  }

  lemma {:induction false} StrLeAntisym(a: string, b: string)
    requires StrLe(a, b) && StrLe(b, a)
    ensures a == b
  {
    if a != [] && b != [] {
      StrLeAntisym(a[1..], b[1..]);
      assert a == [a[0]] + a[1..] && b == [b[0]] + b[1..];
    }
  }

  lemma {:induction false} StrLeRefl(a: string)
    ensures StrLe(a, a)
  {
    if a != [] {
      StrLeRefl(a[1..]);
    }
  }
}

=== FILE: transfer_detect.dfy ===
/**
 * Transfer and interest detection: configured description patterns, the
 * bank's "Transfer : <account name>" payee convention, the transfer type
 * inferred from the two accounts' types, and the interest FITID suffix.
 */
module TransferDetect {
  import opened Wrappers
  import opened Text
  import opened Dicts
  import opened Seqs
  import opened Config

  datatype TransferMatch = TransferMatch(
    fromAccount: string,
    toAccount: string,
    transferType: string,
    pattern: string)

  /** Whether a configured transfer rule fires for a description seen on an account. */
  predicate RuleApplies(rule: TransferRule, description: string, accountId: string) {
    !rule.hasFitidSuffix &&
    rule.pattern != "" &&
    Contains(Upper(description), Upper(rule.pattern)) &&
    rule.fromAccount != "" && rule.toAccount != "" &&
    (accountId == rule.fromAccount || accountId == rule.toAccount)
  }

  /** The rule's type: "transfer" when it has none, "internal-transfer" when it is empty. */
  function RuleType(rule: TransferRule): (r: string)
    ensures r != ""
    ensures rule.ruleType == None ==> r == "transfer"
    ensures rule.ruleType == Some("") ==> r == "internal-transfer"
  {
    match rule.ruleType
    case None => "transfer"
    case Some(t) => if t == "" then "internal-transfer" else t
  }

  /** `detect_transfer`: the match built from the first rule that fires. */
  function DetectTransfer(description: string, accountId: string, rules: seq<TransferRule>): (r: Option<TransferMatch>)
    ensures r.None? <==> forall i :: 0 <= i < |rules| ==> !RuleApplies(rules[i], description, accountId)
    ensures r.Some? ==>
      exists i :: 0 <= i < |rules| && RuleApplies(rules[i], description, accountId) &&
        (forall j :: 0 <= j < i ==> !RuleApplies(rules[j], description, accountId)) &&
        r.value == TransferMatch(rules[i].fromAccount, rules[i].toAccount, RuleType(rules[i]), rules[i].pattern)
    ensures r.Some? ==> accountId in {r.value.fromAccount, r.value.toAccount} && r.value.transferType != ""
  {
    match FirstIndex(rules, rule => RuleApplies(rule, description, accountId))
    case None => None
    case Some(i) =>
      var rule := rules[i];
      Some(TransferMatch(rule.fromAccount, rule.toAccount, RuleType(rule), rule.pattern))
  }

  /** A rule with a FITID suffix, an empty pattern or an empty account side never produces a match. */
  lemma DetectTransferSkips(description: string, accountId: string, rules: seq<TransferRule>, k: nat)
    requires k < |rules|
    requires rules[k].hasFitidSuffix || rules[k].pattern == "" || rules[k].fromAccount == "" || rules[k].toAccount == ""
    requires forall j :: 0 <= j < |rules| && j != k ==> !RuleApplies(rules[j], description, accountId)
    ensures DetectTransfer(description, accountId, rules).None?
  {
  }

  // ---------------------------------------------------------------------
  // `^Transfer\s*:\s*(.+)` (case-insensitive), as used by detect_transfer_by_txn_type

  /** The part of `s` before its first line feed (what `.` can match). */
  function FirstLine(s: string): (r: string)
    ensures |r| <= |s| && r == s[..|r|]
    ensures forall i :: 0 <= i < |r| ==> r[i] != '\n'
    ensures |r| == |s| || s[|r|] == '\n'
  {
    if s == [] || s[0] == '\n' then [] else [s[0]] + FirstLine(s[1..])
  }

  predicate HasNonNewline(s: string) {
    exists i :: 0 <= i < |s| && s[i] != '\n'
  }

  /**
   * The stripped target name captured after "Transfer :". After the colon
   * the regex consumes the run of whitespace, then captures to the end of
   * the line. When only whitespace follows, backtracking still lets `.+`
   * capture one whitespace character unless everything left is a line
   * feed, so the name is then "".
   */
  function TransferTarget(description: string): (r: Option<string>)
    ensures r.Some? ==> |description| >= 8 && Upper(description[..8]) == "TRANSFER"
    ensures r.Some? ==> r.value == [] || (!IsSpace(r.value[0]) && !IsSpace(r.value[|r.value| - 1]))
    ensures r.Some? ==> forall i :: 0 <= i < |r.value| ==> r.value[i] != '\n'
  {
    if |description| < 8 || Upper(description[..8]) != "TRANSFER" then None
    else
      var t := description[8..];
      var a := Lead(t);
      if a == |t| || t[a] != ':' then None
      else
        var rest := t[a + 1..];
        var w := Lead(rest);
        if w < |rest| then
          var line := FirstLine(rest[w..]);
          StripInside(line);
          Some(Strip(line))
        else if HasNonNewline(rest) then Some("")
        else None
  }

  lemma StripInside(s: string)
    ensures forall c :: c in Strip(s) ==> c in s
  {
    var a := Lead(s);
    if a < |s| {
      var r := s[a..|s| - Trail(s)];
      assert forall i :: 0 <= i < |r| ==> r[i] == s[a + i];
    }
  }

  lemma UpperTransfer(d: string)
    requires |d| >= 8 && d[..8] == "Transfer"
    ensures Upper(d[..8]) == "TRANSFER"
  {
    var u := Upper(d[..8]);
    assert u[0] == 'T' && u[1] == 'R' && u[2] == 'A' && u[3] == 'N';
    assert u[4] == 'S' && u[5] == 'F' && u[6] == 'E' && u[7] == 'R';
  }

  lemma LeadOne(s: string)
    requires |s| >= 2 && s[0] == ' ' && !IsSpace(s[1])
    ensures Lead(s) == 1
  {
    assert Lead(s[1..]) == 0;
  }

  /** The source's example: "Transfer : Savings" names "Savings". */
  lemma TransferTargetExample()
    ensures TransferTarget("Transfer : Savings") == Some("Savings")
  {
    var d := "Transfer : Savings";
    UpperTransfer(d);
    var t := d[8..];
    assert t == " : Savings";
    LeadOne(t);
    var rest := t[2..];
    assert rest == " Savings";
    LeadOne(rest);
    var w := rest[1..];
    assert w == "Savings";
    assert FirstLine(w) == w;
    assert Lead(w) == 0 && Trail(w) == 0;
  }

  /** Without the colon there is no target. */
  lemma TransferTargetNeedsColon()
    ensures TransferTarget("Transfer Savings").None?
  {
    var d := "Transfer Savings";
    UpperTransfer(d);
    var t := d[8..];
    assert t == " Savings";
    LeadOne(t);
  }

  /** The first name-map entry whose name contains the target or is contained in it. */
  function SubstringMatch(nameMap: Dict<string, string>, target: string): (r: Option<string>)
    ensures r.Some? ==>
      exists i :: 0 <= i < |nameMap| && r.value == nameMap[i].1 &&
        (Contains(target, nameMap[i].0) || Contains(nameMap[i].0, target)) &&
        forall j :: 0 <= j < i ==> !(Contains(target, nameMap[j].0) || Contains(nameMap[j].0, target))
    ensures r.None? ==> forall j :: 0 <= j < |nameMap| ==> !(Contains(target, nameMap[j].0) || Contains(nameMap[j].0, target))
  {
    match FirstIndex(nameMap, (p: (string, string)) => Contains(target, p.0) || Contains(p.0, target))
    case None => None
    case Some(i) => Some(nameMap[i].1)
  }

  /** Resolve a target name: exact upper-case key first, then the substring scan. */
  function ResolveTarget(nameMap: Dict<string, string>, target: string): (r: Option<string>)
    ensures Get(nameMap, Upper(target)).Some? ==> r == Get(nameMap, Upper(target))
    ensures Get(nameMap, Upper(target)).None? ==> r == SubstringMatch(nameMap, Upper(target))
  {
    match Get(nameMap, Upper(target))
    case Some(id) => Some(id)
    case None => SubstringMatch(nameMap, Upper(target))
  }

  /** `_infer_transfer_type`: credit beats savings beats loan; otherwise an internal transfer. */
  function InferTransferType(c: Config, accountId: string, otherAccountId: string): (r: string)
    ensures var types := {AccountType(c, accountId), AccountType(c, otherAccountId)};
      (r == "cc-payment" <==> "credit" in types) &&
      (r == "savings-transfer" <==> "credit" !in types && "savings" in types) &&
      (r == "loan-payment" <==> "credit" !in types && "savings" !in types && "loan" in types) &&
      (r == "internal-transfer" <==> "credit" !in types && "savings" !in types && "loan" !in types)
  {
    var a := AccountType(c, accountId);
    var b := AccountType(c, otherAccountId);
    if a == "credit" || b == "credit" then "cc-payment"
    else if a == "savings" || b == "savings" then "savings-transfer"
    else if a == "loan" || b == "loan" then "loan-payment"
    else "internal-transfer"
  }

  /** The lower-cased `account_type` of an account, "" when unknown. */
  function AccountType(c: Config, accountId: string): string {
    match AccountById(c.accounts, accountId)
    case None => ""
    case Some(a) => Lower(a.accountType)
  }

  /** `detect_transfer_by_txn_type`. */
  function DetectTransferByTxnType(txnType: Option<string>, description: string, amount: int,
                                   accountId: string, c: Config): (r: Option<TransferMatch>)
    ensures r.Some? ==> TransferTarget(description).Some?
    ensures r.Some? ==> !HasText(txnType) || Upper(txnType.value) == "TRANSFER"
    ensures r.Some? ==> var target := ResolveTarget(TransferNameMap(c), TransferTarget(description).value);
      target.Some? && target.value != accountId &&
      (amount < 0 ==> r.value.fromAccount == accountId && r.value.toAccount == target.value) &&
      (amount >= 0 ==> r.value.fromAccount == target.value && r.value.toAccount == accountId) &&
      r.value.transferType == InferTransferType(c, accountId, target.value) &&
      r.value.pattern == "txn_type:Transfer : " + TransferTarget(description).value
    ensures (TransferTarget(description).Some? && (!HasText(txnType) || Upper(txnType.value) == "TRANSFER") &&
             ResolveTarget(TransferNameMap(c), TransferTarget(description).value).Some? &&
             ResolveTarget(TransferNameMap(c), TransferTarget(description).value).value != accountId)
            ==> r.Some?
  {
    match TransferTarget(description)
    case None => None
    case Some(name) =>
      if HasText(txnType) && Upper(txnType.value) != "TRANSFER" then None
      else
        match ResolveTarget(TransferNameMap(c), name)
        case None => None
        case Some(target) =>
          if target == accountId then None
          else
            var (from, to) := if amount < 0 then (accountId, target) else (target, accountId);
            Some(TransferMatch(from, to, InferTransferType(c, accountId, target), "txn_type:Transfer : " + name))
  }

  /** The inferred transfer links the transaction's own account with a different, configured account. */
  lemma TxnTypeTransferAccounts(txnType: Option<string>, description: string, amount: int,
                                accountId: string, c: Config)
    requires DetectTransferByTxnType(txnType, description, amount, accountId, c).Some?
    ensures var m := DetectTransferByTxnType(txnType, description, amount, accountId, c).value;
      m.fromAccount != m.toAccount && accountId in {m.fromAccount, m.toAccount} &&
      exists a :: a in c.accounts && (a.id == Some(m.fromAccount) || a.id == Some(m.toAccount)) && a.id != Some(accountId)
  {
    var name := TransferTarget(description).value;
    var nameMap := TransferNameMap(c);
    var target := ResolveTarget(nameMap, name).value;
    if Get(nameMap, Upper(name)).Some? {
      TransferNameMapSound(c, Upper(name));
    } else {
      var i :| 0 <= i < |nameMap| && target == nameMap[i].1 &&
        (Contains(Upper(name), nameMap[i].0) || Contains(nameMap[i].0, Upper(name)));
      FromPairsKeys(NamePairs(c.accounts));
      assert Get(nameMap, nameMap[i].0) == Some(nameMap[i].1) by {
        UniqueGet(nameMap, i);
      }
      TransferNameMapSound(c, nameMap[i].0);
    }
  }

  /** In a dict without repeated keys, each pair is what `get` returns for its key. */
  lemma {:induction false} UniqueGet<K, V>(d: Dict<K, V>, i: nat)
    requires UniqueKeys(d) && i < |d|
    ensures Get(d, d[i].0) == Some(d[i].1)
  {
    if i > 0 {
      assert UniqueKeys(d[1..]);
      UniqueGet(d[1..], i - 1);
    }
  }

  /** `detect_interest`: the configured category (default "interest-fees") when the FITID ends with the suffix. */
  function DetectInterest(externalId: Option<string>, accountId: string, c: Config): (r: Option<string>)
    ensures r.Some? <==>
      HasText(externalId) && InterestDetectionFor(c, accountId).Some? &&
      InterestDetectionFor(c, accountId).value.fitidSuffix != "" &&
      EndsWith(Upper(externalId.value), Upper(InterestDetectionFor(c, accountId).value.fitidSuffix))
    ensures r.Some? ==> r.value == InterestDetectionFor(c, accountId).value.categoryId.GetOr("interest-fees")
  {
    if !HasText(externalId) then None
    else
      match InterestDetectionFor(c, accountId)
      case None => None
      case Some(d) =>
        if d.fitidSuffix != "" && EndsWith(Upper(externalId.value), Upper(d.fitidSuffix))
        then Some(d.categoryId.GetOr("interest-fees"))
        else None
  }
}

=== FILE: wrappers.dfy ===
/** Optional values (where the source returns None) and results (where it raises). */
module Wrappers {
  datatype Option<T> = None | Some(value: T)
  {
    /** The value, or `default` when absent (Python's `x or default` on optional values). */
    function GetOr(default: T): T {
      if Some? then value else default
    }
  }

  datatype Result<T, E> = Success(value: T) | Failure(error: E)
}
